=== FILE: README.md ===
# Game Boy Color emulator core in Dafny

This project models the core of a Game Boy / Game Boy Color emulator and proves
properties of that model. The emulator exists in two revisions. The current
library is under `GameBoy/src` and the earlier one under `src`. A small Python/Qt
front end sits in `GUI/qt`. Each hardware component is a Dafny module holding an
immutable state record and pure transition functions:

- the SM83 CPU: register file and flag byte (`CpuRegisters`), arithmetic and
  logic (`CpuAlu`), and fetch / dispatch / interrupt entry (`CpuCore`);
- the interrupt controller (`Interrupts`), IO registers (`IoRegisters`), joypad
  matrix (`Joypad`), timer (`Timer`), serial port (`Serial`) and CGB speed
  switch (`SpeedSwitch`);
- OAM DMA (`OamDma`), CGB VRAM DMA / HDMA (`VramDma`) and the memory map
  (`MemoryBus`);
- the PPU: VRAM, OAM and palette memory (`PpuMemory`), mode and LY sequencing
  (`Ppu`), OAM scan (`OamScan`) and pixel FIFO merging (`PixelFifo`);
- the cartridge header (`CartridgeHeader`), cartridge construction
  (`Cartridge`) and the memory bank controllers (`Mbc0`, `Mbc1`, `Mbc3`, `Mbc5`),
  plus the earlier revision's MBC1 (`Mbc1Flat`);
- the APU frame sequencer (`Apu`) and the four sound channels (`Channel1` to
  `Channel4`), with their shared envelope (`Envelope`) and length timer
  (`LengthTimer`);
- the front end's settings logic: config sections (`ConfigSection`), key
  bindings (`Bindings`), colour schemes (`ColorSchemes`), recent ROMs
  (`RecentRoms`), the check the configuration parser's default interpolation
  makes on stored values (`ConfigInterpolation`), gamepad mapping (`Gamepad`)
  and the main window's ROM and save-state handling (`MainWindow`).

Bytes are `bv8` and words `bv16` (module `Bits`). Where the C++ relies on 8-bit
or 16-bit wrap-around, the model writes the wrap-around out. File contents
(ROMs, boot ROMs, save files), the wall clock behind the MBC3 real-time clock,
and the host's key and gamepad events are parameters of the functions that use
them.

Where the source does something its own design evidently does not intend, the
affected functions take a `Variants.Variant`. `AsWritten` follows the code line
for line and `Corrected` follows the intent. A lemma exhibits the discrepancy on
a concrete input, and the intended property is proved of the corrected
definition (see "## Findings").

## Model

| member | source | states |
|---|---|---|
| CpuRegisters.FlagMask | GameBoy/src/include/CPU_Registers.hpp:6-9 | each flag mask (Z 0x80, N 0x40, H 0x20, C 0x10) lies in the high nibble of F and shares no bit with another flag's mask |
| CpuRegisters.SetFlag | GameBoy/src/include/CPU_Registers.hpp:59-110 | after setting a flag to v its getter returns v; the other three flags, the low nibble of F and every other register are unchanged |
| CpuRegisters.ApplyOne | GameBoy/src/include/CPU_Registers.hpp:64-110 | one flag write through its setter: a written flag reads back its value, a kept flag leaves the registers equal, other flags are unchanged |
| CpuRegisters.ApplyFlags | GameBoy/src/include/CPU_Registers.hpp:64-110 | applying an instruction's four flag writes: each written flag reads back its value, each kept flag is unchanged, F's low nibble and the other registers are untouched |
| CpuRegisters.AF | GameBoy/src/include/CPU_Registers.hpp:14-18 | the AF pair's high byte is A and its low byte is F |
| CpuRegisters.BC | GameBoy/src/include/CPU_Registers.hpp:14-18 | the BC pair's high byte is B and its low byte is C |
| CpuRegisters.DE | GameBoy/src/include/CPU_Registers.hpp:14-18 | the DE pair's high byte is D and its low byte is E |
| CpuRegisters.HL | GameBoy/src/include/CPU_Registers.hpp:14-18 | the HL pair's high byte is H and its low byte is L |
| CpuRegisters.SetAF | GameBoy/src/include/CPU_Registers.hpp:112-130 | writing AF makes AF read back the written word and changes no register but A and F |
| CpuRegisters.SetBC | GameBoy/src/include/CPU_Registers.hpp:112-130 | writing BC makes BC read back the written word and changes no register but B and C |
| CpuRegisters.SetDE | GameBoy/src/include/CPU_Registers.hpp:112-130 | writing DE makes DE read back the written word and changes no register but D and E |
| CpuRegisters.SetHL | GameBoy/src/include/CPU_Registers.hpp:112-130 | writing HL makes HL read back the written word and changes no register but H and L |
| CpuRegisters.ResetValues | GameBoy/src/include/CPU_Registers.hpp:23-35 | after Reset AF = 0x1180, BC = 0, DE = 0xFF56, HL = 0x000D, SP = 0xFFFE, PC = 0x0100, and only the Z flag is set |
| CpuRegisters.Reset | GameBoy/src/include/CPU_Registers.hpp:23-35 | the power-on registers read through the pair views as AF = 0x1180, BC = 0, DE = 0xFF56, HL = 0x000D, with SP = 0xFFFE, PC = 0x0100 and only the Z flag set |
| CpuRegisters.PairRoundTrip | GameBoy/src/include/CPU_Registers.hpp:112-130 | writing any pair's own value back leaves the whole register file unchanged |
| CpuAlu.CarryIn | GameBoy/src/CPU_Instructions.cpp:236-239 | the carry fed into ADC/SBC is 1 exactly when the instruction uses the carry and C is set |
| CpuAlu.Add | GameBoy/src/CPU_Instructions.cpp:232-252 | ADD/ADC/INC: the result is the 8-bit sum; Z iff it is 0, N cleared, H the carry out of the low nibble, C the carry out of bit 7, and INC leaves C untouched |
| CpuAlu.AddResult | GameBoy/src/CPU_Instructions.cpp:232-252 | the 16-bit sum's low byte is the wrapped 8-bit sum and bit 8 is set exactly when the sum exceeds 0xFF |
| CpuAlu.AddHalfCarry | GameBoy/src/CPU_Instructions.cpp:243 | the XOR trick on bit 4 is exactly "the low nibbles plus carry exceed 0xF" |
| CpuAlu.Sub | GameBoy/src/CPU_Instructions.cpp:260-286 | SUB/SBC/CP/DEC: the result is the 8-bit difference (CP keeps A); Z iff the difference is 0, N set, H the nibble borrow, C the full borrow, and DEC leaves C untouched |
| CpuAlu.SubResult | GameBoy/src/CPU_Instructions.cpp:260-286 | the 16-bit difference's low byte is the wrapped 8-bit difference and its high byte is non-zero exactly when the operand plus carry exceeds A |
| CpuAlu.SubHalfBorrow | GameBoy/src/CPU_Instructions.cpp:263-274 | the wrapped nibble difference has a high bit set exactly when the low nibble of A is smaller than the operand's nibble plus carry |
| CpuAlu.SubUndoesAdd | GameBoy/src/CPU_Instructions.cpp:232-286 | SUB with the same operand and carry undoes ADD, and CP never changes A |
| CpuAlu.And | GameBoy/src/CPU_Instructions.cpp:294-302 | AND: each result bit is set iff it is set in both operands; Z iff 0, H set, N and C cleared |
| CpuAlu.Or | GameBoy/src/CPU_Instructions.cpp:310-318 | OR: each result bit is set iff it is set in either operand; Z iff 0, N, H and C cleared |
| CpuAlu.Xor | GameBoy/src/CPU_Instructions.cpp:326-334 | XOR: XORing the result with the operand gives A back, and the result is 0 exactly when A equals the operand; N, H and C cleared |
| CpuAlu.Swap | GameBoy/src/CPU_Instructions.cpp:407-415 | SWAP: the result's low nibble is the operand's high nibble and vice versa; Z iff 0, N, H and C cleared |
| CpuAlu.SwapInvolution | GameBoy/src/CPU_Instructions.cpp:407-415 | SWAP twice is the identity, and SWAP yields 0 only for 0 |
| CpuAlu.Daa | GameBoy/src/CPU_Instructions.cpp:431-463 | DAA: H cleared, N kept, Z iff the adjusted value is 0; C is set by the +0x60 adjustment after an addition and otherwise keeps its value |
| CpuAlu.DaaAfterAdd | GameBoy/src/CPU_Instructions.cpp:232-252 | ADD/ADC of two BCD bytes followed by DAA gives their decimal sum and decimal carry, as computed digit by digit |
| CpuAlu.DaaAfterSub | GameBoy/src/CPU_Instructions.cpp:260-286 | SUB/SBC of two BCD bytes followed by DAA gives their decimal difference and decimal borrow, as computed digit by digit |
| CpuAlu.BcdSubBorrow | GameBoy/src/CPU_Instructions.cpp:276-279 | for BCD operands the digit-by-digit borrow equals the binary borrow SUB puts in C |
| CpuAlu.Rlc | GameBoy/src/CPU_Instructions.cpp:535-554 | RLC: bits 0-6 move to bits 1-7 and bit 7 goes to both bit 0 and C; Z only for the CB-prefixed form |
| CpuAlu.Rl | GameBoy/src/CPU_Instructions.cpp:556-575 | RL: bits 0-6 move up, the old carry enters bit 0 and bit 7 goes to C |
| CpuAlu.Rrc | GameBoy/src/CPU_Instructions.cpp:577-596 | RRC: bits 1-7 move down and bit 0 goes to both bit 7 and C |
| CpuAlu.Rr | GameBoy/src/CPU_Instructions.cpp:598-617 | RR: bits 1-7 move down, the old carry enters bit 7 and bit 0 goes to C |
| CpuAlu.RotateRoundTrips | GameBoy/src/CPU_Instructions.cpp:535-617 | RRC undoes RLC and RLC undoes RRC; RR fed the carry RL produced restores both the value and the original carry |
| CpuAlu.Sla | GameBoy/src/CPU_Instructions.cpp:675-683 | SLA: bits move up, bit 0 becomes 0, bit 7 goes to C, Z iff the result is 0 |
| CpuAlu.Sra | GameBoy/src/CPU_Instructions.cpp:685-695 | SRA: bits move down, bit 7 is kept, bit 0 goes to C |
| CpuAlu.Srl | GameBoy/src/CPU_Instructions.cpp:697-705 | SRL: bits move down, bit 7 becomes 0, bit 0 goes to C |
| CpuAlu.ShiftRoundTrips | GameBoy/src/CPU_Instructions.cpp:675-705 | SRL after SLA recovers the low seven bits, SLA after SRL the high seven |
| CpuAlu.BitTest | GameBoy/src/CPU_Instructions.cpp:749-756 | BIT n: Z set iff bit n is 0, N cleared, H set, C untouched |
| CpuAlu.SetBit | GameBoy/src/CPU_Instructions.cpp:764-769 | SET n: bit n becomes 1 and every other bit is unchanged |
| CpuAlu.ResBit | GameBoy/src/CPU_Instructions.cpp:785-790 | RES n: bit n becomes 0 and every other bit is unchanged |
| CpuAlu.BitAfterSetRes | GameBoy/src/CPU_Instructions.cpp:749-790 | BIT reads back what SET and RES wrote, and SET and RES undo each other on a bit that had the other value |
| CpuAlu.AddToHL | GameBoy/src/CPU_Instructions.cpp:368-376 | ADD HL,rr: HL becomes the 16-bit sum, Z untouched, N cleared, H the carry out of bit 11, C the carry out of bit 15 |
| CpuAlu.WordHalfCarry | GameBoy/src/CPU_Instructions.cpp:372 | the XOR trick on bit 12 is exactly "the low 12 bits overflow" |
| CpuCore.Store | GameBoy/src/CPU.cpp:148-152 | a bus write makes the written address read back the value and leaves every other address as it was |
| CpuCore.Dec8 | GameBoy/src/CPU.cpp:57 | the 8-bit countdown decrement: one less for a positive count, 255 after 0, always below 256 |
| CpuCore.PowerOn | GameBoy/src/CPU.cpp:17-41 | power-on resets the registers, clears IME, both pending requests, the countdown, halt, halt bug and prefix, and leaves PC at 0x0100 only when the boot ROM is skipped; the state is serializable |
| CpuCore.ResetOld | src/CPU.cpp:94-118 | the older reset is the same state with the opposite flag sense: PC is 0 exactly when a boot ROM is used |
| CpuCore.ApplyCountdown | GameBoy/src/CPU.cpp:55-72 | the EI/DI countdown at an instruction boundary: with no request nothing changes; otherwise the count drops by one and on reaching 0 the pending request sets or clears IME and is withdrawn; the requests stay exclusive |
| CpuCore.Clock | GameBoy/src/CPU.cpp:43-107 | one machine cycle: an interrupt is acknowledged exactly at a boundary with a report and IME set after the countdown, which clears IME and installs the handler for the reported vector; any report at a boundary wakes a halted CPU; a halted CPU stalls without advancing; otherwise the cycle counter advances and the cycle decodes exactly when no handler runs and the CPU is prefixed or at the first cycle |
| CpuCore.AtBoundary | GameBoy/src/CPU.cpp:53-83 | the boundary bookkeeping: acknowledgement iff a report arrives with IME set after the countdown; it then takes one from the pending count; halt is left exactly when nothing is reported; registers are untouched |
| CpuCore.Advance | GameBoy/src/CPU.cpp:85-104 | after the boundary a halted CPU stalls unchanged, otherwise the cycle counter advances and decode happens exactly when no handler runs and the CPU is prefixed or at cycle 1 |
| CpuCore.ClockKeepsRegisters | GameBoy/src/CPU.cpp:43-107 | the bookkeeping part of a cycle never changes the registers |
| CpuCore.ClockOld | src/CPU.cpp:18-78 | the older Clock returns "interrupt acknowledged" and produces the same state as the current one |
| CpuCore.EI | GameBoy/src/CPU_Instructions.cpp:518-533 | EI: an enable request pending with countdown 2 and no disable request; a pending DI is cancelled and IME cleared; a repeated EI sets IME at once |
| CpuCore.DI | GameBoy/src/CPU_Instructions.cpp:501-516 | DI: a disable request pending with countdown 2 and no enable request; a pending EI takes effect at once; a repeated DI clears IME at once |
| CpuCore.ExecuteEI | GameBoy/src/CPU_Instructions.cpp:518-533 | EI ends the instruction with an EI pending, no DI pending and a countdown of 2; IME becomes set exactly when no DI was pending and an EI was pending or IME was already set; nothing else changes |
| CpuCore.Halt | GameBoy/src/CPU_Instructions.cpp:465-486 | HALT: the CPU halts exactly when IME is set or nothing is pending; with IME clear and an interrupt pending the halt bug is armed, unless an EI is pending, which then sets IME at once |
| CpuCore.RequestsStayExclusive | GameBoy/src/CPU_Instructions.cpp:465-533 | EI, DI and HALT never leave an enable and a disable request pending together |
| CpuCore.EndInstruction | GameBoy/src/CPU.cpp:109-112 | ending an instruction makes the state serializable and changes nothing else |
| CpuCore.EiTakesEffectAfterNextInstruction | GameBoy/src/CPU.cpp:55-82 | after EI the instruction boundary that follows does not yet take an interrupt, and the one after it does |
| CpuCore.HaltedStalls | GameBoy/src/CPU.cpp:85-88 | a halted CPU with nothing reported stalls and does not advance its cycle |
| CpuCore.Push | GameBoy/src/CPU.cpp:148-152 | Push decrements SP first and writes the byte at the new SP; no other address changes |
| CpuCore.Pop | GameBoy/src/CPU.cpp:141-146 | Pop reads the byte at SP and then increments SP |
| CpuCore.PushThenPop | GameBoy/src/CPU.cpp:141-152 | popping right after a push gives back the byte and the CPU state before the push |
| CpuCore.PushWord | GameBoy/src/CPU_Instructions.cpp:195-209 | PUSH rr writes the high byte at SP-1 and the low byte at SP-2 and lowers SP by 2; nothing else in the CPU changes |
| CpuCore.PopWord | GameBoy/src/CPU_Instructions.cpp:211-230 | POP rr reads the low byte at SP and the high byte at SP+1 and raises SP by 2 |
| CpuCore.PushWordThenPopWord | GameBoy/src/CPU_Instructions.cpp:195-230 | POP right after PUSH gives back the word and the CPU state before the push |
| CpuCore.PopAF | GameBoy/src/CPU_Instructions.cpp:211-230 | POP AF loads A from SP+1 and F from SP with its low nibble forced to 0 |
| CpuCore.PushAFThenPopAF | GameBoy/src/CPU_Instructions.cpp:195-230 | PUSH AF then POP AF gives back A and the four flags |
| CpuCore.HandlerStep | GameBoy/src/CPU_Instructions.cpp:4-23 | the interrupt handler pushes the high byte of PC on cycle 3 and the low byte on cycle 4, and on cycle 5 jumps to the vector and ends; other cycles do nothing |
| CpuCore.Step | GameBoy/src/CPU.cpp:43-107 | a full cycle keeps the EI/DI requests exclusive, and a stalled cycle touches no memory |
| CpuCore.DispatchThenReturn | GameBoy/src/CPU.cpp:75-82 | from a boundary with IME set and an interrupt reported, five cycles leave PC at the vector with the old PC pushed below SP, IME clear, the next cycle a boundary, and a popped word (RETI) the old PC with SP restored |
| CpuCore.PopReturnsPushed | GameBoy/src/CPU_Instructions.cpp:211-230 | popping two bytes pushed high first gives back the word and restores SP |
| CpuCore.OperandIndex | GameBoy/src/CPU.cpp:176-200 | every CB operand has a three-bit code that decodes to it |
| CpuCore.ShiftKindIndex | GameBoy/src/CPU.cpp:176-383 | every CB shift or rotate kind has a three-bit code that decodes to it |
| CpuCore.BitCode | GameBoy/src/CPU.cpp:384-490 | every bit number 0-7 has a three-bit code that decodes to it |
| CpuCore.DecodeCb | GameBoy/src/CPU.cpp:174-491 | the CB decode: the operand is opcode & 7; 0x00-0x3F are shifts, rotates and SWAP, 0x40-0x7F BIT, 0x80-0xBF RES, 0xC0-0xFF SET; re-encoding the decoded operation gives the opcode back |
| CpuCore.IndexRoundTrips | GameBoy/src/CPU.cpp:174-491 | each three-bit field code turns back into itself through its decoder |
| CpuCore.DecodeEncodeCb | GameBoy/src/CPU.cpp:174-491 | decoding the encoding of any valid CB operation gives the operation back |
| CpuCore.WriteOperand | GameBoy/src/CPU.cpp:176-200 | writing a CB operand makes it read back the value; other registers, F, SP and PC are unchanged, and memory changes only for the operand at HL |
| CpuCore.ExecuteCb | GameBoy/src/CPU_Instructions.cpp:407-790 | a CB instruction: BIT changes only F and sets Z iff the bit is 0; SET and RES change only their operand, to the value with that bit set or cleared; shifts write the shifted operand |
| CpuCore.Fetch | GameBoy/src/CPU.cpp:154-172 | the opcode fetch reads the byte at PC; PC advances unless the halt bug is armed, which is then disarmed; 0xCB outside a prefix only sets the prefix flag |
| CpuCore.HaltBugRepeatsFetch | GameBoy/src/CPU.cpp:156-165 | with the halt bug armed the byte after HALT is fetched twice |
| Interrupts.SourceOf | GameBoy/src/include/GameBoy.hpp:99-110 | the five interrupt sources are numbered 0-4 in priority order, and numbering is a bijection |
| Interrupts.SourceMask | GameBoy/src/include/GameBoy.hpp:99-110 | a source's IF/IE mask is the single bit of its number (VBlank 0x01 … Joypad 0x10) |
| Interrupts.Vector | GameBoy/src/GameBoy.cpp:351-380 | a source's handler address is 0x40 + 8 × its number (0x40, 0x48, 0x50, 0x58, 0x60) |
| Interrupts.MasksDistinct | GameBoy/src/include/GameBoy.hpp:99-110 | two source masks overlap exactly when they are the same source, and every mask lies within 0x1F |
| Interrupts.Pending | GameBoy/src/GameBoy.cpp:344 | the pending set IF & IE & 0x1F has bits 5-7 clear and bit i set iff it is set in both IF and IE |
| Interrupts.ScanFrom | GameBoy/src/GameBoy.cpp:346-380 | the priority scan from source j finds the lowest-numbered pending source at or after j, or none when no bit from j on is set, and counts the pending bits it passes |
| Interrupts.CheckPending | GameBoy/src/GameBoy.cpp:340-386 | nothing is reported iff no enabled source is requested; otherwise the reported source is pending with no lower-numbered source pending, its vector is reported, and the count is the number of pending sources, at least 1 |
| Interrupts.Acknowledge | GameBoy/src/GameBoy.cpp:388-391 | acknowledging clears the chosen source's IF bit and leaves every other bit |
| Interrupts.AcknowledgeCountsDown | GameBoy/src/GameBoy.cpp:340-391 | after acknowledging the chosen source one fewer interrupt is pending |
| Interrupts.PopCountDropsOne | GameBoy/src/GameBoy.cpp:346-380 | clearing one set bit among the scanned bits lowers the pending count by one |
| Interrupts.CheckVBlank | GameBoy/src/GameBoy.cpp:393-399 | a new VBlank sets IF bit 0; no other bit changes and a set bit stays set |
| Interrupts.StatLineSources | GameBoy/src/GameBoy.cpp:401-436 | the STAT line is high iff LYC=LY is flagged and enabled (bits 2 and 6), or the current mode 0, 1 or 2 has its enable bit 3, 4 or 5 set; mode 3 alone never raises it |
| Interrupts.CheckStat | GameBoy/src/GameBoy.cpp:401-443 | with the LCD off nothing changes; with it on the line is remembered and IF bit 1 is raised exactly on a rising edge; no other IF bit changes |
| Interrupts.StatRaisedOnce | GameBoy/src/GameBoy.cpp:438-443 | a line that stays high requests STAT once: after acknowledging, the next check adds nothing |
| Interrupts.CheckPendingInterrupts | GameBoy/src/GameBoy.cpp:340-386 | the bus records VBlank, then STAT, then reports the highest-priority pending source; an enabled VBlank always wins, with vector 0x40 |
| IoRegisters.Read | GameBoy/src/GameBoy_Memory.cpp:120-174 | an I/O read: stored registers read the array, DIV comes from the APU, the PPU and APU ranges from those components, HDMA5 reads the remaining blocks minus one while an HDMA runs, and RP, HDMA1-4, the boot-ROM register and unnamed addresses read 0xFF |
| IoRegisters.WriteEffect | GameBoy/src/GameBoy_Memory.cpp:176-253 | a write is handed to the PPU exactly for the PPU's registers and to the APU exactly for NR10 to the end of wave RAM |
| IoRegisters.Unmap | GameBoy/src/GameBoy_Memory.cpp:226-232 | unmapping the boot ROM works once: CGB mode then follows the cartridge; afterwards a write changes nothing |
| IoRegisters.Write | GameBoy/src/GameBoy_Memory.cpp:176-253 | an I/O write changes only the written register's byte; registers owned by other components or by their own handlers are not stored by the bus; only the boot-ROM register changes the boot and CGB flags |
| IoRegisters.WriteThenRead | GameBoy/src/GameBoy_Memory.cpp:120-253 | what each stored register reads back after a write: SB, TIMA, TMA, SVBK and FF72-74 the data, IF the data with bits 5-7 set, KEY1 the old bit 7 with the data's bit 0 and bits 1-6 set, FF75 the data with bits 0-3 and 7 set |
| IoRegisters.UnmapIsPermanent | GameBoy/src/GameBoy_Memory.cpp:226-232 | once the boot ROM is unmapped no write maps it back or changes CGB mode |
| IoRegisters.WriteOld | src/GameBoy_Memory.cpp:285-456 | an earlier-revision I/O write keeps the register file well formed and the cartridge flag; the boot and CGB-mode flags change only on the first unmap write while the boot ROM runs, which loads both blocks of defaults; an LCDC write that turns the LCD on or off also resets the PPU's LY and STAT, which live in the same register array |
| IoRegisters.OldStatWriteKeepsMode | src/GameBoy_Memory.cpp:381-385 | a STAT write in the earlier revision never disturbs the mode bits the PPU set |
| IoRegisters.OldStores | src/GameBoy_Memory.cpp:285-456 | in the earlier revision the plain registers and LCDC store the data, DIV becomes 0, IF sets bits 5-7, KEY1 keeps bit 7 and takes bit 0, FF75 sets bits 0-3 and 7 |
| IoRegisters.OldMaskedStores | src/GameBoy_Memory.cpp:291-440 | JOYP keeps data bits 4-5 under 0xC0; STAT keeps its mode and coincidence bits, takes bits 3-6 and sets bit 7; VBK sets bits 1-7; BCPS/OCPS clear bit 6; OPRI is writable only while the boot ROM runs |
| IoRegisters.OldLcdOff | src/GameBoy_Memory.cpp:364-380 | turning the LCD off stores LCDC, sets LY to 0 through the PPU reset, clears STAT's mode bits and bit 7 and the STAT request in IF, and changes no register besides LCDC, LY, STAT and IF |
| IoRegisters.OldLcdOn | src/GameBoy_Memory.cpp:375-378 | turning the LCD on from off stores LCDC, sets LY to 0 and STAT to mode 2 with its upper six bits kept, and changes no register besides LCDC, LY and STAT |
| IoRegisters.OldLcdcResetsPpu | src/GameBoy_Memory.cpp:364-379 | an LCDC write that resets the PPU leaves in LY and STAT exactly what the PPU's own reset leaves in its LY and STAT, with STAT then masked by 0x7C when the LCD went off |
| IoRegisters.OldLcdOffDropsStatRequest | src/GameBoy_Memory.cpp:364-380 | turning the LCD off drops a pending STAT request, leaves STAT in mode 0, keeps the other requests and resets the PPU |
| IoRegisters.FirstBlockOverwritten | src/GameBoy_Memory.cpp:600-708 | every register the first block of defaults sets is set again by the second block, so none of the first block's values survives |
| IoRegisters.WaveDefault | src/GameBoy_Memory.cpp:667-677 | the loop between the blocks gives wave RAM 0x30-0x3E the value 0x00 at even and 0xFF at odd addresses |
| IoRegisters.LoadOldDefaults | src/GameBoy_Memory.cpp:600-708 | after the defaults each register holds the second block's value where it has one, the alternating wave pattern below 0x3F, and its old byte everywhere else |
| IoRegisters.DefaultValues | src/GameBoy_Memory.cpp:637-708 | after the defaults KEY1 is 0x7E (not the first block's 0xFF), TIMA and TMA are 0, RP is 0xFF and FF75 is 0x8F |
| IoRegisters.DefaultsKeep | src/GameBoy_Memory.cpp:600-708 | after the defaults wave RAM starts 0x00, 0xFF, and DIV, STAT and LY, which neither block sets, keep their bytes |
| IoRegisters.OldUnmap | src/GameBoy_Memory.cpp:409-708 | the first unmap write loads both blocks of defaults (KEY1 0x7E, TIMA and TMA 0, RP 0xFF, FF75 0x8F, DIV, STAT and LY kept), ends the boot ROM and hands CGB mode to the cartridge |
| IoRegisters.OldUnmapIsPermanent | src/GameBoy_Memory.cpp:409-416 | once the boot ROM is unmapped no write maps it back or changes CGB mode |
| IoRegisters.OldWriteFrame | src/GameBoy_Memory.cpp:285-456 | LY, TMA, SC, TAC, DMA, HDMA5, RP and the sound registers outside wave RAM are not stored by the bus; any other write except an LCDC write that turns the LCD on or off and the first unmap changes only the written register |
| IoRegisters.WriteEffectOld | src/GameBoy_Memory.cpp:285-456 | an earlier-revision write resets the PPU exactly when LCDC is written other than on-to-on, goes to the palette data exactly for BCPD/OCPD, and has no side effect outside the registers with handlers |
| IoRegisters.OldTmaWriteIgnored | src/GameBoy_Memory.cpp:285-456 | a TMA write in the earlier revision does not change TMA |
| Joypad.SetButtons | GameBoy/src/include/GameBoy.hpp:157-160 | the eight inputs are stored verbatim, each in its own field |
| Joypad.ClearMask | GameBoy/src/GameBoy.cpp:283-333 | the mask for a pressed button clears exactly its low bit among bits 0-3; the masks as written also clear bits 4-7, the corrected ones keep them |
| Joypad.PressIf | GameBoy/src/GameBoy.cpp:285 | a press raises IF bit 4 exactly when its bit was 1 before; no other IF bit changes |
| Joypad.GroupIf | GameBoy/src/GameBoy.cpp:280-333 | one group's presses raise IF bit 4 exactly when the group is selected and a pressed button's bit was 1 before, or it was already raised; no other IF bit changes |
| Joypad.GroupJoyp | GameBoy/src/GameBoy.cpp:280-333 | one selected group: each of bits 0-3 stays set unless its button is pressed; the corrected masks keep the upper nibble, the masks as written clear it on any press |
| Joypad.PressJoypBits | GameBoy/src/GameBoy.cpp:283-330 | one button: unpressed leaves JOYP as it was; pressed clears its own bit and keeps the other low bits; the corrected mask keeps the upper nibble and the mask as written clears it |
| Joypad.ApplyButtons | GameBoy/src/GameBoy.cpp:273-333 | applying both groups: the low nibble ends with a 0 exactly for each bit some pressed button of a selected group drives; IF bit 4 is raised exactly on a falling edge against the previous nibble; no other IF bit changes |
| Joypad.UpdateJoyp | GameBoy/src/GameBoy.cpp:273-337 | a JOYP write: the low nibble reads 0xF exactly when no button of a selected group is pressed; STOP continues only while it does; the corrected masks leave the select bits as written; IF bit 4 rises exactly on a falling edge |
| Joypad.SetInputs | src/GameBoy.cpp:197-263 | the earlier per-frame scan uses the stored select bits, forces the low nibble to 0xF, then applies the presses with the same falling-edge interrupt |
| Joypad.AsWrittenClearsSelectBits | GameBoy/src/GameBoy.cpp:283-287 | with the masks as written, pressing Start with only the action group selected reads 0x07, dropping the select bits; the corrected masks read 0xD7 |
| Joypad.AsWrittenLeaksDirections | src/GameBoy.cpp:197-263 | in the earlier revision the cleared select bits carry into the next frame: with the action group selected, Start then Right makes Right read as A |
| Joypad.CorrectedKeepsGroups | src/GameBoy.cpp:197-263 | with the corrected masks the same two frames leave the action group's nibble at 0xF |
| Joypad.CorrectedKeepsSelection | src/GameBoy.cpp:197-263 | with the corrected masks repeated scans never change the program's group selection |
| Timer.Period | GameBoy/src/GameBoy_Memory.cpp:283-298 | TAC clock select 0, 1, 2, 3 gives a period of 256, 4, 16, 64 timer clocks per TIMA step, and only those |
| Timer.PowerOn | GameBoy/src/GameBoy.cpp:168-171 | at power-on the timer is disabled with counter and period 0 and no reload armed, which satisfies the timer invariant |
| Timer.WriteTac | GameBoy/src/GameBoy_Memory.cpp:277-299 | a TAC write stores the data with bits 3-7 set, restarts the counter, enables the timer iff bit 2 is set and picks the period from bits 0-1; TIMA, TMA and the reload are untouched |
| Timer.WriteTima | GameBoy/src/GameBoy_Memory.cpp:195-198 | a TIMA write stores the byte and cancels a pending reload, nothing else |
| Timer.WriteTma | GameBoy/src/GameBoy_Memory.cpp:199-201 | a TMA write stores the byte, nothing else |
| Timer.ResetCounter | GameBoy/src/GameBoy_Memory.cpp:191-194 | a DIV write restarts the timer counter, nothing else |
| Timer.WritesKeepInv | GameBoy/src/GameBoy_Memory.cpp:191-299 | every timer register write keeps the counter below the period of an enabled timer |
| Timer.Tick | GameBoy/src/GameBoy_Clocks.cpp:94-114 | one timer clock: a disabled timer changes nothing; an armed reload copies TMA into TIMA and requests TIMER on the next enabled clock; otherwise TIMA steps exactly when the counter reaches the period, restarting the counter and arming a reload on overflow to 0 |
| Timer.TickKeepsInv | GameBoy/src/GameBoy_Clocks.cpp:94-114 | a timer clock keeps the counter below the period |
| Timer.TicksBelowPeriod | GameBoy/src/GameBoy_Clocks.cpp:96-106 | clocks that do not reach the period only advance the counter |
| Timer.OnePeriodStepsTimaOnce | GameBoy/src/GameBoy_Clocks.cpp:94-114 | from a restarted counter exactly one period of clocks steps TIMA by one, brings the counter back to 0 and arms a reload exactly on overflow |
| Timer.TickAtPeriod | GameBoy/src/GameBoy_Clocks.cpp:104-113 | the clock that reaches the period steps TIMA and restarts the counter |
| Timer.TicksSplit | GameBoy/src/GameBoy_Clocks.cpp:87-115 | a + b timer clocks are a clocks followed by b clocks |
| Timer.OverflowThenReload | GameBoy/src/GameBoy_Clocks.cpp:98-113 | an overflow of TIMA leaves it 0 for one clock; the next clock loads TMA and requests TIMER |
| Timer.DivTick | src/GameBoy_Clocks.cpp:65-71 | the earlier revision's DIV steps exactly when its sub-counter reaches 64, which then restarts |
| Timer.DivEvery64 | src/GameBoy_Clocks.cpp:65-71 | from a restarted sub-counter 64 calls advance DIV by exactly one |
| Timer.DivTicksBelow | src/GameBoy_Clocks.cpp:65-71 | fewer calls than remain to 64 only count |
| Timer.ClockTimerOld | src/GameBoy_Clocks.cpp:63-94 | the earlier revision's timer clock advances DIV first and then performs the same timer step |
| Timer.WriteDivOld | src/GameBoy_Memory.cpp:301-305 | a DIV write in the earlier revision zeroes DIV, its sub-counter and the timer counter |
| Serial.Divider | GameBoy/src/GameBoy_Memory.cpp:264-273 | the divider an SC write picks: 64 or 128 at normal speed and 2 or 4 at double speed, the smaller one when bit 1 (fast clock) is set |
| Serial.WriteSc | GameBoy/src/GameBoy_Memory.cpp:255-275 | an SC write is ignored while a transfer runs; otherwise SC reads back with bits 2-6 set and the data's bits 0, 1 and 7, a transfer starts iff bits 7 and 0 are both set, and the bit and clock counters restart; SB is untouched |
| Serial.ShiftOut | GameBoy/src/GameBoy_Clocks.cpp:167-168 | the outgoing byte shifts left and takes SB's top bit at the bottom |
| Serial.ShiftBit | GameBoy/src/GameBoy_Clocks.cpp:164-183 | one bit: SB shifts left with a 1 entering, its top bit moves into the outgoing byte, the bit count rises; on the eighth bit the transfer ends, SC bit 7 clears and SERIAL is requested, otherwise SC and IF are untouched |
| Serial.Tick | GameBoy/src/GameBoy_Clocks.cpp:160-184 | only a running transfer is clocked, and a bit moves exactly when the counter reaches 128 |
| Serial.TicksSplit | GameBoy/src/GameBoy_Clocks.cpp:160-184 | a + b serial clocks are a clocks followed by b clocks |
| Serial.TicksBelow | GameBoy/src/GameBoy_Clocks.cpp:162-164 | clocks that do not reach 128 only advance the counter |
| Serial.OneBitPer128 | GameBoy/src/GameBoy_Clocks.cpp:160-184 | from a restarted counter, 128 clocks move exactly one bit |
| Serial.ClocksShiftBits | GameBoy/src/GameBoy_Clocks.cpp:160-184 | while fewer than eight bits are done, 128·k clocks move exactly k bits |
| Serial.EightShifts | GameBoy/src/GameBoy_Clocks.cpp:167-170 | eight shifts fill SB with ones and move all of the old SB into the outgoing byte |
| Serial.ShiftBitsBelow | GameBoy/src/GameBoy_Clocks.cpp:172-183 | before the eighth bit only data moves: SC, the running flag and IF are untouched |
| Serial.FullTransfer | GameBoy/src/GameBoy_Clocks.cpp:160-184 | 1024 clocks after a start SB reads 0xFF, the outgoing byte is the SB that was written, the transfer has ended with SC bit 7 clear and SERIAL is requested |
| SpeedSwitch.SwitchSpeedMode | GameBoy/src/include/GameBoy.hpp:237 | a switch toggles KEY1 bit 7 and keeps bits 0-6 |
| SpeedSwitch.SwitchTwiceIsIdentity | GameBoy/src/include/GameBoy.hpp:237 | two switches give KEY1 back |
| SpeedSwitch.SwitchFlipsSpeed | GameBoy/src/include/GameBoy.hpp:233-237 | in CGB mode a switch flips the double-speed answer and leaves the armed bit alone |
| SpeedSwitch.WriteKey1 | GameBoy/src/GameBoy_Memory.cpp:223-225 | a KEY1 write keeps the current speed bit, arms a switch iff data bit 0 is set, and reads 1 in bits 1-6 |
| SpeedSwitch.Stop | GameBoy/src/GameBoy.cpp:445-504 | STOP's decision table: with buttons held it is a two-byte halt unless an interrupt is pending; an armed switch with nothing pending switches speed, disarms, halts for 2050 cycles and resets DIV at the old speed; armed and pending with IME set it is only a two-byte opcode; armed and pending with IME clear it switches without halting and resets DIV at the new speed; otherwise it enters STOP mode; it never halts as a one-byte opcode |
| SpeedSwitch.SwitchDisarms | GameBoy/src/GameBoy.cpp:464-493 | a completed switch disarms itself and has flipped the speed bit, so a second STOP does not switch again |
| OamDma.SourceOf | GameBoy/src/GameBoy_Memory.cpp:305-320 | the source region of a page: cartridge ROM below 0x80, VRAM to 0x9F, cartridge RAM to 0xBF, WRAM above |
| OamDma.Start | GameBoy/src/GameBoy_Memory.cpp:301-327 | a DMA write takes the page modulo 0xE0, so the copy never reads echo RAM, OAM or I/O; 160 bytes are due from the page's first byte into OAM index 0 |
| OamDma.Tick | GameBoy/src/GameBoy_Clocks.cpp:117-126 | one DMA clock copies the byte at the source address into the current OAM index, advances both, and stops after the last byte; an idle DMA does nothing; the 160-byte bookkeeping is kept |
| OamDma.Copies | GameBoy/src/GameBoy_Clocks.cpp:119 | the k-th transfer of a copy goes from source + k to OAM index + k |
| OamDma.RunCopies | GameBoy/src/GameBoy_Clocks.cpp:117-126 | within a running copy, k clocks perform the next k transfers in order and advance by k |
| OamDma.CopiesWholePage | GameBoy/src/GameBoy_Memory.cpp:301-327 | after a DMA write, n ≤ 160 clocks copy the page's first n bytes into OAM slots 0..n-1 in order, and the copy is still running exactly when n < 160 |
| OamDma.IdleStaysIdle | GameBoy/src/GameBoy_Clocks.cpp:117-126 | a finished copy stays finished and transfers nothing more |
| VramDma.Addresses | GameBoy/src/GameBoy_Memory.cpp:371-375 | the source is HDMA1:HDMA2 with its low nibble dropped; the destination is 0x8000 plus HDMA3:HDMA4 within 8 KiB with its low nibble dropped, so it lies in 0x8000-0x9FF0 |
| VramDma.WriteBack | GameBoy/src/GameBoy_Memory.cpp:363-369 | writing the addresses back puts the source's high byte and aligned low byte into HDMA1/2 and the destination's offset high byte and aligned low byte into HDMA3/4 |
| VramDma.AddressesRoundTrip | GameBoy/src/GameBoy_Memory.cpp:363-375 | aligned copy addresses survive a write-back and a re-read unchanged |
| VramDma.RegistersRoundTrip | GameBoy/src/GameBoy_Memory.cpp:363-375 | re-reading the addresses and writing them back gives the registers with their ignored bits cleared |
| VramDma.Blocks | GameBoy/src/GameBoy_Memory.cpp:348 | an HDMA5 write asks for its low seven bits plus one blocks, 1 to 128 |
| VramDma.WriteHdma5 | GameBoy/src/GameBoy_Memory.cpp:329-361 | while an HDMA runs a write with bit 7 clear cancels it, writes the addresses back and makes HDMA5 read 0x80 plus the blocks left minus one, and one with bit 7 set only changes the block count; otherwise the write loads the addresses and starts an HDMA with no block due (bit 7 set) or a GDMA of 16 bytes per block |
| VramDma.CancelReportsBlocksLeft | GameBoy/src/GameBoy_Memory.cpp:333-339 | a cancelled HDMA reads back 0x80 plus the blocks that were left minus one |
| VramDma.Finish | GameBoy/src/GameBoy_Clocks.cpp:141-157 | the end of a copy writes the addresses back and makes HDMA5 read 0xFF |
| VramDma.MoveByte | GameBoy/src/GameBoy_Clocks.cpp:130-132 | one byte goes from the source address to the destination address |
| VramDma.Clock | GameBoy/src/GameBoy_Clocks.cpp:128-158 | one DMA clock copies up to two bytes starting at the current addresses; as written always two, since the destination is never checked |
| VramDma.Copies | GameBoy/src/GameBoy_Clocks.cpp:128-136 | the k-th byte of a copy goes from source + k to destination + k |
| VramDma.Moved | GameBoy/src/GameBoy_Clocks.cpp:128-136 | k clocks of a copy count 2k bytes off, advance the source, keep the distance between source and destination, and change nothing else |
| VramDma.RunMovesBytes | GameBoy/src/GameBoy_Clocks.cpp:128-158 | a copy that fits moves two consecutive bytes per clock, in order, and the block ends when the byte count runs out |
| VramDma.GdmaCopiesAllBlocks | GameBoy/src/GameBoy_Clocks.cpp:128-158 | a GDMA of n blocks copies 16n consecutive bytes in 8n clocks, then ends with HDMA5 reading 0xFF and the CPU clocked again |
| VramDma.HdmaCopiesOneBlock | GameBoy/src/GameBoy_Clocks.cpp:128-158 | one HDMA block moves 16 bytes in 8 clocks and lowers the block count by one; the last block ends the copy with HDMA5 reading 0xFF |
| VramDma.AsWrittenGdmaLeavesVram | GameBoy/src/GameBoy_Clocks.cpp:128-136 | as written, a two-block GDMA to 0x9FF0 writes its 17th byte to 0xA000, which is cartridge RAM |
| VramDma.CorrectedClockStaysInVram | src/GameBoy_Clocks.cpp:107-138 | corrected as the earlier revision does, every byte a clock writes lands in VRAM and a running copy stays in VRAM |
| VramDma.CorrectedRunStaysInVram | src/GameBoy_Clocks.cpp:107-175 | corrected, no number of clocks writes outside VRAM |
| VramDma.Arm | GameBoy/src/GameBoy_Clocks.cpp:46-53 | a 16-byte HDMA block is due exactly when an HDMA runs and the PPU has just entered mode 0; the mode is remembered |
| VramDma.ArmOncePerEntry | GameBoy/src/GameBoy_Clocks.cpp:46-53 | staying in mode 0 never arms a second block |
| VramDma.SlotOld | src/GameBoy_Clocks.cpp:12-26 | in the earlier revision slot 0 goes to a GDMA first, then to a due HDMA block, else to the CPU |
| VramDma.SlotsAgree | GameBoy/src/GameBoy_Clocks.cpp:14-18 | the two revisions agree on when the CPU is clocked |
| VramDma.WriteHdma5Old | src/GameBoy_Memory.cpp:531-559 | the earlier HDMA5 write: a cancel only clears the HDMA flag and reports the blocks left; a write with bit 7 set during an HDMA is ignored; a start loads the addresses and always sets 16 bytes per block |
| VramDma.ReadHdma5Old | src/GameBoy_Memory.cpp:241-248 | the earlier HDMA5 read gives the blocks left minus one while an HDMA runs, else 0xFF |
| VramDma.StopOld | src/GameBoy_Clocks.cpp:113-118 | the earlier stop ends the copy it belongs to and makes HDMA5 read 0xFF |
| VramDma.MoveByteOld | src/GameBoy_Clocks.cpp:109-118 | one earlier-revision byte: copy, advance, and stop when the destination passes 0x9FFF |
| VramDma.ClockOld | src/GameBoy_Clocks.cpp:107-175 | the earlier clock copies one or two bytes, all into VRAM, and a copy it leaves running still points into VRAM |
| VramDma.ArmOld | src/GameBoy_Clocks.cpp:52-56 | the earlier arming: a block is due when an HDMA runs, the PPU is in mode 0, no block is pending and this line has not had one |
| VramDma.ArmOldOncePerLine | src/GameBoy_Clocks.cpp:52-56 | once a line has had its block, the same line never arms another, whatever the byte count becomes |
| MemoryBus.WramBank | GameBoy/src/GameBoy_Memory.cpp:38-42 | the bank behind 0xD000-0xDFFF: bank 1 outside CGB mode, otherwise SVBK's low three bits; as written only SVBK = 0 falls back to bank 1, so values such as 0x08 select bank 0; corrected, every value with low bits 0 selects bank 1 |
| MemoryBus.Read | GameBoy/src/GameBoy_Memory.cpp:3-69 | a read: the boot ROM answers 0x0000-0x00FF and 0x0200-0x08FF while it runs; other ROM addresses go to the cartridge, or read 0xFF during boot with no cartridge; VRAM and OAM go to the PPU, 0xA000-0xBFFF to cartridge RAM, I/O to the registers; WRAM bank 0, the selected bank, HRAM and IE are read from the bus; the echo and unusable regions read 0xFF |
| MemoryBus.WriteTarget | GameBoy/src/GameBoy_Memory.cpp:71-118 | a write goes to no device exactly for bus-owned or open addresses, to the cartridge exactly below 0x8000 and to the I/O registers exactly in 0xFF00-0xFF7F; the boot ROM never takes writes |
| MemoryBus.Write | GameBoy/src/GameBoy_Memory.cpp:71-118 | a write stores into bus-owned memory or is handed to its device; a write to any other address leaves the bus memory unchanged |
| MemoryBus.WriteThenRead | GameBoy/src/GameBoy_Memory.cpp:3-118 | a bus-owned address reads back the byte last written to it while the mapping is unchanged |
| MemoryBus.OpenBusInert | GameBoy/src/GameBoy_Memory.cpp:44-55 | the echo and unusable regions read 0xFF and ignore writes |
| MemoryBus.CorrectedWriteIsLocal | GameBoy/src/GameBoy_Memory.cpp:87-95 | with the corrected bank rule a write to one address leaves every other address reading as before |
| MemoryBus.AsWrittenSvbkAliasesBankZero | GameBoy/src/GameBoy_Memory.cpp:40 | as written, SVBK = 0x08 in CGB mode maps 0xD000 onto WRAM bank 0, so a write to 0xC000 also changes what 0xD000 reads |
| PpuMemory.VramBank | GameBoy/src/PPU.cpp:188 | the selected VRAM bank is VBK bit 0 in CGB mode and bank 0 otherwise |
| PpuMemory.VramIndex | GameBoy/src/PPU.cpp:188-189 | a VRAM address selects a distinct cell of the chosen bank: bank and offset can be read back from the index |
| PpuMemory.ReadVram | GameBoy/src/PPU.cpp:181-190 | a VRAM read gives 0xFF while blocked and the addressed cell of the bank otherwise |
| PpuMemory.CpuReadVram | GameBoy/src/PPU.cpp:181-190 | the CPU reads 0xFF from VRAM in mode 3 and the addressed cell of the selected bank otherwise |
| PpuMemory.CpuWriteVram | GameBoy/src/PPU.cpp:210-219 | a CPU VRAM write is dropped in mode 3; otherwise exactly the addressed cell of the selected bank becomes the data and OAM is untouched |
| PpuMemory.CpuReadVramOld | src/GameBoy_Memory.cpp:27-37 | the earlier revision reads 0xFF only while the LCD is on and in mode 3 |
| PpuMemory.CpuWriteVramOld | src/GameBoy_Memory.cpp:100-110 | the earlier revision drops a VRAM write only while the LCD is on and in mode 3; otherwise exactly the addressed cell changes |
| PpuMemory.WriteVram | GameBoy/src/PPU.cpp:210-219 | a VRAM write is dropped while blocked; otherwise only the addressed cell changes, to the data, and OAM is untouched |
| PpuMemory.VramAccess | GameBoy/src/PPU.cpp:179-219 | outside mode 3 a VRAM write reads back and leaves every other address and bank unchanged; in mode 3 reads give 0xFF and writes change nothing |
| PpuMemory.BanksAreSeparate | GameBoy/src/PPU.cpp:188-218 | in CGB mode a write through one bank is invisible through the other |
| PpuMemory.VramRevisionsCompared | src/GameBoy_Memory.cpp:27-37 | the earlier revision blocks VRAM only while the LCD is on: with it on both revisions agree, with it off a write always reads back |
| PpuMemory.ReadOam | GameBoy/src/PPU.cpp:191-199 | an OAM read gives 0xFF while blocked (modes 2 and 3) and the addressed byte otherwise |
| PpuMemory.WriteOam | GameBoy/src/PPU.cpp:220-226 | a CPU write to OAM is dropped while blocked, otherwise changes only the addressed byte, and never touches the DMA flag |
| PpuMemory.DmaWriteOam | GameBoy/src/PPU.cpp:220-232 | a DMA write to OAM passes the mode gate and leaves the DMA marked as running for every address but 0xFE9F |
| PpuMemory.DmaFillsOam | GameBoy/src/PPU.cpp:220-232 | DMA bytes written in OAM order replace exactly that stretch of OAM in any mode, and the running flag is clear exactly when the last OAM byte was written |
| PpuMemory.DmaBypassesGate | GameBoy/src/PPU.cpp:222-231 | in modes 2 and 3 a DMA write lands in OAM while the same CPU write is dropped |
| PpuMemory.OamAccess | GameBoy/src/PPU.cpp:191-231 | outside modes 2-3 an OAM write reads back; in them reads give 0xFF |
| PpuMemory.Index | GameBoy/src/PPU.cpp:532 | the colour-RAM index is the specification register's low six bits |
| PpuMemory.Advance | GameBoy/src/PPU.cpp:631-634 | after a data write with spec bit 7 set the index advances modulo 64 and the bits the revision keeps are kept; with bit 7 clear the spec is unchanged |
| PpuMemory.WritePaletteData | GameBoy/src/PPU.cpp:624-652 | a BCPD/OCPD write stores the byte at the selected index unless mode 3 blocks it, and the auto-increment happens either way |
| PpuMemory.ReadPaletteData | GameBoy/src/PPU.cpp:525-544 | a BCPD/OCPD read gives 0xFF in mode 3 and the selected byte otherwise |
| PpuMemory.WritePaletteDataCurrent | GameBoy/src/PPU.cpp:624-652 | a BCPD/OCPD write in mode 3 stores nothing, otherwise it stores the byte at the selected index; with auto-increment on the index moves on modulo 64, bit 7 stays set and bit 6 is cleared, with it off the spec is unchanged |
| PpuMemory.WritePaletteDataOld | src/GameBoy_Memory.cpp:560-598 | the earlier revision blocks the store only with the LCD on and in mode 3, and its auto-increment keeps bits 6-7 of the spec |
| PpuMemory.AutoIncrement | src/GameBoy_Memory.cpp:560-598 | with auto-increment on the index advances modulo 64 even when mode 3 blocks the store and bit 7 stays set; the current revision clears bit 6, the earlier one keeps it; a blocked write stores nothing |
| PpuMemory.WriteRunIndex | GameBoy/src/PPU.cpp:624-652 | n data writes with auto-increment on leave it on and move the index n entries on, modulo 64 |
| PpuMemory.WriteRunFills | GameBoy/src/PPU.cpp:624-652 | n ≤ 64 data writes with auto-increment on store the data in order into n consecutive entries, wrapping modulo 64 |
| PpuMemory.WriteRunKeeps | GameBoy/src/PPU.cpp:624-652 | the same writes leave every entry outside those n untouched |
| PpuMemory.PaletteWriteThenRead | GameBoy/src/PPU.cpp:525-652 | with auto-increment off a data write outside mode 3 reads back |
| PpuMemory.Expand | GameBoy/src/PPU.cpp:413-419 | a 5-bit channel c becomes the byte 8c + c/4 |
| PpuMemory.ExpandMonotone | GameBoy/src/PPU.cpp:413-419 | the expansion is strictly increasing |
| PpuMemory.ExpandRange | GameBoy/src/PPU.cpp:413-419 | the expansion maps 0 to 0 and 31 to 255 |
| PpuMemory.ExpandInverse | GameBoy/src/PPU.cpp:413-419 | the top five bits of an expanded channel are the channel, so no two channels collide |
| PpuMemory.ColorIndex | GameBoy/src/PPU.cpp:395 | colour c of palette p sits at the even offset 8p + 2c, from which palette and colour can be read back |
| PpuMemory.Decode555 | GameBoy/src/PPU.cpp:409-418 | the little-endian colour word gives three channels below 32 |
| PpuMemory.Encode555RoundTrip | GameBoy/src/PPU.cpp:409-418 | storing a colour's two bytes and decoding them gives the colour back |
| PpuMemory.PixelOfStoredColour | GameBoy/src/PPU.cpp:395-419 | a colour written into palette p, entry c, comes out of the frame buffer as its expanded channels, and the channels are recoverable from the pixel |
| Ppu.DecodeLcdc | GameBoy/src/include/PPU.hpp:79-94 | each LCDC switch is its own bit: LCD on 7, window map 6, window 5, tile data 4, background map 3, tall sprites 2, sprites 1, background and window 0 |
| Ppu.EncodeLcdc | GameBoy/src/include/PPU.hpp:79-94 | the LCDC value of a set of switches carries the LCD switch in bit 7 and the background switch in bit 0 |
| Ppu.LcdcRoundTrip | GameBoy/src/include/PPU.hpp:79-94 | an LCDC value is determined by the switches decoded from it |
| Ppu.ControlRoundTrip | GameBoy/src/include/PPU.hpp:79-94 | every combination of switches has its own LCDC value, decoded back unchanged |
| Ppu.WindowTileMap | GameBoy/src/include/PPU.hpp:87 | the window tile map starts at 0x9C00 exactly when LCDC bit 6 is set and at 0x9800 otherwise |
| Ppu.BackgroundTileMap | GameBoy/src/include/PPU.hpp:90 | the background tile map starts at 0x9C00 exactly when LCDC bit 3 is set and at 0x9800 otherwise |
| Ppu.GetMode | GameBoy/src/include/PPU.hpp:50 | the mode is a value below 4 taken from STAT |
| Ppu.SetMode | GameBoy/src/include/PPU.hpp:127 | setting the mode makes the mode read back (masked to two bits) and keeps STAT bits 2-7 |
| Ppu.SetLyc | GameBoy/src/include/PPU.hpp:128-138 | the coincidence flag (STAT bit 2) is set exactly when LY equals LYC; every other bit is kept |
| Ppu.ModeAndLycIndependent | GameBoy/src/include/PPU.hpp:127-138 | the mode and coincidence setters commute and neither disturbs what the other wrote |
| Ppu.CurrentTiming | GameBoy/src/PPU.cpp:83-88 | the current revision's dot counter wraps at 457 back to 0 as written, at 456 when corrected |
| Ppu.NextCounters | GameBoy/src/PPU.cpp:83-100 | one dot: the counter steps; exactly at the wrap point it restarts and LY steps, wrapping from 154 to 0 |
| Ppu.CountersBelow | GameBoy/src/PPU.cpp:83-88 | dots that stay below the wrap point only advance the dot counter |
| Ppu.CountersSplit | GameBoy/src/PPU.cpp:83-100 | running a + b dots is running a dots and then b more |
| Ppu.OneLine | GameBoy/src/PPU.cpp:83-100 | from the start of a line, one line's worth of dots reaches the start of the next line, modulo 154 |
| Ppu.WithinLine | GameBoy/src/PPU.cpp:83-88 | inside a line only the dot counter moves |
| Ppu.Lines | GameBoy/src/PPU.cpp:83-100 | k whole lines from the start of line ly reach the start of line ly + k, modulo 154 |
| Ppu.AsWrittenLineIs457Dots | GameBoy/src/PPU.cpp:85-88 | as written, 456 dots from the start of a line leave LY unchanged and the 457th moves it: the line is one dot too long |
| Ppu.CorrectedLineIs456Dots | GameBoy/src/PPU.cpp:85-88 | with the wrap at 456, a line takes 456 dots |
| Ppu.EarlierLineIs456Dots | src/PPU.cpp:44-49 | the earlier revision's 457-to-1 wrap also gives 456-dot lines |
| Ppu.PowerOn | GameBoy/src/PPU.cpp:16-73 | power-on zeroes the counters and events, sets LCDC to 0x91 (LCD on) when the boot ROM is skipped and 0 (LCD off) otherwise |
| Ppu.EndOfLine | GameBoy/src/PPU.cpp:85-115 | at the wrap LY takes its new value; line 0 clears the window line and V-blank; lines below 144 enter mode 2; line 144 enters mode 1 and raises frame-ready and V-blank with the frame pointer reset; later lines keep STAT |
| Ppu.DuringLine | GameBoy/src/PPU.cpp:116-136 | on a visible line dot 81 enters mode 3 and, away from dots 80-81, 160 pixels drawn end mode 3 and restart the column; LY, the dot and frame-ready are kept |
| Ppu.Draw | GameBoy/src/PPU.cpp:140-149 | a pixel is drawn exactly when the mode is 3, the dot is past 84 and the FIFO yields one: the frame pointer moves 3 bytes and the column one |
| Ppu.EnabledClockCounters | GameBoy/src/PPU.cpp:75-150 | with the LCD on, one dot moves dot and LY as the counters do and leaves LCDC and LYC alone |
| Ppu.EnabledClockLineStart | GameBoy/src/PPU.cpp:85-115 | a dot that starts a line sets mode 2 on visible lines, mode 1 with frame-ready and V-blank on line 144, and clears the window line and V-blank on line 0 |
| Ppu.EnabledClockMode3 | GameBoy/src/PPU.cpp:127-130 | dot 81 of a visible line is in mode 3 |
| Ppu.EnabledClockFrameReady | GameBoy/src/PPU.cpp:106-114 | frame-ready becomes set only by a dot that starts line 144 |
| Ppu.EnabledClockCoincidence | GameBoy/src/PPU.cpp:138 | after every dot the coincidence flag says whether LY equals LYC |
| Ppu.DisabledClock | GameBoy/src/PPU.cpp:152-177 | with the LCD off the same counters run on a private line count, line 144 of it raises frame-ready and resets the frame pointer, and STAT, LY, LCDC and V-blank are untouched |
| Ppu.Clock | GameBoy/src/PPU.cpp:75-81 | a dot is the enabled clock when LCDC bit 7 is set and the disabled clock otherwise |
| Ppu.RunFollowsCounters | GameBoy/src/PPU.cpp:75-150 | with the LCD on, any run of dots leaves the LCD on and dot and LY where the counters put them, whatever the FIFO yields |
| Ppu.FrameReadyAfter144Lines | GameBoy/src/PPU.cpp:83-114 | from the start of LY 0, 144 lines of dots reach the start of LY 144, where the frame is signalled |
| Ppu.DuringLineOld | src/PPU.cpp:76-96 | in the earlier revision dot 80 also restarts the column, dot 81 enters mode 3 and 160 pixels end it |
| Ppu.CountDisabled | src/PPU.cpp:30-42 | with the LCD off and no frame pending the disabled-dot count steps, and its 65664th step raises frame-ready and restarts it; otherwise nothing changes |
| Ppu.DrawOld | src/PPU.cpp:100-109 | the earlier revision draws whenever mode 3 and the FIFO yields a pixel, from the first dot of the mode |
| Ppu.CountedClockOldKeepsFrameReady | src/PPU.cpp:44-109 | no dot of the earlier revision clears a pending frame-ready |
| Ppu.ClockOldCounters | src/PPU.cpp:28-49 | in the earlier revision dot and LY follow the 457-to-1 counters whether the LCD is on or off |
| Ppu.ClockOldDisabledFrame | src/PPU.cpp:30-42 | with the LCD off, the dot that completes the count raises frame-ready and restarts it; any other dot adds one |
| Ppu.DisabledFrameIs144Lines | src/PPU.cpp:36 | 65664 dots are exactly 144 lines of 456 dots |
| Ppu.ClockOldLineStart | src/PPU.cpp:46-75 | in the earlier revision, too, each line starts in its mode and line 144 raises frame-ready and V-blank |
| Ppu.ClockOld | src/PPU.cpp:28-109 | one earlier-revision dot: dot and LY follow the 457-to-1 counters and LCDC is kept; with the LCD off and no frame pending the disabled count goes up by one, and the dot that reaches 65664 raises frame-ready and restarts it; otherwise the count is kept and a pending frame stays pending |
| Ppu.CountedClockOld | src/PPU.cpp:44-109 | the counted part of an earlier-revision dot moves dot and LY by the 457-to-1 counters, keeps LCDC and never clears a pending frame-ready |
| Ppu.ResetOld | src/PPU.cpp:112-125 | the earlier revision's reset zeroes LY, the dot, column, window-line and frame-pointer counters and the disabled count, drops frame-ready, V-blank and the WY condition, and sets mode 2 keeping STAT's upper six bits and every other register |
| Ppu.ResetOldIdempotent | src/PPU.cpp:112-125 | resetting twice is the same as resetting once |
| Ppu.ResetOldStartsLine | src/PPU.cpp:44-125 | with the LCD on, the first dot after a reset is dot 1 of line 0 in mode 2 with no frame ready |
| Ppu.FrameReady | GameBoy/src/PPU.cpp:239-248 | reading the frame event reports whether one was pending and clears it |
| Ppu.VBlank | GameBoy/src/PPU.cpp:250-259 | reading the V-blank event reports whether one was pending and clears it |
| Ppu.EventsReadOnce | GameBoy/src/PPU.cpp:239-259 | a second read with no dot in between reports no event and changes nothing |
| Ppu.ReadIoReg | GameBoy/src/PPU.cpp:488-550 | STAT reads with bit 7 set; LY reads 0 from dot 4 of line 153; VBK reads bits 1-7 set; BCPS and OCPS read bit 6 set; LCDC reads as stored; addresses the PPU does not own read 0xFF |
| Ppu.WriteStat | GameBoy/src/PPU.cpp:585-591 | a STAT write takes bits 3-6 from the data and keeps the mode and coincidence bits |
| Ppu.WriteLcdc | GameBoy/src/PPU.cpp:556-584 | turning the LCD off resets LY, column, window line, counters, frame pointer and events and enters mode 0; turning it on restarts the dot counter in mode 2 and marks the first frame; otherwise only LCDC changes |
| Ppu.WriteIoReg | GameBoy/src/PPU.cpp:552-661 | LCDC and STAT writes go through their own rules, no other write changes LCDC, LY or the dot, and addresses the PPU does not own change nothing |
| Ppu.WriteThenRead | GameBoy/src/PPU.cpp:488-661 | LCDC, SCY, SCX, LYC, BGP, OBP0, OBP1, WY, WX and OPRI read back what was written; a write to LY changes nothing |
| Ppu.OtherWriteThenRead | GameBoy/src/PPU.cpp:592-657 | the plain registers read back what was written |
| Ppu.MaskedWriteThenRead | GameBoy/src/PPU.cpp:494-623 | STAT reads back the written bits 3-6 over its kept mode and coincidence bits with bit 7 set, VBK with bits 1-7 set, BCPS/OCPS with bit 6 set |
| PixelFifo.Load | GameBoy/src/PixelFIFO.cpp:110-126 | loading queues no more sprites than were scanned, each of them on screen, at its left edge, and numbered consecutively from the start number |
| PixelFifo.EntriesOf | GameBoy/src/PixelFIFO.cpp:123 | a queue holds one sprite per entry |
| PixelFifo.LoadQueuesOnScreen | GameBoy/src/PixelFIFO.cpp:115-125 | the queued sprites are exactly the on-screen ones (X neither 0 nor 168 or more), in the order scanned |
| PixelFifo.LoadEdgesOnScreen | GameBoy/src/PixelFIFO.cpp:122 | every queued sprite's left edge is a screen column, 0 for sprites partly off the left |
| PixelFifo.Bucket | GameBoy/src/PixelFIFO.cpp:123 | a column's queue holds exactly the loaded sprites whose left edge is that column |
| PixelFifo.LoadInLoadOrder | GameBoy/src/PixelFIFO.cpp:113-124 | load numbers increase along the load and along every column's queue |
| PixelFifo.BucketAscending | GameBoy/src/PixelFIFO.cpp:123 | taking one column's sprites out of an ordered queue keeps them in order |
| PixelFifo.ColorAt | GameBoy/src/PixelFIFO.cpp:391-397 | a pixel's 2-bit colour has the high plane's bit as bit 1 and the low plane's as bit 0, and is 0 exactly when both are clear |
| PixelFifo.RowBit | GameBoy/src/PixelFIFO.cpp:389-400 | the bit a row's pixel comes from is a bit of the byte |
| PixelFifo.FlipReverses | GameBoy/src/PixelFIFO.cpp:389-400 | a horizontally flipped row is the unflipped row read backwards |
| PixelFifo.ShiftedColorAt | GameBoy/src/PixelFIFO.cpp:385-403 | after i of the loop's shifts the bits under its read position are the row's pixel i: bit 7 - i, or bit i when flipped |
| PixelFifo.ShiftedRight | GameBoy/src/PixelFIFO.cpp:389-394 | with the flip, i right shifts bring bit i to the bottom |
| PixelFifo.ShiftedLeft | GameBoy/src/PixelFIFO.cpp:395-400 | without it, i left shifts bring bit 7 - i to the top |
| PixelFifo.ShiftedRightLow | GameBoy/src/PixelFIFO.cpp:389-394 | the right-shift fact for pixels 0-3 |
| PixelFifo.ShiftedRightHigh | GameBoy/src/PixelFIFO.cpp:389-394 | the right-shift fact for pixels 4-7 |
| PixelFifo.ShiftedLeftLow | GameBoy/src/PixelFIFO.cpp:395-400 | the left-shift fact for pixels 0-3 |
| PixelFifo.ShiftedLeftHigh | GameBoy/src/PixelFIFO.cpp:395-400 | the left-shift fact for pixels 4-7 |
| PixelFifo.PushBackgroundPixels | GameBoy/src/PixelFIFO.cpp:383-404 | pushing a fetched row appends exactly eight pixels after the FIFO's old contents, pixel i of the row (reversed under flip) at position i |
| PixelFifo.Overlay | GameBoy/src/PixelFIFO.cpp:241-250 | a sprite pixel replaces an occupied slot only when it is opaque and the slot is transparent or, in CGB mode, holds a sprite with a larger OAM number; a transparent sprite pixel never replaces anything |
| PixelFifo.PushSpritePixels | GameBoy/src/PixelFIFO.cpp:211-256 | the loop places the row's pixels one step at a time as the step-by-step definition does, and leaves the scroll count reduced by eight, not below zero |
| PixelFifo.CorrectedPushAligns | GameBoy/src/PixelFIFO.cpp:211-256 | corrected, after n steps the first n - scroll slots hold the row's visible pixels in screen order, each overlaid on what was there, and later slots are unchanged |
| PixelFifo.AsWrittenPushIgnoresScroll | GameBoy/src/PixelFIFO.cpp:232-247 | as written, into a FIFO holding eight pixels, row pixel i lands on slot i whatever the scroll, and the first scroll slots keep their pixels |
| PixelFifo.AsWrittenSpriteMisplaced | GameBoy/src/PixelFIFO.cpp:232-247 | a sprite four pixels off the left edge, merged into eight transparent pixels, shows its right half in slots 4-7 as written instead of 0-3 |
| PixelFifo.PopSprite | GameBoy/src/PixelFIFO.cpp:258-268 | an empty sprite FIFO gives the transparent default pixel; otherwise the front is taken and the rest kept |
| PixelFifo.Mix | GameBoy/src/PixelFIFO.cpp:413-481 | with one layer enabled that layer decides (a transparent sprite gives blank), with none it is blank; with both a transparent pixel loses, and between two opaque pixels DMG shows the background iff the sprite's priority flag is set while CGB shows the sprite iff LCDC bit 0 is clear or neither priority flag is set |
| PixelFifo.MixChoosesAnInput | GameBoy/src/PixelFIFO.cpp:413-481 | the mixed pixel is the background, the sprite or blank, and a transparent sprite pixel never wins |
| PixelFifo.MapAddress | GameBoy/src/PixelFIFO.cpp:280-295 | the tile-map entry is the map base plus 32 per tile row plus the column, inside the 1 KiB map |
| PixelFifo.BackgroundTileRow | GameBoy/src/PixelFIFO.cpp:292-293 | the background's tile row, from LY + SCY in eight bits, is below 32 |
| PixelFifo.NextColumn | GameBoy/src/PixelFIFO.cpp:283-291 | the next tile column is below 32 |
| PixelFifo.ColumnsWrap | GameBoy/src/PixelFIFO.cpp:291 | n tiles into a background line the fetcher reads column (SCX/8 + n) mod 32 |
| PixelFifo.ModSucc | GameBoy/src/PixelFIFO.cpp:284 | stepping a column modulo 32 twice is stepping once |
| PixelFifo.FlipRow | GameBoy/src/PixelFIFO.cpp:325-328 | a vertically flipped row is 7 - row |
| PixelFifo.TileDataAddress | GameBoy/src/PixelFIFO.cpp:330-342 | LCDC bit 4 picks tile id * 16 from 0x8000; otherwise ids 0x80-0xFF sit from 0x8800 and 0x00-0x7F from 0x9000; the row adds 2 * row |
| PixelFifo.SignedTileArea | GameBoy/src/PixelFIFO.cpp:330-342 | in the signed area the address is 0x9000 plus the id as a signed offset, times 16; the unsigned area lies in 0x8000-0x8FFF and the signed one in 0x8800-0x97FF |
| PixelFifo.SpriteRowAddressOnLine | GameBoy/src/PixelFIFO.cpp:164-185 | for a sprite on the line the row address is 0x8000 plus 16 per tile plus twice the row within the sprite, counted from the bottom when flipped; tall sprites use the even tile of the pair |
| OamScan.DecodeFlags | include/PixelFIFO.hpp:18-26 | the attribute byte's bit fields: CGB palette in bits 0-2, tile bank bit 3, DMG palette bit 4, X flip 5, Y flip 6, priority 7 |
| OamScan.FlagsRoundTrip | include/PixelFIFO.hpp:18-26 | the six fields cover the whole attribute byte: encoding the decoded fields gives it back |
| OamScan.Entry | include/PixelFIFO.hpp:12-27 | OAM entry i is the four bytes from 4i: Y, X, tile and attributes |
| OamScan.EntriesOf | GameBoy/src/PPU.cpp:344 | OAM read as entries gives the 40 entries in order |
| OamScan.Filter | GameBoy/src/PPU.cpp:354-362 | the filtered entries are those on the line (Y ≤ LY + 16 ≤ Y + 7, or Y + 15 for tall sprites) and no more |
| OamScan.FilterAppend | GameBoy/src/PPU.cpp:347-363 | filtering keeps OAM order: two runs of OAM filter to the two filtered runs one after the other |
| OamScan.FilterStep | GameBoy/src/PPU.cpp:358-362 | one more entry of OAM joins the filtered run exactly when it is on the line |
| OamScan.TakeUpTo | GameBoy/src/PPU.cpp:349-352 | the first n of a sequence is a prefix of it with at most n entries, and the whole of it when it is short |
| OamScan.Scan | GameBoy/src/PPU.cpp:334-366 | the scan loop over the 40 entries, stopping at ten, keeps nothing during OAM DMA and otherwise the first ten entries on the line |
| OamScan.StoppedScan | GameBoy/src/PPU.cpp:347-352 | stopping after ten kept entries, or at the end of OAM, leaves exactly the first ten on the line |
| OamScan.SelectedProperties | src/PPU.cpp:149-181 | the scan keeps at most ten entries, each on the line and taken from OAM; when it keeps fewer than ten every entry on the line is among them; during DMA it keeps none |
| CartridgeHeader.SkipZeros | GameBoy/src/GameBoy.cpp:54-62 | skipping zero bytes keeps every nonzero byte and drops every zero, and leaves a title without zeros as it is |
| CartridgeHeader.SkipZerosAppend | GameBoy/src/GameBoy.cpp:54-62 | skipping zeros works byte by byte: the title of two pieces is the two pieces' titles joined |
| CartridgeHeader.Title | GameBoy/src/GameBoy.cpp:49-62 | the title has at most 15 bytes for a CGB cartridge (header 0x143 bit 7) and 16 otherwise, and holds exactly the nonzero bytes of that stretch from 0x134 |
| CartridgeHeader.TitleOld | src/GameBoy.cpp:119-122 | the earlier revision copies the 15 or 16 bytes from 0x134 as they are, zeros included |
| CartridgeHeader.TitlesAgreeWithoutZeros | src/GameBoy.cpp:119-122 | the two revisions agree on a title that has no zero byte |
| CartridgeHeader.RomBanks | GameBoy/src/GameBoy.cpp:71 | the ROM bank count is 2 << code in 16 bits: twice 2^code below 15 and 0 (truncated) from 15 on |
| CartridgeHeader.Pow2Mono | GameBoy/src/GameBoy.cpp:71 | bank counts grow with the code |
| CartridgeHeader.RamBanks | GameBoy/src/GameBoy.cpp:72-95 | the RAM bank count is one of 0, 1, 4, 8, 16, and is 0 exactly for codes other than 2-5 |
| CartridgeHeader.SelectMbc | GameBoy/src/GameBoy.cpp:97-116 | types 0x00, 0x08, 0x09 get no controller chip, 0x01-0x03 MBC1, 0x0F-0x13 MBC3, 0x19-0x1E MBC5, and every other type no cartridge |
| CartridgeHeader.SelectMbcOld | src/GameBoy.cpp:151-168 | the earlier revision never selects MBC3 |
| CartridgeHeader.RevisionsDifferOnlyOnMbc3 | src/GameBoy.cpp:151-168 | the revisions choose the same controller for every type except the MBC3 types, which the earlier one rejects |
| CartridgeHeader.ParseHeader | GameBoy/src/GameBoy.cpp:45-116 | everything cartridge insertion reads from bank 0: CGB flag, title, bank counts and controller, each from its header byte |
| Cartridge.HeaderRomBanksValid | GameBoy/src/GameBoy.cpp:71 | every ROM-size code below 15 gives a bank count the controllers accept |
| Cartridge.HeaderRamBanksValid | GameBoy/src/GameBoy.cpp:72-95 | every RAM-size code gives a bank count the controllers accept |
| Mbc0.Reset | src/Cartridge/MBC0.cpp:48-51 | resetting a cartridge without a controller changes nothing |
| Mbc0.ReadRom | src/Cartridge/MBC0.cpp:53-61 | 0x0000-0x3FFF reads bank 0 and 0x4000-0x7FFF reads bank 1 |
| Mbc0.WriteRom | src/Cartridge/MBC0.cpp:63-66 | ROM writes change nothing |
| Mbc0.ReadRam | src/Cartridge/MBC0.cpp:68-76 | external RAM reads 0xFF when the cartridge has none |
| Mbc0.WriteRam | src/Cartridge/MBC0.cpp:78-84 | a RAM write is dropped without RAM and otherwise leaves every other address as it was |
| Mbc0.WriteThenRead | src/Cartridge/MBC0.cpp:68-84 | with RAM a written byte reads back; without it reads stay 0xFF |
| Mbc0.RomIsReadOnly | src/Cartridge/MBC0.cpp:53-66 | no write changes what the ROM area reads |
| Mbc1.RomBankMask | GameBoy/src/Cartridge/MBC1.cpp:54-61 | the bank mask is below 32 and below the bank count |
| Mbc1.Reset | GameBoy/src/Cartridge/MBC1.cpp:71-77 | reset disables RAM, selects ROM bank 1 and RAM bank 0 in simple banking mode, and keeps ROM and RAM |
| Mbc1.LargeUpperBank | GameBoy/src/Cartridge/MBC1.cpp:98-104 | the bank a large cartridge shows at 0x4000-0x7FFF is a bank of the ROM |
| Mbc1.ReadRom | GameBoy/src/Cartridge/MBC1.cpp:79-112 | below 0x4000 bank 0 shows unless a large cartridge is in advanced mode; above it the ROM bank register's bank shows unless the cartridge is large |
| Mbc1.WriteRom | GameBoy/src/Cartridge/MBC1.cpp:114-141 | 0x0000-0x1FFF sets RAM enable (bits 1 and 3 of the data), 0x2000-0x3FFF the masked ROM bank with 0 read as 1, 0x4000-0x5FFF the 2-bit RAM bank, 0x6000-0x7FFF the banking mode; nothing else changes |
| Mbc1.ReadRam | GameBoy/src/Cartridge/MBC1.cpp:143-160 | RAM reads 0xFF unless present and enabled, and bank 0 in simple banking mode |
| Mbc1.WriteRam | GameBoy/src/Cartridge/MBC1.cpp:162-177 | RAM writes are dropped unless present and enabled, and otherwise change exactly one byte of the write bank |
| Mbc1.CorrectedWriteThenRead | GameBoy/src/Cartridge/MBC1.cpp:143-177 | with the write bank chosen as the read's, a byte written to enabled RAM reads back; otherwise reads stay 0xFF |
| Mbc1.AsWrittenWriteMissesRead | GameBoy/src/Cartridge/MBC1.cpp:149-175 | as written, with several RAM banks, simple mode and a nonzero RAM bank, a write lands in that bank while the read returns bank 0's byte |
| Mbc1.SelectRomBank | GameBoy/src/Cartridge/MBC1.cpp:105-132 | on a ROM of up to 32 banks, writing a nonzero bank number below the count to 0x2000 shows that bank at 0x4000-0x7FFF |
| Mbc1.AsWrittenNeverLarge | GameBoy/src/Cartridge/MBC1.cpp:22 | the large-cartridge test on the RAM bank count never holds for a count a header can give |
| Mbc1.AsWrittenMissesBank33 | GameBoy/src/Cartridge/MBC1.cpp:22-107 | on a 64-bank ROM, selecting 1 at 0x4000 and 1 at 0x2000 shows bank 1 as written, where bank 33 was meant |
| Mbc1.CorrectedReachesEveryBank | GameBoy/src/Cartridge/MBC1.cpp:98-135 | corrected, a 64- or 128-bank ROM reaches every bank that is not a multiple of 32, from the upper bits at 0x4000 and the lower five at 0x2000 |
| Mbc1.Serialize | GameBoy/src/Cartridge/MBC1.cpp:195-206 | a save state is the RAM followed by four register bytes |
| Mbc1.Deserialize | GameBoy/src/Cartridge/MBC1.cpp:208-219 | loading a save state takes the RAM from its front and keeps the cartridge's ROM and bank counts |
| Mbc1.SerializeRoundTrip | GameBoy/src/Cartridge/MBC1.cpp:195-219 | a save state loaded into the same cartridge restores the RAM and every register |
| Mbc1Flat.Reset | src/Cartridge/MBC1.cpp:53-59 | reset disables RAM and mode 1; as written it loads the low register with 0 and the high with 1, corrected the other way round |
| Mbc1Flat.LowWithBit14 | src/Cartridge/MBC1.cpp:74 | ORing the low register at bit 14 with a CPU address that has bit 14 set turns an even bank number into the odd one above it |
| Mbc1Flat.RomOffset | src/Cartridge/MBC1.cpp:61-78 | the address formed from the registers and masked with the ROM size minus one lies inside the ROM |
| Mbc1Flat.ReadRom | src/Cartridge/MBC1.cpp:61-78 | in mode 0, 0x0000-0x3FFF reads the ROM's first bank directly |
| Mbc1Flat.WriteRom | src/Cartridge/MBC1.cpp:80-103 | RAM enable from bits 1 and 3, a low register of five bits that is never 0, a 2-bit high register, mode 1 only for the value 1; nothing else changes |
| Mbc1Flat.RamOffset | src/Cartridge/MBC1.cpp:105-121 | the RAM address lies inside the RAM, and is the plain offset in mode 0 |
| Mbc1Flat.ReadRam | src/Cartridge/MBC1.cpp:105-121 | RAM reads 0xFF unless present and enabled |
| Mbc1Flat.WriteRam | src/Cartridge/MBC1.cpp:123-137 | RAM writes are dropped unless present and enabled, and otherwise change only the addressed byte |
| Mbc1Flat.WriteThenRead | src/Cartridge/MBC1.cpp:105-137 | a byte written to enabled RAM reads back; otherwise reads stay 0xFF |
| Mbc1Flat.BankMod | src/Cartridge/MBC1.cpp:74 | masking a bank-sized stride with the ROM size keeps the offset inside the bank and wraps the bank number |
| Mbc1Flat.CorrectedUpperBank | src/Cartridge/MBC1.cpp:72-75 | corrected, 0x4000-0x7FFF shows bank high * 32 + low, wrapped to the bank count, at the offset within the window |
| Mbc1Flat.AsWrittenEvenBankReadsOdd | src/Cartridge/MBC1.cpp:74 | on an 8-bank ROM, selecting bank 2 shows bank 3 as written and bank 2 corrected |
| Mbc1Flat.CorrectedResetShowsBank1 | src/Cartridge/MBC1.cpp:53-59 | corrected, the window shows bank 1 right after reset |
| Mbc3.Reset | GameBoy/src/Cartridge/MBC3.cpp:83-96 | reset selects ROM bank 1 and RAM bank 0, disables RAM, clears the latched clock registers and any begun latch, and keeps the running clock |
| Mbc3.ReadRom | GameBoy/src/Cartridge/MBC3.cpp:98-108 | 0x0000-0x3FFF reads bank 0 and 0x4000-0x7FFF the selected bank |
| Mbc3.Days | GameBoy/src/Cartridge/MBC3.cpp:287 | the day count from DL and DH bit 0 is below 512 |
| Mbc3.SetCarry | GameBoy/src/Cartridge/MBC3.cpp:301-304 | setting the day carry sets DH bit 7 and keeps the other bits |
| Mbc3.WithDayBit8 | GameBoy/src/Cartridge/MBC3.cpp:306 | the day count's bit 8 replaces DH bit 0 and nothing else |
| Mbc3.Advance | GameBoy/src/Cartridge/MBC3.cpp:281-308 | after catching up, seconds and minutes are below 60 and hours below 24 |
| Mbc3.AdvanceKeepsTime | GameBoy/src/Cartridge/MBC3.cpp:287-307 | catching up by some seconds moves the time the registers stand for by exactly that much, modulo the 512-day period of the day counter |
| Mbc3.ClockDigits | GameBoy/src/Cartridge/MBC3.cpp:290-299 | seconds, minutes and hours reassemble the seconds of a day |
| Mbc3.DayDigits | GameBoy/src/Cartridge/MBC3.cpp:306-307 | DL and DH bit 0 reassemble the day count modulo 512 |
| Mbc3.AdvanceCarry | GameBoy/src/Cartridge/MBC3.cpp:301-306 | DH bit 7 is set afterwards exactly when it was set before or the day count passed 511, and the halt and unused bits are kept |
| Mbc3.DayCountWraps | GameBoy/src/Cartridge/MBC3.cpp:290-307 | keeping only nine bits of the day count takes the total modulo 512 days |
| Mbc3.WholeSeconds | GameBoy/src/Cartridge/MBC3.cpp:284 | the elapsed ticks are cut down to the whole seconds they contain, the remainder being under one second |
| Mbc3.Catch | GameBoy/src/Cartridge/MBC3.cpp:153-156 | bringing the clock up to now advances a running clock by the whole seconds since the reference point and moves the reference point up (to now as written), leaves a halted clock as it stands, and changes nothing else |
| Mbc3.CatchCountsWholeSeconds | GameBoy/src/Cartridge/MBC3.cpp:281-307 | a catch-up moves the time a running clock stands for by the whole seconds since its reference point, modulo the 512-day period |
| Mbc3.SplitSeconds | GameBoy/src/Cartridge/MBC3.cpp:284 | the whole seconds of a sum of intervals are those of the parts plus one when their fractions carry |
| Mbc3.CaughtUpTo | GameBoy/src/Cartridge/MBC3.cpp:284-285 | after a catch-up the reference point lies within one second before now: at now as written, and exactly the uncounted part of a second before now when corrected |
| Mbc3.AsWrittenCountsTwice | GameBoy/src/Cartridge/MBC3.cpp:281-285 | as written, two catch-ups in a row count one second fewer than a single catch-up over the whole interval exactly when the two truncated parts of a second add up to a second or more |
| Mbc3.AsWrittenCatchLosesFraction | GameBoy/src/Cartridge/MBC3.cpp:281-285 | as written, catch-ups 0.6 s and 1.2 s after the reference point count no second between them, where a single catch-up at 1.2 s counts one |
| Mbc3.CorrectedCountsTwice | GameBoy/src/Cartridge/MBC3.cpp:281-285 | with the uncounted part of a second kept, two catch-ups in a row count exactly the seconds of one catch-up over the whole interval |
| Mbc3.KeptFraction | GameBoy/src/Cartridge/MBC3.cpp:284 | counting the whole seconds of one interval and then those of its remainder plus a second interval counts the whole seconds of both |
| Mbc3.WriteRom | GameBoy/src/Cartridge/MBC3.cpp:110-165 | 0x0000-0x1FFF sets RAM enable; 0x2000-0x3FFF picks the ROM bank modulo the count with 0 meaning 1; 0x4000-0x5FFF stores a RAM bank below 4 modulo the RAM bank count (only with RAM) or a clock selector as it is; latch writes do nothing without a clock |
| Mbc3.LatchWrite | GameBoy/src/Cartridge/MBC3.cpp:139-164 | a latch write touches only the latch state, the clock and its reference point, and nothing at all without a clock |
| Mbc3.LatchCopiesClock | GameBoy/src/Cartridge/MBC3.cpp:145-163 | writing 0 and then 1 copies the clock, advanced by the whole seconds since the reference point unless halted, into the registers the CPU reads, and ends the latch |
| Mbc3.NoClockIgnoresLatch | GameBoy/src/Cartridge/MBC3.cpp:141-144 | on a cartridge without a clock latch writes change nothing |
| Mbc3.ReadClock | GameBoy/src/Cartridge/MBC3.cpp:179-196 | selectors other than 0x08-0x0C read 0xFF, and DH reads with bits 1-5 set |
| Mbc3.ClockRegisterRoundTrip | GameBoy/src/Cartridge/MBC3.cpp:179-232 | a clock register set with a value reads back as that value, DH with its unused bits 1-5 set |
| Mbc3.ReadRam | GameBoy/src/Cartridge/MBC3.cpp:167-197 | reads give 0xFF while disabled, a RAM byte for banks 0-3 on a cartridge with RAM, and otherwise the latched clock register (0xFF without a clock) |
| Mbc3.SetClockRegister | GameBoy/src/Cartridge/MBC3.cpp:216-249 | the selected clock register takes the value and other selectors change nothing |
| Mbc3.WriteClock | GameBoy/src/Cartridge/MBC3.cpp:209-250 | writing DH stores it and halts the clock exactly when bit 6 is set; resuming a halted clock restarts its reference point at now; other registers leave the halt state alone |
| Mbc3.HaltControl | GameBoy/src/Cartridge/MBC3.cpp:233-243 | the halt flag takes the written bit, and the reference point moves to now only when a halted clock resumes |
| Mbc3.WriteRam | GameBoy/src/Cartridge/MBC3.cpp:199-251 | writes are dropped while disabled, change exactly one byte of the selected RAM bank for banks 0-3, and are dropped for a clock selector without a clock |
| Mbc3.WriteThenRead | GameBoy/src/Cartridge/MBC3.cpp:167-208 | a RAM byte written with RAM enabled and a RAM bank selected reads back |
| Mbc3.HaltedClockStands | GameBoy/src/Cartridge/MBC3.cpp:149-162 | a halted clock does not move: latching at any later time copies the same counters |
| Mbc3.AdvanceTwice | GameBoy/src/Cartridge/MBC3.cpp:287-307 | advancing the counters by some seconds and then by more is advancing them by the sum |
| Mbc5.Reset | GameBoy/src/Cartridge/MBC5.cpp:61-68 | reset selects ROM bank 1 (low byte 1, bit 8 clear) and RAM bank 0 and disables RAM |
| Mbc5.ResetOld | src/Cartridge/MBC5.cpp:70-77 | the earlier revision resets to ROM bank 0 |
| Mbc5.NineBitBank | GameBoy/src/Cartridge/MBC5.cpp:99 | the bank number the two registers spell is below 0x200 |
| Mbc5.ReadRom | GameBoy/src/Cartridge/MBC5.cpp:70-80 | 0x0000-0x3FFF reads bank 0 and 0x4000-0x7FFF the selected bank |
| Mbc5.WriteRom | GameBoy/src/Cartridge/MBC5.cpp:82-105 | 0x0000-0x1FFF sets RAM enable; 0x2000-0x2FFF and 0x3000-0x3FFF set the low byte and the high register, and the selected bank becomes their 9-bit number modulo the count; 0x4000-0x5FFF sets the RAM bank modulo the RAM bank count on a cartridge with RAM; the rest is ignored |
| Mbc5.ReadRam | GameBoy/src/Cartridge/MBC5.cpp:107-115 | RAM reads 0xFF unless present and enabled |
| Mbc5.WriteRam | GameBoy/src/Cartridge/MBC5.cpp:117-123 | RAM writes are dropped unless present and enabled, and otherwise change exactly one byte of the selected bank |
| Mbc5.WriteThenRead | GameBoy/src/Cartridge/MBC5.cpp:107-123 | a byte written to enabled RAM reads back; otherwise reads stay 0xFF |
| Mbc5.SelectBank | GameBoy/src/Cartridge/MBC5.cpp:88-100 | writing a low byte to 0x2000 and a high register to 0x3000 shows the bank their 9-bit number names, modulo the count |
| Mbc5.BankZeroSelectable | GameBoy/src/Cartridge/MBC5.cpp:88-100 | unlike MBC1 and MBC3, writing 0 shows bank 0 itself at 0x4000-0x7FFF |
| Mbc1Flat.AsWrittenResetShowsBank33 | src/Cartridge/MBC1.cpp:53-59 | as written, right after reset a 64-bank ROM shows bank 33 in the switchable window instead of bank 1 |
| Apu.WatchedBit | GameBoy/src/APU.cpp:23 | The DIV bit watched for APU-DIV events is bit 4 at normal speed and bit 5 in double speed. |
| Apu.FallingEdgeCadence | GameBoy/src/APU.cpp:21-29 | A falling edge of the watched bit happens exactly when DIV reaches a multiple of 32 at normal speed, or of 64 in double speed. |
| Apu.ClockDiv | GameBoy/src/APU.cpp:14-31 | The sub-counter counts calls; on the 64th, DIV steps and the counter restarts; channel 2 gets an APU-DIV event exactly on a falling edge of the watched bit, and otherwise is untouched. |
| Apu.ResetDiv | GameBoy/src/APU.cpp:33-42 | A DIV write zeroes DIV and its sub-counter; channel 2 sees one APU-DIV event iff the watched bit was set before the write. |
| Apu.Read | GameBoy/src/APU.cpp:44-53 | Reads of 0x16-0x19 are channel 2's reads; every other APU address reads 0xFF. |
| Apu.Write | GameBoy/src/APU.cpp:55-65 | Writes to 0x16-0x19 go to channel 2; every other write leaves the APU unchanged. |
| Apu.UnroutedWritesInert | GameBoy/src/APU.cpp:44-65 | A write outside channel 2's registers changes no read at any address. |
| Apu.VariableSpeedDiv | GameBoy/src/GameBoy_Clocks.cpp:66-92 | Per variable-speed tick, DIV is clocked twice when no speed switch is counting down and once while one is, as written; corrected, once when none counts down and not at all otherwise. |
| Apu.TicksBelow | GameBoy/src/GameBoy_Clocks.cpp:66-92 | Until the sub-counter reaches 64, `n` ticks leave DIV alone and add `2n` (as written) or `n` (corrected) to the sub-counter. |
| Apu.CorrectedDivEvery64 | GameBoy/src/GameBoy_Clocks.cpp:83-92 | With the single DIV clock, DIV steps after exactly 64 ticks and its sub-counter restarts. |
| Apu.AsWrittenDivEvery32 | GameBoy/src/GameBoy_Clocks.cpp:83-92 | With both DIV clocks, DIV already steps after 32 ticks: twice the intended rate. |
| Envelope.Load | GameBoy/src/Channel1.cpp:202-206 | A trigger's envelope takes its starting volume from NRx2 bits 4-7, its direction from bit 3 and its pace from bits 0-2 (together they rebuild NRx2), with a restarted divider, and satisfies the envelope invariant. |
| Envelope.DacOnMeaning | GameBoy/src/Channel1.cpp:206 | The DAC test on NRx2 bits 3-7 holds exactly when the starting volume is non-zero or the envelope increases. |
| Envelope.StepVolume | GameBoy/src/Channel1.cpp:51-58 | One volume step goes up by one below 15, down by one above 0, and otherwise leaves the volume as it is. |
| Envelope.Clock | GameBoy/src/Channel1.cpp:38-60 | With pace 0 an envelope tick changes nothing; otherwise the divider counts up and, when it reaches the pace, restarts while the volume takes one step. |
| Envelope.ClockKeepsInv | GameBoy/src/Channel1.cpp:38-60 | An envelope tick keeps the volume in 0..15 and the divider below a non-zero pace. |
| Envelope.ClockNCounts | GameBoy/src/Channel1.cpp:38-60 | Fewer ticks than are left to the pace only advance the divider and leave the volume alone. |
| Envelope.StepsEveryPace | GameBoy/src/Channel1.cpp:38-60 | From a restarted divider, exactly `pace` ticks move the volume one step and restart the divider: the volume changes once every `pace` ticks. |
| Envelope.ClimbToPace | GameBoy/src/Channel1.cpp:45-49 | Ticks bring the divider up to one below the pace, and the next tick is the one that steps the volume. |
| Envelope.VolumeStaysInRange | GameBoy/src/Channel1.cpp:38-60 | However many envelope ticks pass, the volume stays a 4-bit value. |
| LengthTimer.Clock | GameBoy/src/Channel1.cpp:62-75 | A length tick is inert once expired; otherwise the counter, wrapping at the field's width, counts up and the timer expires exactly when it reaches the limit. |
| LengthTimer.ClockKeepsInv | GameBoy/src/Channel1.cpp:62-75 | A length tick keeps the counter at or below the limit and expired exactly at the limit. |
| LengthTimer.ExpiresAtLimit | GameBoy/src/Channel1.cpp:62-75 | From counter `k`, the timer is still running after fewer than `limit - k` ticks and has expired after exactly `limit - k`. |
| LengthTimer.ExpiredStays | GameBoy/src/Channel1.cpp:64-67 | An expired timer stays expired, with its counter unchanged, however many ticks follow. |
| Channel1.GetPeriod | GameBoy/src/include/Channel1.hpp:30 | The period is an 11-bit value with NR13 as its low byte and NR14 bits 0-2 as its high bits. |
| Channel1.SetPeriod | GameBoy/src/Channel1.cpp:213-217 | Storing a period puts bits 0-7 in NR13 and bits 8-10 in NR14 bits 0-2, keeping NR14 bits 3-7. |
| Channel1.PeriodRoundTrip | GameBoy/src/Channel1.cpp:213-217 | Every 11-bit period stored with SetPeriod reads back unchanged with GetPeriod. |
| Channel1.LengthLoad | GameBoy/src/include/Channel1.hpp:31 | The length counter loads NR11 bits 0-5, a value below 64. |
| Channel1.SweepPaceOf | GameBoy/src/include/Channel1.hpp:26 | The sweep pace is NR10 bits 4-6, a value below 8. |
| Channel1.SweepSlope | GameBoy/src/include/Channel1.hpp:28 | The sweep shift is NR10 bits 0-2, a value below 8. |
| Channel1.DutyLevel | GameBoy/src/include/Channel1.hpp:37-43 | Each duty-table entry is +1 (high) or -1 (low). |
| Channel1.LowSteps | GameBoy/src/include/Channel1.hpp:37-43 | Counts the low entries among the first `n` steps of a duty row; the count never exceeds `n`. |
| Channel1.DutyRows | GameBoy/src/include/Channel1.hpp:37-43 | The four rows are low on 1, 2, 4 and 6 of their 8 steps: duty cycles of 12.5%, 25%, 50% and 75%. |
| Channel1.PowerOn | GameBoy/src/Channel1.cpp:3-25 | Power-on sets NR10-NR14 to 0x80, 0xBF, 0xF3, 0xFF, 0xBF when the boot ROM is skipped and to zero otherwise; the duty step is 0, the DAC off, the channel untriggered. |
| Channel1.Clock | GameBoy/src/Channel1.cpp:27-36 | A period tick counts the divider up; at 0x800 the divider reloads with the period and the duty step advances modulo 8; the invariant is kept. |
| Channel1.ClockNCounts | GameBoy/src/Channel1.cpp:27-36 | Ticks that keep the divider below 0x800 only count it up and leave the duty step alone. |
| Channel1.OneStepPerPeriod | GameBoy/src/Channel1.cpp:27-36 | From a freshly reloaded divider, exactly `0x800 - period` ticks advance the duty step once and reload the divider: one duty step per period. |
| Channel1.ClimbToTop | GameBoy/src/Channel1.cpp:29-31 | Ticks take a divider `m` below 0x800 up to 0x7FF without stepping the duty, and the following tick is the reloading one. |
| Channel1.ReloadAtTop | GameBoy/src/Channel1.cpp:31-35 | The tick from 0x7FF reloads the period into the divider and advances the duty step modulo 8. |
| Channel1.ClockEnvelope | GameBoy/src/Channel1.cpp:38-60 | An envelope tick of the channel is the envelope's own tick and changes nothing else. |
| Channel1.ClockLengthTimer | GameBoy/src/Channel1.cpp:62-75 | With length disabled the tick changes nothing; otherwise the length timer ticks toward 64 and nothing else changes. |
| Channel1.TicksKeepInv | GameBoy/src/Channel1.cpp:38-75 | Envelope and length ticks keep the channel invariant. |
| Channel1.ShiftRight | GameBoy/src/Channel1.cpp:90 | Shifting the period right never increases it, and shifting a positive period by a positive amount strictly decreases it. |
| Channel1.SweepTarget | GameBoy/src/Channel1.cpp:89-109 | The new period is the old plus (addition mode) or minus (subtraction mode) the old shifted right by the slope. |
| Channel1.SweepStep | GameBoy/src/Channel1.cpp:92-109 | A sweep step whose target exceeds 0x7FF sets the overflow flag and keeps the period; otherwise it stores the target as the period. |
| Channel1.ReloadPace | GameBoy/src/Channel1.cpp:111-114 | A pending reload replaces the sweep pace with NR10 bits 4-6; without one the pace stays. |
| Channel1.ClockFrequencySweep | GameBoy/src/Channel1.cpp:77-116 | A sweep tick is inert after an overflow or with pace 0; otherwise the divider counts and, on reaching the pace, restarts, the sweep step runs and a pending pace reload happens. |
| Channel1.SweepFrame | GameBoy/src/Channel1.cpp:77-116 | A sweep tick changes only the sweep state and the period bits of NR13/NR14, and keeps the invariant. |
| Channel1.SweepMovesPeriod | GameBoy/src/Channel1.cpp:86-109 | When the sweep fires, it either overflows with the period unchanged or moves the period up or down by the shifted period according to NR10 bit 3. |
| Channel1.OverflowIsSticky | GameBoy/src/Channel1.cpp:77-82 | After an overflow every further sweep tick leaves the channel unchanged, and the channel is disabled. |
| Channel1.SlopeZeroDoublesPeriod | GameBoy/src/Channel1.cpp:89-99 | With slope 0 in addition mode, any period of 0x400 or more overflows at the first sweep step. |
| Channel1.Read | GameBoy/src/Channel1.cpp:129-148 | NR10 reads with bit 7 set, NR11 with bits 0-5 set, NR12 as written, NR13 as 0xFF, NR14 as bit 6 with the rest set; other addresses read 0xFF. |
| Channel1.Trigger | GameBoy/src/Channel1.cpp:192-211 | A trigger restarts the sweep with NR10's pace and no overflow, reloads and restarts the length timer, loads the envelope from NR12, turns the DAC on iff NR12 bits 3-7 are not all 0, reloads the period divider, and marks the channel triggered. |
| Channel1.Write | GameBoy/src/Channel1.cpp:150-190 | An NR10 write with a non-zero pace defers the new pace to the next sweep step, with pace 0 applies it at once; NR11 reloads the length counter; NR14 with bit 7 set triggers; other addresses change nothing. |
| Channel1.WriteKeepsInv | GameBoy/src/Channel1.cpp:150-211 | Every register write, including one that triggers, keeps the channel invariant. |
| Channel1.WriteThenRead | GameBoy/src/Channel1.cpp:129-190 | A value written to NR10, NR11, NR12 or NR14 reads back with exactly its readable bits, the write-only bits reading as 1. |
| Channel1.StoredRegister | GameBoy/src/Channel1.cpp:150-190 | A write to NR10, NR11, NR12 or NR14 leaves the written byte in that register. |
| Channel1.Level | GameBoy/src/Channel1.cpp:118-127 | The integer part of a sample is 0 while the DAC is off or the channel untriggered; otherwise it is the volume times the duty level, with the volume zeroed by a sweep overflow or an expired length timer. |
| Channel2.LowSteps | GameBoy/src/Channel2.cpp:3-8 | Counts the low entries among the first `n` steps of a duty row; the count never exceeds `n`. |
| Channel2.DutyRows | GameBoy/src/Channel2.cpp:3-8 | The four duty rows are low on 1, 2, 4 and 6 of their 8 steps. |
| Channel2.PeriodOf | GameBoy/src/include/Channel2.hpp:29 | The period is below 0x800, with NR23 as its low byte and NR24 bits 0-2 as its high bits. |
| Channel2.LengthOf | GameBoy/src/include/Channel2.hpp:30 | The length loaded from NR21 is below 64. |
| Channel2.NextStep | GameBoy/src/Channel2.cpp:16 | The next duty step: as written `(i + 1) & 3`, staying in 0..3; corrected `(i + 1) mod 8`. |
| Channel2.Clock | GameBoy/src/Channel2.cpp:10-19 | A clock counts the divider up; at 0x800 it reloads with the period and the duty step advances. |
| Channel2.ClockKeepsInv | GameBoy/src/Channel2.cpp:10-19 | A clock keeps divider and period below 0x800 and the duty step in range. |
| Channel2.ClocksCount | GameBoy/src/Channel2.cpp:10-19 | Clocks that keep the divider below 0x800 only count it up. |
| Channel2.OneStepPerPeriod | GameBoy/src/Channel2.cpp:10-19 | From a freshly reloaded divider, `0x800 - period` clocks advance the duty step exactly once and reload the divider. |
| Channel2.CorrectedVisitsEveryStep | GameBoy/src/Channel2.cpp:16 | Corrected, `k` advances from step 0 land on step `k mod 8`, so every step of a row is reached. |
| Channel2.CorrectedDutyGoesLow | GameBoy/src/Channel2.cpp:3-19 | Corrected, every duty row has a low step that the advancing steps reach. |
| Channel2.AsWrittenDutyStaysHigh | GameBoy/src/Channel2.cpp:3-19 | As written, the step never leaves 0..3, where rows 0, 1 and 2 are high throughout, so those duty settings give a constant level. |
| Channel2.ApuDiv | GameBoy/src/Channel2.cpp:21-69 | An APU-DIV event ticks the length timer every second event (at 64 it reloads from NR21 and expires if length is enabled) and the envelope every eighth; nothing else changes. |
| Channel2.EnvelopeVolume | GameBoy/src/Channel2.cpp:46-67 | An envelope step moves the volume by the whole pace, up saturating at 15 or down flooring at 0. |
| Channel2.ApuDivKeepsInv | GameBoy/src/Channel2.cpp:21-69 | An APU-DIV event keeps the channel invariant. |
| Channel2.LengthTick | GameBoy/src/Channel2.cpp:21-40 | the length divider halves the APU-DIV rate; every second event the timer counts up, at 64 it reloads from NR21, and the channel expires exactly then with length enabled (or was already expired); nothing else changes |
| Channel2.ExpiredStays | GameBoy/src/Channel2.cpp:21-40 | once expired the channel stays expired under any number of length steps |
| Channel2.LengthExpiresAfter | GameBoy/src/Channel2.cpp:21-40 | with length enabled and the divider just reset, a timer at t expires after exactly 2(64 - t) APU-DIV events and not before |
| Channel2.EnvelopeTick | GameBoy/src/Channel2.cpp:42-67 | every eighth APU-DIV event the volume moves by the pace, up saturating at 15 or down stopping at 0; otherwise only the divider counts; the volume stays within 0-15 and nothing else changes |
| Channel2.Sample | GameBoy/src/Channel2.cpp:71-79 | The sample is the volume exactly when the DAC is on, length has not expired and the duty step is high, and 0 otherwise. |
| Channel2.TriggerVolume | GameBoy/src/Channel2.cpp:148 | As written the trigger volume is NR22 & 0xF0; corrected it is NR22 bits 4-7, at most 15. |
| Channel2.Trigger | GameBoy/src/Channel2.cpp:139-156 | A trigger reloads duty, length and envelope from the registers, restarts the step and the dividers, turns the DAC on iff volume or direction bit is non-zero, and reloads the period divider. |
| Channel2.Read | GameBoy/src/Channel2.cpp:91-106 | NR21 reads its duty bits with bits 0-5 set, NR22 as written, NR23 as 0xFF, NR24 as bit 6 with the rest set; other addresses read 0xFF. |
| Channel2.Write | GameBoy/src/Channel2.cpp:108-137 | NR21 sets duty and length, NR22 is stored, NR23 and NR24 set the period, and an NR24 write with bit 7 set triggers. |
| Channel2.WriteThenRead | GameBoy/src/Channel2.cpp:91-137 | A value written to NR21, NR22 or NR24 reads back with exactly its readable bits. |
| Channel2.Reset | GameBoy/src/Channel2.cpp:81-89 | Reset sets NR21-NR24 to 0x3F, 0x00, 0xFF, 0xBF and turns the DAC off. |
| Channel2.AsWrittenVolumeOutOfRange | GameBoy/src/Channel2.cpp:139-156 | As written, a trigger with NR22 = 0xF0 loads volume 0xF0 and the first sample is 0xF0, outside the 4-bit range. |
| Channel2.CorrectedSampleInRange | GameBoy/src/Channel2.cpp:71-79 | Corrected, every sample of a reachable state is at most 15. |
| Channel3.GetPeriod | GameBoy/src/include/Channel3.hpp:27 | The period is below 0x800, with NR33 as its low byte and NR34 bits 0-2 as its high bits. |
| Channel3.OutputLevel | GameBoy/src/include/Channel3.hpp:26 | The output level is NR32 bits 5-6, a value in 0..3. |
| Channel3.PowerOn | GameBoy/src/Channel3.cpp:6-28 | Power-on sets NR30-NR34 to 0x7F, 0xFF, 0x9F, 0xFF, 0xBF when the boot ROM is skipped and to zero otherwise; sample index 0, last sample silent, untriggered. |
| Channel3.Tick | GameBoy/src/Channel3.cpp:34-42 | A divider tick counts up; at 0x800 the divider reloads with the period, the sample index advances modulo 32 and the playback delay ends. |
| Channel3.Clock | GameBoy/src/Channel3.cpp:30-95 | A channel clock is two divider ticks followed by a sample: silent and remembering nothing with the DAC off or untriggered, the previous sample while playback is delayed, otherwise the scaled wave sample at the new index, which becomes the last sample; the index moves by at most two places and only the divider, index, delay and last sample change. |
| Channel3.TickNCounts | GameBoy/src/Channel3.cpp:34-42 | Ticks that keep the divider below 0x800 only count it up. |
| Channel3.ClimbToTop | GameBoy/src/Channel3.cpp:34-42 | Ticks take the divider up to 0x7FF without moving the sample index, and the next tick reloads. |
| Channel3.OneSamplePerPeriod | GameBoy/src/Channel3.cpp:34-42 | From a freshly reloaded divider, `0x800 - period` ticks advance the sample index exactly once, end the delay and reload the divider. |
| Channel3.ClockLengthTimer | GameBoy/src/Channel3.cpp:48-61 | A length tick is inert once expired or with length disabled; otherwise the counter ticks toward 256. |
| Channel3.ClockLengthNIsTimer | GameBoy/src/Channel3.cpp:48-61 | With length enabled, the channel's length ticks are exactly the length timer's own ticks with limit 256. |
| Channel3.LengthRunsOut | GameBoy/src/Channel3.cpp:48-61 | Loaded with NR31 = k and length enabled, the channel keeps playing for 255 - k length ticks and is disabled after 256 - k. |
| Channel3.WaveReadIndex | GameBoy/src/Channel3.cpp:111-125 | While the channel plays, every wave address reads the pair holding the current sample; otherwise the pair the address names. |
| Channel3.Read | GameBoy/src/Channel3.cpp:97-131 | Register reads set the write-only bits; wave-RAM reads join two 4-bit samples into a byte; other addresses read 0xFF. |
| Channel3.Trigger | GameBoy/src/Channel3.cpp:181-192 | A trigger restarts the sample index at 0 with playback delayed, reloads the length counter from NR31 and clears expiry, reloads the period divider, and marks the channel triggered. |
| Channel3.WriteWave | GameBoy/src/Channel3.cpp:159-165 | A wave write stores the high nibble at sample 2k and the low nibble at 2k + 1 and leaves every other sample. |
| Channel3.Write | GameBoy/src/Channel3.cpp:133-169 | Register writes are stored; NR31 also reloads the length counter; NR34 with bit 7 set triggers; wave addresses write wave RAM. |
| Channel3.WaveRoundTrip | GameBoy/src/Channel3.cpp:111-165 | While the channel is silent, a wave byte written reads back unchanged. |
| Channel3.WaveWriteFrame | GameBoy/src/Channel3.cpp:159-165 | While the channel is silent, a wave write leaves every other wave byte as it was. |
| Channel3.PlayingReadsCurrentByte | GameBoy/src/Channel3.cpp:115-118 | While the channel plays, every wave address reads the same byte: the one holding the current sample. |
| Channel3.WriteThenRead | GameBoy/src/Channel3.cpp:97-158 | A value written to NR30, NR32 or NR34 reads back with its write-only bits set; NR31 and NR33 read back as 0xFF. |
| Channel3.Scale | GameBoy/src/Channel3.cpp:76-91 | A sample scaled by output level 0, 1, 2 or 3 is muted, unchanged, halved or quartered. |
| Channel3.ScaleOrdered | GameBoy/src/Channel3.cpp:76-91 | Each higher output level gives a sample no louder than the level before it. |
| Channel3.GetSample | GameBoy/src/Channel3.cpp:63-95 | The sample is silent with the DAC off or untriggered, the previous sample while playback is delayed, and otherwise the scaled wave sample (0 once length has expired), which becomes the new last sample. |
| Channel3.TriggerHoldsLastSample | GameBoy/src/Channel3.cpp:63-72 | After a trigger and until the divider reloads, every sample is the last one produced, and reading it changes nothing. |
| Channel3.ClockThenTrigger | GameBoy/src/Channel3.cpp:30-192 | a retrigger right after a clock that played a sample repeats that same sample |
| Channel4.Period | GameBoy/src/Channel4.cpp:3-9 | The clocks between LFSR steps number between 1 and 0x10000: the divider, or a full wrap of the 16-bit counter when the divider is 0. |
| Channel4.StepIsShift | GameBoy/src/Channel4.cpp:11-22 | One LFSR step is the register shifted right by one, with bit 14 (and bit 6 in short mode) replaced by the feedback and bit 15 clear. |
| Channel4.FeedbackBits | GameBoy/src/Channel4.cpp:11-22 | After a step bit 15 is clear and bit 14 (and bit 6 in short mode) is 1 iff the two low bits were equal. |
| Channel4.ZeroFillsFromTop | GameBoy/src/Channel4.cpp:11-22 | From the zero a trigger loads, each step feeds in a 1 at the top. |
| Channel4.Clock | GameBoy/src/Channel4.cpp:3-24 | A clock advances the 16-bit counter; on reaching the divider the counter restarts and the LFSR steps; otherwise the LFSR is unchanged. |
| Channel4.ClockNCounts | GameBoy/src/Channel4.cpp:3-24 | Clocks below the period only count. |
| Channel4.StepAtTop | GameBoy/src/Channel4.cpp:7-23 | The clock that brings the counter to the end of the period steps the LFSR. |
| Channel4.OneStepPerPeriod | GameBoy/src/Channel4.cpp:3-24 | From a restarted counter, exactly `Period` clocks step the LFSR once and restart the counter. |
| Channel4.ShortModeOf | GameBoy/src/Channel4.cpp:153 | As written short mode is taken when NR43 bit 3 is clear; corrected, when it is set, as the header's accessor reads it. |
| Channel4.AsWrittenWidthInverted | GameBoy/src/Channel4.cpp:153 | As written, for every NR43 the width is the opposite of the header's reading: bit 3 set runs the 15-bit register. |
| Channel4.Reset | GameBoy/src/Channel4.cpp:123-130 | Reset zeroes NR41-NR44 and turns the DAC off. |
| Channel4.ClockEnvelope | GameBoy/src/Channel4.cpp:26-48 | An envelope tick of the channel is the envelope's own tick and changes nothing else. |
| Channel4.ClockEnvelopeKeepsInv | GameBoy/src/Channel4.cpp:26-48 | An envelope tick keeps the channel invariant. |
| Channel4.ClockLengthTimer | GameBoy/src/Channel4.cpp:50-63 | A length tick is inert once expired; otherwise the counter ticks toward 64 whether or not length is enabled. |
| Channel4.Read | GameBoy/src/Channel4.cpp:75-92 | NR41 reads 0xFF, NR42 and NR43 as written, NR44 as bit 6 with the rest set; other addresses read 0xFF. |
| Channel4.Trigger | GameBoy/src/Channel4.cpp:132-145 | A trigger reloads and restarts the length timer, loads the envelope from NR42, turns the DAC on iff NR42 bits 3-7 are not all 0, takes the width from NR43, restarts the counter and clears the LFSR. |
| Channel4.Write | GameBoy/src/Channel4.cpp:94-121 | Register writes are stored; NR41 also reloads the length counter; NR43 leaves the divider alone; NR44 with bit 7 set triggers. |
| Channel4.WriteThenRead | GameBoy/src/Channel4.cpp:75-121 | A value written to NR42, NR43 or NR44 reads back with exactly its readable bits. |
| Channel4.Level | GameBoy/src/Channel4.cpp:65-73 | The integer part of a sample is 0 with the DAC off; otherwise the volume, zeroed by an expired timer while length is enabled, times LFSR bit 0. |
| Channel4.AsWrittenOffWhileSounding | GameBoy/src/include/Channel4.hpp:15 | As written, with length disabled one length tick from 63 makes the channel report itself off while its output is still full volume. |
| Channel4.CorrectedOffMeansSilent | GameBoy/src/include/Channel4.hpp:15 | Corrected, a channel reporting itself off outputs silence or 0, and one reporting itself on outputs its volume whenever LFSR bit 0 is 1. |
| Channel4.CorrectedWidthBitSelectsShort | GameBoy/src/include/Channel4.hpp:30 | Corrected, a trigger with NR43 bit 3 set runs the 7-bit register: each step feeds bit 6 as well as bit 14. |
| ConfigSection.ReadAll | GUI/config/config.py:91-103 | Reading a section back succeeds exactly when every option's text parses, and then gives each option its parsed value under the same names. |
| ConfigSection.ReadAllOf | GUI/config/config.py:91-103 | A section whose every option reads as the value a map gives under the same name reads back as exactly that map. |
| ConfigSection.ReadAllUpdate | GUI/config/config.py:106-115 | Setting one option to text that parses changes only that option in what is read back. |
| ConfigSection.Remove | GUI/config/config.py:326-327 | Removing an option leaves every other option and is a no-op when the option is absent. |
| ConfigSection.ReadAllRemove | GUI/config/config.py:318-329 | Removing an option removes exactly that entry from what is read back. |
| ConfigSection.Put | GUI/config/config.py:114 | Setting an option adds its name, stores the text under it and leaves every other option. |
| PyInt.DigitValue | GUI/config/config.py:101 | A digit or letter has a value below 36 and is never whitespace, an underscore or a sign. |
| PyInt.Digit | GUI/config/config.py:101 | A character is a digit of the base exactly when its value is below the base. |
| PyInt.StripLeft | GUI/config/config.py:101 | Stripping on the left leaves a suffix that starts with no whitespace. |
| PyInt.StripRight | GUI/config/config.py:101 | Stripping on the right leaves a prefix that ends with no whitespace. |
| PyInt.Run | GUI/config/config.py:101 | A digit run that reads is non-empty and begins and ends with a digit of the base, so no underscore leads or trails. |
| PyInt.DigitsRun | GUI/config/config.py:101-114 | The decimal digits of a natural number read back as that number. |
| PyInt.StripNothing | GUI/config/config.py:101 | Text with no whitespace at either end is unchanged by stripping. |
| PyInt.DecimalDigit | GUI/config/config.py:114 | The character written for a decimal digit reads back as that digit. |
| PyInt.Digits | GUI/config/config.py:114 | The decimal text of a natural number is non-empty, all digits, and has no leading zero. |
| PyInt.Decimal | GUI/config/config.py:114 | The text `str` writes for an integer is non-empty, starts with '-' exactly for negatives, and neither starts nor ends with whitespace or an underscore. |
| PyInt.DecimalRoundTrip | GUI/config/config.py:101-114 | The text `str` writes for any integer is read back by `int` as the same integer. |
| PyInt.LeadingSpace | GUI/config/config.py:101 | Whitespace in front of the text does not change what `int` reads. |
| PyInt.TrailingSpace | GUI/config/config.py:101 | Whitespace after the text does not change what `int` reads. |
| PyInt.StripLeftAppend | GUI/config/config.py:101 | Stripping on the left commutes with appending whitespace, unless the text is all whitespace. |
| PyInt.PlusSign | GUI/config/config.py:101 | A plus sign in front of a number's digits is accepted. |
| PyInt.PlusRun | GUI/config/config.py:101 | A plus sign in front of any valid decimal run is accepted and reads the run's value. |
| PyInt.Underscore | GUI/config/config.py:101 | An underscore between two digits is accepted and ignored. |
| PyInt.UnderscoreRun | GUI/config/config.py:101 | An underscore between a valid decimal run and one more digit is accepted and ignored. |
| PyInt.ParseRun | GUI/config/config.py:101 | A bare digit run that does not start like a `0x` prefix reads as its value. |
| PyInt.ParseSign | GUI/config/config.py:101 | `int(text)` refuses text that is empty or only white space, and a negative result comes only from text whose stripped form starts with '-'; with PyInt.ParseRun, LeadingSpace and TrailingSpace it reads digit runs surrounded by white space as their value |
| PyInt.HexDigit | GUI/config/config.py:311 | Each value below 16 is written as a lower-case digit that reads back as that value. |
| PyInt.HexPair | GUI/config/config.py:290-311 | Two zero-padded hexadecimal digits read back as the byte they write. |
| PyInt.NegativeHex | GUI/config/config.py:290-292 | A minus sign in front of a hexadecimal digit is accepted, as in `int("-f", 16)`. |
| PyInt.PrefixedHex | GUI/config/config.py:290-292 | In base 16 a `0x` or `0X` prefix is accepted, with or without one underscore after it. |
| PyInt.BarePrefix | GUI/config/config.py:290-292 | A prefix with no digits after it does not read. |
| PyInt.DoubleUnderscore | GUI/config/config.py:101 | Two underscores in a row anywhere make the run invalid. |
| PyInt.TrailingUnderscore | GUI/config/config.py:101 | A run ending in an underscore is invalid. |
| Bindings.StoreInts | GUI/config/config.py:114 | A section stored from integer values has exactly their option names. |
| Bindings.StoreIntsRoundTrip | GUI/config/config.py:91-115 | A section stored from integers reads back as exactly those integers. |
| Bindings.KeyboardBindings | GUI/config/config.py:91-103 | The keyboard bindings read back under the stored button names, each code as Python's `int` reads it, or fail when a stored code is not an integer. |
| Bindings.SetKeyboard | GUI/config/config.py:106-115 | Binding a key stores its code under the button, leaves the gamepad bindings and every other keyboard binding unchanged. |
| Bindings.SetGamepad | GUI/config/config.py:133-142 | Binding a gamepad input stores the name under the button, leaving the keyboard bindings and every other gamepad binding unchanged. |
| Bindings.SetKeyboardThenGet | GUI/config/config.py:91-115 | After binding a key, the keyboard bindings read back with that button's code replaced and everything else as before; the gamepad bindings are unchanged. |
| Bindings.RestoreDefaults | GUI/config/config.py:80-88 | Restoring replaces the gamepad section with the default map and the keyboard section with one holding exactly the default buttons. |
| Bindings.RestoreDefaultsThenGet | GUI/config/config.py:80-103 | After restoring, both bindings read back as the default maps, whatever they were before. |
| ColorSchemes.Hex2 | GUI/config/config.py:311 | The `02x` text of a component is two characters without a space. |
| ColorSchemes.Hex2RoundTrip | GUI/config/config.py:290-311 | The `02x` text of a component reads back with `int(_, 16)` as the component. |
| ColorSchemes.Slice | GUI/config/config.py:290-292 | A slice is at most `j - i` long and, within bounds, is the ordinary subsequence, as Python slicing clamps. |
| ColorSchemes.Word | GUI/config/config.py:311 | A colour word is six characters without a space. |
| ColorSchemes.Split | GUI/config/config.py:289 | Splitting at single spaces gives at least one piece and no piece contains a space. |
| ColorSchemes.SplitWord | GUI/config/config.py:289 | Text without a space splits into itself alone. |
| ColorSchemes.SplitJoin | GUI/config/config.py:289 | A space-free word, a space and the rest split into that word followed by the rest's pieces. |
| ColorSchemes.DecodeWord | GUI/config/config.py:290-292 | A word that decodes gives exactly three components. |
| ColorSchemes.DecodeWords | GUI/config/config.py:289-292 | Words that all read as three components give three components per word. |
| ColorSchemes.Decode | GUI/config/config.py:286-294 | A stored scheme that decodes gives three components per space-separated word. |
| ColorSchemes.WordRoundTrip | GUI/config/config.py:290-311 | Every colour word written from three components decodes to those components. |
| ColorSchemes.EncodeRoundTrip | GUI/config/config.py:276-315 | Every stored scheme reads back as exactly the twelve components it was stored from. |
| ColorSchemes.DecodeFourWords | GUI/config/config.py:289-292 | Four words that each read as three components decode to their components in order. |
| ColorSchemes.Add | GUI/config/config.py:299-315 | Adding a scheme stores it under its name, leaves every other scheme, and the stored text decodes, with Python's `int(_, 16)`, to the first twelve components. |
| ColorSchemes.Delete | GUI/config/config.py:318-329 | Deleting removes exactly the named scheme and is a no-op when it is absent. |
| ColorSchemes.GetAll | GUI/config/config.py:276-296 | Reading all schemes succeeds exactly when every stored text decodes with Python's `int(_, 16)` on each two-character slice, and then gives each name its components. |
| ColorSchemes.AddThenGetAll | GUI/config/config.py:276-315 | Adding a scheme and reading all back gives the previous schemes with this one added or replaced. |
| ColorSchemes.DeleteThenGetAll | GUI/config/config.py:276-329 | Deleting a scheme and reading all back gives the previous schemes without it. |
| Gamepad.Step | GUI/controller/controller.py:45-139 | One event writes exactly the entries its code drives and leaves every other entry as it was. |
| Gamepad.ClassifyCovers | GUI/controller/controller.py:45-139 | Every event code drives only entries of the gamepad state, and an ignored code is exactly one outside the codes handled. |
| Gamepad.StepKeepsKeys | GUI/controller/controller.py:45-139 | An event keeps the gamepad state's set of entries. |
| Gamepad.UnknownCodeUnchanged | GUI/controller/controller.py:45-139 | An unhandled event code leaves the gamepad state unchanged. |
| Gamepad.StickThreshold | GUI/controller/controller.py:46-93 | A stick reading turns the positive direction on from 1639 up and the negative from -1639 down (beyond 0.05 of full scale), never both. |
| Gamepad.HatDirections | GUI/controller/controller.py:120-139 | A hat value +1 sets the positive direction alone, -1 the negative alone, anything else clears both. |
| Gamepad.HatOrientation | GUI/controller/controller.py:120-139 | The vertical hat drives down on +1 and up on -1; the horizontal hat right on +1 and left on -1. |
| Gamepad.OppositesExclusive | GUI/controller/controller.py:46-139 | After any stick or hat event the two opposite directions are never both on. |
| Gamepad.TriggerThreshold | GUI/controller/controller.py:94-99 | A trigger reads 1 from 8 up (above 0.03 of full scale) and 0 below. |
| Gamepad.SelectStartSwapped | GUI/controller/controller.py:116-119 | The select button's event writes the "start" entry and the start button's writes "select", each copying the event value. |
| MainWindow.Merge | GUI/qt/main_window.py:182-196 | The joypad exists exactly when the keyboard bindings read back and, for every button, its key is bound and either held or its gamepad binding and input exist: the `or` stops at a held key. |
| MainWindow.MergeButtons | GUI/qt/main_window.py:186-195 | Each of the eight buttons is pressed exactly when its bound key is held or its bound gamepad input is present and non-zero. |
| MainWindow.ButtonField | GUI/qt/main_window.py:186-195 | Each button can be read without a missing binding, and its field of the merged joypad is that button's pressed state. |
| MainWindow.AllKeysHeld | GUI/qt/main_window.py:182-196 | With every button's key bound and held the joypad exists with every button pressed, whatever the gamepad bindings and state, since the `or` never reaches them. |
| MainWindow.DefaultsFollowKeyboard | GUI/qt/main_window.py:182-196 | With the default bindings and an idle gamepad, each button is pressed exactly when its default key is held. |
| MainWindow.KeyPress | GUI/qt/main_window.py:407-412 | A key press adds its code to the held set and changes nothing else; an event without a key changes nothing. |
| MainWindow.KeyRelease | GUI/qt/main_window.py:415-420 | A key release removes its code and nothing else; releasing a key not held changes nothing. |
| MainWindow.PressThenRelease | GUI/qt/main_window.py:407-420 | A press and the matching release leave the held set without that key, and as it was if the key was not held. |
| MainWindow.Inserted | GUI/qt/main_window.py:299-308 | A game is loaded exactly when the inserted cartridge gave a non-empty title, power-on happens exactly then, and a failure reverts the title to "Game Boy". |
| MainWindow.LoadRecent | GUI/qt/main_window.py:378-394 | Loading a recent ROM first moves its path to the front of the recent list and then inserts the cartridge; it raises exactly when the configuration refuses the path, and then the slots have moved but the game, title and power state are untouched. |
| MainWindow.AsWrittenPercentRecentNotLoaded | GUI/qt/main_window.py:380-384 | As written, picking a new file name with a lone '%' from the menu raises before the insert, leaving the previous game as it was and the old front entry shown twice. |
| MainWindow.LoadFromDialog | GUI/qt/main_window.py:284-309 | A cancelled dialog changes nothing; as written a chosen path raises with nothing changed; corrected, a chosen path becomes the last ROM path, goes to the front of the recent list, and the cartridge is inserted. |
| MainWindow.AsWrittenDialogNeverLoads | GUI/qt/main_window.py:294-295 | As written, no ROM chosen in the dialog is ever inserted and the recent list never changes. |
| MainWindow.CorrectedDialogLoads | GUI/qt/main_window.py:294-309 | Corrected, choosing a valid cartridge loads the game and puts its path first in the recent list. |
| MainWindow.FailedInsertReverts | GUI/qt/main_window.py:299-306 | A failed insert, by either route, leaves no game loaded, the title "Game Boy" and no power-on. |
| MainWindow.SlotLabels | GUI/qt/main_window.py:235-256 | With no game loaded every save and load label reads "Empty"; otherwise each shows its slot file's time stamp or "Empty". |
| MainWindow.SaveStateFile | GUI/qt/main_window.py:320-330 | A save-slot action names a file exactly when a game is loaded. |
| MainWindow.LoadStateFile | GUI/qt/main_window.py:333-341 | A load-slot action names a file exactly when a game is loaded. |
| MainWindow.SlotActionsUseSlotFile | GUI/qt/main_window.py:320-341 | The character each action picks from its own label is the slot digit, so slot n's save and load both use `<title>.s<n>`, and nothing with no game loaded. |
| RecentRoms.Visible | GUI/config/config.py:249-264 | The recent list is a prefix of the slots, all non-empty, stopped by the first empty slot. |
| RecentRoms.VisibleIs | GUI/config/config.py:249-264 | A prefix of non-empty slots followed by an empty one (or the end) is exactly the recent list. |
| RecentRoms.IndexOf | GUI/config/config.py:240 | The index found is the first position of the path. |
| RecentRoms.ShiftDown | GUI/config/config.py:242-243 | The copy loop keeps the number of slots. |
| RecentRoms.ShiftDownMoves | GUI/config/config.py:242-243 | Copying slots k-1..0 down one place keeps slot 0, moves slots 0..k-1 to 1..k, and keeps the rest. |
| RecentRoms.Shifted | GUI/config/config.py:236-243 | The copy loop keeps the ten slots and leaves slot 0 as it was. |
| RecentRoms.Add | GUI/config/config.py:229-246 | After adding a path there are still ten slots; the add raises exactly when the parser refuses the path (as written) and never when corrected; if it did not raise slot 0 holds the path, and if it raised slot 0 keeps its old path. |
| RecentRoms.AcceptedAgrees | GUI/config/config.py:229-246 | As written, a path the parser accepts is added exactly as the corrected add does. |
| RecentRoms.RaisedAfterShift | GUI/config/config.py:242-245 | As written, a refused path raises after the copy loop: the slots are those of the corrected add except that slot 0 keeps its old path. |
| RecentRoms.AsWrittenPercentPathDuplicates | GUI/config/config.py:245 | As written, adding the new path "/roms/100%.gb" while slot 0 is in use raises and leaves the old front path in slots 0 and 1, so the recent list holds a duplicate. |
| RecentRoms.AddExisting | GUI/config/config.py:236-245 | Corrected, re-adding a visible path moves it to the front; the entries before it move down one and those after it stay, in the slots and in the recent list. |
| RecentRoms.MoveToFront | GUI/config/config.py:236-245 | Moving entry k to the front shifts entries 0..k-1 down one and keeps the entries after k. |
| RecentRoms.VisibleMoveToFront | GUI/config/config.py:236-264 | Moving a visible entry to the front moves it there in the recent list too. |
| RecentRoms.AddNew | GUI/config/config.py:236-246 | Corrected, a new path goes in front of the slots, the tenth drops out, and the recent list grows by it (capped at ten). |
| RecentRoms.AddKeepsDistinct | GUI/config/config.py:229-264 | Corrected, adding a non-empty path never creates a duplicate in a recent list that had none. |
| RecentRoms.MoveToFrontKeepsDistinct | GUI/config/config.py:236-245 | Moving an entry to the front keeps a list free of duplicates. |
| RecentRoms.AddFrontIdempotent | GUI/config/config.py:229-246 | Corrected, adding the same path twice is the same as adding it once. |
| ConfigInterpolation.NoPercentAccepted | GUI/config/config.py:5 | The parser accepts every value without a percent sign. |
| ConfigInterpolation.DropEscapesAppend | GUI/config/config.py:5 | Removing the escapes `%%` passes text without a percent sign through unchanged and goes on with the rest. |
| ConfigInterpolation.DropReferencesAppend | GUI/config/config.py:5 | Removing the references `%(name)s` passes text without a percent sign through unchanged and goes on with the rest. |
| ConfigInterpolation.LonePercentRefused | GUI/config/config.py:245 | A value whose only percent sign is neither doubled nor followed by '(' is refused. |
| ConfigInterpolation.EscapedPercentAccepted | GUI/config/config.py:5 | A value whose only percent signs are one escaped pair `%%` is accepted. |
| ConfigInterpolation.PercentFileName | GUI/config/config.py:245 | The path "/roms/100%.gb" is refused and "/roms/100%%.gb" is accepted. |
| ConfigInterpolation.CloseAfter | GUI/config/config.py:5 | The closing parenthesis of a reference is the first ')' after a name without one. |
| ConfigInterpolation.ReferenceAccepted | GUI/config/config.py:5 | A value made of a reference `%(name)s` followed by text without a percent sign is accepted. |
| CpuCore.DispatchCycle | GameBoy/src/CPU.cpp:75-84 | at a boundary with IME set and an interrupt reported, the cycle clears IME and installs the handler for the reported vector, writing nothing and leaving PC and SP alone |
| CpuCore.Dispatch | GameBoy/src/CPU.cpp:75-84 | the five dispatch cycles leave PC at the vector, the old PC pushed below the old SP, and IME clear |
| VramDma.RunToEnd | GameBoy/src/GameBoy_Clocks.cpp:128-158 | the clocks that move the last bytes of a block that fits end the block, having copied the whole block in order |
| VramDma.EndOfHdmaBlock | GameBoy/src/GameBoy_Clocks.cpp:146-156 | the end of an HDMA block leaves one block fewer; the copy stops with HDMA5 reading 0xFF exactly after the last block |

## Left out

- File I/O: loading ROM, boot-ROM and save files, and SaveRAM. Their contents are parameters.
- The MBC3 real-time clock's reading of the system clock: the current time is a parameter, in ticks of 1 ns.
- Mbc3.Catch: requires the system clock not to step back since the reference point; the source then casts a negative second count into `uint_fast32_t` arithmetic whose width depends on the platform, and the model does not follow it there.
- Mbc3.WriteRom: carries the same requirement, for the same reason, as Mbc3.Catch.
- Mbc3.LatchWrite: carries the same requirement, for the same reason, as Mbc3.Catch.
- Mbc3.WriteClock: carries the same requirement, for the same reason, as Mbc3.Catch.
- Mbc3.HaltControl: carries the same requirement, for the same reason, as Mbc3.Catch.
- Mbc3.WriteRam: carries the same requirement, for the same reason, as Mbc3.Catch.
- Floating-point audio: the channels' `GetSample` as floats, APU volume, the high-pass filter and mixing. Samples are modelled as integer DAC inputs.
- Channel4's `SetLsfrDivider` (GameBoy/src/Channel4.cpp:147-155) computes the LFSR divider in floating point. The divider is a parameter of `Channel4.Trigger`.
- The APU's `Reset` (GameBoy/src/APU.cpp:67-71) and its sample buffers feed only the host's audio output.
- Channels 1, 3 and 4 are not wired into the APU, which routes only channel 2. They are modelled as their classes stand.
- The Channel2 header declares members that its .cpp does not match. The model follows the .cpp.
- The CPU's `std::function` queue of pending micro-operations: each multi-cycle step (interrupt entry, instruction dispatch) is an explicit per-m-cycle function instead.
- SDL and Qt runtimes, threads, window layout and rendering to the screen.
- Reading and writing the front end's .ini file: a config section is modelled as a map from key to string.
- Save-state file timestamps: the time is a parameter.
- Serialize/Deserialize of the machine state, except the current MBC1's registers.
- OAM DMA's destination index: the current revision never resets `oamIndexDest_`. The model restarts it at 0 for each transfer, as src/GameBoy_Memory.cpp:528 does.
- The serial port computes a clock divider but never uses it. The model shifts a bit every 128 calls, as the code does.
- DMG palette rendering and custom palettes (GameBoy/src/PPU.cpp:420-486, GameBoy/src/include/PPU.hpp:54-76): they only colour pixels for display.
- The pixel FIFO's cycle-level fetcher state machine, `SwitchToWindow` and the background/window fetchers (GameBoy/src/PixelFIFO.cpp:42-108, 133-140, 142-209, 270-381). Sprite merging and pixel output are modelled.
- Ppu.ResetOld: does not model the clearing of the current line's sprite list (`currentSprites_`, src/PPU.cpp:123), because sprite selection is not part of this model. The earlier revision's PPU header is not part of this model either; its `SetMode` is taken to be the current one (GameBoy/src/include/PPU.hpp:127).
- The run-loop guard in src/GameBoy.cpp:28-33 (no cartridge and no boot ROM) and the frame loop.
- The earlier revision's MBC5 ROM and RAM writes are the same as the current ones. Only its reset, which selects bank 0, is separate (`Mbc5.ResetOld`).
- The current revision's MBC0.cpp is not part of this model. The earlier src/Cartridge/MBC0.cpp is.
- MainWindow.SaveStateFile: requires a slot label long enough to index, where the source would raise an exception on a shorter one.
- MainWindow.LoadStateFile: requires a slot label long enough to index, where the source would raise an exception on a shorter one.
- The gamepad's digital-button value is copied from the event verbatim. The host library's event decoding is not modelled.
- Non-ASCII digits in Python's `int`: the model reads ASCII digits and letters only, while `int` also accepts other Unicode decimal digits such as full-width ones.
- Bindings.KeyboardBindings: a stored code written in non-ASCII decimal digits fails to read here, where Python's `int` would read it; the front end itself only stores `str` of an integer, which is ASCII.
- The configuration parser's interpolation is part of Python's `configparser`, not of this repository. The model follows the check its default interpolation makes when a value is assigned. The read side is not modelled: a stored `%%` reading back as `%`, and `%(name)s` being replaced by the option it names.
- RecentRoms.Visible: reads the slots verbatim, while `get_recent_roms` reads them through the interpolation. A slot stored as `%%` would read back as `%`, and a lone `%` written into the file by hand would raise.
- RecentRoms.Add: the copy loop copies the slots verbatim; only the new path goes through the interpolation check. In the source each copied value is read through the interpolation and assigned again, so a slot stored with `%%` would make the loop raise part-way. The save to disk that follows is a file write and is not modelled.
- MainWindow.LoadRecent: inherits the limits of RecentRoms.Add and RecentRoms.Visible. The paths offered by the menu are also interpolated reads.
- MainWindow.LoadFromDialog: the corrected handler stores paths without interpolation. With the parser as created, `set_last_rom_directory` (GUI/config/config.py:162) would refuse a path with a lone '%', as `add_recent_rom` does.
- PyInt.DecimalRoundTrip: holds for integers of every size. Python 3.11 and later refuse by default to convert an integer of more than 4300 decimal digits with `str` or `int(_, 10)`. That limit is an interpreter setting (`sys.set_int_max_str_digits`, `PYTHONINTMAXSTRDIGITS`) outside the repository, and key codes are far below it.
- PyInt.DigitsRun: holds for digit runs of every length, without the 4300-digit limit described for PyInt.DecimalRoundTrip.
- PyInt.ParseRun: reads decimal runs of every length, without the 4300-digit limit described for PyInt.DecimalRoundTrip. Base 16 has no such limit.
- Bindings.StoreIntsRoundTrip: holds for integers of every size, without the 4300-digit limit described for PyInt.DecimalRoundTrip.
- Bindings.SetKeyboardThenGet: holds for key codes of every size, without the 4300-digit limit described for PyInt.DecimalRoundTrip.
- Bindings.KeyboardBindings: reads stored codes of every length, without the 4300-digit limit described for PyInt.DecimalRoundTrip.
- ColorSchemes.GetAll: a colour slice written in non-ASCII digits fails to read here, where Python's `int(_, 16)` accepts the Unicode decimal digits; the front end itself only stores `02x` text.

## Findings

| source | as written | input that shows it | evidently intended | confidence | as-written member | corrected member |
|---|---|---|---|---|---|---|
| GameBoy/src/GameBoy.cpp:283-287 | the JOYP update masks with `&= 0x07`/`0x0B`/`0x0D`/`0x0E`, clearing bits 4-7 | Start pressed with only the action group selected | keep the select bits and clear only the pressed key's bit | high, not executed | Joypad.AsWrittenClearsSelectBits | Joypad.CorrectedKeepsGroups |
| src/GameBoy.cpp:197-263 | the cleared select bits carry into the next update | action group selected, Start then Right | Right is a direction and must not read as A | high, not executed | Joypad.AsWrittenLeaksDirections | Joypad.CorrectedKeepsSelection |
| GameBoy/src/Channel2.cpp:148 | volume = NR22 & 0xF0, without the shift right by 4 | trigger with NR22 = 0xF0 | initial volume is the upper nibble, 0-15 | high, not executed | Channel2.AsWrittenVolumeOutOfRange | Channel2.CorrectedSampleInRange |
| GameBoy/src/Channel2.cpp:16 | duty step advanced modulo 4 (`& 0x03`) | duty 0, 1 or 2 for any number of steps | the step cycles through all 8 positions of the waveform | high, not executed | Channel2.AsWrittenDutyStaysHigh | Channel2.CorrectedDutyGoesLow |
| GameBoy/src/PPU.cpp:85-88 | the dot counter wraps after 457 | 456 dots from the start of a line | a line is 456 dots, as in the earlier revision | high, not executed | Ppu.AsWrittenLineIs457Dots | Ppu.CorrectedLineIs456Dots |
| GameBoy/src/Cartridge/MBC1.cpp:22 | large-cart mode only when RAM banks > 32 | 64-bank ROM, 0x4000 := 1, 0x2000 := 1 | banks 32-63 reachable through the upper register | medium, not executed | Mbc1.AsWrittenMissesBank33 | Mbc1.CorrectedReachesEveryBank |
| GameBoy/src/Cartridge/MBC1.cpp:149-175 | RAM writes use the selected bank in simple mode, reads use bank 0 | 4 RAM banks, mode 0, RAM bank 1, write then read | a write and the read after it address the same byte | medium, not executed | Mbc1.AsWrittenWriteMissesRead | Mbc1.CorrectedWriteThenRead |
| GameBoy/src/Channel4.cpp:153 | short mode set when NR43 bit 3 is clear | NR43 = 0x08 | bit 3 set selects the 7-bit LFSR, as the header reads it | high, not executed | Channel4.AsWrittenWidthInverted | Channel4.CorrectedWidthBitSelectsShort |
| GameBoy/src/include/Channel4.hpp:15 | enabled means length counter below 64, even with length disabled | length disabled, counter at 63, one length tick | the channel reports off only when it is silent | medium, not executed | Channel4.AsWrittenOffWhileSounding | Channel4.CorrectedOffMeansSilent |
| GameBoy/src/PixelFIFO.cpp:232-247 | sprite slot index not adjusted for a sprite clipped at the left edge | sprite at x = 4 merged into 8 transparent pixels | the visible half lands in slots 0-3 | medium, not executed | PixelFifo.AsWrittenSpriteMisplaced | PixelFifo.CorrectedPushAligns |
| GameBoy/src/GameBoy_Clocks.cpp:128-136 | the GDMA destination is not wrapped inside VRAM | two blocks to 0x9FF0 | every destination stays in 0x8000-0x9FFF | medium, not executed | VramDma.AsWrittenGdmaLeavesVram | VramDma.CorrectedClockStaysInVram |
| src/Cartridge/MBC1.cpp:74 | the unreduced CPU address is ORed into the ROM offset, so bit 14 adds a bank | 8-bank ROM, 0x2000 := 2 | 0x4000-0x7FFF shows the selected bank | high, not executed | Mbc1Flat.AsWrittenEvenBankReadsOdd | Mbc1Flat.CorrectedUpperBank |
| src/Cartridge/MBC1.cpp:53-59 | reset loads the low register with 0 and the high register with 1 | 64-bank ROM, read 0x4000 right after reset | bank 1 is mapped after reset | high, not executed | Mbc1Flat.AsWrittenResetShowsBank33 | Mbc1Flat.CorrectedResetShowsBank1 |
| GameBoy/src/GameBoy_Memory.cpp:40 | the WRAM bank falls back to 1 only when the whole SVBK register is 0, otherwise it is SVBK's low three bits | CGB mode, SVBK = 0x08 | a masked bank number of 0 selects bank 1, so 0xD000 never aliases bank 0 | high, not executed | MemoryBus.AsWrittenSvbkAliasesBankZero | MemoryBus.CorrectedWriteIsLocal |
| GameBoy/src/GameBoy_Clocks.cpp:83-92 | DIV is clocked twice per tick | 32 ticks | DIV advances once per 64 ticks | medium, not executed | Apu.AsWrittenDivEvery32 | Apu.CorrectedDivEvery64 |
| GameBoy/src/Cartridge/MBC3.cpp:284-285 | the reference point moves to now although only the whole seconds since it were counted | latching the clock every 0.6 s | the uncounted part of a second carries into the next catch-up, so frequent latching does not stop the clock | high, not executed | Mbc3.AsWrittenCatchLosesFraction | Mbc3.CorrectedCountsTwice |
| GUI/qt/main_window.py:295 | calls `config.update_last_rom_directory`, which the config module does not define | any ROM chosen in the dialog | the chosen ROM is remembered and inserted | high, not executed | MainWindow.AsWrittenDialogNeverLoads | MainWindow.CorrectedDialogLoads |
| src/GameBoy_Memory.cpp:285-300 | the earlier revision's I/O write has no TMA case, so a TMA write falls to the default and is dropped, although TMA is read back from the array (line 179) and reset there (line 642) | write 0x42 to TMA while it holds 0 | TMA stores the written byte, as the current revision does | high, not executed | IoRegisters.OldTmaWriteIgnored | IoRegisters.WriteThenRead |
| GUI/config/config.py:5 | the parser is created with its default interpolation, so `add_recent_rom` raises ValueError at its last assignment (line 245) for a path with a lone '%', after the copy loop has moved the slots | adding the new path "/roms/100%.gb" while slot 0 is in use | file paths are stored verbatim, without interpolation | high, not executed | RecentRoms.AsWrittenPercentPathDuplicates | RecentRoms.AddKeepsDistinct |

=== FILE: apu.dfy ===
/**
 * The APU at the revision that routes only channel 2: the DIV register and
 * its sub-counter, the APU-DIV event on a falling edge of DIV bit 4 (bit 5
 * in double speed), the DIV reset, and register routing.
 *
 * The system clocks DIV from two places per variable-speed tick: once
 * unconditionally and once from the timer when no speed switch is counting
 * down. `VariableSpeedDiv` carries that as a `Variant`; the corrected
 * variant keeps only the gated call.
 */
module Apu {
  import opened Bits
  import opened Variants
  import Channel2

  type U8 = x: int | 0 <= x < 0x100

  datatype Apu = Apu(div: Byte, divCounter: U8, ch2: Channel2.Channel2)

  /** The DIV bit whose falling edge is an APU-DIV event. */
  function WatchedBit(doubleSpeed: bool): (m: Byte)
    ensures m == if doubleSpeed then Mask(5) else Mask(4)
  {
    if doubleSpeed then 0x20 else 0x10
  }

  /** DIV stepping from `div` to `div + 1` is an APU-DIV event. */
  predicate FallingEdge(div: Byte, doubleSpeed: bool)
  {
    div & WatchedBit(doubleSpeed) != 0 && (div + 1) & WatchedBit(doubleSpeed) == 0
  }

  /** Events fall every 32 DIV steps at normal speed and every 64 in double speed. */
  lemma FallingEdgeCadence(div: Byte)
    ensures FallingEdge(div, false) <==> (div + 1) & 0x1F == 0
    ensures FallingEdge(div, true) <==> (div + 1) & 0x3F == 0
  {
  }

  /** One DIV clock: every 64th call steps DIV, and a falling edge of the watched bit clocks channel 2. */
  function ClockDiv(a: Apu, doubleSpeed: bool): (r: Apu)
    ensures a.divCounter + 1 != 64 ==> r == a.(divCounter := (a.divCounter + 1) % 0x100)
    ensures a.divCounter + 1 == 64 ==> r.div == a.div + 1 && r.divCounter == 0
    ensures a.divCounter + 1 == 64 && FallingEdge(a.div, doubleSpeed) ==> r.ch2 == Channel2.ApuDiv(a.ch2)
    ensures a.divCounter + 1 == 64 && !FallingEdge(a.div, doubleSpeed) ==> r.ch2 == a.ch2
  {
    var c := (a.divCounter + 1) % 0x100;
    if c == 64 then
      var ch2 := if FallingEdge(a.div, doubleSpeed) then Channel2.ApuDiv(a.ch2) else a.ch2;
      Apu(a.div + 1, 0, ch2)
    else a.(divCounter := c)
  }

  /** A DIV write: DIV and its sub-counter restart, with one event iff the watched bit was set. */
  function ResetDiv(a: Apu, doubleSpeed: bool): (r: Apu)
    ensures r.div == 0 && r.divCounter == 0
    ensures a.div & WatchedBit(doubleSpeed) != 0 ==> r.ch2 == Channel2.ApuDiv(a.ch2)
    ensures a.div & WatchedBit(doubleSpeed) == 0 ==> r.ch2 == a.ch2
  {
    var ch2 := if a.div & WatchedBit(doubleSpeed) != 0 then Channel2.ApuDiv(a.ch2) else a.ch2;
    Apu(0, 0, ch2)
  }

  /** Only 0x16-0x19 reach channel 2; other reads return 0xFF. */
  function Read(a: Apu, ioAddr: Byte): (b: Byte)
    ensures 0x16 <= ioAddr <= 0x19 ==> b == Channel2.Read(a.ch2, ioAddr)
    ensures !(0x16 <= ioAddr <= 0x19) ==> b == 0xFF
  {
    if 0x16 <= ioAddr <= 0x19 then Channel2.Read(a.ch2, ioAddr) else 0xFF
  }

  /** Only 0x16-0x19 reach channel 2; other writes are ignored. */
  function Write(a: Apu, ioAddr: Byte, data: Byte, v: Variant): (r: Apu)
    ensures 0x16 <= ioAddr <= 0x19 ==> r == a.(ch2 := Channel2.Write(a.ch2, ioAddr, data, v))
    ensures !(0x16 <= ioAddr <= 0x19) ==> r == a
  {
    if 0x16 <= ioAddr <= 0x19 then a.(ch2 := Channel2.Write(a.ch2, ioAddr, data, v)) else a
  }

  /** Writes outside channel 2's registers leave every read unchanged. */
  lemma UnroutedWritesInert(a: Apu, ioAddr: Byte, data: Byte, v: Variant, other: Byte)
    requires !(0x16 <= ioAddr <= 0x19)
    ensures Read(Write(a, ioAddr, data, v), other) == Read(a, other)
  {
  }

  /**
   * The DIV clocks of one variable-speed tick. As written DIV is clocked
   * unconditionally and again when no speed-switch countdown runs;
   * corrected, only the second call remains.
   */
  function VariableSpeedDiv(a: Apu, doubleSpeed: bool, countdown: nat, v: Variant): (r: Apu)
    ensures v == Corrected && countdown > 0 ==> r == a
    ensures v == Corrected && countdown == 0 ==> r == ClockDiv(a, doubleSpeed)
    ensures v == AsWritten && countdown > 0 ==> r == ClockDiv(a, doubleSpeed)
    ensures v == AsWritten && countdown == 0 ==> r == ClockDiv(ClockDiv(a, doubleSpeed), doubleSpeed)
  {
    var a1 := if v == AsWritten then ClockDiv(a, doubleSpeed) else a;
    if countdown == 0 then ClockDiv(a1, doubleSpeed) else a1
  }

  /** `n` variable-speed ticks with no speed switch pending. */
  function Ticks(a: Apu, doubleSpeed: bool, v: Variant, n: nat): Apu
    decreases n
  {
    if n == 0 then a else Ticks(VariableSpeedDiv(a, doubleSpeed, 0, v), doubleSpeed, v, n - 1)
  }

  lemma {:induction false} TicksLast(a: Apu, doubleSpeed: bool, v: Variant, n: nat)
    ensures Ticks(a, doubleSpeed, v, n + 1) == VariableSpeedDiv(Ticks(a, doubleSpeed, v, n), doubleSpeed, 0, v)
    decreases n
  {
    if n > 0 {
      TicksLast(VariableSpeedDiv(a, doubleSpeed, 0, v), doubleSpeed, v, n - 1);
    }
  }

  lemma {:induction false} TicksBelow(a: Apu, doubleSpeed: bool, v: Variant, n: nat)
    requires a.divCounter + (if v == AsWritten then 2 * n else n) < 64
    ensures Ticks(a, doubleSpeed, v, n).div == a.div
    ensures Ticks(a, doubleSpeed, v, n).divCounter == a.divCounter + (if v == AsWritten then 2 * n else n)
    decreases n
  {
    if n > 0 {
      TicksBelow(VariableSpeedDiv(a, doubleSpeed, 0, v), doubleSpeed, v, n - 1);
    }
  }

  /** Corrected, DIV steps once every 64 ticks, as in the earlier revision's timer. */
  lemma CorrectedDivEvery64(a: Apu, doubleSpeed: bool)
    requires a.divCounter == 0
    ensures Ticks(a, doubleSpeed, Corrected, 64).div == a.div + 1
    ensures Ticks(a, doubleSpeed, Corrected, 64).divCounter == 0
  {
    TicksBelow(a, doubleSpeed, Corrected, 63);
    TicksLast(a, doubleSpeed, Corrected, 63);
  }

  /** As written, DIV already steps after 32 ticks: it runs at twice the rate. */
  lemma AsWrittenDivEvery32(a: Apu, doubleSpeed: bool)
    requires a.divCounter == 0
    ensures Ticks(a, doubleSpeed, AsWritten, 32).div == a.div + 1
    ensures Ticks(a, doubleSpeed, AsWritten, 32).divCounter == 0
  {
    TicksBelow(a, doubleSpeed, AsWritten, 31);
    TicksLast(a, doubleSpeed, AsWritten, 31);
  }
}

=== FILE: bindings.dfy ===
/**
 * The front end's control bindings: two configuration sections mapping a
 * joypad button name ("up", "a", ...) to a keyboard key code, stored as its
 * decimal text, and to a gamepad input name, stored verbatim.
 */
module Bindings {
  import opened Wrappers
  import opened ConfigSection
  import PyInt

  datatype Controls = Controls(keyboard: Section, gamepad: Section)

  /** A stored key code read as `int(text)` reads it; None where that raises. */
  function KeyCode(text: string): (r: Option<int>)
  {
    PyInt.Parse(text, 10)
  }

  /** A section written from integer values: each value as its decimal text. */
  function StoreInts(m: map<string, int>): (sec: Section)
    ensures sec.Keys == m.Keys
  {
    map k | k in m :: PyInt.Decimal(m[k])
  }

  /** A section written from integers reads back as the same integers. */
  lemma StoreIntsRoundTrip(m: map<string, int>)
    ensures ReadAll(StoreInts(m), KeyCode) == Some(m)
  {
    var sec := StoreInts(m);
    forall k | k in sec
      ensures KeyCode(sec[k]) == Some(m[k])
    {
      PyInt.DecimalRoundTrip(m[k]);
    }
    ReadAllOf(sec, KeyCode, m);
  }

  const DefaultKeyboard: map<string, int> := map[
    "up" := 87, "down" := 83, "left" := 65, "right" := 68,
    "start" := 16777220, "select" := 16777248, "b" := 75, "a" := 76]

  const DefaultGamepad: Section := map[
    "up" := "d_pad_up", "down" := "d_pad_down", "left" := "d_pad_left", "right" := "d_pad_right",
    "start" := "start", "select" := "select", "b" := "b", "a" := "a"]

  /** The keyboard bindings read back; None when a stored code is not an integer. */
  function KeyboardBindings(c: Controls): (r: Option<map<string, int>>)
    ensures r.Some? ==> r.value.Keys == c.keyboard.Keys
  {
    ReadAll(c.keyboard, KeyCode)
  }

  /** The gamepad bindings read back: the stored names as they are. */
  function GamepadBindings(c: Controls): Section
  {
    c.gamepad
  }

  /** Bind a button to a key code; the code is stored as decimal text. */
  function SetKeyboard(c: Controls, button: string, code: int): (r: Controls)
    ensures r.gamepad == c.gamepad && r.keyboard.Keys == c.keyboard.Keys + {button}
    ensures forall b :: b in c.keyboard && b != button ==> r.keyboard[b] == c.keyboard[b]
  {
    c.(keyboard := c.keyboard[button := PyInt.Decimal(code)])
  }

  /** Bind a button to a gamepad input name. */
  function SetGamepad(c: Controls, button: string, input: string): (r: Controls)
    ensures r.keyboard == c.keyboard && button in r.gamepad && r.gamepad[button] == input
    ensures forall b :: b in c.gamepad && b != button ==> b in r.gamepad && r.gamepad[b] == c.gamepad[b]
  {
    c.(gamepad := c.gamepad[button := input])
  }

  /** Binding a key reads back as that code, every other binding unchanged. */
  lemma SetKeyboardThenGet(c: Controls, button: string, code: int)
    requires KeyboardBindings(c).Some?
    ensures KeyboardBindings(SetKeyboard(c, button, code)) == Some(KeyboardBindings(c).value[button := code])
    ensures GamepadBindings(SetKeyboard(c, button, code)) == GamepadBindings(c)
  {
    PyInt.DecimalRoundTrip(code);
    ReadAllUpdate(c.keyboard, button, PyInt.Decimal(code), KeyCode);
  }

  /** Both sections replaced by the defaults, the key codes as decimal text. */
  function RestoreDefaults(c: Controls): (r: Controls)
    ensures r.keyboard.Keys == DefaultKeyboard.Keys && r.gamepad == DefaultGamepad
  {
    Controls(StoreInts(DefaultKeyboard), DefaultGamepad)
  }

  /** After restoring, both sets of bindings read back as the defaults, whatever they were before. */
  lemma RestoreDefaultsThenGet(c: Controls)
    ensures KeyboardBindings(RestoreDefaults(c)) == Some(DefaultKeyboard)
    ensures GamepadBindings(RestoreDefaults(c)) == DefaultGamepad
  {
    StoreIntsRoundTrip(DefaultKeyboard);
  }
}

=== FILE: bits.dfy ===
/** Byte and word helpers shared by every component of the emulator model. */
module Bits {
  /** An 8-bit register or memory cell. */
  type Byte = bv8
  /** A 16-bit address or register pair. */
  type Word = bv16

  /** Bit `i` of `b`, counted from the least significant bit. */
  predicate BitSet(b: Byte, i: nat)
    requires i < 8
  {
    (b >> i) & 1 == 1
  }

  /** The single-bit mask `1 << i`. */
  function Mask(i: nat): (m: Byte)
    requires i < 8
    ensures BitSet(m, i)
    ensures forall j :: 0 <= j < 8 && j != i ==> !BitSet(m, j)
  {
    (1 as Byte) << i
  }

  /** The unsigned value of a byte. */
  function ToNat(b: Byte): (n: nat)
    ensures n < 0x100
  {
    b as nat
  }

  /** The byte with unsigned value `n`. */
  function FromNat(n: nat): Byte
    requires n < 0x100
  {
    n as Byte
  }

  lemma FromNatToNat(b: Byte)
    ensures FromNat(ToNat(b)) == b
  {
  }

  /** High byte of a word. */
  function Hi(w: Word): Byte
  {
    (w >> 8) as Byte
  }

  /** Low byte of a word. */
  function Lo(w: Word): Byte
  {
    (w & 0xFF) as Byte
  }

  /** The word whose high byte is `hi` and low byte is `lo`. */
  function Join(hi: Byte, lo: Byte): (w: Word)
    ensures Hi(w) == hi && Lo(w) == lo
  {
    ((hi as Word) << 8) | (lo as Word)
  }

  lemma JoinHiLo(w: Word)
    ensures Join(Hi(w), Lo(w)) == w
  {
  }

  /** A word is determined by its two bytes. */
  lemma HiLoDetermine(v: Word, w: Word)
    requires Hi(v) == Hi(w) && Lo(v) == Lo(w)
    ensures v == w
  {
    JoinHiLo(v);
    JoinHiLo(w);
  }

  /** Number of set bits among the low `n` bits of `b`. */
  function PopCount(b: Byte, n: nat): (k: nat)
    requires n <= 8
    ensures k <= n
    ensures k == 0 <==> forall i :: 0 <= i < n ==> !BitSet(b, i)
  {
    if n == 0 then 0
    else PopCount(b, n - 1) + (if BitSet(b, n - 1) then 1 else 0)
  }
  /** Bit `i` of a conjunction is the conjunction of the bits. */
  lemma AndBits(a: Byte, b: Byte)
    ensures forall i :: 0 <= i < 8 ==> (BitSet(a & b, i) <==> BitSet(a, i) && BitSet(b, i))
  {
    forall i | 0 <= i < 8
      ensures BitSet(a & b, i) <==> BitSet(a, i) && BitSet(b, i)
    {
      AndBit(a, b, i);
    }
  }

  lemma AndBit(a: Byte, b: Byte, i: nat)
    requires i < 8
    ensures BitSet(a & b, i) <==> BitSet(a, i) && BitSet(b, i)
  {
    if i == 0 {
    } else if i == 1 {
    } else if i == 2 {
    } else if i == 3 {
    } else if i == 4 {
    } else if i == 5 {
    } else if i == 6 {
    } else {
      assert i == 7;
    }
  }

  /** Bit `i` of a disjunction is the disjunction of the bits. */
  lemma OrBits(a: Byte, b: Byte)
    ensures forall i :: 0 <= i < 8 ==> (BitSet(a | b, i) <==> BitSet(a, i) || BitSet(b, i))
  {
    forall i | 0 <= i < 8
      ensures BitSet(a | b, i) <==> BitSet(a, i) || BitSet(b, i)
    {
      OrBit(a, b, i);
    }
  }

  lemma OrBit(a: Byte, b: Byte, i: nat)
    requires i < 8
    ensures BitSet(a | b, i) <==> BitSet(a, i) || BitSet(b, i)
  {
    if i == 0 {
    } else if i == 1 {
    } else if i == 2 {
    } else if i == 3 {
    } else if i == 4 {
    } else if i == 5 {
    } else if i == 6 {
    } else {
      assert i == 7;
    }
  }
  lemma NotBits(a: Byte)
    ensures forall i :: 0 <= i < 8 ==> (BitSet(!a, i) <==> !BitSet(a, i))
  {
    forall i | 0 <= i < 8
      ensures BitSet(!a, i) <==> !BitSet(a, i)
    {
      NotBit(a, i);
    }
  }

  lemma NotBit(a: Byte, i: nat)
    requires i < 8
    ensures BitSet(!a, i) <==> !BitSet(a, i)
  {
    if i == 0 {
    } else if i == 1 {
    } else if i == 2 {
    } else if i == 3 {
    } else if i == 4 {
    } else if i == 5 {
    } else if i == 6 {
    } else {
      assert i == 7;
    }
  }

}

=== FILE: cartridge.dfy ===
/**
 * What every memory bank controller shares: the CPU's view of the cartridge
 * (ROM at 0x0000-0x7FFF, external RAM at 0xA000-0xBFFF), the bank sizes, and
 * the ROM and RAM bank counts a cartridge header can produce. ROM and RAM
 * are modelled as flat byte sequences, bank `b` starting at `b` times the
 * bank size.
 */
module Cartridge {
  import opened Bits
  import CartridgeHeader

  type RomAddr = a: int | 0 <= a < 0x8000
  type RamAddr = a: int | 0xA000 <= a < 0xC000 witness 0xA000

  const RomBankSize := 0x4000
  const RamBankSize := 0x2000

  /** The ROM bank counts `2 << code` for the header codes that fit 16 bits. */
  predicate ValidRomBanks(n: nat)
  {
    n in {2, 4, 8, 16, 32, 64, 128, 256, 512, 1024, 2048, 4096, 8192, 16384, 32768}
  }

  /** The RAM bank counts the header's RAM-size byte maps to. */
  predicate ValidRamBanks(n: nat)
  {
    n in {0, 1, 4, 8, 16}
  }

  /** Every ROM-size code below 15 gives a bank count the controllers accept. */
  lemma HeaderRomBanksValid(code: Byte)
    requires code < 15
    ensures ValidRomBanks(CartridgeHeader.RomBanks(code))
  {
    var n := code as nat;
    assert CartridgeHeader.Pow2(0) == 1;
    assert CartridgeHeader.Pow2(1) == 2;
    assert CartridgeHeader.Pow2(2) == 4;
    assert CartridgeHeader.Pow2(3) == 8;
    assert CartridgeHeader.Pow2(4) == 16;
    assert CartridgeHeader.Pow2(5) == 32;
    assert CartridgeHeader.Pow2(6) == 64;
    assert CartridgeHeader.Pow2(7) == 128;
    assert CartridgeHeader.Pow2(8) == 256;
    assert CartridgeHeader.Pow2(9) == 512;
    assert CartridgeHeader.Pow2(10) == 1024;
    assert CartridgeHeader.Pow2(11) == 2048;
    assert CartridgeHeader.Pow2(12) == 4096;
    assert CartridgeHeader.Pow2(13) == 8192;
    assert CartridgeHeader.Pow2(14) == 16384;
    assert 0 <= n < 15;
  }

  /** Every RAM-size code gives a bank count the controllers accept. */
  lemma HeaderRamBanksValid(code: Byte)
    ensures ValidRamBanks(CartridgeHeader.RamBanks(code))
  {
  }

  /** Offset of a byte in the flat ROM: bank `bank`, byte `offset` within it. */
  function RomIndex(bank: nat, offset: nat): nat
  {
    bank * RomBankSize + offset
  }

  /** Offset of an external-RAM address in the flat RAM, bank `bank`. */
  function RamIndex(bank: nat, addr: RamAddr): nat
  {
    bank * RamBankSize + (addr - 0xA000)
  }

  /** The RAM-enable register: any value whose bits 1 and 3 are both set enables RAM. */
  predicate EnablesRam(data: Byte)
  {
    data & 0x0A == 0x0A
  }
}

=== FILE: cartridge_header.dfy ===
/**
 * Reading the cartridge header from ROM bank 0 when a cartridge is inserted:
 * the CGB flag, the title, the ROM and RAM bank counts, and the choice of
 * memory bank controller. The current and the earlier revision differ in the
 * title (NUL bytes skipped or kept) and in MBC3 support.
 */
module CartridgeHeader {
  import opened Bits

  /** The CGB flag is bit 7 of header byte 0x143. */
  predicate CgbCartridge(bank0: seq<Byte>)
    requires |bank0| >= 0x150
  {
    bank0[0x143] & 0x80 == 0x80
  }

  /** A CGB title has 15 bytes, an older one 16. */
  function TitleLength(cgb: bool): nat
  {
    if cgb then 15 else 16
  }

  /** The title bytes with every zero byte skipped. */
  function SkipZeros(s: seq<Byte>): (t: seq<Byte>)
    ensures |t| <= |s|
    ensures forall c :: c in t <==> c in s && c != 0
    ensures (forall i :: 0 <= i < |s| ==> s[i] != 0) ==> t == s
  {
    if |s| == 0 then []
    else if s[0] == 0 then SkipZeros(s[1..])
    else [s[0]] + SkipZeros(s[1..])
  }

  /** Skipping zeros works piecewise, so a title can be read byte by byte. */
  lemma {:induction false} SkipZerosAppend(a: seq<Byte>, b: seq<Byte>)
    ensures SkipZeros(a + b) == SkipZeros(a) + SkipZeros(b)
  {
    if |a| == 0 {
      assert a + b == b;
    } else {
      assert (a + b)[1..] == a[1..] + b;
      SkipZerosAppend(a[1..], b);
    }
  }

  /** The title (current revision): 15 or 16 bytes from 0x134 with the zero bytes skipped. */
  function Title(bank0: seq<Byte>): (t: seq<Byte>)
    requires |bank0| >= 0x150
    ensures |t| <= TitleLength(CgbCartridge(bank0))
    ensures forall c :: c in t <==> c in bank0[0x134..0x134 + TitleLength(CgbCartridge(bank0))] && c != 0
  {
    SkipZeros(bank0[0x134..0x134 + TitleLength(CgbCartridge(bank0))])
  }

  /** The title (earlier revision): the 15 or 16 bytes copied as they are, zeros included. */
  function TitleOld(bank0: seq<Byte>): (t: seq<Byte>)
    requires |bank0| >= 0x150
    ensures |t| == TitleLength(CgbCartridge(bank0))
    ensures forall i :: 0 <= i < |t| ==> t[i] == bank0[0x134 + i]
  {
    bank0[0x134..0x134 + TitleLength(CgbCartridge(bank0))]
  }

  /** The two revisions agree on titles without zero bytes. */
  lemma TitlesAgreeWithoutZeros(bank0: seq<Byte>)
    requires |bank0| >= 0x150
    requires forall i :: 0x134 <= i < 0x134 + TitleLength(CgbCartridge(bank0)) ==> bank0[i] != 0
    ensures Title(bank0) == TitleOld(bank0)
  {
    var s := bank0[0x134..0x134 + TitleLength(CgbCartridge(bank0))];
    assert forall i :: 0 <= i < |s| ==> s[i] == bank0[0x134 + i];
  }

  /**
   * The ROM bank count `2 << code`, stored in 16 bits: codes 0..14 give
   * 2..32768 banks, larger codes truncate to 0.
   */
  function RomBanks(code: Byte): (n: nat)
    ensures code < 15 ==> n == 2 * Pow2(code as nat)
    ensures code >= 15 ==> n == 0
    ensures n < 0x10000
  {
    if code < 15 then
      Pow2Mono(code as nat, 14);
      Pow2Of14();
      2 * Pow2(code as nat)
    else 0
  }

  function Pow2(k: nat): (p: nat)
    ensures p >= 1
  {
    if k == 0 then 1 else 2 * Pow2(k - 1)
  }

  lemma Pow2Of14()
    ensures Pow2(14) == 0x4000
  {
    assert Pow2(2) == 4;
    assert Pow2(4) == 16;
    assert Pow2(6) == 64;
    assert Pow2(8) == 256;
    assert Pow2(10) == 1024;
    assert Pow2(12) == 4096;
  }

  lemma {:induction false} Pow2Mono(j: nat, k: nat)
    requires j <= k
    ensures Pow2(j) <= Pow2(k)
    decreases k - j
  {
    if j < k {
      Pow2Mono(j, k - 1);
    }
  }

  /** The RAM bank count of header byte 0x149; unknown codes mean no RAM. */
  function RamBanks(code: Byte): (n: nat)
    ensures n in {0, 1, 4, 8, 16}
    ensures n == 0 <==> code !in {2, 3, 4, 5}
  {
    match code
    case 0x00 => 0
    case 0x01 => 0
    case 0x02 => 1
    case 0x03 => 4
    case 0x04 => 16
    case 0x05 => 8
    case _ => 0
  }

  datatype MbcKind = Mbc0 | Mbc1 | Mbc3 | Mbc5 | NoCartridge

  /** The controller for a cartridge type (header byte 0x147), current revision. */
  function SelectMbc(cartType: Byte): (k: MbcKind)
    ensures k == Mbc0 <==> cartType in {0x00, 0x08, 0x09}
    ensures k == Mbc1 <==> 0x01 <= cartType <= 0x03
    ensures k == Mbc3 <==> 0x0F <= cartType <= 0x13
    ensures k == Mbc5 <==> 0x19 <= cartType <= 0x1E
  {
    if cartType in {0x00, 0x08, 0x09} then Mbc0
    else if 0x01 <= cartType <= 0x03 then Mbc1
    else if 0x0F <= cartType <= 0x13 then Mbc3
    else if 0x19 <= cartType <= 0x1E then Mbc5
    else NoCartridge
  }

  /** The earlier revision knows no MBC3: those types yield no cartridge. */
  function SelectMbcOld(cartType: Byte): (k: MbcKind)
    ensures k != Mbc3
  {
    if cartType in {0x00, 0x08, 0x09} then Mbc0
    else if 0x01 <= cartType <= 0x03 then Mbc1
    else if 0x19 <= cartType <= 0x1E then Mbc5
    else NoCartridge
  }

  lemma RevisionsDifferOnlyOnMbc3(cartType: Byte)
    ensures SelectMbc(cartType) != Mbc3 ==> SelectMbcOld(cartType) == SelectMbc(cartType)
    ensures SelectMbc(cartType) == Mbc3 ==> SelectMbcOld(cartType) == NoCartridge
  {
  }

  datatype Header = Header(cgb: bool, title: seq<Byte>, romBanks: nat, ramBanks: nat, kind: MbcKind)

  /** Everything InsertCartridge reads from bank 0 (current revision). */
  function ParseHeader(bank0: seq<Byte>): (h: Header)
    requires |bank0| >= 0x150
    ensures h.cgb <==> BitSet(bank0[0x143], 7)
    ensures h.title == Title(bank0)
    ensures h.romBanks == RomBanks(bank0[0x148]) && h.ramBanks == RamBanks(bank0[0x149])
    ensures h.kind == SelectMbc(bank0[0x147])
  {
    Header(CgbCartridge(bank0), Title(bank0), RomBanks(bank0[0x148]), RamBanks(bank0[0x149]), SelectMbc(bank0[0x147]))
  }
}

=== FILE: channel1.dfy ===
/**
 * Sound channel 1 (pulse with frequency sweep, NR10-NR14) of the current
 * revision: the period divider and duty step, the volume envelope, the
 * length timer, the frequency sweep, register reads and writes, and the
 * trigger.
 *
 * The registers are held as numbers 0..255 and their bit fields are read
 * with division and remainder by powers of two, so the sweep's period
 * arithmetic stays integer arithmetic; the bus side converts from and to
 * bytes. The 16-bit period divider and the 8-bit counters have their
 * wrap-around written out.
 */
module Channel1 {
  import opened Bits
  import opened Wrappers
  import Envelope
  import LengthTimer

  type U8 = x: int | 0 <= x < 0x100
  type U16 = x: int | 0 <= x < 0x10000
  /** A step within a duty row. */
  type Step = x: int | 0 <= x < 8
  /** A row of the duty table. */
  type Duty = x: int | 0 <= x < 4

  /** The frequency sweep: its pace, a pending pace reload, its divider and the sticky overflow flag. */
  datatype Sweep = Sweep(pace: U8, reload: bool, divider: U8, overflow: bool)

  datatype Channel1 = Channel1(
    nr10: U8, nr11: U8, nr12: U8, nr13: U8, nr14: U8,
    sweep: Sweep, length: LengthTimer.Length, envelope: Envelope.Envelope,
    dutyStep: Step, periodDivider: U16, dac: bool, triggered: bool)

  /** The 11-bit period: NR14 bits 0-2 above NR13. */
  function GetPeriod(c: Channel1): (p: nat)
    ensures p < 0x800
  {
    (c.nr14 % 8) * 0x100 + c.nr13
  }

  /** Store an 11-bit period: bits 0-7 in NR13, bits 8-10 in NR14 bits 0-2; NR14 bits 3-7 are kept. */
  function SetPeriod(c: Channel1, p: nat): (r: Channel1)
    requires p < 0x800
    ensures r == c.(nr13 := r.nr13, nr14 := r.nr14)
    ensures r.nr14 / 8 == c.nr14 / 8
  {
    c.(nr14 := (c.nr14 / 8) * 8 + p / 0x100, nr13 := p % 0x100)
  }

  /** Reading the period back gives every 11-bit period that was stored. */
  lemma PeriodRoundTrip(c: Channel1, p: nat)
    requires p < 0x800
    ensures GetPeriod(SetPeriod(c, p)) == p
  {
  }

  /** The duty row: NR11 bits 6-7. */
  function DutyCycle(c: Channel1): Duty
  {
    c.nr11 / 64
  }

  /** The length to load: NR11 bits 0-5. */
  function LengthLoad(nr11: U8): (n: U8)
    ensures n < 64
  {
    nr11 % 64
  }

  /** Length enable: NR14 bit 6. */
  predicate LengthEnabled(c: Channel1)
  {
    (c.nr14 / 64) % 2 == 1
  }

  /** The sweep pace NR10 holds: bits 4-6. */
  function SweepPaceOf(nr10: U8): (n: U8)
    ensures n < 8
  {
    (nr10 / 16) % 8
  }

  /** The sweep shift: NR10 bits 0-2. */
  function SweepSlope(c: Channel1): (n: nat)
    ensures n < 8
  {
    c.nr10 % 8
  }

  /** The sweep adds when NR10 bit 3 is clear and subtracts when it is set. */
  predicate SweepAdds(c: Channel1)
  {
    (c.nr10 / 8) % 2 == 0
  }

  /** The channel plays: DAC on, no sweep overflow, and the length timer not expired while enabled. */
  predicate Enabled(c: Channel1)
  {
    c.dac && !c.sweep.overflow && (!LengthEnabled(c) || !c.length.expired)
  }

  /** The duty table: +1 (high) or -1 (low) at step `i` of row `d`. */
  function DutyLevel(d: Duty, i: Step): (l: int)
    ensures l == 1 || l == -1
  {
    match d
    case 0 => if i < 7 then 1 else -1
    case 1 => if i < 6 then 1 else -1
    case 2 => if i < 4 then 1 else -1
    case _ => if i < 2 then 1 else -1
  }

  /** The number of low steps among the first `n` of row `d`. */
  function LowSteps(d: Duty, n: nat): (k: nat)
    requires n <= 8
    ensures k <= n
  {
    if n == 0 then 0 else LowSteps(d, n - 1) + (if DutyLevel(d, n - 1) == -1 then 1 else 0)
  }

  /** Rows 0..3 are low on 1, 2, 4 and 6 of the 8 steps: duty 12.5%, 25%, 50% and 75%. */
  lemma DutyRows()
    ensures LowSteps(0, 8) == 1 && LowSteps(1, 8) == 2 && LowSteps(2, 8) == 4 && LowSteps(3, 8) == 6
  {
  }

  /** The sweep pace is below 8 and its divider below a non-zero pace. */
  predicate SweepInv(s: Sweep)
  {
    s.pace < 8 && (s.pace > 0 ==> s.divider < s.pace)
  }

  /**
   * The state every reachable channel keeps: the period divider below
   * 0x800, the length timer within 64 (an 8-bit counter), the envelope and
   * the sweep each within their pace.
   */
  predicate Inv(c: Channel1)
  {
    c.periodDivider < 0x800 && LengthTimer.Fits(c.length, 0x100) && LengthTimer.Inv(c.length, 64) &&
    Envelope.Inv(c.envelope) && SweepInv(c.sweep)
  }

  /** Power-on: the registers take their post-boot values, or zero when the boot ROM runs; the DAC is off. */
  function PowerOn(c: Channel1, skipBootRom: bool): (r: Channel1)
    ensures !r.dac && !r.triggered && r.dutyStep == 0 && !Enabled(r)
    ensures skipBootRom ==> r.nr10 == 0x80 && r.nr11 == 0xBF && r.nr12 == 0xF3 && r.nr13 == 0xFF && r.nr14 == 0xBF
    ensures !skipBootRom ==> r.nr10 == 0 && r.nr11 == 0 && r.nr12 == 0 && r.nr13 == 0 && r.nr14 == 0
    ensures r == c.(nr10 := r.nr10, nr11 := r.nr11, nr12 := r.nr12, nr13 := r.nr13, nr14 := r.nr14,
                    dutyStep := 0, dac := false, triggered := false)
  {
    var c1 := if skipBootRom then c.(nr10 := 0x80, nr11 := 0xBF, nr12 := 0xF3, nr13 := 0xFF, nr14 := 0xBF)
              else c.(nr10 := 0x00, nr11 := 0x00, nr12 := 0x00, nr13 := 0x00, nr14 := 0x00);
    c1.(dutyStep := 0, dac := false, triggered := false)
  }

  /** One period-divider tick: at 0x800 the divider reloads with the period and the duty step advances mod 8. */
  function Clock(c: Channel1): (r: Channel1)
    ensures (c.periodDivider + 1) % 0x10000 == 0x800 ==>
              r == c.(periodDivider := GetPeriod(c), dutyStep := (c.dutyStep + 1) % 8)
    ensures (c.periodDivider + 1) % 0x10000 != 0x800 ==> r == c.(periodDivider := (c.periodDivider + 1) % 0x10000)
    ensures Inv(c) ==> Inv(r)
  {
    var d := (c.periodDivider + 1) % 0x10000;
    if d == 0x0800 then c.(periodDivider := GetPeriod(c), dutyStep := (c.dutyStep + 1) % 8)
    else c.(periodDivider := d)
  }

  /** `n` period-divider ticks in a row. */
  function ClockN(c: Channel1, n: nat): Channel1
    decreases n
  {
    if n == 0 then c else ClockN(Clock(c), n - 1)
  }

  /** Below 0x800 the divider only counts. */
  lemma {:induction false} ClockNCounts(c: Channel1, n: nat)
    requires c.periodDivider + n < 0x800
    ensures ClockN(c, n) == c.(periodDivider := c.periodDivider + n)
    decreases n
  {
    if n > 0 {
      ClockNCounts(Clock(c), n - 1);
    }
  }

  lemma {:induction false} ClockNLast(c: Channel1, n: nat)
    ensures ClockN(c, n + 1) == Clock(ClockN(c, n))
    decreases n
  {
    if n > 0 {
      ClockNLast(Clock(c), n - 1);
    }
  }

  /**
   * From a freshly reloaded divider, `0x800 - period` ticks advance the
   * duty step exactly once and reload the divider: one duty step per period.
   */
  lemma OneStepPerPeriod(c: Channel1)
    requires c.periodDivider == GetPeriod(c)
    ensures ClockN(c, 0x800 - GetPeriod(c)) == c.(dutyStep := (c.dutyStep + 1) % 8)
  {
    ClimbToTop(c, 0x800 - GetPeriod(c));
  }

  /** `m` ticks take a divider `m` below 0x800 up to 0x7FF and then over the top. */
  lemma ClimbToTop(c: Channel1, m: nat)
    requires m >= 1 && c.periodDivider + m == 0x800
    ensures ClockN(c, m) == c.(periodDivider := GetPeriod(c), dutyStep := (c.dutyStep + 1) % 8)
  {
    ClockNCounts(c, m - 1);
    ClockNLast(c, m - 1);
    ReloadAtTop(c.(periodDivider := 0x7FF));
  }

  /** The tick from 0x7FF reloads the period and advances the duty step. */
  lemma ReloadAtTop(c: Channel1)
    requires c.periodDivider == 0x7FF
    ensures Clock(c) == c.(periodDivider := GetPeriod(c), dutyStep := (c.dutyStep + 1) % 8)
  {
  }

  /** One envelope tick, which leaves everything but the envelope alone. */
  function ClockEnvelope(c: Channel1): (r: Channel1)
    ensures r == c.(envelope := Envelope.Clock(c.envelope))
  {
    c.(envelope := Envelope.Clock(c.envelope))
  }

  /** One length tick: inert while length is disabled; otherwise the 8-bit counter ticks toward 64. */
  function ClockLengthTimer(c: Channel1): (r: Channel1)
    requires LengthTimer.Fits(c.length, 0x100)
    ensures !LengthEnabled(c) ==> r == c
    ensures LengthEnabled(c) ==> r == c.(length := LengthTimer.Clock(c.length, 64, 0x100))
  {
    if !LengthEnabled(c) then c
    else c.(length := LengthTimer.Clock(c.length, 64, 0x100))
  }

  /** The envelope and length ticks keep the invariant. */
  lemma TicksKeepInv(c: Channel1)
    requires Inv(c)
    ensures Inv(ClockEnvelope(c)) && Inv(ClockLengthTimer(c))
  {
    Envelope.ClockKeepsInv(c.envelope);
    LengthTimer.ClockKeepsInv(c.length, 64, 0x100);
  }

  /** The period shifted right by `k` bits. */
  function ShiftRight(p: nat, k: nat): (d: nat)
    ensures d <= p
    ensures k > 0 && p > 0 ==> d < p
    decreases k
  {
    if k == 0 then p else ShiftRight(p / 2, k - 1)
  }

  /**
   * The period one sweep step computes: the period plus or minus the period
   * divided by 2^slope. (The source floors the subtraction at 0, a guard
   * that never fires because the shifted period never exceeds the period.)
   */
  function SweepTarget(c: Channel1): (p: nat)
    ensures SweepAdds(c) ==> p == GetPeriod(c) + ShiftRight(GetPeriod(c), SweepSlope(c))
    ensures !SweepAdds(c) ==> p == GetPeriod(c) - ShiftRight(GetPeriod(c), SweepSlope(c))
  {
    var p := GetPeriod(c);
    var diff := ShiftRight(p, SweepSlope(c));
    if SweepAdds(c) then p + diff else p - diff
  }

  /** The sweep step itself: an addition past 0x7FF sets the overflow flag and keeps the period. */
  function SweepStep(c: Channel1): (r: Channel1)
    ensures SweepTarget(c) > 0x7FF ==> SweepAdds(c) && r == c.(sweep := c.sweep.(overflow := true))
    ensures SweepTarget(c) <= 0x7FF ==> r == SetPeriod(c, SweepTarget(c))
  {
    var p := SweepTarget(c);
    if SweepAdds(c) && p > 0x07FF then c.(sweep := c.sweep.(overflow := true)) else SetPeriod(c, p)
  }

  /** A pending reload copies NR10's pace into the sweep. */
  function ReloadPace(c: Channel1): (r: Channel1)
    ensures c.sweep.reload ==> r == c.(sweep := c.sweep.(pace := SweepPaceOf(c.nr10)))
    ensures !c.sweep.reload ==> r == c
  {
    if c.sweep.reload then c.(sweep := c.sweep.(pace := SweepPaceOf(c.nr10))) else c
  }

  /**
   * One frequency-sweep tick: inert after an overflow or with pace 0;
   * otherwise the divider counts and, on reaching the pace, restarts, the
   * sweep step runs, and a pending pace reload takes NR10's pace.
   */
  function ClockFrequencySweep(c: Channel1): (r: Channel1)
    ensures c.sweep.overflow || c.sweep.pace == 0 ==> r == c
    ensures !c.sweep.overflow && c.sweep.pace != 0 && (c.sweep.divider + 1) % 0x100 != c.sweep.pace ==>
              r == c.(sweep := c.sweep.(divider := (c.sweep.divider + 1) % 0x100))
    ensures !c.sweep.overflow && c.sweep.pace != 0 && (c.sweep.divider + 1) % 0x100 == c.sweep.pace ==>
              r == ReloadPace(SweepStep(c.(sweep := c.sweep.(divider := 0))))
  {
    if c.sweep.overflow || c.sweep.pace == 0 then c
    else
      var d := (c.sweep.divider + 1) % 0x100;
      if d == c.sweep.pace then ReloadPace(SweepStep(c.(sweep := c.sweep.(divider := 0))))
      else c.(sweep := c.sweep.(divider := d))
  }

  /**
   * A sweep tick touches only the sweep state and the period bits of NR13
   * and NR14, and keeps the invariant.
   */
  lemma SweepFrame(c: Channel1)
    ensures var r := ClockFrequencySweep(c);
            r == c.(sweep := r.sweep, nr13 := r.nr13, nr14 := r.nr14) && r.nr14 / 8 == c.nr14 / 8
    ensures Inv(c) ==> Inv(ClockFrequencySweep(c))
  {
  }

  /**
   * A sweep tick either overflows, leaving the period as it was, or stores
   * the new period: up by the shifted period in addition mode, down by it
   * in subtraction mode. So the period moves monotonically.
   */
  lemma SweepMovesPeriod(c: Channel1)
    requires !c.sweep.overflow && c.sweep.pace != 0 && (c.sweep.divider + 1) % 0x100 == c.sweep.pace
    ensures var r := ClockFrequencySweep(c);
            var p := GetPeriod(c);
            var d := ShiftRight(p, SweepSlope(c));
            (r.sweep.overflow <==> SweepAdds(c) && p + d > 0x7FF) &&
            (r.sweep.overflow ==> GetPeriod(r) == p) &&
            (!r.sweep.overflow && SweepAdds(c) ==> GetPeriod(r) == p + d) &&
            (!SweepAdds(c) ==> GetPeriod(r) == p - d)
  {
    var c0 := c.(sweep := c.sweep.(divider := 0));
    var t := SweepTarget(c0);
    if t <= 0x7FF {
      PeriodRoundTrip(c0, t);
    }
  }

  /** An overflow is permanent until the next trigger: later sweep ticks leave the channel alone, and it is disabled. */
  lemma OverflowIsSticky(c: Channel1)
    requires c.sweep.overflow
    ensures ClockFrequencySweep(c) == c && !Enabled(c)
  {
  }

  /** With slope 0 in addition mode, a period of 0x400 or more overflows at the first sweep step. */
  lemma SlopeZeroDoublesPeriod(c: Channel1)
    requires !c.sweep.overflow && c.sweep.pace != 0 && (c.sweep.divider + 1) % 0x100 == c.sweep.pace
    requires SweepAdds(c) && SweepSlope(c) == 0 && GetPeriod(c) >= 0x400
    ensures ClockFrequencySweep(c).sweep.overflow
  {
  }

  /** Register reads, with the write-only bits reading as 1. */
  function Read(c: Channel1, ioAddr: Byte): (b: Byte)
    ensures ioAddr == 0x10 ==> b == FromNat(c.nr10) | 0x80
    ensures ioAddr == 0x11 ==> b == FromNat(c.nr11) | 0x3F
    ensures ioAddr == 0x12 ==> b == FromNat(c.nr12)
    ensures ioAddr == 0x14 ==> b & 0x40 == FromNat(c.nr14) & 0x40 && b | 0x40 == 0xFF
    ensures ioAddr !in {0x10, 0x11, 0x12, 0x14} ==> b == 0xFF
  {
    match ioAddr
    case 0x10 => FromNat(c.nr10) | 0x80
    case 0x11 => FromNat(c.nr11) | 0x3F
    case 0x12 => FromNat(c.nr12)
    case 0x13 => 0xFF
    case 0x14 => (FromNat(c.nr14) & 0x40) | 0xBF
    case _ => 0xFF
  }

  /**
   * A trigger: the sweep takes NR10's pace and restarts without overflow;
   * the length counter reloads and runs; the envelope loads from NR12; the
   * DAC is on iff NR12 bits 3-7 are not all 0; the period divider reloads
   * with the period.
   */
  function Trigger(c: Channel1): (r: Channel1)
    ensures r.sweep == Sweep(SweepPaceOf(c.nr10), false, 0, false)
    ensures r.length == LengthTimer.Length(LengthLoad(c.nr11), false)
    ensures r.envelope == Envelope.Load(c.nr12) && (r.dac <==> Envelope.DacOn(c.nr12))
    ensures r == c.(sweep := r.sweep, length := r.length, envelope := r.envelope, dac := r.dac,
                    periodDivider := GetPeriod(c), triggered := true)
    ensures Inv(r) && (Enabled(r) <==> r.dac)
  {
    c.(sweep := Sweep(SweepPaceOf(c.nr10), false, 0, false),
       length := LengthTimer.Length(LengthLoad(c.nr11), false),
       envelope := Envelope.Load(c.nr12), dac := Envelope.DacOn(c.nr12),
       periodDivider := GetPeriod(c), triggered := true)
  }

  /**
   * Register writes. An NR10 write with a non-zero pace defers the new pace
   * to the next sweep step; with pace 0 it stops the sweep at once. NR11
   * reloads the length counter; an NR14 write with bit 7 set triggers.
   */
  function Write(c: Channel1, ioAddr: Byte, data: Byte): (r: Channel1)
    ensures ioAddr == 0x10 && data & 0x70 != 0 ==> r == c.(nr10 := ToNat(data), sweep := c.sweep.(reload := true))
    ensures ioAddr == 0x10 && data & 0x70 == 0 ==> r == c.(nr10 := ToNat(data), sweep := c.sweep.(pace := 0, reload := false))
    ensures ioAddr == 0x11 ==> r == c.(nr11 := ToNat(data), length := c.length.(counter := LengthLoad(ToNat(data))))
    ensures ioAddr == 0x12 ==> r == c.(nr12 := ToNat(data))
    ensures ioAddr == 0x13 ==> r == c.(nr13 := ToNat(data))
    ensures ioAddr == 0x14 && !BitSet(data, 7) ==> r == c.(nr14 := ToNat(data))
    ensures ioAddr == 0x14 && BitSet(data, 7) ==> r == Trigger(c.(nr14 := ToNat(data)))
    ensures ioAddr !in {0x10, 0x11, 0x12, 0x13, 0x14} ==> r == c
  {
    var n := ToNat(data);
    match ioAddr
    case 0x10 =>
      if data & 0x70 != 0 then c.(nr10 := n, sweep := c.sweep.(reload := true))
      else c.(nr10 := n, sweep := c.sweep.(pace := SweepPaceOf(n), reload := false))
    case 0x11 => c.(nr11 := n, length := c.length.(counter := LengthLoad(n)))
    case 0x12 => c.(nr12 := n)
    case 0x13 => c.(nr13 := n)
    case 0x14 =>
      var c1 := c.(nr14 := n);
      if data & 0x80 != 0 then Trigger(c1) else c1
    case _ => c
  }

  /** Every register write keeps the invariant. */
  lemma WriteKeepsInv(c: Channel1, ioAddr: Byte, data: Byte)
    requires Inv(c)
    ensures Inv(Write(c, ioAddr, data))
  {
  }

  /** What a write stores reads back, up to the write-only bits. */
  lemma WriteThenRead(c: Channel1, data: Byte)
    ensures Read(Write(c, 0x10, data), 0x10) == data | 0x80
    ensures Read(Write(c, 0x11, data), 0x11) == data | 0x3F
    ensures Read(Write(c, 0x12, data), 0x12) == data
    ensures Read(Write(c, 0x13, data), 0x13) == 0xFF
    ensures Read(Write(c, 0x14, data), 0x14) == (data & 0x40) | 0xBF
  {
    FromNatToNat(data);
    StoredRegister(c, 0x10, data);
    StoredRegister(c, 0x11, data);
    StoredRegister(c, 0x12, data);
    StoredRegister(c, 0x14, data);
  }

  /** A write to NR10, NR11, NR12 or NR14 stores the written byte in that register. */
  lemma StoredRegister(c: Channel1, ioAddr: Byte, data: Byte)
    requires ioAddr in {0x10, 0x11, 0x12, 0x14}
    ensures var r := Write(c, ioAddr, data);
            (ioAddr == 0x10 ==> r.nr10 == ToNat(data)) && (ioAddr == 0x11 ==> r.nr11 == ToNat(data)) &&
            (ioAddr == 0x12 ==> r.nr12 == ToNat(data)) && (ioAddr == 0x14 ==> r.nr14 == ToNat(data))
  {
  }

  /**
   * The integer part of the output: nothing (a silent 0.0) while the DAC is
   * off or before the first trigger; otherwise the volume, zeroed by a sweep
   * overflow or an expired length timer, times the duty level.
   */
  function Level(c: Channel1): (l: Option<int>)
    ensures !c.dac || !c.triggered <==> l == None
    ensures l.Some? && (c.sweep.overflow || c.length.expired) ==> l.value == 0
    ensures l.Some? && !(c.sweep.overflow || c.length.expired) ==>
              (l.value == c.envelope.volume as int || l.value == -(c.envelope.volume as int))
    ensures Inv(c) && l.Some? ==> -15 <= l.value <= 15
  {
    if !c.dac || !c.triggered then None
    else
      var volume := if c.sweep.overflow || c.length.expired then 0 else c.envelope.volume;
      Some(volume * DutyLevel(DutyCycle(c), c.dutyStep))
  }
}

=== FILE: channel2.dfy ===
/**
 * Sound channel 2 (pulse, NR21-NR24) at the revision where it is the only
 * channel the APU routes: the period divider and duty step, the length
 * timer and the envelope driven by APU-DIV events, the integer sample, and
 * register reads and writes with the trigger.
 *
 * Two defects are carried as a `Variant`: the duty step wraps with `& 0x03`
 * (so steps 4..7 of the duty table are never reached), and a trigger loads
 * the volume as `NR22 & 0xF0` without shifting it down to 0..15.
 *
 * The helpers that decode the registers (duty = NR21 bits 6-7, length =
 * NR21 bits 0-5, period = NR24 bits 0-2 and NR23, length enable = NR24
 * bit 6) are not part of the source at this revision; they are modelled
 * after the matching accessors of channel 1.
 */
module Channel2 {
  import opened Bits
  import opened Variants

  type U8 = x: int | 0 <= x < 0x100
  type U16 = x: int | 0 <= x < 0x10000
  /** A duty row of the table. */
  type Duty = x: int | 0 <= x < 4
  /** A step within a duty row. */
  type Step = x: int | 0 <= x < 8

  datatype Channel2 = Channel2(
    nr21: Byte, nr22: Byte, nr23: Byte, nr24: Byte,
    period: U16, periodCounter: U16, duty: Duty, step: Step,
    lengthDivider: Byte, lengthTimer: Byte, lengthExpired: bool,
    envelopeDivider: Byte, volume: U8, increase: bool, pace: U8,
    dac: bool)

  /** The duty table: row `d` is high at step `i`. */
  function DutyHigh(d: Duty, i: Step): bool
  {
    match d
    case 0 => i != 7
    case 1 => i < 6
    case 2 => i < 4
    case _ => i < 2
  }

  /** The number of low steps among the first `n` of row `d`. */
  function LowSteps(d: Duty, n: nat): (k: nat)
    requires n <= 8
    ensures k <= n
  {
    if n == 0 then 0 else LowSteps(d, n - 1) + (if DutyHigh(d, n - 1) then 0 else 1)
  }

  /** Rows 0..3 have 1, 2, 4 and 6 low steps out of 8 (12.5%, 25%, 50%, 75%). */
  lemma DutyRows()
    ensures LowSteps(0, 8) == 1 && LowSteps(1, 8) == 2 && LowSteps(2, 8) == 4 && LowSteps(3, 8) == 6
  {
  }

  /** The 11-bit period: NR24 bits 0-2 above NR23. */
  function PeriodOf(nr23: Byte, nr24: Byte): (p: U16)
    ensures p < 0x800
    ensures p % 0x100 == nr23 as int && p / 0x100 == (nr24 & 0x07) as int
  {
    (nr24 & 0x07) as int * 0x100 + nr23 as int
  }

  function DutyOf(nr21: Byte): Duty
  {
    (nr21 >> 6) as int
  }

  function LengthOf(nr21: Byte): (l: Byte)
    ensures l < 64
  {
    nr21 & 0x3F
  }

  predicate LengthEnabled(nr24: Byte)
  {
    nr24 & 0x40 != 0
  }

  /**
   * The invariant every reachable state keeps: the divider and period stay
   * below 0x800, the length timer below 64; as written the step stays in
   * 0..3, corrected the volume stays in 0..15.
   */
  predicate Inv(c: Channel2, v: Variant)
  {
    c.periodCounter < 0x800 && c.period < 0x800 && c.lengthTimer < 64 &&
    (v == AsWritten ==> c.step < 4) &&
    (v == Corrected ==> c.volume <= 15)
  }

  /** The next duty step. */
  function NextStep(i: Step, v: Variant): (j: Step)
    ensures v == Corrected ==> j == (i + 1) % 8
    ensures v == AsWritten ==> j == (i + 1) % 4
  {
    match v
    case AsWritten => ((i as bv8 + 1) & 0x03) as int
    case Corrected => (i + 1) % 8
  }

  /** One period-divider tick: at 0x800 the divider reloads with the period and the duty step advances. */
  function Clock(c: Channel2, v: Variant): (r: Channel2)
    ensures (c.periodCounter + 1) % 0x10000 == 0x800 ==>
              r == c.(periodCounter := c.period, step := NextStep(c.step, v))
    ensures (c.periodCounter + 1) % 0x10000 != 0x800 ==>
              r == c.(periodCounter := (c.periodCounter + 1) % 0x10000)
  {
    var pc := (c.periodCounter + 1) % 0x10000;
    if pc == 0x800 then c.(periodCounter := c.period, step := NextStep(c.step, v))
    else c.(periodCounter := pc)
  }

  lemma ClockKeepsInv(c: Channel2, v: Variant)
    requires Inv(c, v)
    ensures Inv(Clock(c, v), v)
  {
  }

  /** `n` clocks in a row. */
  function Clocks(c: Channel2, v: Variant, n: nat): Channel2
    decreases n
  {
    if n == 0 then c else Clocks(Clock(c, v), v, n - 1)
  }

  /** Below 0x800 the clocks only count. */
  lemma {:induction false} ClocksCount(c: Channel2, v: Variant, n: nat)
    requires c.periodCounter + n < 0x800
    ensures Clocks(c, v, n) == c.(periodCounter := c.periodCounter + n)
    decreases n
  {
    if n > 0 {
      ClocksCount(Clock(c, v), v, n - 1);
    }
  }

  /**
   * From a freshly reloaded divider, `0x800 - period` clocks advance the
   * duty step exactly once and reload the divider again.
   */
  lemma {:induction false} OneStepPerPeriod(c: Channel2, v: Variant)
    requires c.period < 0x800 && c.periodCounter == c.period
    ensures Clocks(c, v, 0x800 - c.period) == c.(step := NextStep(c.step, v))
  {
    var n := 0x7FF - c.period;
    ClocksCount(c, v, n);
    ClocksLast(c, v, n);
  }

  lemma {:induction false} ClocksLast(c: Channel2, v: Variant, n: nat)
    ensures Clocks(c, v, n + 1) == Clock(Clocks(c, v, n), v)
    decreases n
  {
    if n > 0 {
      ClocksLast(Clock(c, v), v, n - 1);
    }
  }

  /** The step after `k` advances from step `i`. */
  function Advance(i: Step, v: Variant, k: nat): Step
    decreases k
  {
    if k == 0 then i else Advance(NextStep(i, v), v, k - 1)
  }

  /** Corrected, `k` advances from step 0 land on step `k mod 8`, so every step of a row is played. */
  lemma {:induction false} CorrectedVisitsEveryStep(k: nat)
    ensures Advance(0, Corrected, k) == k % 8
  {
    AdvanceFrom(0, k);
  }

  lemma {:induction false} AdvanceFrom(i: Step, k: nat)
    ensures Advance(i, Corrected, k) == (i + k) % 8
    decreases k
  {
    if k > 0 {
      AdvanceFrom((i + 1) % 8, k - 1);
      StepMod(i, k);
    }
  }

  lemma StepMod(i: Step, k: nat)
    requires k > 0
    ensures ((i + 1) % 8 + (k - 1)) % 8 == (i + k) % 8
  {
    if i == 7 {
      assert i + k == (k - 1) + 8;
    }
  }

  /** Corrected, each duty row has a step that is low, which the steps reach. */
  lemma CorrectedDutyGoesLow(d: Duty)
    ensures !DutyHigh(d, Advance(0, Corrected, 7))
  {
    CorrectedVisitsEveryStep(7);
  }

  /**
   * As written, the steps never leave 0..3, where rows 0, 1 and 2 are high
   * throughout: those three duty settings produce a constant level.
   */
  lemma {:induction false} AsWrittenDutyStaysHigh(d: Duty, i: Step, k: nat)
    requires d < 3 && i < 4
    ensures Advance(i, AsWritten, k) < 4 && DutyHigh(d, Advance(i, AsWritten, k))
    decreases k
  {
    if k > 0 {
      AsWrittenDutyStaysHigh(d, NextStep(i, AsWritten), k - 1);
    }
  }

  /**
   * One APU-DIV event: the length timer ticks every second event (at 64 it
   * reloads from NR21 and expires if length is enabled); the envelope runs
   * every eighth event, adding or subtracting the pace with saturation at
   * 15 and 0.
   */
  function ApuDiv(c: Channel2): (r: Channel2)
    ensures c.lengthDivider + 1 != 2 ==> r.lengthDivider == c.lengthDivider + 1 && r.lengthTimer == c.lengthTimer &&
                                         r.lengthExpired == c.lengthExpired
    ensures c.lengthDivider + 1 == 2 && c.lengthTimer + 1 != 64 ==>
              r.lengthDivider == 0 && r.lengthTimer == c.lengthTimer + 1 && r.lengthExpired == c.lengthExpired
    ensures c.lengthDivider + 1 == 2 && c.lengthTimer + 1 == 64 ==>
              r.lengthDivider == 0 && r.lengthTimer == LengthOf(c.nr21) &&
              (r.lengthExpired <==> c.lengthExpired || LengthEnabled(c.nr24))
    ensures c.envelopeDivider + 1 != 8 ==> r.envelopeDivider == c.envelopeDivider + 1 && r.volume == c.volume
    ensures c.envelopeDivider + 1 == 8 && c.increase ==>
              r.envelopeDivider == 0 && r.volume == Min(c.volume + c.pace, 15)
    ensures c.envelopeDivider + 1 == 8 && !c.increase ==>
              r.envelopeDivider == 0 && r.volume == Max(c.volume - c.pace, 0)
    ensures r.(lengthDivider := c.lengthDivider, lengthTimer := c.lengthTimer, lengthExpired := c.lengthExpired,
               envelopeDivider := c.envelopeDivider, volume := c.volume) == c
  {
    var c1 := LengthTick(c);
    EnvelopeTick(c1)
  }

  function Min(a: int, b: int): int { if a < b then a else b }
  function Max(a: int, b: int): int { if a > b then a else b }

  /**
   * One length step. The divider halves the 512 Hz APU-DIV rate; on every
   * second event the timer counts up, and when it reaches 64 it reloads
   * from NR21 and, if length is enabled in NR24, the channel expires.
   */
  function LengthTick(c: Channel2): (r: Channel2)
    ensures r.lengthExpired <==> c.lengthExpired || (c.lengthDivider == 1 && c.lengthTimer == 63 && LengthEnabled(c.nr24))
    ensures c.lengthDivider != 1 ==> r.lengthDivider == c.lengthDivider + 1 && r.lengthTimer == c.lengthTimer
    ensures c.lengthDivider == 1 && c.lengthTimer != 63 ==> r.lengthDivider == 0 && r.lengthTimer == c.lengthTimer + 1
    ensures c.lengthDivider == 1 && c.lengthTimer == 63 ==> r.lengthDivider == 0 && r.lengthTimer == LengthOf(c.nr21)
    ensures r.(lengthDivider := c.lengthDivider, lengthTimer := c.lengthTimer, lengthExpired := c.lengthExpired) == c
  {
    var ld := c.lengthDivider + 1;
    if ld == 2 then
      var lt := c.lengthTimer + 1;
      if lt == 64 then
        c.(lengthDivider := 0, lengthTimer := LengthOf(c.nr21),
           lengthExpired := c.lengthExpired || LengthEnabled(c.nr24))
      else c.(lengthDivider := 0, lengthTimer := lt)
    else c.(lengthDivider := ld)
  }

  /** `n` consecutive length steps. */
  function LengthTicks(c: Channel2, n: nat): Channel2
    decreases n
  {
    if n == 0 then c else LengthTicks(LengthTick(c), n - 1)
  }

  /** Once expired, the channel stays expired whatever the length steps. */
  lemma {:induction false} ExpiredStays(c: Channel2, n: nat)
    requires c.lengthExpired
    ensures LengthTicks(c, n).lengthExpired
    decreases n
  {
    if n > 0 {
      ExpiredStays(LengthTick(c), n - 1);
    }
  }

  /**
   * With length enabled and the divider just reset, a channel whose timer
   * stands at `t` expires after exactly 2 * (64 - t) APU-DIV events.
   */
  lemma {:induction false} LengthExpiresAfter(c: Channel2, n: nat)
    requires c.lengthDivider == 0 && c.lengthTimer < 64 && LengthEnabled(c.nr24) && !c.lengthExpired
    ensures LengthTicks(c, n).lengthExpired <==> n >= 2 * (64 - c.lengthTimer as int)
    decreases n
  {
    if n >= 2 {
      var c1 := LengthTick(c);
      var c2 := LengthTick(c1);
      assert LengthTicks(c, n) == LengthTicks(c2, n - 2) by {
        assert LengthTicks(c, n) == LengthTicks(c1, n - 1);
      }
      if c.lengthTimer == 63 {
        ExpiredStays(c2, n - 2);
      } else {
        LengthExpiresAfter(c2, n - 2);
      }
    } else if n == 1 {
      assert LengthTicks(c, 1) == LengthTicks(LengthTick(c), 0);
    }
  }

  /**
   * One envelope step. The divider divides APU-DIV by 8; on every eighth
   * event the volume moves by the pace, upwards saturating at 15 or
   * downwards stopping at 0.
   */
  function EnvelopeTick(c: Channel2): (r: Channel2)
    ensures c.envelopeDivider != 7 ==> r.envelopeDivider == c.envelopeDivider + 1 && r.volume == c.volume
    ensures c.envelopeDivider == 7 ==> r.envelopeDivider == 0
    ensures c.envelopeDivider == 7 && c.increase ==> r.volume == Min(c.volume + c.pace, 15)
    ensures c.envelopeDivider == 7 && !c.increase ==> r.volume == Max(c.volume - c.pace, 0)
    ensures c.volume <= 15 ==> r.volume <= 15
    ensures r.(envelopeDivider := c.envelopeDivider, volume := c.volume) == c
  {
    var ed := c.envelopeDivider + 1;
    if ed == 8 then c.(envelopeDivider := 0, volume := EnvelopeVolume(c.volume, c.pace, c.increase))
    else c.(envelopeDivider := ed)
  }

  /** One envelope step: up by the pace saturating at 15, or down by it flooring at 0. */
  function EnvelopeVolume(volume: U8, pace: U8, increase: bool): (vol: U8)
    ensures increase ==> vol == Min(volume + pace, 15)
    ensures !increase ==> vol == Max(volume - pace, 0)
  {
    if increase then
      (if volume + pace > 0x0F then 0x0F else volume + pace)
    else
      (if pace > volume then 0x00 else volume - pace)
  }

  lemma ApuDivKeepsInv(c: Channel2, v: Variant)
    requires Inv(c, v)
    ensures Inv(ApuDiv(c), v)
  {
  }

  /** The integer output: the volume while the DAC is on, length has not expired and the duty step is high. */
  function Sample(c: Channel2): (s: U8)
    ensures s != 0 ==> c.dac && !c.lengthExpired && DutyHigh(c.duty, c.step) && s == c.volume
    ensures c.dac && !c.lengthExpired && DutyHigh(c.duty, c.step) ==> s == c.volume
  {
    if c.dac && !c.lengthExpired && DutyHigh(c.duty, c.step) then c.volume else 0x00
  }

  /** The volume a trigger loads from NR22. */
  function TriggerVolume(nr22: Byte, v: Variant): (vol: U8)
    ensures v == Corrected ==> vol <= 15 && vol == (nr22 >> 4) as int
    ensures v == AsWritten ==> vol == (nr22 & 0xF0) as int
    ensures vol != 0 <==> nr22 & 0xF0 != 0
  {
    match v
    case AsWritten => (nr22 & 0xF0) as int
    case Corrected => (nr22 >> 4) as int
  }

  /**
   * A trigger: reload duty, length and envelope from the registers, restart
   * the step, the dividers and the period divider; the DAC is on iff NR22
   * bits 3-7 are not all 0.
   */
  function Trigger(c: Channel2, v: Variant): (r: Channel2)
    ensures r.step == 0 && r.duty == DutyOf(c.nr21) && r.lengthTimer == LengthOf(c.nr21)
    ensures r.lengthDivider == 0 && !r.lengthExpired && r.envelopeDivider == 0
    ensures r.volume == TriggerVolume(c.nr22, v) && (r.increase <==> BitSet(c.nr22, 3)) && r.pace == (c.nr22 & 0x07) as int
    ensures r.dac <==> c.nr22 & 0xF8 != 0
    ensures r.period == PeriodOf(c.nr23, c.nr24) && r.periodCounter == r.period
    ensures Inv(r, v)
  {
    var vol := TriggerVolume(c.nr22, v);
    var inc := c.nr22 & 0x08 != 0;
    var p := PeriodOf(c.nr23, c.nr24);
    c.(duty := DutyOf(c.nr21), step := 0,
       lengthTimer := LengthOf(c.nr21), lengthDivider := 0, lengthExpired := false,
       volume := vol, increase := inc, pace := (c.nr22 & 0x07) as int, envelopeDivider := 0,
       dac := vol != 0 || inc,
       period := p, periodCounter := p)
  }

  /** Register reads, with the write-only bits reading as 1. */
  function Read(c: Channel2, ioAddr: Byte): (b: Byte)
    ensures ioAddr == 0x16 ==> b & 0xC0 == c.nr21 & 0xC0 && b & 0x3F == 0x3F
    ensures ioAddr == 0x17 ==> b == c.nr22
    ensures ioAddr == 0x19 ==> b & 0x40 == c.nr24 & 0x40 && b | 0x40 == 0xFF
    ensures ioAddr !in {0x16, 0x17, 0x19} ==> b == 0xFF
  {
    match ioAddr
    case 0x16 => (c.nr21 & 0xC0) | 0x3F
    case 0x17 => c.nr22
    case 0x18 => 0xFF
    case 0x19 => (c.nr24 & 0x40) | 0xBF
    case _ => 0xFF
  }

  /** Register writes; an NR24 write with bit 7 set triggers the channel. */
  function Write(c: Channel2, ioAddr: Byte, data: Byte, v: Variant): (r: Channel2)
    ensures ioAddr == 0x16 ==> r == c.(nr21 := data, duty := DutyOf(data), lengthTimer := LengthOf(data))
    ensures ioAddr == 0x17 ==> r == c.(nr22 := data)
    ensures ioAddr == 0x18 ==> r == c.(nr23 := data, period := PeriodOf(data, c.nr24))
    ensures ioAddr == 0x19 && !BitSet(data, 7) ==> r == c.(nr24 := data, period := PeriodOf(c.nr23, data))
    ensures ioAddr == 0x19 && BitSet(data, 7) ==> r == Trigger(c.(nr24 := data), v)
    ensures ioAddr !in {0x16, 0x17, 0x18, 0x19} ==> r == c
    ensures Inv(c, v) ==> Inv(r, v)
  {
    match ioAddr
    case 0x16 => c.(nr21 := data, duty := DutyOf(data), lengthTimer := LengthOf(data))
    case 0x17 => c.(nr22 := data)
    case 0x18 => c.(nr23 := data, period := PeriodOf(data, c.nr24))
    case 0x19 =>
      var c1 := c.(nr24 := data, period := PeriodOf(c.nr23, data));
      if data & 0x80 != 0 then Trigger(c1, v) else c1
    case _ => c
  }

  /** What a write stores reads back, up to the write-only bits. */
  lemma WriteThenRead(c: Channel2, data: Byte, v: Variant)
    ensures Read(Write(c, 0x16, data, v), 0x16) == (data & 0xC0) | 0x3F
    ensures Read(Write(c, 0x17, data, v), 0x17) == data
    ensures Read(Write(c, 0x18, data, v), 0x18) == 0xFF
    ensures Read(Write(c, 0x19, data, v), 0x19) == (data & 0x40) | 0xBF
  {
  }

  /** The register values after Reset; the DAC is off. */
  function Reset(c: Channel2): (r: Channel2)
    ensures r.nr21 == 0x3F && r.nr22 == 0 && r.nr23 == 0xFF && r.nr24 == 0xBF && !r.dac
    ensures Sample(r) == 0
  {
    c.(nr21 := 0x3F, nr22 := 0x00, nr23 := 0xFF, nr24 := 0xBF, dac := false)
  }

  /**
   * As written, a trigger with NR22 = 0xF0 loads volume 0xF0, and the
   * sample at the first (high) step is 0xF0, outside the 4-bit range.
   */
  lemma AsWrittenVolumeOutOfRange(c: Channel2)
    requires c.nr22 == 0xF0
    ensures var r := Trigger(c, AsWritten);
            r.volume == 0xF0 && Sample(r) == 0xF0
  {
  }

  /** Corrected, every sample is a 4-bit volume. */
  lemma CorrectedSampleInRange(c: Channel2)
    requires Inv(c, Corrected)
    ensures Sample(c) <= 15
  {
  }
}

=== FILE: channel3.dfy ===
/**
 * Sound channel 3 (wave output, NR30-NR34 and the 16 bytes of wave RAM) of
 * the current revision: the period divider that steps through 32 4-bit
 * samples, the 256-step length timer, wave-RAM reads and writes, the
 * trigger, and the integer part of the output sample.
 *
 * Registers are held as numbers 0..255, as in channel 1; the 16-bit period
 * divider and length counter have their wrap-around written out.
 */
module Channel3 {
  import opened Bits
  import LengthTimer

  type U8 = x: int | 0 <= x < 0x100
  type U16 = x: int | 0 <= x < 0x10000
  /** One wave sample. */
  type Nibble = x: int | 0 <= x < 0x10
  /** A position in wave RAM, counted in samples. */
  type Index = x: int | 0 <= x < 32

  /**
   * An output sample: `Silent` is the 0.0 the source returns with the DAC
   * off, before a trigger or at power-on; `Level(v)` is the value v / 7.5 -
   * 1.0 built from the 4-bit level `v`.
   */
  datatype Sample = Silent | Level(v: nat)

  datatype Channel3 = Channel3(
    nr30: U8, nr31: U8, nr32: U8, nr33: U8, nr34: U8,
    wave: seq<Nibble>, sampleIndex: Index, lastSample: Sample, delayPlayback: bool,
    length: LengthTimer.Length, periodDivider: U16, triggered: bool)

  /** The 11-bit period: NR34 bits 0-2 above NR33. */
  function GetPeriod(c: Channel3): (p: nat)
    ensures p < 0x800
  {
    (c.nr34 % 8) * 0x100 + c.nr33
  }

  /** The DAC: NR30 bit 7. */
  predicate DacEnabled(c: Channel3)
  {
    c.nr30 >= 0x80
  }

  /** Length enable: NR34 bit 6. */
  predicate LengthEnabled(c: Channel3)
  {
    (c.nr34 / 64) % 2 == 1
  }

  /** The output level: NR32 bits 5-6. */
  function OutputLevel(c: Channel3): (l: nat)
    ensures l < 4
  {
    (c.nr32 / 32) % 4
  }

  /** The channel plays: DAC on and the length timer not expired while enabled. */
  predicate Enabled(c: Channel3)
  {
    DacEnabled(c) && (!LengthEnabled(c) || !c.length.expired)
  }

  /** Wave RAM holds 32 samples; the period divider stays below 0x800; the length counter stays within 256. */
  predicate Inv(c: Channel3)
  {
    |c.wave| == 32 && c.periodDivider < 0x800 &&
    LengthTimer.Fits(c.length, 0x10000) && LengthTimer.Inv(c.length, 256)
  }

  /** Power-on: post-boot register values, or zero when the boot ROM runs; sample 0, silent, untriggered. */
  function PowerOn(c: Channel3, skipBootRom: bool): (r: Channel3)
    ensures skipBootRom ==> r.nr30 == 0x7F && r.nr31 == 0xFF && r.nr32 == 0x9F && r.nr33 == 0xFF && r.nr34 == 0xBF
    ensures !skipBootRom ==> r.nr30 == 0 && r.nr31 == 0 && r.nr32 == 0 && r.nr33 == 0 && r.nr34 == 0
    ensures r == c.(nr30 := r.nr30, nr31 := r.nr31, nr32 := r.nr32, nr33 := r.nr33, nr34 := r.nr34,
                    sampleIndex := 0, lastSample := Silent, triggered := false)
    ensures !DacEnabled(r)
  {
    var c1 := if skipBootRom then c.(nr30 := 0x7F, nr31 := 0xFF, nr32 := 0x9F, nr33 := 0xFF, nr34 := 0xBF)
              else c.(nr30 := 0x00, nr31 := 0x00, nr32 := 0x00, nr33 := 0x00, nr34 := 0x00);
    c1.(sampleIndex := 0, lastSample := Silent, triggered := false)
  }

  /**
   * One period-divider tick: at 0x800 the divider reloads with the period,
   * the sample index advances mod 32 and the playback delay ends.
   */
  function Tick(c: Channel3): (r: Channel3)
    ensures (c.periodDivider + 1) % 0x10000 == 0x800 ==>
              r == c.(periodDivider := GetPeriod(c), sampleIndex := (c.sampleIndex + 1) % 32, delayPlayback := false)
    ensures (c.periodDivider + 1) % 0x10000 != 0x800 ==> r == c.(periodDivider := (c.periodDivider + 1) % 0x10000)
    ensures Inv(c) ==> Inv(r)
  {
    var d := (c.periodDivider + 1) % 0x10000;
    if d == 0x0800 then c.(periodDivider := GetPeriod(c), sampleIndex := (c.sampleIndex + 1) % 32, delayPlayback := false)
    else c.(periodDivider := d)
  }

  /** `n` divider ticks in a row. */
  function TickN(c: Channel3, n: nat): Channel3
    decreases n
  {
    if n == 0 then c else TickN(Tick(c), n - 1)
  }

  /** Below 0x800 the divider only counts. */
  lemma {:induction false} TickNCounts(c: Channel3, n: nat)
    requires c.periodDivider + n < 0x800
    ensures TickN(c, n) == c.(periodDivider := c.periodDivider + n)
    decreases n
  {
    if n > 0 {
      TickNCounts(Tick(c), n - 1);
    }
  }

  lemma {:induction false} TickNLast(c: Channel3, n: nat)
    ensures TickN(c, n + 1) == Tick(TickN(c, n))
    decreases n
  {
    if n > 0 {
      TickNLast(Tick(c), n - 1);
    }
  }

  /** `n` ticks take a divider `n` below 0x7FF up to it, and the next tick reloads. */
  lemma ClimbToTop(c: Channel3, n: nat)
    requires c.periodDivider + n == 0x7FF
    ensures TickN(c, n + 1) ==
            c.(periodDivider := GetPeriod(c), sampleIndex := (c.sampleIndex + 1) % 32, delayPlayback := false)
  {
    TickNCounts(c, n);
    TickNLast(c, n);
  }

  /**
   * From a freshly reloaded divider, `0x800 - period` ticks advance the
   * sample index exactly once, end the playback delay, and reload the
   * divider: one sample per period.
   */
  lemma OneSamplePerPeriod(c: Channel3)
    requires c.periodDivider == GetPeriod(c)
    ensures TickN(c, 0x800 - GetPeriod(c)) ==
            c.(sampleIndex := (c.sampleIndex + 1) % 32, delayPlayback := false)
  {
    var n := 0x7FF - c.periodDivider;
    assert TickN(c, n + 1) == c.(sampleIndex := (c.sampleIndex + 1) % 32, delayPlayback := false) by {
      ClimbToTop(c, n);
    }
  }

  /** One length tick: inert once expired or while length is disabled; otherwise the counter ticks toward 256. */
  function ClockLengthTimer(c: Channel3): (r: Channel3)
    requires LengthTimer.Fits(c.length, 0x10000)
    ensures c.length.expired || !LengthEnabled(c) ==> r == c
    ensures !c.length.expired && LengthEnabled(c) ==> r == c.(length := LengthTimer.Clock(c.length, 256, 0x10000))
    ensures Inv(c) ==> Inv(r)
  {
    if c.length.expired || !LengthEnabled(c) then c
    else c.(length := LengthTimer.Clock(c.length, 256, 0x10000))
  }

  /** `n` length ticks in a row. */
  function ClockLengthN(c: Channel3, n: nat): (r: Channel3)
    requires LengthTimer.Fits(c.length, 0x10000)
    ensures LengthTimer.Fits(r.length, 0x10000)
    decreases n
  {
    if n == 0 then c else ClockLengthN(ClockLengthTimer(c), n - 1)
  }

  /** With length enabled, the channel's length ticks are exactly the timer's own. */
  lemma {:induction false} ClockLengthNIsTimer(c: Channel3, n: nat)
    requires LengthTimer.Fits(c.length, 0x10000) && LengthEnabled(c)
    ensures ClockLengthN(c, n) == c.(length := LengthTimer.ClockN(c.length, 256, 0x10000, n))
    decreases n
  {
    if n > 0 {
      ClockLengthNIsTimer(ClockLengthTimer(c), n - 1);
    }
  }

  /**
   * Loaded with NR31 = k and length enabled, the channel keeps playing for
   * 255 - k length ticks and is disabled by tick 256 - k.
   */
  lemma LengthRunsOut(c: Channel3, n: nat)
    requires Inv(c) && LengthEnabled(c) && !c.length.expired && c.length.counter + n <= 256
    ensures Enabled(ClockLengthN(c, n)) <==> DacEnabled(c) && c.length.counter + n < 256
  {
    ClockLengthNIsTimer(c, n);
    LengthTimer.ExpiresAtLimit(c.length, 256, 0x10000, n);
  }

  /** The wave-RAM byte built from samples `i` (high nibble) and `i + 1` (low nibble). */
  function WaveByte(w: seq<Nibble>, i: nat): Byte
    requires i + 1 < |w|
  {
    FromNat((w[i] as int) * 16 + w[i + 1])
  }

  /**
   * The sample pair a wave-RAM read sees: while the channel plays, the pair
   * holding the current sample, whatever the address; otherwise the pair the
   * address names.
   */
  function WaveReadIndex(c: Channel3, a: nat): (i: nat)
    requires 0x30 <= a < 0x40
    ensures i % 2 == 0 && i + 1 < 32
    ensures Enabled(c) ==> i / 2 == c.sampleIndex / 2
    ensures !Enabled(c) ==> i == (a - 0x30) * 2
  {
    if Enabled(c) then (if c.sampleIndex % 2 == 0 then c.sampleIndex else c.sampleIndex - 1)
    else (a - 0x30) * 2
  }

  /** Register and wave-RAM reads, with the write-only bits reading as 1. */
  function Read(c: Channel3, ioAddr: Byte): (b: Byte)
    requires Inv(c)
    ensures ioAddr == 0x1A ==> b == FromNat(c.nr30) | 0x7F
    ensures ioAddr == 0x1C ==> b == FromNat(c.nr32) | 0x9F
    ensures ioAddr == 0x1E ==> b == FromNat(c.nr34) | 0xBF
    ensures 0x30 <= ToNat(ioAddr) < 0x40 ==> b == WaveByte(c.wave, WaveReadIndex(c, ToNat(ioAddr)))
    ensures ioAddr !in {0x1A, 0x1C, 0x1E} && !(0x30 <= ToNat(ioAddr) < 0x40) ==> b == 0xFF
  {
    var a := ToNat(ioAddr);
    if 0x30 <= a < 0x40 then WaveByte(c.wave, WaveReadIndex(c, a))
    else
      match ioAddr
      case 0x1A => FromNat(c.nr30) | 0x7F
      case 0x1C => FromNat(c.nr32) | 0x9F
      case 0x1E => FromNat(c.nr34) | 0xBF
      case _ => 0xFF
  }

  /**
   * A trigger: the sample index restarts at 0 with playback delayed until
   * the next reload; the length counter reloads from NR31 and runs; the
   * period divider reloads with the period.
   */
  function Trigger(c: Channel3): (r: Channel3)
    ensures r == c.(sampleIndex := 0, delayPlayback := true, length := LengthTimer.Length(c.nr31, false),
                    periodDivider := GetPeriod(c), triggered := true)
    ensures |c.wave| == 32 ==> Inv(r)
    ensures Enabled(r) <==> DacEnabled(c)
  {
    c.(sampleIndex := 0, delayPlayback := true, length := LengthTimer.Length(c.nr31, false),
       periodDivider := GetPeriod(c), triggered := true)
  }

  /** Store one wave-RAM byte at pair `k`: its high nibble at sample 2k, its low nibble at 2k + 1. */
  function WriteWave(w: seq<Nibble>, k: nat, data: Byte): (r: seq<Nibble>)
    requires |w| == 32 && k < 16
    ensures |r| == 32 && r[2 * k] == ToNat(data) / 16 && r[2 * k + 1] == ToNat(data) % 16
    ensures forall i :: 0 <= i < 32 && i != 2 * k && i != 2 * k + 1 ==> r[i] == w[i]
  {
    w[2 * k := ToNat(data) / 16][2 * k + 1 := ToNat(data) % 16]
  }

  /**
   * Register and wave-RAM writes. NR31 also reloads the length counter; an
   * NR34 write with bit 7 set triggers.
   */
  function Write(c: Channel3, ioAddr: Byte, data: Byte): (r: Channel3)
    requires Inv(c)
    ensures ioAddr == 0x1A ==> r == c.(nr30 := ToNat(data))
    ensures ioAddr == 0x1B ==> r == c.(nr31 := ToNat(data), length := c.length.(counter := ToNat(data)))
    ensures ioAddr == 0x1C ==> r == c.(nr32 := ToNat(data))
    ensures ioAddr == 0x1D ==> r == c.(nr33 := ToNat(data))
    ensures ioAddr == 0x1E && !BitSet(data, 7) ==> r == c.(nr34 := ToNat(data))
    ensures ioAddr == 0x1E && BitSet(data, 7) ==> r == Trigger(c.(nr34 := ToNat(data)))
    ensures 0x30 <= ToNat(ioAddr) < 0x40 ==> r == c.(wave := WriteWave(c.wave, ToNat(ioAddr) - 0x30, data))
    ensures ioAddr !in {0x1A, 0x1B, 0x1C, 0x1D, 0x1E} && !(0x30 <= ToNat(ioAddr) < 0x40) ==> r == c
    ensures Inv(r)
  {
    var a := ToNat(ioAddr);
    var n := ToNat(data);
    if 0x30 <= a < 0x40 then c.(wave := WriteWave(c.wave, a - 0x30, data))
    else
      match ioAddr
      case 0x1A => c.(nr30 := n)
      case 0x1B => c.(nr31 := n, length := c.length.(counter := n))
      case 0x1C => c.(nr32 := n)
      case 0x1D => c.(nr33 := n)
      case 0x1E =>
        var c1 := c.(nr34 := n);
        if data & 0x80 != 0 then Trigger(c1) else c1
      case _ => c
  }

  /** While the channel is silent, a wave byte written is the byte read back. */
  lemma WaveRoundTrip(c: Channel3, ioAddr: Byte, data: Byte)
    requires Inv(c) && 0x30 <= ToNat(ioAddr) < 0x40 && !Enabled(c)
    ensures Read(Write(c, ioAddr, data), ioAddr) == data
  {
    FromNatToNat(data);
  }

  /** While the channel is silent, a wave write leaves every other wave byte as it was. */
  lemma WaveWriteFrame(c: Channel3, ioAddr: Byte, other: Byte, data: Byte)
    requires Inv(c) && 0x30 <= ToNat(ioAddr) < 0x40 && 0x30 <= ToNat(other) < 0x40 && ioAddr != other
    requires !Enabled(c)
    ensures Read(Write(c, ioAddr, data), other) == Read(c, other)
  {
    var k := ToNat(other) - 0x30;
    assert ToNat(ioAddr) != ToNat(other) by { FromNatToNat(ioAddr); FromNatToNat(other); }
    assert Write(c, ioAddr, data).wave[2 * k] == c.wave[2 * k];
    assert Write(c, ioAddr, data).wave[2 * k + 1] == c.wave[2 * k + 1];
  }

  /** While the channel plays, every wave address reads the byte holding the current sample. */
  lemma PlayingReadsCurrentByte(c: Channel3, ioAddr: Byte)
    requires Inv(c) && 0x30 <= ToNat(ioAddr) < 0x40 && Enabled(c)
    ensures Read(c, ioAddr) == WaveByte(c.wave, 2 * (c.sampleIndex / 2))
  {
  }

  /** What a register write stores reads back, up to the write-only bits. */
  lemma WriteThenRead(c: Channel3, data: Byte)
    requires Inv(c)
    ensures Read(Write(c, 0x1A, data), 0x1A) == data | 0x7F
    ensures Read(Write(c, 0x1B, data), 0x1B) == 0xFF
    ensures Read(Write(c, 0x1C, data), 0x1C) == data | 0x9F
    ensures Read(Write(c, 0x1D, data), 0x1D) == 0xFF
    ensures Read(Write(c, 0x1E, data), 0x1E) == data | 0xBF
  {
    FromNatToNat(data);
    assert Read(Write(c, 0x1A, data), 0x1A) == data | 0x7F by { assert Write(c, 0x1A, data).nr30 == ToNat(data); }
    assert Read(Write(c, 0x1C, data), 0x1C) == data | 0x9F by { assert Write(c, 0x1C, data).nr32 == ToNat(data); }
    assert Read(Write(c, 0x1E, data), 0x1E) == data | 0xBF by { assert Write(c, 0x1E, data).nr34 == ToNat(data); }
  }

  /** A 4-bit sample scaled by the output level: muted, full, half or quarter. */
  function Scale(volume: Nibble, level: nat): (v: nat)
    requires level < 4
    ensures level == 0 ==> v == 0
    ensures level == 1 ==> v == volume
    ensures level == 2 ==> v * 2 <= volume < v * 2 + 2
    ensures level == 3 ==> v * 4 <= volume < v * 4 + 4
  {
    match level
    case 0 => 0
    case 1 => volume
    case 2 => volume / 2
    case _ => volume / 4
  }

  /** Each higher output level is at most as loud as the one before it. */
  lemma ScaleOrdered(volume: Nibble)
    ensures Scale(volume, 0) <= Scale(volume, 3) <= Scale(volume, 2) <= Scale(volume, 1) == volume <= 15
  {
  }

  /**
   * The output sample and the state after it: silent with the DAC off or
   * before the first trigger; the previous sample, unchanged, while playback
   * is delayed; otherwise the current wave sample (0 once the length timer
   * has expired with length enabled) scaled by the output level, which is
   * also remembered as the last sample.
   */
  function GetSample(c: Channel3): (r: (Sample, Channel3))
    requires Inv(c)
    ensures !DacEnabled(c) || !c.triggered ==> r == (Silent, c)
    ensures DacEnabled(c) && c.triggered && c.delayPlayback ==> r == (c.lastSample, c)
    ensures DacEnabled(c) && c.triggered && !c.delayPlayback ==>
              r.0.Level? && r.0.v <= 15 && r.1 == c.(lastSample := r.0) &&
              (LengthEnabled(c) && c.length.expired ==> r.0.v == 0) &&
              (!(LengthEnabled(c) && c.length.expired) ==> r.0.v == Scale(c.wave[c.sampleIndex], OutputLevel(c)))
  {
    if !DacEnabled(c) || !c.triggered then (Silent, c)
    else if c.delayPlayback then (c.lastSample, c)
    else
      var volume := if LengthEnabled(c) && c.length.expired then 0 else c.wave[c.sampleIndex];
      var s := Level(Scale(volume, OutputLevel(c)));
      (s, c.(lastSample := s))
  }

  /**
   * One channel clock: two divider ticks, then the sample of the new state,
   * which the channel also remembers as its last sample when it plays
   * undelayed. The sample index moves by at most two.
   */
  function Clock(c: Channel3): (r: (Sample, Channel3))
    requires Inv(c)
    ensures Inv(r.1)
    ensures r.1.sampleIndex == c.sampleIndex || r.1.sampleIndex == (c.sampleIndex + 1) % 32 ||
            r.1.sampleIndex == (c.sampleIndex + 2) % 32
    ensures r.1 == c.(periodDivider := r.1.periodDivider, sampleIndex := r.1.sampleIndex,
                      delayPlayback := r.1.delayPlayback, lastSample := r.1.lastSample)
    // silent, remembering nothing, with the DAC off or before a trigger
    ensures !DacEnabled(c) || !c.triggered ==> r.0 == Silent && r.1.lastSample == c.lastSample
    // while the playback delay lasts the last sample is repeated
    ensures DacEnabled(c) && c.triggered && r.1.delayPlayback ==> r.0 == c.lastSample && r.1.lastSample == c.lastSample
    // otherwise the new sample, the wave sample at the new index, is also the last sample
    ensures DacEnabled(c) && c.triggered && !r.1.delayPlayback ==>
              r.0.Level? && r.0 == r.1.lastSample &&
              (!(LengthEnabled(c) && c.length.expired) ==> r.0.v == Scale(c.wave[r.1.sampleIndex], OutputLevel(c)))
  {
    GetSample(Tick(Tick(c)))
  }

  /**
   * A retrigger after a clock of a playing channel repeats the sample that
   * clock produced, not an older one.
   */
  lemma ClockThenTrigger(c: Channel3)
    requires Inv(c) && DacEnabled(c) && c.triggered && !Clock(c).1.delayPlayback
    ensures var (s, c1) := Clock(c); GetSample(Trigger(c1)).0 == s
  {
    var c1 := Clock(c).1;
    TriggerHoldsLastSample(c1);
  }

  /**
   * After a trigger the channel repeats the sample it produced last until
   * the divider first reloads: reading samples meanwhile changes nothing.
   */
  lemma TriggerHoldsLastSample(c: Channel3)
    requires |c.wave| == 32 && DacEnabled(c)
    ensures var t := Trigger(c); GetSample(t) == (c.lastSample, t)
  {
  }
}

=== FILE: channel4.dfy ===
/**
 * Sound channel 4 (noise, NR41-NR44) of the current revision: the linear
 * feedback shift register and its clock divider, the volume envelope, the
 * length timer, register reads and writes, the trigger, and the integer
 * part of the output sample.
 *
 * Two defects are carried as a `Variant`: the trigger selects the 7-bit
 * ("short") LFSR when NR43 bit 3 is clear instead of set, and `Enabled`
 * reports the channel off on an expired length timer even with length
 * disabled, while the sample still plays.
 */
module Channel4 {
  import opened Bits
  import opened Wrappers
  import opened Variants
  import Envelope
  import LengthTimer

  type U8 = x: int | 0 <= x < 0x100
  type U16 = x: int | 0 <= x < 0x10000

  datatype Channel4 = Channel4(
    nr41: U8, nr42: U8, nr43: U8, nr44: U8,
    length: LengthTimer.Length, envelope: Envelope.Envelope,
    lfsr: Word, lfsrCounter: U16, lfsrDivider: U16, shortMode: bool, dac: bool)

  /** Length enable: NR44 bit 6. */
  predicate LengthEnabled(c: Channel4)
  {
    (c.nr44 / 64) % 2 == 1
  }

  /** The header's reading of the LFSR width: NR43 bit 3 set selects the 7-bit register. */
  predicate WidthBitSet(nr43: U8)
  {
    (nr43 / 8) % 2 == 1
  }

  /**
   * The channel plays. As written: the DAC is on and the length timer has
   * not expired, whether or not length is enabled. Corrected: as channels 1
   * and 3, an expired timer counts only while length is enabled.
   */
  predicate Enabled(c: Channel4, v: Variant)
  {
    match v
    case AsWritten => c.dac && !c.length.expired
    case Corrected => c.dac && (!LengthEnabled(c) || !c.length.expired)
  }

  /** The clocks between LFSR steps: the divider, where a divider of 0 waits for the 16-bit counter to wrap. */
  function Period(c: Channel4): (n: nat)
    ensures 0 < n <= 0x10000
  {
    if c.lfsrDivider == 0 then 0x10000 else c.lfsrDivider
  }

  /** The length timer within 64 (an 8-bit counter), the envelope within its pace, and the LFSR counter below its period. */
  predicate Inv(c: Channel4)
  {
    LengthTimer.Fits(c.length, 0x100) && LengthTimer.Inv(c.length, 64) && Envelope.Inv(c.envelope) &&
    c.lfsrCounter < Period(c)
  }

  /** The feedback bit: 1 iff the two low bits of the register are equal. */
  predicate Feedback(x: Word)
  {
    (x >> 1) & 1 == x & 1
  }

  /** One LFSR step: the feedback goes into bit 15 (and bit 7 in short mode), then the register shifts right by one. */
  function LfsrStep(x: Word, short: bool): Word
  {
    var y := if Feedback(x) then x | (if short then 0x8080 else 0x8000)
             else x & (if short then 0x7F7F else 0x7FFF);
    y >> 1
  }

  /**
   * The register after a step, bit by bit: the old bits 1-15 moved down
   * one place, with bit 14 (and bit 6 in short mode) replaced by the
   * feedback and bit 15 clear.
   */
  function Shifted(x: Word, short: bool): Word
  {
    ((x >> 1) & (if short then 0x3FBF else 0x3FFF)) | (if Feedback(x) then (if short then 0x4040 else 0x4000) else 0)
  }

  lemma LongFeedback(x: Word)
    requires Feedback(x)
    ensures LfsrStep(x, false) == ((x >> 1) & 0x3FFF) | 0x4000
  {
  }

  lemma LongNoFeedback(x: Word)
    requires !Feedback(x)
    ensures LfsrStep(x, false) == (x >> 1) & 0x3FFF
  {
  }

  lemma ShortFeedback(x: Word)
    requires Feedback(x)
    ensures LfsrStep(x, true) == ((x >> 1) & 0x3FBF) | 0x4040
  {
  }

  lemma ShortNoFeedback(x: Word)
    requires !Feedback(x)
    ensures LfsrStep(x, true) == (x >> 1) & 0x3FBF
  {
  }

  /** The step is the bit-by-bit description. */
  lemma StepIsShift(x: Word, short: bool)
    ensures LfsrStep(x, short) == Shifted(x, short)
  {
    if short {
      if Feedback(x) { ShortFeedback(x); } else { ShortNoFeedback(x); }
    } else {
      if Feedback(x) { LongFeedback(x); } else { LongNoFeedback(x); }
    }
  }

  /** So bit 15 is clear after a step, and bit 14 (and bit 6 in short mode) is the feedback. */
  lemma FeedbackBits(x: Word, short: bool)
    ensures var r := LfsrStep(x, short);
            r & 0x8000 == 0 && (r & 0x4000 != 0 <==> Feedback(x)) && (short ==> (r & 0x0040 != 0 <==> Feedback(x)))
  {
    StepIsShift(x, short);
  }

  /** From the zero a trigger loads, each step feeds in a 1: the register fills with ones from the top. */
  lemma ZeroFillsFromTop()
    ensures LfsrStep(0x0000, false) == 0x4000 && LfsrStep(0x4000, false) == 0x6000
    ensures LfsrStep(0x0000, true) == 0x4040 && LfsrStep(0x4040, true) == 0x6060
  {
  }

  /** One LFSR clock: the 16-bit counter advances and, on reaching the divider, restarts while the LFSR steps. */
  function Clock(c: Channel4): (r: Channel4)
    ensures (c.lfsrCounter + 1) % 0x10000 == c.lfsrDivider ==>
              r == c.(lfsrCounter := 0, lfsr := LfsrStep(c.lfsr, c.shortMode))
    ensures (c.lfsrCounter + 1) % 0x10000 != c.lfsrDivider ==> r == c.(lfsrCounter := (c.lfsrCounter + 1) % 0x10000)
    ensures Inv(c) ==> Inv(r)
  {
    var n := (c.lfsrCounter + 1) % 0x10000;
    if n == c.lfsrDivider then c.(lfsrCounter := 0, lfsr := LfsrStep(c.lfsr, c.shortMode))
    else c.(lfsrCounter := n)
  }

  /** `n` LFSR clocks in a row. */
  function ClockN(c: Channel4, n: nat): Channel4
    decreases n
  {
    if n == 0 then c else ClockN(Clock(c), n - 1)
  }

  /** Below the period, clocks only count. */
  lemma {:induction false} ClockNCounts(c: Channel4, n: nat)
    requires c.lfsrCounter + n < Period(c)
    ensures ClockN(c, n) == c.(lfsrCounter := c.lfsrCounter + n)
    decreases n
  {
    if n > 0 {
      ClockNCounts(Clock(c), n - 1);
    }
  }

  lemma {:induction false} ClockNLast(c: Channel4, n: nat)
    ensures ClockN(c, n + 1) == Clock(ClockN(c, n))
    decreases n
  {
    if n > 0 {
      ClockNLast(Clock(c), n - 1);
    }
  }

  /** The clock that brings the counter to the end of the period steps the LFSR. */
  lemma StepAtTop(c: Channel4)
    requires c.lfsrCounter + 1 == Period(c)
    ensures Clock(c) == c.(lfsrCounter := 0, lfsr := LfsrStep(c.lfsr, c.shortMode))
  {
  }

  /**
   * From a restarted counter, exactly `Period` clocks step the LFSR once
   * and restart the counter: one LFSR step per period.
   */
  lemma OneStepPerPeriod(c: Channel4)
    requires c.lfsrCounter == 0
    ensures ClockN(c, Period(c)) == c.(lfsr := LfsrStep(c.lfsr, c.shortMode))
  {
    var n := Period(c) - 1;
    assert ClockN(c, n + 1) == c.(lfsr := LfsrStep(c.lfsr, c.shortMode)) by {
      ClockNCounts(c, n);
      ClockNLast(c, n);
      StepAtTop(c.(lfsrCounter := n));
    }
  }

  /**
   * The LFSR width a trigger selects. As written, short mode is taken when
   * NR43 bit 3 is clear; corrected, when it is set, as the header's own
   * accessor reads it.
   */
  function ShortModeOf(nr43: U8, v: Variant): (short: bool)
    ensures v == Corrected ==> (short <==> WidthBitSet(nr43))
  {
    match v
    case AsWritten => (nr43 / 8) % 2 == 0
    case Corrected => (nr43 / 8) % 2 == 1
  }

  /** As written, the width is inverted for every NR43: with bit 3 set (0x08) the 15-bit register runs. */
  lemma AsWrittenWidthInverted(nr43: U8)
    ensures ShortModeOf(nr43, AsWritten) <==> !WidthBitSet(nr43)
    ensures !ShortModeOf(0x08, AsWritten) && ShortModeOf(0x00, AsWritten)
  {
  }

  /** Reset: all four registers 0 and the DAC off. */
  function Reset(c: Channel4): (r: Channel4)
    ensures r == c.(nr41 := 0, nr42 := 0, nr43 := 0, nr44 := 0, dac := false)
    ensures !Enabled(r, AsWritten) && !Enabled(r, Corrected)
  {
    c.(nr41 := 0x00, nr42 := 0x00, nr43 := 0x00, nr44 := 0x00, dac := false)
  }

  /** One envelope tick, which leaves everything but the envelope alone. */
  function ClockEnvelope(c: Channel4): (r: Channel4)
    ensures r == c.(envelope := Envelope.Clock(c.envelope))
  {
    c.(envelope := Envelope.Clock(c.envelope))
  }

  /** The envelope tick keeps the invariant. */
  lemma ClockEnvelopeKeepsInv(c: Channel4)
    requires Inv(c)
    ensures Inv(ClockEnvelope(c))
  {
    Envelope.ClockKeepsInv(c.envelope);
  }

  /** One length tick: inert once expired, otherwise the counter ticks toward 64 whether or not length is enabled. */
  function ClockLengthTimer(c: Channel4): (r: Channel4)
    requires LengthTimer.Fits(c.length, 0x100)
    ensures c.length.expired ==> r == c
    ensures !c.length.expired ==> r == c.(length := LengthTimer.Clock(c.length, 64, 0x100))
    ensures Inv(c) ==> Inv(r)
  {
    if c.length.expired then c
    else c.(length := LengthTimer.Clock(c.length, 64, 0x100))
  }

  /** Register reads: NR41 is write-only, NR44 reads only bit 6. */
  function Read(c: Channel4, ioAddr: Byte): (b: Byte)
    ensures ioAddr == 0x21 ==> b == FromNat(c.nr42)
    ensures ioAddr == 0x22 ==> b == FromNat(c.nr43)
    ensures ioAddr == 0x23 ==> b & 0x40 == FromNat(c.nr44) & 0x40 && b | 0x40 == 0xFF
    ensures ioAddr !in {0x21, 0x22, 0x23} ==> b == 0xFF
  {
    match ioAddr
    case 0x20 => 0xFF
    case 0x21 => FromNat(c.nr42)
    case 0x22 => FromNat(c.nr43)
    case 0x23 => (FromNat(c.nr44) & 0x40) | 0xBF
    case _ => 0xFF
  }

  /**
   * A trigger: the length counter reloads from NR41 and runs; the envelope
   * loads from NR42 and the DAC is on iff NR42 bits 3-7 are not all 0; the
   * width comes from NR43 and the divider is the one computed from it; the
   * LFSR and its counter restart at 0.
   */
  function Trigger(c: Channel4, divider: U16, v: Variant): (r: Channel4)
    ensures r.length == LengthTimer.Length(c.nr41 % 64, false)
    ensures r.envelope == Envelope.Load(c.nr42) && (r.dac <==> Envelope.DacOn(c.nr42))
    ensures r == c.(length := r.length, envelope := r.envelope, dac := r.dac, lfsrDivider := divider,
                    shortMode := ShortModeOf(c.nr43, v), lfsrCounter := 0, lfsr := 0)
    ensures Inv(r) && (Enabled(r, v) <==> r.dac)
  {
    c.(length := LengthTimer.Length(c.nr41 % 64, false),
       envelope := Envelope.Load(c.nr42), dac := Envelope.DacOn(c.nr42),
       lfsrDivider := divider, shortMode := ShortModeOf(c.nr43, v),
       lfsrCounter := 0, lfsr := 0x0000)
  }

  /**
   * Register writes. NR41 also reloads the length counter; NR43 does not
   * recompute the divider; an NR44 write with bit 7 set triggers.
   */
  function Write(c: Channel4, ioAddr: Byte, data: Byte, divider: U16, v: Variant): (r: Channel4)
    ensures ioAddr == 0x20 ==> r == c.(nr41 := ToNat(data), length := c.length.(counter := ToNat(data) % 64))
    ensures ioAddr == 0x21 ==> r == c.(nr42 := ToNat(data))
    ensures ioAddr == 0x22 ==> r == c.(nr43 := ToNat(data))
    ensures ioAddr == 0x23 && !BitSet(data, 7) ==> r == c.(nr44 := ToNat(data))
    ensures ioAddr == 0x23 && BitSet(data, 7) ==> r == Trigger(c.(nr44 := ToNat(data)), divider, v)
    ensures ioAddr !in {0x20, 0x21, 0x22, 0x23} ==> r == c
    ensures Inv(c) ==> Inv(r)
  {
    var n := ToNat(data);
    match ioAddr
    case 0x20 => c.(nr41 := n, length := c.length.(counter := n % 64))
    case 0x21 => c.(nr42 := n)
    case 0x22 => c.(nr43 := n)
    case 0x23 =>
      var c1 := c.(nr44 := n);
      if data & 0x80 != 0 then Trigger(c1, divider, v) else c1
    case _ => c
  }

  /** What a write stores reads back, up to the write-only bits. */
  lemma WriteThenRead(c: Channel4, data: Byte, divider: U16, v: Variant)
    ensures Read(Write(c, 0x20, data, divider, v), 0x20) == 0xFF
    ensures Read(Write(c, 0x21, data, divider, v), 0x21) == data
    ensures Read(Write(c, 0x22, data, divider, v), 0x22) == data
    ensures Read(Write(c, 0x23, data, divider, v), 0x23) == (data & 0x40) | 0xBF
  {
    FromNatToNat(data);
    assert Read(Write(c, 0x21, data, divider, v), 0x21) == data by { assert Write(c, 0x21, data, divider, v).nr42 == ToNat(data); }
    assert Read(Write(c, 0x22, data, divider, v), 0x22) == data by { assert Write(c, 0x22, data, divider, v).nr43 == ToNat(data); }
    assert Read(Write(c, 0x23, data, divider, v), 0x23) == (data & 0x40) | 0xBF by {
      assert Write(c, 0x23, data, divider, v).nr44 == ToNat(data);
    }
  }

  /**
   * The integer part of the output: nothing (a silent 0.0) with the DAC
   * off; otherwise the volume, zeroed by an expired timer while length is
   * enabled, times the LFSR's low bit.
   */
  function Level(c: Channel4): (l: Option<nat>)
    ensures !c.dac <==> l == None
    ensures l.Some? && ((LengthEnabled(c) && c.length.expired) || c.lfsr & 1 == 0) ==> l.value == 0
    ensures l.Some? && !(LengthEnabled(c) && c.length.expired) && c.lfsr & 1 == 1 ==> l.value == c.envelope.volume
  {
    if !c.dac then None
    else
      var volume := if LengthEnabled(c) && c.length.expired then 0 else c.envelope.volume;
      Some(if c.lfsr & 1 == 1 then volume else 0)
  }

  /**
   * As written, with length disabled the timer still runs out: one length
   * tick from counter 63 reports the channel off while it keeps sounding at
   * full volume.
   */
  lemma AsWrittenOffWhileSounding(c: Channel4)
    requires Inv(c) && c.dac && !LengthEnabled(c) && c.length == LengthTimer.Length(63, false)
    requires c.envelope.volume == 15 && c.lfsr & 1 == 1
    ensures var r := ClockLengthTimer(c); !Enabled(r, AsWritten) && Level(r) == Some(15)
  {
  }

  /** Corrected, the channel reports itself off exactly when its output is forced silent or to 0. */
  lemma CorrectedOffMeansSilent(c: Channel4)
    ensures !Enabled(c, Corrected) ==> Level(c) == None || Level(c) == Some(0)
    ensures Enabled(c, Corrected) ==> Level(c) == Some(if c.lfsr & 1 == 1 then c.envelope.volume as nat else 0)
  {
  }

  /** Corrected, a trigger with NR43 bit 3 set runs the 7-bit register: each step feeds bit 6 as well as bit 14. */
  lemma CorrectedWidthBitSelectsShort(c: Channel4, divider: U16)
    requires WidthBitSet(c.nr43)
    ensures var t := Trigger(c, divider, Corrected); t.shortMode && LfsrStep(t.lfsr, t.shortMode) == 0x4040
  {
    ZeroFillsFromTop();
  }
}

=== FILE: color_schemes.dfy ===
/**
 * The front end's saved colour schemes: a configuration section mapping a
 * scheme name to four space-separated `rrggbb` words, the four shades of the
 * monochrome palette, written in lower-case hexadecimal.
 */
module ColorSchemes {
  import opened Wrappers
  import opened ConfigSection
  import PyInt

  /** One colour component, as the colour picker hands it over. */
  type Channel = x: int | 0 <= x < 0x100

  /** One component's text read as `int(text, 16)` reads it; None where that raises. */
  function ParseHex(t: string): (r: Option<int>)
  {
    PyInt.Parse(t, 16)
  }

  /** Two lower-case digits, zero padded: the `02x` format of a component. */
  function Hex2(n: Channel): (s: string)
    ensures |s| == 2 && ' ' !in s
  {
    var s := [PyInt.HexDigit(n / 16), PyInt.HexDigit(n % 16)];
    assert s[0] != ' ' && s[1] != ' ';
    s
  }

  /** A component's two digits read back as the component. */
  lemma Hex2RoundTrip(n: Channel)
    ensures ParseHex(Hex2(n)) == Some(n)
  {
    PyInt.HexPair(n);
  }

  /** A string slice with the clamping of out-of-range bounds that Python slicing does. */
  function Slice(w: string, i: nat, j: nat): (r: string)
    requires i <= j
    ensures |r| <= j - i
    ensures j <= |w| ==> r == w[i..j]
  {
    var hi := if j < |w| then j else |w|;
    var lo := if i < hi then i else hi;
    w[lo..hi]
  }

  /** One `rrggbb` word. */
  function Word(r: Channel, g: Channel, b: Channel): (w: string)
    ensures |w| == 6 && ' ' !in w
  {
    Hex2(r) + Hex2(g) + Hex2(b)
  }

  /** The stored text of a scheme: the first twelve components as four words joined by single spaces. */
  function Encode(colors: seq<Channel>): (s: string)
    requires |colors| >= 12
  {
    Word(colors[0], colors[1], colors[2]) + " " +
    Word(colors[3], colors[4], colors[5]) + " " +
    Word(colors[6], colors[7], colors[8]) + " " +
    Word(colors[9], colors[10], colors[11])
  }

  /** Cutting at every single space, as `str.split(' ')` does: n spaces give n + 1 pieces, none with a space. */
  function Split(s: string): (ws: seq<string>)
    ensures |ws| >= 1
    ensures forall k :: 0 <= k < |ws| ==> ' ' !in ws[k]
  {
    if |s| == 0 then [""]
    else if s[0] == ' ' then [""] + Split(s[1..])
    else
      var rest := Split(s[1..]);
      [[s[0]] + rest[0]] + rest[1..]
  }

  /** A text without spaces is one piece. */
  lemma {:induction false} SplitWord(w: string)
    requires ' ' !in w
    ensures Split(w) == [w]
  {
    if |w| > 0 {
      assert ' ' !in w[1..] by {
        forall k | 0 <= k < |w[1..]|
          ensures w[1..][k] != ' '
        {
          assert w[1..][k] == w[k + 1];
        }
      }
      SplitWord(w[1..]);
      assert [w[0]] + w[1..] == w;
    }
  }

  /** A word, a space and the rest split into the word and the rest's pieces. */
  lemma {:induction false} SplitJoin(w: string, t: string)
    requires ' ' !in w
    ensures Split(w + " " + t) == [w] + Split(t)
  {
    if |w| == 0 {
      assert w + " " + t == [' '] + t;
      assert (w + " " + t)[1..] == t;
    } else {
      var s := w + " " + t;
      assert s[0] == w[0] && s[1..] == w[1..] + " " + t;
      assert ' ' !in w[1..] by {
        forall k | 0 <= k < |w[1..]|
          ensures w[1..][k] != ' '
        {
          assert w[1..][k] == w[k + 1];
        }
      }
      SplitJoin(w[1..], t);
      assert [w[0]] + w[1..] == w;
    }
  }

  /** The three components of one word; None if any of its three slices is not hexadecimal. */
  function DecodeWord(w: string): (r: Option<seq<int>>)
    ensures r.Some? ==> |r.value| == 3
  {
    match (ParseHex(Slice(w, 0, 2)), ParseHex(Slice(w, 2, 4)), ParseHex(Slice(w, 4, 6)))
      case (Some(r), Some(g), Some(b)) => Some([r, g, b])
      case _ => None
  }

  /** The components of every word in turn, each word read by `read`. */
  function DecodeWords(ws: seq<string>, read: string -> Option<seq<int>>): (r: Option<seq<int>>)
    requires forall w :: read(w).Some? ==> |read(w).value| == 3
    ensures r.Some? ==> |r.value| == 3 * |ws|
  {
    if |ws| == 0 then Some([])
    else match (read(ws[0]), DecodeWords(ws[1..], read))
      case (Some(a), Some(b)) => Some(a + b)
      case _ => None
  }

  /** Reading a stored scheme back into its components. */
  function Decode(s: string): (r: Option<seq<int>>)
    ensures r.Some? ==> |r.value| == 3 * |Split(s)|
  {
    DecodeWords(Split(s), DecodeWord)
  }

  lemma WordRoundTrip(r: Channel, g: Channel, b: Channel)
    ensures DecodeWord(Word(r, g, b)) == Some([r, g, b])
  {
    var w := Word(r, g, b);
    assert Slice(w, 0, 2) == Hex2(r);
    assert Slice(w, 2, 4) == Hex2(g);
    assert Slice(w, 4, 6) == Hex2(b);
    Hex2RoundTrip(r);
    Hex2RoundTrip(g);
    Hex2RoundTrip(b);
  }

  /** Every stored scheme reads back as the twelve components it was stored from. */
  lemma EncodeRoundTrip(colors: seq<Channel>)
    requires |colors| >= 12
    ensures Decode(Encode(colors)) == Some(colors[..12])
  {
    var w0 := Word(colors[0], colors[1], colors[2]);
    var w1 := Word(colors[3], colors[4], colors[5]);
    var w2 := Word(colors[6], colors[7], colors[8]);
    var w3 := Word(colors[9], colors[10], colors[11]);
    assert Split(Encode(colors)) == [w0, w1, w2, w3] by {
      assert Encode(colors) == w0 + " " + (w1 + " " + (w2 + " " + w3));
      SplitWords(w0, w1, w2, w3);
    }
    WordRoundTrip(colors[0], colors[1], colors[2]);
    WordRoundTrip(colors[3], colors[4], colors[5]);
    WordRoundTrip(colors[6], colors[7], colors[8]);
    WordRoundTrip(colors[9], colors[10], colors[11]);
    DecodeFourWords(w0, w1, w2, w3, [colors[0], colors[1], colors[2]], [colors[3], colors[4], colors[5]],
      [colors[6], colors[7], colors[8]], [colors[9], colors[10], colors[11]], DecodeWord);
    TwelveComponents(colors);
  }

  lemma SplitWords(w0: string, w1: string, w2: string, w3: string)
    requires ' ' !in w0 && ' ' !in w1 && ' ' !in w2 && ' ' !in w3
    ensures Split(w0 + " " + (w1 + " " + (w2 + " " + w3))) == [w0, w1, w2, w3]
  {
    SplitWord(w3);
    SplitJoin(w2, w3);
    SplitJoin(w1, w2 + " " + w3);
    SplitJoin(w0, w1 + " " + (w2 + " " + w3));
  }

  lemma DecodeFourWords(w0: string, w1: string, w2: string, w3: string, a: seq<int>, b: seq<int>, c: seq<int>, d: seq<int>,
                        read: string -> Option<seq<int>>)
    requires forall w :: read(w).Some? ==> |read(w).value| == 3
    requires read(w0) == Some(a) && read(w1) == Some(b)
    requires read(w2) == Some(c) && read(w3) == Some(d)
    ensures DecodeWords([w0, w1, w2, w3], read) == Some(a + (b + (c + d)))
  {
    assert [w3][1..] == [];
    DecodeCons([w3], d, [], read);
    assert d + [] == d;
    assert [w2, w3][1..] == [w3];
    DecodeCons([w2, w3], c, d, read);
    assert [w1, w2, w3][1..] == [w2, w3];
    DecodeCons([w1, w2, w3], b, c + d, read);
    assert [w0, w1, w2, w3][1..] == [w1, w2, w3];
    DecodeCons([w0, w1, w2, w3], a, b + (c + d), read);
  }

  lemma DecodeCons(ws: seq<string>, a: seq<int>, b: seq<int>, read: string -> Option<seq<int>>)
    requires forall w :: read(w).Some? ==> |read(w).value| == 3
    requires |ws| > 0 && read(ws[0]) == Some(a) && DecodeWords(ws[1..], read) == Some(b)
    ensures DecodeWords(ws, read) == Some(a + b)
  {
  }

  lemma TwelveComponents(colors: seq<Channel>)
    requires |colors| >= 12
    ensures colors[..12] == [colors[0], colors[1], colors[2]] + ([colors[3], colors[4], colors[5]]
      + ([colors[6], colors[7], colors[8]] + [colors[9], colors[10], colors[11]]))
  {
  }

  /** Store a scheme under a name, replacing any scheme of that name. */
  function Add(sec: Section, name: string, colors: seq<Channel>): (r: Section)
    requires |colors| >= 12
    ensures r.Keys == sec.Keys + {name}
    ensures forall n :: n in sec && n != name ==> r[n] == sec[n]
    ensures Decode(r[name]) == Some(colors[..12])
  {
    EncodeRoundTrip(colors);
    Put(sec, name, Encode(colors))
  }

  /** Remove a scheme if there is one of that name. */
  function Delete(sec: Section, name: string): (r: Section)
    ensures r.Keys == sec.Keys - {name}
    ensures forall n :: n in r ==> r[n] == sec[n]
    ensures name !in sec ==> r == sec
  {
    Remove(sec, name)
  }

  /** Every scheme read back; None when any stored text is malformed (the source raises there). */
  function GetAll(sec: Section): (r: Option<map<string, seq<int>>>)
    ensures r.Some? <==> forall n :: n in sec ==> Decode(sec[n]).Some?
    ensures r.Some? ==> r.value.Keys == sec.Keys && forall n :: n in sec ==> Some(r.value[n]) == Decode(sec[n])
  {
    ReadAll(sec, Decode)
  }

  /** Adding a scheme and reading all back gives the previous schemes with this one added or replaced. */
  lemma AddThenGetAll(sec: Section, name: string, colors: seq<Channel>)
    requires |colors| >= 12 && GetAll(sec).Some?
    ensures GetAll(Add(sec, name, colors)) == Some(GetAll(sec).value[name := colors[..12]])
  {
    EncodeRoundTrip(colors);
    ReadAllUpdate(sec, name, Encode(colors), Decode);
  }

  /** Deleting a scheme and reading all back gives the previous schemes less that one. */
  lemma DeleteThenGetAll(sec: Section, name: string)
    requires GetAll(sec).Some?
    ensures GetAll(Delete(sec, name)) == Some(GetAll(sec).value - {name})
  {
    ReadAllRemove(sec, name, Decode);
  }
}

=== FILE: config_interpolation.dfy ===
/**
 * The check Python's `configparser.ConfigParser` makes on every value the
 * front end assigns to an option. The default interpolation removes the
 * escaped percent signs (`%%`) and the references `%(name)s`; a value that
 * still holds a '%' afterwards is refused with ValueError.
 */
module ConfigInterpolation {
  /** `s.replace("%%", "")`: pairs of percent signs removed left to right, without overlap. */
  function DropEscapes(s: string): (r: string)
    ensures |r| <= |s|
    ensures '%' !in s ==> r == s
    decreases |s|
  {
    if |s| == 0 then ""
    else if |s| >= 2 && s[0] == '%' && s[1] == '%' then DropEscapes(s[2..])
    else [s[0]] + DropEscapes(s[1..])
  }

  /** The position of the first ')' in `s`, or |s| when there is none. */
  function CloseAt(s: string): (j: nat)
    ensures j <= |s| && (j < |s| ==> s[j] == ')')
    ensures forall k :: 0 <= k < j ==> s[k] != ')'
  {
    if |s| == 0 || s[0] == ')' then 0 else 1 + CloseAt(s[1..])
  }

  /**
   * Whether `s` starts with a reference `%(name)s`, `name` being one or more
   * characters other than ')': the pattern `%\(([^)]+)\)s` matched at 0.
   */
  predicate StartsWithRef(s: string)
  {
    |s| >= 2 && s[0] == '%' && s[1] == '(' &&
    var j := 2 + CloseAt(s[2..]); j > 2 && j + 1 < |s| && s[j + 1] == 's'
  }

  /** The length of the reference `s` starts with. */
  function RefEnd(s: string): (n: nat)
    requires StartsWithRef(s)
    ensures 4 < n <= |s| && s[n - 2] == ')' && s[n - 1] == 's'
    ensures forall k :: 2 <= k < n - 2 ==> s[k] != ')'
  {
    2 + CloseAt(s[2..]) + 2
  }

  /** The pattern's `sub('', s)`: every reference, taken leftmost first, removed. */
  function DropReferences(s: string): (r: string)
    ensures |r| <= |s|
    ensures '%' !in s ==> r == s
    decreases |s|
  {
    if |s| == 0 then ""
    else if StartsWithRef(s) then DropReferences(s[RefEnd(s)..])
    else [s[0]] + DropReferences(s[1..])
  }

  /** Whether the parser accepts `v` as an option's value. */
  predicate SetOk(v: string)
  {
    '%' !in DropReferences(DropEscapes(v))
  }

  /** A value without a percent sign is always accepted. */
  lemma NoPercentAccepted(v: string)
    requires '%' !in v
    ensures SetOk(v)
  {
  }

  /** Escapes are dropped one by one from the front of a value. */
  lemma {:induction false} DropEscapesAppend(a: string, b: string)
    requires '%' !in a
    ensures DropEscapes(a + b) == a + DropEscapes(b)
    decreases |a|
  {
    if |a| > 0 {
      var s := a + b;
      assert a[0] in a;
      assert s[0] == a[0];
      assert s[1..] == a[1..] + b;
      DropEscapesAppend(a[1..], b);
      assert DropEscapes(s) == [a[0]] + DropEscapes(s[1..]);
      assert a == [a[0]] + a[1..];
    } else {
      assert a + b == b;
    }
  }

  /** Plain characters pass through the removal of references. */
  lemma {:induction false} DropReferencesAppend(a: string, b: string)
    requires '%' !in a
    ensures DropReferences(a + b) == a + DropReferences(b)
    decreases |a|
  {
    if |a| > 0 {
      var s := a + b;
      assert a[0] in a;
      assert s[0] == a[0];
      assert s[1..] == a[1..] + b;
      DropReferencesAppend(a[1..], b);
      assert DropReferences(s) == [a[0]] + DropReferences(s[1..]);
      assert a == [a[0]] + a[1..];
    } else {
      assert a + b == b;
    }
  }

  /**
   * A single '%' that is neither escaped nor the start of a reference makes
   * the value refused: `a + "%" + b` with no other percent sign and `b` not
   * starting with '('.
   */
  lemma LonePercentRefused(a: string, b: string)
    requires '%' !in a && '%' !in b && (|b| == 0 || b[0] != '(')
    ensures !SetOk(a + "%" + b)
  {
    var t := "%" + b;
    assert a + "%" + b == a + t;
    DropEscapesAppend(a, t);
    assert DropEscapes(t) == t by {
      if |b| > 0 {
        assert t[1] == b[0] && t[1..] == b;
      } else {
        assert t[1..] == b;
      }
    }
    DropReferencesAppend(a, t);
    assert !StartsWithRef(t);
    assert t[1..] == b;
    assert DropReferences(t) == "%" + b;
    assert (a + "%" + b)[|a|] == '%';
    assert DropReferences(DropEscapes(a + "%" + b)) == a + "%" + b;
  }

  /** An escaped percent sign is accepted: `a + "%%" + b` with no other percent sign. */
  lemma EscapedPercentAccepted(a: string, b: string)
    requires '%' !in a && '%' !in b
    ensures SetOk(a + "%%" + b)
  {
    var t := "%%" + b;
    assert a + "%%" + b == a + t;
    DropEscapesAppend(a, t);
    assert t[2..] == b;
    assert DropEscapes(t) == b;
  }

  /** A file name with a percent sign is refused, and its escaped form is accepted. */
  lemma PercentFileName()
    ensures !SetOk("/roms/100%.gb")
    ensures SetOk("/roms/100%%.gb")
  {
    LonePercentRefused("/roms/100", ".gb");
    assert "/roms/100" + "%" + ".gb" == "/roms/100%.gb";
    EscapedPercentAccepted("/roms/100", ".gb");
    assert "/roms/100" + "%%" + ".gb" == "/roms/100%%.gb";
  }

  /** The first ')' after a name without one is the one that follows it. */
  lemma {:induction false} CloseAfter(name: string, rest: string)
    requires ')' !in name
    ensures CloseAt(name + rest) == |name| + CloseAt(rest)
    decreases |name|
  {
    if |name| > 0 {
      var s := name + rest;
      assert name[0] in name;
      assert s[0] == name[0];
      assert s[1..] == name[1..] + rest;
      CloseAfter(name[1..], rest);
      assert CloseAt(s) == 1 + CloseAt(s[1..]);
    } else {
      assert name + rest == rest;
    }
  }

  /** A reference `%(name)s` to another option, followed by plain text, is accepted. */
  lemma ReferenceAccepted(name: string, rest: string)
    requires |name| > 0 && ')' !in name && '%' !in name && '%' !in rest
    ensures SetOk("%(" + name + ")s" + rest)
  {
    var s := "%(" + name + ")s" + rest;
    var tail := "(" + name + ")s" + rest;
    assert s == "%" + tail && s[1..] == tail;
    assert '%' !in tail;
    assert DropEscapes(s) == s;
    assert s[2..] == name + (")s" + rest);
    CloseAfter(name, ")s" + rest);
    assert CloseAt(s[2..]) == |name|;
    assert StartsWithRef(s) && RefEnd(s) == |name| + 4;
    assert s[|name| + 4..] == rest;
  }
}

=== FILE: config_section.dfy ===
/**
 * One section of the front end's configuration file: option name to text.
 * Reading a section back parses every option's text; one that does not parse
 * makes the whole read fail, as the exception the parser raises does.
 */
module ConfigSection {
  import opened Wrappers

  type Section = map<string, string>

  /** Every option parsed with `read`; None when any option does not parse. */
  function ReadAll<V>(sec: Section, read: string -> Option<V>): (r: Option<map<string, V>>)
    ensures r.Some? <==> forall n :: n in sec ==> read(sec[n]).Some?
    ensures r.Some? ==> r.value.Keys == sec.Keys && forall n :: n in sec ==> Some(r.value[n]) == read(sec[n])
  {
    if forall n :: n in sec ==> read(sec[n]).Some?
    then Some(map n | n in sec :: read(sec[n]).value)
    else None
  }

  /** A section whose every option reads as the value a map gives it under the same name reads back as that map. */
  lemma ReadAllOf<V>(sec: Section, read: string -> Option<V>, m: map<string, V>)
    requires sec.Keys == m.Keys && forall n :: n in sec ==> read(sec[n]) == Some(m[n])
    ensures ReadAll(sec, read) == Some(m)
  {
    assert forall n :: n in sec ==> read(sec[n]).Some?;
    var r := ReadAll(sec, read).value;
    assert forall n :: n in r ==> r[n] == m[n];
    assert r.Keys == m.Keys;
    assert r == m;
  }

  /** Setting one option that parses changes only that entry of what is read back. */
  lemma ReadAllUpdate<V>(sec: Section, name: string, text: string, read: string -> Option<V>)
    requires ReadAll(sec, read).Some? && read(text).Some?
    ensures ReadAll(sec[name := text], read) == Some(ReadAll(sec, read).value[name := read(text).value])
  {
    var r := sec[name := text];
    var m := ReadAll(r, read).value;
    var want := ReadAll(sec, read).value[name := read(text).value];
    forall n | n in m
      ensures m[n] == want[n]
    {
      if n != name {
        assert Some(m[n]) == read(sec[n]) == Some(ReadAll(sec, read).value[n]);
      }
    }
    assert m.Keys == want.Keys;
    assert m == want;
  }

  /** Setting an option, replacing any text it had. */
  function Put(sec: Section, name: string, text: string): (r: Section)
    ensures r.Keys == sec.Keys + {name} && r[name] == text
    ensures forall n :: n in sec && n != name ==> r[n] == sec[n]
  {
    sec[name := text]
  }

  /** Removing an option, when present. */
  function Remove(sec: Section, name: string): (r: Section)
    ensures r.Keys == sec.Keys - {name}
    ensures forall n :: n in r ==> r[n] == sec[n]
    ensures name !in sec ==> r == sec
  {
    if name in sec then sec - {name} else sec
  }

  /** Removing an option removes only that entry from what is read back. */
  lemma ReadAllRemove<V>(sec: Section, name: string, read: string -> Option<V>)
    requires ReadAll(sec, read).Some?
    ensures ReadAll(Remove(sec, name), read) == Some(ReadAll(sec, read).value - {name})
  {
    var r := Remove(sec, name);
    var m := ReadAll(r, read).value;
    var want := ReadAll(sec, read).value - {name};
    forall n | n in m
      ensures m[n] == want[n]
    {
      assert Some(m[n]) == read(sec[n]) == Some(ReadAll(sec, read).value[n]);
    }
    assert m.Keys == want.Keys;
    assert m == want;
  }
}

=== FILE: cpu_alu.dfy ===
/**
 * The SM83 arithmetic, logic, rotate, shift and bit instructions on one
 * operand. Each operation returns its 8-bit result together with the flag
 * writes it performs, so that "leaves C untouched" (INC, DEC, BIT) and
 * "leaves Z untouched" (ADD HL) are visible in the result as `Keep`.
 */
module CpuAlu {
  import opened Bits
  import opened CpuRegisters

  datatype AluOut = AluOut(value: Byte, flags: FlagUpdate)

  /** The carry added by ADC/SBC: 1 exactly when the instruction uses it and C is set. */
  function CarryIn(f: Byte, useCarry: bool): (cin: Byte)
    ensures cin <= 1
    ensures cin == 1 <==> useCarry && IsFlagSet(f, Carry)
  {
    if useCarry && IsFlagSet(f, Carry) then 1 else 0
  }

  /** The low byte of an adder's 16-bit result. */
  function LowByte(w: bv16): Byte
  {
    (w & 0xFF) as Byte
  }

  /**
   * ADD, ADC and INC. The result is the 8-bit sum; H is the carry out of
   * bit 3 and C the carry out of bit 7. INC leaves C untouched.
   */
  function Add(a: Byte, operand: Byte, cin: Byte, inc: bool): (r: AluOut)
    requires cin <= 1
    ensures r.value == a + operand + cin
    ensures r.flags.z == Put(r.value == 0)
    ensures r.flags.n == Put(false)
    ensures r.flags.h == Put((a & 0xF) + (operand & 0xF) + cin > 0xF)
    ensures inc ==> r.flags.c == Keep
    ensures !inc ==> r.flags.c == Put(a as bv16 + operand as bv16 + cin as bv16 > 0xFF)
  {
    var result := AddResult(a, operand, cin);
    var v := LowByte(result);
    AluOut(v, FlagUpdate(
      Put(v == 0),
      Put(false),
      Put(AddHalfCarry(a, operand, cin, result)),
      if inc then Keep else Put(result & 0x100 == 0x100)))
  }

  /** The 16-bit sum of the 8-bit adder: its low byte is the result and bit 8 the carry. */
  function AddResult(a: Byte, operand: Byte, cin: Byte): (result: bv16)
    requires cin <= 1
    ensures result == a as bv16 + operand as bv16 + cin as bv16
    ensures LowByte(result) == a + operand + cin
    ensures (result & 0x100 == 0x100) == (result > 0xFF)
  {
    a as bv16 + operand as bv16 + cin as bv16
  }

  /** The half-carry test of the 8-bit adder: bit 4 of sum ^ a ^ operand. */
  function AddHalfCarry(a: Byte, operand: Byte, cin: Byte, result: bv16): (h: bool)
    requires cin <= 1 && result == a as bv16 + operand as bv16 + cin as bv16
    ensures h == ((a & 0xF) + (operand & 0xF) + cin > 0xF)
  {
    (result ^ a as bv16 ^ operand as bv16) & 0x10 == 0x10
  }

  /**
   * SUB, SBC, CP and DEC. N is always set; H is the borrow from bit 4 and C
   * the borrow of the whole subtraction. CP only writes flags; DEC leaves C
   * untouched.
   */
  function Sub(a: Byte, operand: Byte, cin: Byte, cp: bool, dec: bool): (r: AluOut)
    requires cin <= 1
    ensures cp ==> r.value == a
    ensures !cp ==> r.value == a - operand - cin
    ensures r.flags.z == Put(a - operand - cin == 0)
    ensures r.flags.n == Put(true)
    ensures r.flags.h == Put((a & 0xF) < (operand & 0xF) + cin)
    ensures dec ==> r.flags.c == Keep
    ensures !dec ==> r.flags.c == Put(a as bv16 < operand as bv16 + cin as bv16)
  {
    var result := SubResult(a, operand, cin);
    var v := LowByte(result);
    AluOut(if cp then a else v, FlagUpdate(
      Put(v == 0),
      Put(true),
      Put(SubHalfBorrow(a, operand, cin)),
      if dec then Keep else Put(result & 0xFF00 != 0)))
  }

  /** The 16-bit difference of the 8-bit subtractor: its high byte is non-zero exactly on a borrow. */
  function SubResult(a: Byte, operand: Byte, cin: Byte): (result: bv16)
    requires cin <= 1
    ensures LowByte(result) == a - operand - cin
    ensures (result & 0xFF00 != 0) == (a as bv16 < operand as bv16 + cin as bv16)
  {
    a as bv16 - operand as bv16 - cin as bv16
  }

  /** The half-borrow test: the low-nibble difference leaves the nibble. */
  function SubHalfBorrow(a: Byte, operand: Byte, cin: Byte): (h: bool)
    requires cin <= 1
    ensures h == ((a & 0xF) < (operand & 0xF) + cin)
  {
    var half: Byte := (a & 0x0F) - (operand & 0x0F) - cin;
    half & 0xF0 != 0
  }

  /** SUB undoes ADD with the same operand and carry, and CP leaves A alone. */
  lemma SubUndoesAdd(a: Byte, operand: Byte, cin: Byte)
    requires cin <= 1
    ensures Sub(Add(a, operand, cin, false).value, operand, cin, false, false).value == a
    ensures Sub(a, operand, cin, true, false).value == a
  {
  }

  /** AND: H is set, N and C cleared, Z set iff the result is 0. */
  function And(a: Byte, operand: Byte): (r: AluOut)
    ensures forall i :: 0 <= i < 8 ==> (BitSet(r.value, i) <==> BitSet(a, i) && BitSet(operand, i))
    ensures r.flags == FlagUpdate(Put(r.value == 0), Put(false), Put(true), Put(false))
  {
    var v := a & operand;
    AndBits(a, operand);
    AluOut(v, FlagUpdate(Put(v == 0), Put(false), Put(true), Put(false)))
  }

  /** OR: N, H and C cleared, Z set iff the result is 0. */
  function Or(a: Byte, operand: Byte): (r: AluOut)
    ensures forall i :: 0 <= i < 8 ==> (BitSet(r.value, i) <==> BitSet(a, i) || BitSet(operand, i))
    ensures r.flags == FlagUpdate(Put(r.value == 0), Put(false), Put(false), Put(false))
  {
    var v := a | operand;
    OrBits(a, operand);
    AluOut(v, FlagUpdate(Put(v == 0), Put(false), Put(false), Put(false)))
  }

  /** XOR: N, H and C cleared, Z set iff the result is 0. */
  function Xor(a: Byte, operand: Byte): (r: AluOut)
    ensures r.value ^ operand == a
    ensures r.value == 0 <==> a == operand
    ensures r.flags == FlagUpdate(Put(r.value == 0), Put(false), Put(false), Put(false))
  {
    var v := a ^ operand;
    AluOut(v, FlagUpdate(Put(v == 0), Put(false), Put(false), Put(false)))
  }

  /** SWAP exchanges the two nibbles and clears N, H and C. */
  function Swap(v: Byte): (r: AluOut)
    ensures r.value & 0x0F == v >> 4 && r.value >> 4 == v & 0x0F
    ensures r.flags == FlagUpdate(Put(r.value == 0), Put(false), Put(false), Put(false))
  {
    var s := ((v & 0x0F) << 4) | ((v & 0xF0) >> 4);
    AluOut(s, FlagUpdate(Put(s == 0), Put(false), Put(false), Put(false)))
  }

  lemma SwapInvolution(v: Byte)
    ensures Swap(Swap(v).value).value == v
    ensures Swap(v).value == 0 <==> v == 0
  {
  }

  /**
   * DAA: decimal adjustment after an addition (N clear) or a subtraction
   * (N set), driven by the H and C flags. C is set by an adjustment of 0x60
   * after an addition and otherwise keeps its value; H is always cleared.
   */
  function Daa(a: Byte, n: bool, h: bool, c: bool): (r: AluOut)
    ensures r.flags.n == Keep && r.flags.h == Put(false)
    ensures r.flags.z == Put(r.value == 0)
    ensures r.flags.c == Put(if n then c else c || a > 0x99)
  {
    if !n then
      var adjustHigh := c || a > 0x99;
      var a1 := if adjustHigh then a + 0x60 else a;
      var a2 := if h || (a1 & 0x0F) > 0x09 then a1 + 0x06 else a1;
      AluOut(a2, FlagUpdate(Put(a2 == 0), Keep, Put(false), Put(c || adjustHigh)))
    else
      var a1 := if c then a - 0x60 else a;
      var a2 := if h then a1 - 0x06 else a1;
      AluOut(a2, FlagUpdate(Put(a2 == 0), Keep, Put(false), Put(c)))
  }

  /** A byte holding two binary-coded decimal digits. */
  predicate Bcd(x: Byte)
  {
    x & 0x0F <= 9 && x >> 4 <= 9
  }

  /** Digit-by-digit decimal addition of two BCD bytes with a carry-in: (sum, carry-out). */
  function BcdAdd(x: Byte, y: Byte, cin: Byte): (Byte, bool)
    requires cin <= 1
  {
    var units := (x & 0x0F) + (y & 0x0F) + cin;
    var unitCarry: Byte := if units >= 10 then 1 else 0;
    var tens := (x >> 4) + (y >> 4) + unitCarry;
    var units' := if units >= 10 then units - 10 else units;
    var tens' := if tens >= 10 then tens - 10 else tens;
    ((tens' << 4) | units', tens >= 10)
  }

  /** Digit-by-digit decimal subtraction of two BCD bytes with a borrow-in: (difference, borrow-out). */
  function BcdSub(x: Byte, y: Byte, cin: Byte): (Byte, bool)
    requires cin <= 1
  {
    var unitBorrow := (x & 0x0F) < (y & 0x0F) + cin;
    var units := if unitBorrow then (x & 0x0F) + 10 - (y & 0x0F) - cin else (x & 0x0F) - (y & 0x0F) - cin;
    var tensOut: Byte := if unitBorrow then 1 else 0;
    var borrow := (x >> 4) < (y >> 4) + tensOut;
    var tens := if borrow then (x >> 4) + 10 - (y >> 4) - tensOut else (x >> 4) - (y >> 4) - tensOut;
    ((tens << 4) | units, borrow)
  }

  /** ADD or ADC of two BCD bytes followed by DAA yields their decimal sum and carry. */
  lemma DaaAfterAdd(x: Byte, y: Byte, cin: Byte)
    requires Bcd(x) && Bcd(y) && cin <= 1
    ensures var s := Add(x, y, cin, false);
            var d := Daa(s.value, false, s.flags.h.v, s.flags.c.v);
            (d.value, d.flags.c.v) == BcdAdd(x, y, cin)
  {
    if (x & 0x0F) + (y & 0x0F) + cin >= 10 {
      DaaAddUnitCarry(x, y, cin);
    } else {
      DaaAddNoUnitCarry(x, y, cin);
    }
  }

  /** DAA after an addition whose units digit carries. */
  lemma DaaAddUnitCarry(x: Byte, y: Byte, cin: Byte)
    requires Bcd(x) && Bcd(y) && cin <= 1 && (x & 0x0F) + (y & 0x0F) + cin >= 10
    ensures var s := Add(x, y, cin, false);
            var d := Daa(s.value, false, s.flags.h.v, s.flags.c.v);
            (d.value, d.flags.c.v) == BcdAdd(x, y, cin)
  {
  }

  /** DAA after an addition whose units digit does not carry. */
  lemma DaaAddNoUnitCarry(x: Byte, y: Byte, cin: Byte)
    requires Bcd(x) && Bcd(y) && cin <= 1 && (x & 0x0F) + (y & 0x0F) + cin < 10
    ensures var s := Add(x, y, cin, false);
            var d := Daa(s.value, false, s.flags.h.v, s.flags.c.v);
            (d.value, d.flags.c.v) == BcdAdd(x, y, cin)
  {
  }

  /** The H and C flags SUB or SBC leaves behind for these operands. */
  predicate SubBorrows(x: Byte, y: Byte, cin: Byte, h: bool, c: bool)
    requires cin <= 1
  {
    h == ((x & 0xF) < (y & 0xF) + cin) && c == (x as bv16 < y as bv16 + cin as bv16)
  }

  /** DAA after a subtraction, one case of the H and C flags per lemma. */
  lemma DaaSubBothBorrows(x: Byte, y: Byte, cin: Byte, h: bool, c: bool)
    requires Bcd(x) && Bcd(y) && cin <= 1 && SubBorrows(x, y, cin, h, c) && h && c
    ensures Daa(x - y - cin, true, h, c).value == BcdSub(x, y, cin).0
  {
  }

  lemma DaaSubUnitBorrow(x: Byte, y: Byte, cin: Byte, h: bool, c: bool)
    requires Bcd(x) && Bcd(y) && cin <= 1 && SubBorrows(x, y, cin, h, c) && h && !c
    ensures Daa(x - y - cin, true, h, c).value == BcdSub(x, y, cin).0
  {
  }

  lemma DaaSubTensBorrow(x: Byte, y: Byte, cin: Byte, h: bool, c: bool)
    requires Bcd(x) && Bcd(y) && cin <= 1 && SubBorrows(x, y, cin, h, c) && !h && c
    ensures Daa(x - y - cin, true, h, c).value == BcdSub(x, y, cin).0
  {
  }

  lemma DaaSubNoBorrow(x: Byte, y: Byte, cin: Byte, h: bool, c: bool)
    requires Bcd(x) && Bcd(y) && cin <= 1 && SubBorrows(x, y, cin, h, c) && !h && !c
    ensures Daa(x - y - cin, true, h, c).value == BcdSub(x, y, cin).0
  {
  }

  /** The decimal borrow is the binary borrow. */
  lemma BcdSubBorrow(x: Byte, y: Byte, cin: Byte)
    requires Bcd(x) && Bcd(y) && cin <= 1
    ensures BcdSub(x, y, cin).1 == (x as bv16 < y as bv16 + cin as bv16)
  {
  }

  /** SUB or SBC of two BCD bytes followed by DAA yields their decimal difference and borrow. */
  lemma DaaAfterSub(x: Byte, y: Byte, cin: Byte)
    requires Bcd(x) && Bcd(y) && cin <= 1
    ensures var s := Sub(x, y, cin, false, false);
            var d := Daa(s.value, true, s.flags.h.v, s.flags.c.v);
            (d.value, d.flags.c.v) == BcdSub(x, y, cin)
  {
    var s := Sub(x, y, cin, false, false);
    var h, c := s.flags.h.v, s.flags.c.v;
    assert s.value == x - y - cin;
    assert SubBorrows(x, y, cin, h, c);
    BcdSubBorrow(x, y, cin);
    if h && c {
      DaaSubBothBorrows(x, y, cin, h, c);
    } else if h {
      DaaSubUnitBorrow(x, y, cin, h, c);
    } else if c {
      DaaSubTensBorrow(x, y, cin, h, c);
    } else {
      DaaSubNoBorrow(x, y, cin, h, c);
    }
  }

  /**
   * Z after a rotate: computed from the result for the CB-prefixed forms,
   * always cleared for the one-byte RLCA/RLA/RRCA/RRA forms.
   */
  function RotateZero(v: Byte, prefix: bool): bool
  {
    prefix && v == 0
  }

  /** RLC: rotate left, bit 7 goes to both bit 0 and C. */
  function Rlc(v: Byte, prefix: bool): (r: AluOut)
    ensures r.value >> 1 == v & 0x7F && r.value & 1 == v >> 7
    ensures r.flags == FlagUpdate(Put(RotateZero(r.value, prefix)), Put(false), Put(false), Put(v & 0x80 == 0x80))
  {
    var msb := v & 0x80 == 0x80;
    var s := (v << 1) | (if msb then 0x01 else 0x00);
    AluOut(s, FlagUpdate(Put(RotateZero(s, prefix)), Put(false), Put(false), Put(msb)))
  }

  /** RL: rotate left through the carry. */
  function Rl(v: Byte, carry: bool, prefix: bool): (r: AluOut)
    ensures r.value >> 1 == v & 0x7F && (r.value & 1 == 1 <==> carry)
    ensures r.flags == FlagUpdate(Put(RotateZero(r.value, prefix)), Put(false), Put(false), Put(v & 0x80 == 0x80))
  {
    var msb := v & 0x80 == 0x80;
    var s := (v << 1) | (if carry then 0x01 else 0x00);
    AluOut(s, FlagUpdate(Put(RotateZero(s, prefix)), Put(false), Put(false), Put(msb)))
  }

  /** RRC: rotate right, bit 0 goes to both bit 7 and C. */
  function Rrc(v: Byte, prefix: bool): (r: AluOut)
    ensures r.value >> 7 == v & 1
    ensures r.value & 0x7F == v >> 1
    ensures r.flags == FlagUpdate(Put(RotateZero(r.value, prefix)), Put(false), Put(false), Put(v & 1 == 1))
  {
    var lsb := v & 0x01 == 0x01;
    var s := (v >> 1) | (if lsb then 0x80 else 0x00);
    AluOut(s, FlagUpdate(Put(RotateZero(s, prefix)), Put(false), Put(false), Put(lsb)))
  }

  /** RR: rotate right through the carry. */
  function Rr(v: Byte, carry: bool, prefix: bool): (r: AluOut)
    ensures r.value & 0x7F == v >> 1 && (r.value >> 7 == 1 <==> carry)
    ensures r.flags == FlagUpdate(Put(RotateZero(r.value, prefix)), Put(false), Put(false), Put(v & 1 == 1))
  {
    var lsb := v & 0x01 == 0x01;
    var s := (v >> 1) | (if carry then 0x80 else 0x00);
    AluOut(s, FlagUpdate(Put(RotateZero(s, prefix)), Put(false), Put(false), Put(lsb)))
  }

  /** RRC undoes RLC, and RR undoes RL when fed the carry RL produced. */
  lemma RotateRoundTrips(v: Byte, carry: bool, prefix: bool)
    ensures Rrc(Rlc(v, prefix).value, prefix).value == v
    ensures Rlc(Rrc(v, prefix).value, prefix).value == v
    ensures var l := Rl(v, carry, prefix);
            var back := Rr(l.value, l.flags.c.v, prefix);
            back.value == v && back.flags.c == Put(carry)
  {
  }

  /** SLA: shift left; bit 7 goes to C and bit 0 becomes 0. */
  function Sla(v: Byte): (r: AluOut)
    ensures r.value >> 1 == v & 0x7F && r.value & 1 == 0
    ensures r.flags == FlagUpdate(Put(r.value == 0), Put(false), Put(false), Put(v & 0x80 == 0x80))
  {
    var s := v << 1;
    AluOut(s, FlagUpdate(Put(s == 0), Put(false), Put(false), Put(v & 0x80 == 0x80)))
  }

  /** SRA: arithmetic shift right; bit 0 goes to C and bit 7 is preserved. */
  function Sra(v: Byte): (r: AluOut)
    ensures r.value & 0x7F == v >> 1 && r.value & 0x80 == v & 0x80
    ensures r.flags == FlagUpdate(Put(r.value == 0), Put(false), Put(false), Put(v & 1 == 1))
  {
    var msb := v & 0x80 == 0x80;
    var s := (v >> 1) | (if msb then 0x80 else 0x00);
    AluOut(s, FlagUpdate(Put(s == 0), Put(false), Put(false), Put(v & 0x01 == 0x01)))
  }

  /** SRL: logical shift right; bit 0 goes to C and bit 7 becomes 0. */
  function Srl(v: Byte): (r: AluOut)
    ensures r.value & 0x7F == v >> 1 && r.value & 0x80 == 0
    ensures r.flags == FlagUpdate(Put(r.value == 0), Put(false), Put(false), Put(v & 1 == 1))
  {
    var s := v >> 1;
    AluOut(s, FlagUpdate(Put(s == 0), Put(false), Put(false), Put(v & 0x01 == 0x01)))
  }

  /** SLA followed by SRL recovers the low seven bits; SRL then SLA the high seven. */
  lemma ShiftRoundTrips(v: Byte)
    ensures Srl(Sla(v).value).value == v & 0x7F
    ensures Sla(Srl(v).value).value == v & 0xFE
  {
  }

  /** BIT n: Z set iff bit n of the operand is 0, N cleared, H set, C untouched. */
  function BitTest(v: Byte, bit: nat): (u: FlagUpdate)
    requires bit < 8
    ensures u == FlagUpdate(Put(!BitSet(v, bit)), Put(false), Put(true), Keep)
  {
    var mask := Mask(bit);
    FlagUpdate(Put(v & mask == 0), Put(false), Put(true), Keep)
  }

  /** SET n: only bit n changes, and it becomes 1. */
  function SetBit(v: Byte, bit: nat): (r: Byte)
    requires bit < 8
    ensures BitSet(r, bit)
    ensures forall j :: 0 <= j < 8 && j != bit ==> BitSet(r, j) == BitSet(v, j)
  {
    OrBits(v, Mask(bit));
    v | Mask(bit)
  }

  /** RES n: only bit n changes, and it becomes 0. */
  function ResBit(v: Byte, bit: nat): (r: Byte)
    requires bit < 8
    ensures !BitSet(r, bit)
    ensures forall j :: 0 <= j < 8 && j != bit ==> BitSet(r, j) == BitSet(v, j)
  {
    NotBits(Mask(bit));
    AndBits(v, !Mask(bit));
    v & !Mask(bit)
  }

  /** BIT reads what SET and RES wrote; SET and RES undo each other on a bit that had the other value. */
  lemma BitAfterSetRes(v: Byte, bit: nat)
    requires bit < 8
    ensures BitTest(SetBit(v, bit), bit).z == Put(false)
    ensures BitTest(ResBit(v, bit), bit).z == Put(true)
    ensures BitSet(v, bit) ==> SetBit(ResBit(v, bit), bit) == v
    ensures !BitSet(v, bit) ==> ResBit(SetBit(v, bit), bit) == v
  {
  }

  /** ADD HL,rr: N cleared, H the carry out of bit 11, C the carry out of bit 15, Z untouched. */
  function AddToHL(hl: Word, operand: Word): (r: (Word, FlagUpdate))
    ensures r.0 == hl + operand
    ensures r.1 == FlagUpdate(Keep, Put(false),
                             Put((hl & 0x0FFF) + (operand & 0x0FFF) > 0x0FFF),
                             Put(hl as bv32 + operand as bv32 > 0xFFFF))
  {
    var result := WordSum(hl, operand);
    ((result & 0xFFFF) as Word, FlagUpdate(Keep, Put(false),
                                           Put(WordHalfCarry(hl, operand, result)),
                                           Put(result & 0x10000 == 0x10000)))
  }

  /** The 17-bit sum of the 16-bit adder: bit 16 is the carry. */
  function WordSum(hl: Word, operand: Word): (result: bv32)
    ensures result == hl as bv32 + operand as bv32
    ensures (result & 0xFFFF) as Word == hl + operand
    ensures (result & 0x10000 == 0x10000) == (hl as bv32 + operand as bv32 > 0xFFFF)
  {
    WordSumLow(hl, operand);
    WordSumCarry(hl, operand);
    hl as bv32 + operand as bv32
  }

  lemma WordSumLow(hl: Word, operand: Word)
    ensures ((hl as bv32 + operand as bv32) & 0xFFFF) as Word == hl + operand
  {
  }

  lemma WordSumCarry(hl: Word, operand: Word)
    ensures ((hl as bv32 + operand as bv32) & 0x10000 == 0x10000) == (hl as bv32 + operand as bv32 > 0xFFFF)
  {
  }

  /** The half-carry test of the 16-bit adder: bit 12 of sum ^ hl ^ operand. */
  function WordHalfCarry(hl: Word, operand: Word, result: bv32): (h: bool)
    requires result == hl as bv32 + operand as bv32
    ensures h == ((hl & 0x0FFF) + (operand & 0x0FFF) > 0x0FFF)
  {
    (result ^ hl as bv32 ^ operand as bv32) & 0x1000 == 0x1000
  }
}

=== FILE: cpu_core.dfy ===
/**
 * The SM83 control state: instruction boundaries, the EI/DI delay, interrupt
 * dispatch, HALT, stack push/pop and the CB-prefixed decode table.
 *
 * A CPU is clocked once per machine cycle. `mCycle` counts the cycles of the
 * current instruction; 0 is an instruction boundary. The instruction to run
 * on later cycles is modelled only for the interrupt handler (`handler`);
 * the opcode table of ordinary instructions is represented by its fetch and
 * by the CB-prefixed operations on a register or on (HL).
 */
module CpuCore {
  import opened Bits
  import opened Wrappers
  import opened CpuRegisters
  import opened CpuAlu

  /** A bus address as a map key. */
  datatype Address = Address(w: Word)

  /** The bus as the CPU sees it; an address never written reads 0xFF. */
  type Memory = map<Address, Byte>

  function Load(m: Memory, addr: Word): Byte
  {
    if Address(addr) in m then m[Address(addr)] else 0xFF
  }

  function Store(m: Memory, addr: Word, v: Byte): (m': Memory)
    ensures Load(m', addr) == v
    ensures forall a :: a != addr ==> Load(m', a) == Load(m, a)
  {
    m[Address(addr) := v]
  }

  /**
   * The interrupt-enable state: IME, a pending EI or DI, and the countdown
   * (8-bit) of instruction boundaries before the pending request applies.
   */
  datatype Irq = Irq(ime: bool, eiPending: bool, diPending: bool, countdown: nat)

  /** An 8-bit counter decremented with wrap-around, kept as a number below 256. */
  function Dec8(n: nat): (r: nat)
    ensures n < 256 ==> r < 256
    ensures n > 0 ==> r + 1 == n
    ensures n == 0 ==> r == 255
  {
    if n == 0 then 255 else n - 1
  }

  datatype Cpu = Cpu(
    regs: Registers,
    mCycle: nat,
    prefixed: bool,
    irq: Irq,
    handler: Option<Word>,
    halted: bool,
    haltBug: bool,
    pendingCount: nat)

  /** What the bus reports on each cycle: the vector of the highest-priority pending interrupt and how many are pending. */
  datatype InterruptInfo = InterruptInfo(vector: Word, count: nat)

  /** A state may be saved only at an instruction boundary. */
  predicate IsSerializable(c: Cpu)
  {
    c.mCycle == 0
  }

  /** Power-on (current revision): registers reset, all interrupt and halt state cleared; PC is 0 unless the boot ROM is skipped. */
  function PowerOn(skipBootRom: bool): (c: Cpu)
    ensures c.regs.(pc := Reset().pc) == Reset()
    ensures c.regs.pc == if skipBootRom then 0x0100 else 0x0000
    ensures c.irq == Irq(false, false, false, 0)
    ensures c.handler.None? && !c.halted && !c.haltBug && !c.prefixed
    ensures IsSerializable(c)
  {
    var r := Reset();
    Cpu(if skipBootRom then r else r.(pc := 0x0000), 0, false, Irq(false, false, false, 0), None, false, false, 0)
  }

  /** Reset (older revision): the same state, with the flag meaning "a boot ROM is used". */
  function ResetOld(bootRom: bool): (c: Cpu)
    ensures c == PowerOn(!bootRom)
    ensures c.regs.pc == 0 <==> bootRom
  {
    var r := Reset();
    Cpu(if bootRom then r.(pc := 0x0000) else r, 0, false, Irq(false, false, false, 0), None, false, false, 0)
  }

  /** EI and DI never leave both requests pending at once. */
  predicate RequestsExclusive(q: Irq)
  {
    !(q.eiPending && q.diPending)
  }

  /**
   * The boundary step of a pending EI or DI: the countdown decreases (8-bit,
   * wrapping) and when it reaches 0 the request takes effect and is cleared.
   */
  function ApplyCountdown(q: Irq): (q': Irq)
    requires RequestsExclusive(q)
    ensures !q.eiPending && !q.diPending ==> q' == q
    ensures q.eiPending || q.diPending ==> q'.countdown == Dec8(q.countdown)
    ensures q'.ime == if q.eiPending && q.countdown == 1 then true
                      else if q.diPending && q.countdown == 1 then false
                      else q.ime
    ensures q'.eiPending == (q.eiPending && q.countdown != 1)
    ensures q'.diPending == (q.diPending && q.countdown != 1)
    ensures RequestsExclusive(q')
  {
    if q.eiPending || q.diPending then
      var n := Dec8(q.countdown);
      if n == 0 then
        if q.eiPending then Irq(true, false, q.diPending, n)
        else Irq(false, q.eiPending, false, n)
      else q.(countdown := n)
    else q
  }

  /** What the rest of the cycle does after the boundary bookkeeping. */
  datatype Action = Stalled | Decode | Execute

  datatype ClockStep = ClockStep(cpu: Cpu, acknowledged: bool, action: Action)

  /**
   * One machine cycle. At a boundary the EI/DI countdown runs; an interrupt
   * that is reported while IME is set is acknowledged, clears IME and
   * replaces decoding by the handler; any reported interrupt ends HALT. A
   * halted CPU then stops without advancing `mCycle`. Otherwise `mCycle`
   * advances and an opcode is fetched on the first cycle of an instruction
   * or right after a CB prefix, unless the handler is running.
   */
  function Clock(c: Cpu, info: Option<InterruptInfo>): (s: ClockStep)
    requires RequestsExclusive(c.irq)
    ensures s.acknowledged <==> c.mCycle == 0 && info.Some? && ApplyCountdown(c.irq).ime
    ensures s.acknowledged ==> !s.cpu.irq.ime && s.cpu.handler == Some(info.value.vector)
    ensures c.mCycle == 0 && info.Some? ==> !s.cpu.halted
    ensures c.mCycle != 0 ==> s.cpu.irq == c.irq && s.cpu.handler == c.handler && s.cpu.halted == c.halted
    ensures s.action.Stalled? <==> s.cpu.halted
    ensures s.action.Stalled? ==> s.cpu.mCycle == c.mCycle
    ensures !s.action.Stalled? ==> s.cpu.mCycle == c.mCycle + 1
    ensures s.action.Decode? <==> !s.cpu.halted && s.cpu.handler.None? && (c.prefixed || c.mCycle == 0)
    ensures RequestsExclusive(s.cpu.irq)
  {
    var c0 := c.(pendingCount := if info.Some? then info.value.count else 0);
    if c.mCycle == 0 then
      var b := AtBoundary(c0, info);
      Advance(b.0, b.1)
    else
      Advance(c0, false)
  }

  /**
   * The boundary part of a cycle: the countdown, then the dispatch of a
   * reported interrupt when IME is set, then the end of HALT.
   */
  function AtBoundary(c: Cpu, info: Option<InterruptInfo>): (b: (Cpu, bool))
    requires RequestsExclusive(c.irq)
    ensures b.1 <==> info.Some? && ApplyCountdown(c.irq).ime
    ensures b.1 ==> b.0.irq == ApplyCountdown(c.irq).(ime := false)
    ensures b.1 ==> b.0.handler == Some(info.value.vector) && b.0.pendingCount == Dec8(c.pendingCount)
    ensures !b.1 ==> b.0.irq == ApplyCountdown(c.irq) && b.0.handler == c.handler && b.0.pendingCount == c.pendingCount
    ensures b.0.halted == (c.halted && info.None?)
    ensures b.0.regs == c.regs && b.0.prefixed == c.prefixed && b.0.haltBug == c.haltBug && b.0.mCycle == c.mCycle
  {
    var q := ApplyCountdown(c.irq);
    if info.Some? then
      if q.ime then
        (c.(irq := q.(ime := false), handler := Some(info.value.vector), pendingCount := Dec8(c.pendingCount), halted := false), true)
      else (c.(irq := q, halted := false), false)
    else (c.(irq := q), false)
  }

  /** The rest of a cycle: a halted CPU stops; otherwise the cycle counter advances and the cycle decodes or executes. */
  function Advance(c: Cpu, acknowledged: bool): (s: ClockStep)
    ensures s.acknowledged == acknowledged
    ensures s.action.Stalled? <==> c.halted
    ensures s.cpu == if c.halted then c else c.(mCycle := c.mCycle + 1)
    ensures s.action.Decode? <==> !c.halted && c.handler.None? && (c.prefixed || c.mCycle == 0)
  {
    if c.halted then ClockStep(c, acknowledged, Stalled)
    else
      var c1 := c.(mCycle := c.mCycle + 1);
      ClockStep(c1, acknowledged, if c1.handler.None? && (c1.prefixed || c1.mCycle == 1) then Decode else Execute)
  }

  /**
   * Clock touches neither the registers, nor the prefix and halt-bug flags;
   * it records how many interrupts remain pending after an acknowledgement.
   */
  lemma ClockKeepsRegisters(c: Cpu, info: Option<InterruptInfo>)
    requires RequestsExclusive(c.irq)
    ensures var s := Clock(c, info);
            s.cpu.regs == c.regs && s.cpu.prefixed == c.prefixed && s.cpu.haltBug == c.haltBug &&
            s.cpu.pendingCount == if s.acknowledged then Dec8(info.value.count)
                                  else if info.Some? then info.value.count else 0
  {
  }

  /** The older revision returns "interrupt acknowledged" instead of calling back; the state it produces is the same. */
  function ClockOld(c: Cpu, info: Option<InterruptInfo>): (r: (Cpu, bool))
    requires RequestsExclusive(c.irq)
    ensures r.1 <==> c.mCycle == 0 && info.Some? && ApplyCountdown(c.irq).ime
    ensures r.1 ==> !r.0.irq.ime
    ensures r == (Clock(c, info).cpu, Clock(c, info).acknowledged)
  {
    var s := Clock(c, info);
    (s.cpu, s.acknowledged)
  }

  /** EI: IME becomes set after the instruction that follows; a pending DI is cancelled. */
  function EI(q: Irq): (q': Irq)
    ensures q'.eiPending && !q'.diPending && q'.countdown == 2
    ensures q.diPending ==> !q'.ime
    ensures !q.diPending && q.eiPending ==> q'.ime
    ensures !q.diPending && !q.eiPending ==> q'.ime == q.ime
  {
    var ime := if q.diPending then false else if q.eiPending then true else q.ime;
    Irq(ime, true, false, 2)
  }

  /** DI: IME becomes clear after the instruction that follows; a pending EI takes effect immediately. */
  function DI(q: Irq): (q': Irq)
    ensures q'.diPending && !q'.eiPending && q'.countdown == 2
    ensures q.eiPending ==> q'.ime
    ensures !q.eiPending && q.diPending ==> !q'.ime
    ensures !q.eiPending && !q.diPending ==> q'.ime == q.ime
  {
    var ime := if q.eiPending then true else if q.diPending then false else q.ime;
    Irq(ime, false, true, 2)
  }

  /** Executing EI or DI ends the instruction. */
  function ExecuteEI(c: Cpu): (c': Cpu)
    ensures c'.irq.eiPending && !c'.irq.diPending && c'.irq.countdown == 2 && c'.mCycle == 0
    ensures c'.irq.ime <==> !c.irq.diPending && (c.irq.eiPending || c.irq.ime)
    ensures c'.(irq := c.irq, mCycle := c.mCycle) == c
  {
    c.(irq := EI(c.irq), mCycle := 0)
  }

  /**
   * HALT. With IME clear and an interrupt pending the CPU does not halt:
   * a pending EI takes effect at once, otherwise the halt bug is armed.
   * In every other case the CPU halts.
   */
  function Halt(c: Cpu): (c': Cpu)
    ensures c'.mCycle == 0
    ensures c'.halted <==> c.halted || c.irq.ime || c.pendingCount == 0
    ensures c'.haltBug <==> c.haltBug || (!c.irq.ime && c.pendingCount > 0 && !c.irq.eiPending)
    ensures !c.irq.ime && c.pendingCount > 0 && c.irq.eiPending ==> c'.irq == c.irq.(ime := true, eiPending := false, countdown := 0)
    ensures !(!c.irq.ime && c.pendingCount > 0 && c.irq.eiPending) ==> c'.irq == c.irq
    ensures c'.regs == c.regs && c'.handler == c.handler
  {
    var c1 :=
      if !c.irq.ime && c.pendingCount > 0 then
        if c.irq.eiPending then c.(irq := c.irq.(eiPending := false, countdown := 0, ime := true))
        else c.(haltBug := true)
      else c.(halted := true);
    c1.(mCycle := 0)
  }

  /** EI, DI and HALT keep the two requests exclusive. */
  lemma RequestsStayExclusive(c: Cpu)
    requires RequestsExclusive(c.irq)
    ensures RequestsExclusive(EI(c.irq)) && RequestsExclusive(DI(c.irq)) && RequestsExclusive(Halt(c).irq)
  {
  }

  /** The end of an ordinary instruction: the next cycle is a boundary. */
  function EndInstruction(c: Cpu): (c': Cpu)
    ensures IsSerializable(c') && c'.(mCycle := c.mCycle) == c
  {
    c.(mCycle := 0)
  }

  /**
   * The EI delay: the boundary right after EI never dispatches an interrupt,
   * and the boundary after the next instruction dispatches one if reported.
   */
  lemma {:induction false} EiTakesEffectAfterNextInstruction(c: Cpu, first: Option<InterruptInfo>, i: InterruptInfo)
    requires !c.irq.ime && !c.irq.eiPending && !c.halted && c.handler.None?
    ensures var s1 := Clock(ExecuteEI(c), first);
            !s1.acknowledged && !s1.cpu.irq.ime &&
            var s2 := Clock(EndInstruction(s1.cpu), Some(i));
            s2.acknowledged && s2.cpu.handler == Some(i.vector) && !s2.cpu.irq.ime
  {
    var e := ExecuteEI(c);
    assert e.irq == Irq(false, true, false, 2);
    var s1 := Clock(e, first);
    assert s1.cpu.irq == Irq(false, true, false, 1);
    var d := EndInstruction(s1.cpu);
    assert ApplyCountdown(d.irq).ime;
  }

  /** A halted CPU with nothing reported stays halted and does not advance. */
  lemma HaltedStalls(c: Cpu)
    requires RequestsExclusive(c.irq) && c.halted
    ensures Clock(c, None).action == Stalled && Clock(c, None).cpu.mCycle == c.mCycle
  {
  }

  /** Push pre-decrements SP and writes; Pop reads and post-increments SP. */
  function Push(c: Cpu, m: Memory, v: Byte): (r: (Cpu, Memory))
    ensures r.0.regs.sp == c.regs.sp - 1 && Load(r.1, r.0.regs.sp) == v
    ensures forall a :: a != r.0.regs.sp ==> Load(r.1, a) == Load(m, a)
    ensures r.0 == c.(regs := c.regs.(sp := c.regs.sp - 1))
  {
    var sp := c.regs.sp - 1;
    (c.(regs := c.regs.(sp := sp)), Store(m, sp, v))
  }

  function Pop(c: Cpu, m: Memory): (r: (Cpu, Byte))
    ensures r.1 == Load(m, c.regs.sp)
    ensures r.0 == c.(regs := c.regs.(sp := c.regs.sp + 1))
  {
    (c.(regs := c.regs.(sp := c.regs.sp + 1)), Load(m, c.regs.sp))
  }

  lemma PushThenPop(c: Cpu, m: Memory, v: Byte)
    ensures var (c1, m1) := Push(c, m, v); Pop(c1, m1) == (c, v)
  {
  }

  /** PUSH rr: the high byte is pushed first, so the low byte ends at the lower address. */
  function PushWord(c: Cpu, m: Memory, w: Word): (r: (Cpu, Memory))
    ensures r.0.regs.sp == c.regs.sp - 2
    ensures Load(r.1, c.regs.sp - 1) == Hi(w) && Load(r.1, c.regs.sp - 2) == Lo(w)
    ensures r.0.(regs := c.regs) == c && r.0.regs.(sp := c.regs.sp) == c.regs
  {
    var (c1, m1) := Push(c, m, Hi(w));
    Push(c1, m1, Lo(w))
  }

  /** POP rr: the low byte is read first. */
  function PopWord(c: Cpu, m: Memory): (r: (Cpu, Word))
    ensures Lo(r.1) == Load(m, c.regs.sp) && Hi(r.1) == Load(m, c.regs.sp + 1)
    ensures r.0 == c.(regs := c.regs.(sp := c.regs.sp + 2))
  {
    var (c1, lo) := Pop(c, m);
    var (c2, hi) := Pop(c1, m);
    (c2, Join(hi, lo))
  }

  lemma {:induction false} PushWordThenPopWord(c: Cpu, m: Memory, w: Word)
    ensures var (c1, m1) := PushWord(c, m, w); PopWord(c1, m1) == (c, w)
  {
    var (c1, m1) := PushWord(c, m, w);
    var (c2, v) := PopWord(c1, m1);
    assert v == w by {
      assert c1.regs.sp + 1 == c.regs.sp - 1;
      assert Hi(v) == Hi(w) && Lo(v) == Lo(w);
      JoinHiLo(v);
      JoinHiLo(w);
    }
    assert c2 == c by {
      assert c1.regs.sp + 2 == c.regs.sp;
    }
  }

  /** POP AF: the popped word goes to AF with the low nibble of F forced to 0. */
  function PopAF(c: Cpu, m: Memory): (c': Cpu)
    ensures c'.regs.a == Load(m, c.regs.sp + 1)
    ensures c'.regs.f == Load(m, c.regs.sp) & 0xF0
    ensures c'.regs.f & 0x0F == 0
    ensures c'.regs.sp == c.regs.sp + 2
    ensures c'.(regs := c.regs) == c
  {
    var (c1, w) := PopWord(c, m);
    var r := SetAF(c1.regs, w);
    c1.(regs := r.(f := r.f & 0xF0))
  }

  /** PUSH AF then POP AF gives back A and the four flags. */
  lemma PushAFThenPopAF(c: Cpu, m: Memory)
    ensures var (c1, m1) := PushWord(c, m, AF(c.regs));
            var c2 := PopAF(c1, m1);
            c2.regs.a == c.regs.a && c2.regs.sp == c.regs.sp &&
            forall fl: Flag :: IsFlagSet(c2.regs.f, fl) == IsFlagSet(c.regs.f, fl)
  {
  }

  /**
   * One cycle of the interrupt handler, after `Clock` advanced `mCycle`:
   * two idle cycles, the high then the low byte of PC pushed, then the
   * jump to the vector, which ends the handler at a boundary.
   */
  function HandlerStep(c: Cpu, m: Memory): (r: (Cpu, Memory))
    requires c.handler.Some?
    ensures c.mCycle == 3 ==> r == Push(c, m, Hi(c.regs.pc))
    ensures c.mCycle == 4 ==> r == Push(c, m, Lo(c.regs.pc))
    ensures c.mCycle == 5 ==> r.1 == m && r.0.regs.pc == c.handler.value && r.0.handler.None? && IsSerializable(r.0)
    ensures c.mCycle !in {3, 4, 5} ==> r == (c, m)
  {
    if c.mCycle == 3 then Push(c, m, Hi(c.regs.pc))
    else if c.mCycle == 4 then Push(c, m, Lo(c.regs.pc))
    else if c.mCycle == 5 then (c.(regs := c.regs.(pc := c.handler.value), handler := None, mCycle := 0), m)
    else (c, m)
  }

  /** A full cycle: `Clock`, then the handler when it is the running instruction. */
  function Step(c: Cpu, m: Memory, info: Option<InterruptInfo>): (r: (Cpu, Memory))
    requires RequestsExclusive(c.irq)
    ensures RequestsExclusive(r.0.irq)
    ensures Clock(c, info).action.Stalled? ==> r == (Clock(c, info).cpu, m)
  {
    var s := Clock(c, info);
    if s.action.Execute? && s.cpu.handler.Some? then
      var (c', m') := HandlerStep(s.cpu, m);
      (c', m')
    else (s.cpu, m)
  }

  /** Runs one `Step` per reported interrupt state, in order. */
  function Run(c: Cpu, m: Memory, infos: seq<Option<InterruptInfo>>): (Cpu, Memory)
    requires RequestsExclusive(c.irq)
    decreases |infos|
  {
    if |infos| == 0 then (c, m)
    else
      var (c1, m1) := Step(c, m, infos[0]);
      Run(c1, m1, infos[1..])
  }

  /**
   * Interrupt dispatch end to end: from a boundary with IME set, five cycles
   * leave PC at the vector with the old PC on the stack, IME clear, and the
   * next cycle a boundary; popping the stack (RETI) gives the old PC back.
   */
  lemma {:induction false} DispatchThenReturn(c: Cpu, m: Memory, i: InterruptInfo, infos: seq<Option<InterruptInfo>>)
    requires c.mCycle == 0 && c.irq.ime && !c.irq.eiPending && !c.irq.diPending && c.handler.None?
    requires |infos| == 5 && infos[0] == Some(i)
    ensures EnteredHandler(Run(c, m, infos), i.vector, c.regs.sp, c.regs.pc)
  {
    Dispatch(c, m, i, infos);
    var r := Run(c, m, infos);
    EnteredAfterPush(r, i.vector, c.regs.sp, r.0.irq, c.regs.pc);
  }

  lemma EnteredAfterPush(r: (Cpu, Memory), vector: Word, top: Word, irq: Irq, pc: Word)
    requires PushedAndJumped(r, vector, top, irq, pc) && !irq.ime
    ensures EnteredHandler(r, vector, top, pc)
  {
    ReturnAfterPush(r.0, r.1, top, pc);
  }

  /**
   * The state right after dispatch: PC at the vector, two bytes pushed below
   * the old SP, IME clear, no handler running, the next cycle a boundary,
   * and a word popped from the stack (RETI) is `pc` with SP back at `top`.
   */
  predicate EnteredHandler(r: (Cpu, Memory), vector: Word, top: Word, pc: Word)
  {
    r.0.regs.pc == vector && r.0.regs.sp == top - 2 && !r.0.irq.ime &&
    r.0.handler.None? && IsSerializable(r.0) &&
    PopWord(r.0, r.1).1 == pc && PopWord(r.0, r.1).0.regs.sp == top
  }

  /** The five dispatch cycles as one: acknowledge, then the handler. */
  lemma {:induction false} Dispatch(c: Cpu, m: Memory, i: InterruptInfo, infos: seq<Option<InterruptInfo>>)
    requires c.mCycle == 0 && c.irq.ime && !c.irq.eiPending && !c.irq.diPending && c.handler.None?
    requires |infos| == 5 && infos[0] == Some(i)
    ensures var r := Run(c, m, infos);
            PushedAndJumped(r, i.vector, c.regs.sp, r.0.irq, c.regs.pc) && !r.0.irq.ime
  {
    DispatchCycle(c, m, i);
    var s1 := Step(c, m, Some(i));
    RunFirst(c, m, infos);
    HandlerFromIdle(s1.0, s1.1, infos[1..]);
  }

  /** Popping a word pushed just below `top` gives it back and restores SP to `top`. */
  lemma ReturnAfterPush(c: Cpu, m: Memory, top: Word, pc: Word)
    requires c.regs.sp == top - 2 && Load(m, top - 1) == Hi(pc) && Load(m, top - 2) == Lo(pc)
    ensures PopWord(c, m).1 == pc
    ensures PopWord(c, m).0.regs.sp == top
  {
    WordOffsets(top);
    assert PopWord(c, m).1 == pc by {
      assert Load(m, c.regs.sp + 1) == Hi(pc);
      PopReturnsPushed(c, m, pc);
    }
  }

  lemma WordOffsets(top: Word)
    ensures (top - 2) + 1 == top - 1 && (top - 2) + 2 == top
  {
  }

  /**
   * The handler has finished: PC at the vector, SP as given, the interrupt
   * state as given and the next cycle a boundary.
   */
  predicate HandlerDone(c: Cpu, vector: Word, sp: Word, irq: Irq)
  {
    c.regs.pc == vector && c.regs.sp == sp && c.irq == irq && c.handler.None? && c.mCycle == 0
  }

  /** The handler has finished and the two bytes below `top` hold `pc`, high byte first. */
  predicate PushedAndJumped(r: (Cpu, Memory), vector: Word, top: Word, irq: Irq, pc: Word)
  {
    HandlerDone(r.0, vector, top - 2, irq) && Load(r.1, top - 1) == Hi(pc) && Load(r.1, top - 2) == Lo(pc)
  }

  /** The last handler cycle jumps to the vector. */
  lemma {:induction false} HandlerFromJump(c: Cpu, m: Memory, infos: seq<Option<InterruptInfo>>)
    requires HandlerRunning(c, 4) && |infos| == 1
    ensures HandlerDone(Run(c, m, infos).0, c.handler.value, c.regs.sp, c.irq)
    ensures Run(c, m, infos).1 == m
  {
    HandlerJump(c, m, infos[0]);
    var (c1, m1) := Step(c, m, infos[0]);
    assert Run(c1, m1, infos[1..]) == (c1, m1);
  }

  lemma {:induction false} HandlerFromPushLow(c: Cpu, m: Memory, infos: seq<Option<InterruptInfo>>)
    requires HandlerRunning(c, 3) && |infos| == 2
    ensures HandlerDone(Run(c, m, infos).0, c.handler.value, c.regs.sp - 1, c.irq)
    ensures Load(Run(c, m, infos).1, c.regs.sp - 1) == Lo(c.regs.pc)
    ensures Load(Run(c, m, infos).1, c.regs.sp) == Load(m, c.regs.sp)
  {
    HandlerPushLow(c, m, infos[0]);
    var (c1, m1) := Step(c, m, infos[0]);
    HandlerFromJump(c1, m1, infos[1..]);
  }

  lemma {:induction false} HandlerFromPushHigh(c: Cpu, m: Memory, infos: seq<Option<InterruptInfo>>)
    requires HandlerRunning(c, 2) && |infos| == 3
    ensures PushedAndJumped(Run(c, m, infos), c.handler.value, c.regs.sp, c.irq, c.regs.pc)
  {
    HandlerPushHigh(c, m, infos[0]);
    var (c1, m1) := Step(c, m, infos[0]);
    HandlerFromPushLow(c1, m1, infos[1..]);
    assert c1.regs.sp - 1 == c.regs.sp - 2;
  }

  /** The handler pushes PC, high byte first, and jumps to its vector. */
  lemma {:induction false} HandlerFromIdle(c: Cpu, m: Memory, infos: seq<Option<InterruptInfo>>)
    requires HandlerRunning(c, 1) && |infos| == 4
    ensures PushedAndJumped(Run(c, m, infos), c.handler.value, c.regs.sp, c.irq, c.regs.pc)
  {
    HandlerIdle(c, m, infos[0]);
    var s1 := Step(c, m, infos[0]);
    HandlerFromPushHigh(s1.0, s1.1, infos[1..]);
    RunFirst(c, m, infos);
  }

  /** Running a non-empty schedule is one step followed by the rest. */
  lemma RunFirst(c: Cpu, m: Memory, infos: seq<Option<InterruptInfo>>)
    requires RequestsExclusive(c.irq) && |infos| > 0
    ensures var s1 := Step(c, m, infos[0]);
            Run(c, m, infos) == Run(s1.0, s1.1, infos[1..])
  {
  }

  /** Popping a word whose bytes were pushed high first gives the word back and restores SP. */
  lemma PopReturnsPushed(c: Cpu, m: Memory, w: Word)
    requires Load(m, c.regs.sp + 1) == Hi(w) && Load(m, c.regs.sp) == Lo(w)
    ensures PopWord(c, m).1 == w
  {
    HiLoDetermine(PopWord(c, m).1, w);
  }

  /** The cycle that acknowledges an interrupt: the handler is installed and nothing is written yet. */
  lemma DispatchCycle(c: Cpu, m: Memory, i: InterruptInfo)
    requires c.mCycle == 0 && c.irq.ime && !c.irq.eiPending && !c.irq.diPending && c.handler.None?
    ensures var (c1, m1) := Step(c, m, Some(i));
            m1 == m && c1.regs.sp == c.regs.sp && c1.regs.pc == c.regs.pc && c1.handler == Some(i.vector) &&
            HandlerRunning(c1, 1) && !c1.irq.ime
  {
    ClockKeepsRegisters(c, Some(i));
  }

  /** The handler cycles after the acknowledgement: the same cycle state changes whatever the bus reports meanwhile. */
  predicate HandlerRunning(c: Cpu, k: nat)
  {
    c.handler.Some? && c.mCycle == k && !c.halted && RequestsExclusive(c.irq)
  }

  lemma HandlerIdle(c: Cpu, m: Memory, info: Option<InterruptInfo>)
    requires HandlerRunning(c, 1)
    ensures var (c1, m1) := Step(c, m, info);
            HandlerRunning(c1, 2) && c1.handler == c.handler && c1.irq == c.irq &&
            c1.regs.sp == c.regs.sp && c1.regs.pc == c.regs.pc && m1 == m
  {
    ClockKeepsRegisters(c, info);
  }

  lemma HandlerPushHigh(c: Cpu, m: Memory, info: Option<InterruptInfo>)
    requires HandlerRunning(c, 2)
    ensures var (c1, m1) := Step(c, m, info);
            HandlerRunning(c1, 3) && c1.handler == c.handler && c1.irq == c.irq &&
            c1.regs.sp == c.regs.sp - 1 && c1.regs.pc == c.regs.pc && Load(m1, c.regs.sp - 1) == Hi(c.regs.pc)
  {
    var c2 := HandlerClock(c, info);
    assert Step(c, m, info) == Push(c2, m, Hi(c.regs.pc));
  }

  lemma HandlerPushLow(c: Cpu, m: Memory, info: Option<InterruptInfo>)
    requires HandlerRunning(c, 3)
    ensures var (c1, m1) := Step(c, m, info);
            HandlerRunning(c1, 4) && c1.handler == c.handler && c1.irq == c.irq &&
            c1.regs.sp == c.regs.sp - 1 && c1.regs.pc == c.regs.pc &&
            Load(m1, c.regs.sp - 1) == Lo(c.regs.pc) && Load(m1, c.regs.sp) == Load(m, c.regs.sp)
  {
    var c2 := HandlerClock(c, info);
    assert Step(c, m, info) == Push(c2, m, Lo(c.regs.pc));
  }

  /** A clock in the middle of the handler only advances the cycle counter and records the pending count. */
  lemma HandlerClock(c: Cpu, info: Option<InterruptInfo>) returns (c2: Cpu)
    requires c.mCycle > 0 && HandlerRunning(c, c.mCycle)
    ensures c2 == c.(mCycle := c.mCycle + 1, pendingCount := if info.Some? then info.value.count else 0)
    ensures Clock(c, info) == ClockStep(c2, false, Execute)
  {
    ClockKeepsRegisters(c, info);
    c2 := c.(mCycle := c.mCycle + 1, pendingCount := if info.Some? then info.value.count else 0);
  }

  lemma HandlerJump(c: Cpu, m: Memory, info: Option<InterruptInfo>)
    requires HandlerRunning(c, 4)
    ensures var (c1, m1) := Step(c, m, info);
            c1.mCycle == 0 && c1.handler.None? && c1.irq == c.irq &&
            c1.regs.pc == c.handler.value && c1.regs.sp == c.regs.sp && m1 == m
  {
    ClockKeepsRegisters(c, info);
  }

  /** The eight operands of a CB-prefixed instruction, in encoding order; 6 is the byte at HL. */
  datatype Operand = B | C | D | E | H | L | AtHL | A

  datatype ShiftKind = RlcOp | RrcOp | RlOp | RrOp | SlaOp | SraOp | SwapOp | SrlOp

  datatype CbOp =
    | Shift(kind: ShiftKind, target: Operand)
    | TestBit(bit: nat, target: Operand)
    | ResetBit(bit: nat, target: Operand)
    | SetBitOp(bit: nat, target: Operand)

  predicate ValidCb(op: CbOp)
  {
    match op
    case Shift(_, _) => true
    case TestBit(b, _) => b < 8
    case ResetBit(b, _) => b < 8
    case SetBitOp(b, _) => b < 8
  }

  function OperandOf(i: Byte): Operand
    requires i < 8
  {
    match i
    case 0 => B case 1 => C case 2 => D case 3 => E
    case 4 => H case 5 => L case 6 => AtHL case _ => A
  }

  function OperandIndex(o: Operand): (i: Byte)
    ensures i < 8 && OperandOf(i) == o
  {
    match o
    case B => 0 case C => 1 case D => 2 case E => 3
    case H => 4 case L => 5 case AtHL => 6 case A => 7
  }

  function ShiftKindOf(i: Byte): ShiftKind
    requires i < 8
  {
    match i
    case 0 => RlcOp case 1 => RrcOp case 2 => RlOp case 3 => RrOp
    case 4 => SlaOp case 5 => SraOp case 6 => SwapOp case _ => SrlOp
  }

  function ShiftKindIndex(k: ShiftKind): (i: Byte)
    ensures i < 8 && ShiftKindOf(i) == k
  {
    match k
    case RlcOp => 0 case RrcOp => 1 case RlOp => 2 case RrOp => 3
    case SlaOp => 4 case SraOp => 5 case SwapOp => 6 case SrlOp => 7
  }

  function BitIndex(i: Byte): (b: nat)
    requires i < 8
    ensures b < 8
  {
    match i
    case 0 => 0 case 1 => 1 case 2 => 2 case 3 => 3
    case 4 => 4 case 5 => 5 case 6 => 6 case _ => 7
  }

  function BitCode(b: nat): (i: Byte)
    requires b < 8
    ensures i < 8 && BitIndex(i) == b
  {
    if b == 0 then 0 else if b == 1 then 1 else if b == 2 then 2 else if b == 3 then 3
    else if b == 4 then 4 else if b == 5 then 5 else if b == 6 then 6 else 7
  }

  /** The byte that encodes a CB-prefixed operation: group in bits 6-7, kind or bit in bits 3-5, operand in bits 0-2. */
  function EncodeCb(op: CbOp): Byte
    requires ValidCb(op)
  {
    match op
    case Shift(k, t) => (ShiftKindIndex(k) << 3) | OperandIndex(t)
    case TestBit(b, t) => 0x40 | (BitCode(b) << 3) | OperandIndex(t)
    case ResetBit(b, t) => 0x80 | (BitCode(b) << 3) | OperandIndex(t)
    case SetBitOp(b, t) => 0xC0 | (BitCode(b) << 3) | OperandIndex(t)
  }

  /**
   * The CB-prefixed decode: the operand is opcode & 7 and the bit or shift
   * kind is (opcode >> 3) & 7; 0x00-0x3F shift, 0x40-0x7F BIT, 0x80-0xBF
   * RES, 0xC0-0xFF SET.
   */
  function DecodeCb(opcode: Byte): (op: CbOp)
    ensures ValidCb(op) && EncodeCb(op) == opcode
    ensures op.target == OperandOf(opcode & 7)
    ensures opcode < 0x40 <==> op.Shift?
    ensures 0x40 <= opcode < 0x80 <==> op.TestBit?
    ensures 0x80 <= opcode < 0xC0 <==> op.ResetBit?
    ensures 0xC0 <= opcode <==> op.SetBitOp?
  {
    var t := OperandOf(opcode & 7);
    var mid := (opcode >> 3) & 7;
    CbFields(opcode);
    IndexRoundTrips(opcode & 7);
    IndexRoundTrips(mid);
    if opcode < 0x40 then Shift(ShiftKindOf(mid), t)
    else if opcode < 0x80 then TestBit(BitIndex(mid), t)
    else if opcode < 0xC0 then ResetBit(BitIndex(mid), t)
    else SetBitOp(BitIndex(mid), t)
  }

  /** An opcode is its group bits, its middle field and its operand field put back together. */
  lemma CbFields(opcode: Byte)
    ensures opcode == (opcode & 0xC0) | (((opcode >> 3) & 7) << 3) | (opcode & 7)
    ensures opcode < 0x40 <==> opcode & 0xC0 == 0x00
    ensures 0x40 <= opcode < 0x80 <==> opcode & 0xC0 == 0x40
    ensures 0x80 <= opcode < 0xC0 <==> opcode & 0xC0 == 0x80
  {
  }

  /** The three-bit field codes turn back into the field values they decode to. */
  lemma IndexRoundTrips(i: Byte)
    requires i < 8
    ensures OperandIndex(OperandOf(i)) == i && ShiftKindIndex(ShiftKindOf(i)) == i && BitCode(BitIndex(i)) == i
  {
  }

  /** Decoding an encoded operation gives it back. */
  lemma DecodeEncodeCb(op: CbOp)
    requires ValidCb(op)
    ensures DecodeCb(EncodeCb(op)) == op
  {
  }

  /** Reads an operand: a register, or the byte at HL. */
  function ReadOperand(r: Registers, m: Memory, o: Operand): Byte
  {
    match o
    case B => r.b case C => r.c case D => r.d case E => r.e
    case H => r.h case L => r.l case AtHL => Load(m, HL(r)) case A => r.a
  }

  /** Writes an operand; nothing else changes. */
  function WriteOperand(r: Registers, m: Memory, o: Operand, v: Byte): (res: (Registers, Memory))
    ensures ReadOperand(res.0, res.1, o) == v
    ensures forall p: Operand :: p != o && p != AtHL ==> ReadOperand(res.0, res.1, p) == ReadOperand(r, m, p)
    ensures res.0.f == r.f && res.0.sp == r.sp && res.0.pc == r.pc
    ensures o != AtHL ==> res.1 == m
    ensures o == AtHL ==> res.0 == r
  {
    match o
    case B => (r.(b := v), m) case C => (r.(c := v), m)
    case D => (r.(d := v), m) case E => (r.(e := v), m)
    case H => (r.(h := v), m) case L => (r.(l := v), m)
    case AtHL => (r, Store(m, HL(r), v)) case A => (r.(a := v), m)
  }

  function ShiftBy(k: ShiftKind, v: Byte, carry: bool): AluOut
  {
    match k
    case RlcOp => Rlc(v, true)
    case RrcOp => Rrc(v, true)
    case RlOp => Rl(v, carry, true)
    case RrOp => Rr(v, carry, true)
    case SlaOp => Sla(v)
    case SraOp => Sra(v)
    case SwapOp => Swap(v)
    case SrlOp => Srl(v)
  }

  /**
   * The net effect of a CB-prefixed instruction on registers and memory.
   * BIT writes only flags; SET and RES write only their operand.
   */
  function ExecuteCb(r: Registers, m: Memory, op: CbOp): (res: (Registers, Memory))
    requires ValidCb(op)
    ensures op.TestBit? ==> res.1 == m && res.0.(f := r.f) == r
    ensures op.TestBit? ==> (IsFlagSet(res.0.f, Zero) <==> !BitSet(ReadOperand(r, m, op.target), op.bit))
    ensures op.SetBitOp? || op.ResetBit? ==> res.0.f == r.f
    ensures op.SetBitOp? ==> ReadOperand(res.0, res.1, op.target) == SetBit(ReadOperand(r, m, op.target), op.bit)
    ensures op.ResetBit? ==> ReadOperand(res.0, res.1, op.target) == ResBit(ReadOperand(r, m, op.target), op.bit)
    ensures op.Shift? ==> ReadOperand(res.0, res.1, op.target)
                          == ShiftBy(op.kind, ReadOperand(r, m, op.target), IsFlagSet(r.f, Carry)).value
  {
    var v := ReadOperand(r, m, op.target);
    match op
    case TestBit(b, _) => (ApplyFlags(r, BitTest(v, b)), m)
    case SetBitOp(b, t) => WriteOperand(r, m, t, SetBit(v, b))
    case ResetBit(b, t) => WriteOperand(r, m, t, ResBit(v, b))
    case Shift(k, t) =>
      var out := ShiftBy(k, v, IsFlagSet(r.f, Carry));
      var (r1, m1) := WriteOperand(r, m, t, out.value);
      (ApplyFlags(r1, out.flags), m1)
  }

  /** The opcode fetch: what the cycle decoded. */
  datatype Fetched = PrefixStart | Plain(opcode: Byte) | Prefixed(op: CbOp)

  /**
   * DecodeOpCode's fetch. The byte at PC is read; PC advances unless the
   * halt bug is armed, which it then disarms. 0xCB outside a prefix only
   * sets the prefix flag; any other fetch clears it.
   */
  function Fetch(c: Cpu, m: Memory): (r: (Cpu, Fetched))
    ensures r.0.regs.pc == if c.haltBug then c.regs.pc else c.regs.pc + 1
    ensures !r.0.haltBug
    ensures r.0.prefixed <==> !c.prefixed && Load(m, c.regs.pc) == 0xCB
    ensures r.1.PrefixStart? <==> r.0.prefixed
    ensures c.prefixed ==> r.1 == Prefixed(DecodeCb(Load(m, c.regs.pc)))
    ensures !c.prefixed && Load(m, c.regs.pc) != 0xCB ==> r.1 == Plain(Load(m, c.regs.pc))
    ensures r.0.(regs := c.regs, haltBug := c.haltBug, prefixed := c.prefixed) == c
  {
    var opcode := Load(m, c.regs.pc);
    var c1 := c.(regs := c.regs.(pc := if c.haltBug then c.regs.pc else c.regs.pc + 1), haltBug := false);
    if !c.prefixed && opcode == 0xCB then (c1.(prefixed := true), PrefixStart)
    else if c.prefixed then (c1.(prefixed := false), Prefixed(DecodeCb(opcode)))
    else (c1.(prefixed := false), Plain(opcode))
  }

  /** With the halt bug armed, the byte after HALT is fetched twice. */
  lemma HaltBugRepeatsFetch(c: Cpu, m: Memory)
    requires c.haltBug && !c.prefixed && Load(m, c.regs.pc) != 0xCB
    ensures var (c1, f1) := Fetch(c, m);
            var (_, f2) := Fetch(c1, m);
            f1 == f2 == Plain(Load(m, c.regs.pc))
  {
  }
}

=== FILE: cpu_registers.dfy ===
/**
 * The SM83 register file: eight 8-bit registers, the stack pointer and the
 * program counter. The 16-bit pairs AF, BC, DE and HL are views of two 8-bit
 * registers each (the high register is the high byte), so a pair is never
 * stored separately from its halves.
 */
module CpuRegisters {
  import opened Bits

  datatype Registers = Registers(
    a: Byte, f: Byte,
    b: Byte, c: Byte,
    d: Byte, e: Byte,
    h: Byte, l: Byte,
    sp: Word, pc: Word)

  /** The four condition flags held in the high nibble of F. */
  datatype Flag = Zero | Subtraction | HalfCarry | Carry

  function FlagMask(fl: Flag): (m: Byte)
    ensures m & 0x0F == 0
    ensures forall o: Flag :: o != fl ==> m & FlagMaskRaw(o) == 0
  {
    FlagMaskRaw(fl)
  }

  function FlagMaskRaw(fl: Flag): Byte
  {
    match fl
    case Zero => 0x80
    case Subtraction => 0x40
    case HalfCarry => 0x20
    case Carry => 0x10
  }

  predicate IsFlagSet(f: Byte, fl: Flag)
  {
    f & FlagMaskRaw(fl) == FlagMaskRaw(fl)
  }

  /** One flag setter: sets or clears exactly the bit of `fl` in F. */
  function SetFlag(r: Registers, fl: Flag, v: bool): (r': Registers)
    ensures IsFlagSet(r'.f, fl) == v
    ensures forall o: Flag :: o != fl ==> IsFlagSet(r'.f, o) == IsFlagSet(r.f, o)
    ensures r'.f & 0x0F == r.f & 0x0F
    ensures r'.(f := r.f) == r
  {
    var m := FlagMask(fl);
    r.(f := if v then r.f | m else r.f & !m)
  }

  /** What an instruction does to one flag: leave it alone, or write a value. */
  datatype Update = Keep | Put(v: bool)

  /** The flag writes of one instruction, in the order Z, N, H, C. */
  datatype FlagUpdate = FlagUpdate(z: Update, n: Update, h: Update, c: Update)

  function UpdateOf(u: FlagUpdate, fl: Flag): Update
  {
    match fl
    case Zero => u.z
    case Subtraction => u.n
    case HalfCarry => u.h
    case Carry => u.c
  }

  function ApplyOne(r: Registers, fl: Flag, u: Update): (r': Registers)
    ensures u.Put? ==> IsFlagSet(r'.f, fl) == u.v
    ensures u.Keep? ==> r' == r
    ensures forall o: Flag :: o != fl ==> IsFlagSet(r'.f, o) == IsFlagSet(r.f, o)
    ensures r'.f & 0x0F == r.f & 0x0F
    ensures r'.(f := r.f) == r
  {
    match u
    case Keep => r
    case Put(v) => SetFlag(r, fl, v)
  }

  /**
   * Applies the flag writes of one instruction through the individual flag
   * setters. Every written flag reads back its value, every kept flag is
   * unchanged, the low nibble of F and all other registers are untouched.
   */
  function ApplyFlags(r: Registers, u: FlagUpdate): (r': Registers)
    ensures forall fl: Flag :: UpdateOf(u, fl).Put? ==> IsFlagSet(r'.f, fl) == UpdateOf(u, fl).v
    ensures forall fl: Flag :: UpdateOf(u, fl).Keep? ==> IsFlagSet(r'.f, fl) == IsFlagSet(r.f, fl)
    ensures r'.f & 0x0F == r.f & 0x0F
    ensures r'.(f := r.f) == r
  {
    var r1 := ApplyOne(r, Zero, u.z);
    var r2 := ApplyOne(r1, Subtraction, u.n);
    var r3 := ApplyOne(r2, HalfCarry, u.h);
    ApplyOne(r3, Carry, u.c)
  }

  /** The pair views. */
  function AF(r: Registers): (w: Word)
    ensures Hi(w) == r.a && Lo(w) == r.f
  {
    Join(r.a, r.f)
  }

  function BC(r: Registers): (w: Word)
    ensures Hi(w) == r.b && Lo(w) == r.c
  {
    Join(r.b, r.c)
  }

  function DE(r: Registers): (w: Word)
    ensures Hi(w) == r.d && Lo(w) == r.e
  {
    Join(r.d, r.e)
  }

  function HL(r: Registers): (w: Word)
    ensures Hi(w) == r.h && Lo(w) == r.l
  {
    Join(r.h, r.l)
  }

  /** Writing a pair writes both of its halves and nothing else. */
  function SetAF(r: Registers, w: Word): (r': Registers)
    ensures AF(r') == w
    ensures r'.(a := r.a, f := r.f) == r
  {
    JoinHiLo(w);
    r.(a := Hi(w), f := Lo(w))
  }

  function SetBC(r: Registers, w: Word): (r': Registers)
    ensures BC(r') == w
    ensures r'.(b := r.b, c := r.c) == r
  {
    JoinHiLo(w);
    r.(b := Hi(w), c := Lo(w))
  }

  function SetDE(r: Registers, w: Word): (r': Registers)
    ensures DE(r') == w
    ensures r'.(d := r.d, e := r.e) == r
  {
    JoinHiLo(w);
    r.(d := Hi(w), e := Lo(w))
  }

  function SetHL(r: Registers, w: Word): (r': Registers)
    ensures HL(r') == w
    ensures r'.(h := r.h, l := r.l) == r
  {
    JoinHiLo(w);
    r.(h := Hi(w), l := Lo(w))
  }

  /** The register values after power-on with the boot ROM skipped. */
  function Reset(): (r: Registers)
    ensures AF(r) == 0x1180 && BC(r) == 0x0000 && DE(r) == 0xFF56 && HL(r) == 0x000D
    ensures r.sp == 0xFFFE && r.pc == 0x0100
    ensures IsFlagSet(r.f, Zero) && !IsFlagSet(r.f, Subtraction) && !IsFlagSet(r.f, HalfCarry) && !IsFlagSet(r.f, Carry)
  {
    Registers(0x11, 0x80, 0x00, 0x00, 0xFF, 0x56, 0x00, 0x0D, 0xFFFE, 0x0100)
  }

  /** Reset seen through the pair views and the flag getters. */
  lemma ResetValues()
    ensures AF(Reset()) == 0x1180 && BC(Reset()) == 0x0000
    ensures DE(Reset()) == 0xFF56 && HL(Reset()) == 0x000D
    ensures Reset().sp == 0xFFFE && Reset().pc == 0x0100
    ensures IsFlagSet(Reset().f, Zero)
    ensures !IsFlagSet(Reset().f, Subtraction) && !IsFlagSet(Reset().f, HalfCarry) && !IsFlagSet(Reset().f, Carry)
  {
  }

  /** Writing a pair and reading it back through its halves is the identity. */
  lemma {:induction false} PairRoundTrip(r: Registers)
    ensures SetAF(r, AF(r)) == r && SetBC(r, BC(r)) == r
    ensures SetDE(r, DE(r)) == r && SetHL(r, HL(r)) == r
  {
  }
}

=== FILE: envelope.dfy ===
/**
 * The volume envelope shared by channels 1 and 4 of the current revision:
 * a 4-bit volume that steps toward 15 or 0 once every `pace` envelope
 * ticks, inert when the pace is 0. The divider is an 8-bit counter in the
 * source; its wrap-around is written out.
 */
module Envelope {
  type U8 = x: int | 0 <= x < 0x100

  datatype Envelope = Envelope(volume: U8, increase: bool, pace: U8, divider: U8)

  /** Volume in 0..15, pace in 0..7, and the divider below a non-zero pace. */
  predicate Inv(e: Envelope)
  {
    e.volume <= 15 && e.pace < 8 && (e.pace > 0 ==> e.divider < e.pace)
  }

  /**
   * What a trigger loads from the value of NRx2: volume from bits 4-7,
   * direction from bit 3, pace from bits 0-2.
   */
  function Load(nrx2: U8): (e: Envelope)
    ensures nrx2 == e.volume * 16 + (if e.increase then 8 else 0) + e.pace
    ensures e.divider == 0 && Inv(e)
  {
    Envelope(nrx2 / 16, (nrx2 / 8) % 2 == 1, nrx2 % 8, 0)
  }

  /** The DAC is on iff NRx2 bits 3-7 are not all 0. */
  predicate DacOn(nrx2: U8)
  {
    nrx2 / 8 != 0
  }

  /** That is: some starting volume, or an increasing envelope. */
  lemma DacOnMeaning(nrx2: U8)
    ensures DacOn(nrx2) <==> Load(nrx2).volume != 0 || Load(nrx2).increase
  {
  }

  /** One volume step: up saturating at 15, or down stopping at 0. */
  function StepVolume(volume: U8, increase: bool): (v: U8)
    ensures increase && volume < 15 ==> v == volume + 1
    ensures !increase && volume > 0 ==> v == volume - 1
    ensures (increase && volume >= 15) || (!increase && volume == 0) ==> v == volume
  {
    if increase && volume < 0x0F then volume + 1
    else if !increase && volume > 0x00 then volume - 1
    else volume
  }

  /**
   * One envelope tick: inert with pace 0; otherwise the divider counts and,
   * on reaching the pace, restarts while the volume takes one step.
   */
  function Clock(e: Envelope): (r: Envelope)
    ensures e.pace == 0 ==> r == e
    ensures e.pace != 0 && (e.divider + 1) % 0x100 != e.pace ==> r == e.(divider := (e.divider + 1) % 0x100)
    ensures e.pace != 0 && (e.divider + 1) % 0x100 == e.pace ==> r == e.(divider := 0, volume := StepVolume(e.volume, e.increase))
  {
    if e.pace == 0 then e
    else
      var d := (e.divider + 1) % 0x100;
      if d == e.pace then e.(divider := 0, volume := StepVolume(e.volume, e.increase))
      else e.(divider := d)
  }

  lemma ClockKeepsInv(e: Envelope)
    requires Inv(e)
    ensures Inv(Clock(e))
  {
  }

  /** `n` envelope ticks in a row. */
  function ClockN(e: Envelope, n: nat): Envelope
    decreases n
  {
    if n == 0 then e else ClockN(Clock(e), n - 1)
  }

  /** Below the pace, envelope ticks only count. */
  lemma {:induction false} ClockNCounts(e: Envelope, n: nat)
    requires e.pace > 0 && e.divider + n < e.pace && e.pace < 8
    ensures ClockN(e, n) == e.(divider := e.divider + n)
    decreases n
  {
    if n > 0 {
      ClockNCounts(Clock(e), n - 1);
    }
  }

  lemma {:induction false} ClockNLast(e: Envelope, n: nat)
    ensures ClockN(e, n + 1) == Clock(ClockN(e, n))
    decreases n
  {
    if n > 0 {
      ClockNLast(Clock(e), n - 1);
    }
  }

  /**
   * From a restarted divider, `pace` ticks move the volume exactly one step
   * and restart the divider: the volume changes once every `pace` ticks.
   */
  lemma StepsEveryPace(e: Envelope)
    requires Inv(e) && e.pace > 0 && e.divider == 0
    ensures ClockN(e, e.pace) == e.(volume := StepVolume(e.volume, e.increase))
  {
    var k := e.pace - 1;
    assert ClockN(e, k + 1) == e.(volume := StepVolume(e.volume, e.increase)) by {
      ClimbToPace(e, k);
    }
  }

  /** `n` ticks bring the divider to one below the pace, and the next tick steps the volume. */
  lemma ClimbToPace(e: Envelope, n: nat)
    requires 0 < e.pace < 8 && e.divider + n + 1 == e.pace
    ensures ClockN(e, n + 1) == e.(divider := 0, volume := StepVolume(e.volume, e.increase))
  {
    ClockNCounts(e, n);
    ClockNLast(e, n);
  }

  /** However many ticks pass, the volume stays a 4-bit value. */
  lemma {:induction false} VolumeStaysInRange(e: Envelope, n: nat)
    requires Inv(e)
    ensures Inv(ClockN(e, n)) && ClockN(e, n).volume <= 15
    decreases n
  {
    if n > 0 {
      ClockKeepsInv(e);
      VolumeStaysInRange(Clock(e), n - 1);
    }
  }
}

=== FILE: gamepad.dfy ===
/**
 * The front end's gamepad state and how one input event updates it. The
 * state maps an input name ("a", "d_pad_up", "left_trigger", ...) to 0/1,
 * or, for digital buttons, to the event's value as delivered.
 */
module Gamepad {
  type State = map<string, int>

  /** The full-scale readings: 2^15 for a stick axis, 2^8 for a trigger. */
  const MaxJoystick := 32768
  const MaxTrigger := 256

  /** What an event code drives: a pair of opposite directions, a trigger, a button, or nothing. */
  datatype Input =
    | Stick(positive: string, negative: string)
    | Hat(positive: string, negative: string)
    | Trigger(key: string)
    | Button(key: string)
    | Ignored

  /** The event codes the front end reacts to, and what each drives. */
  function Classify(code: string): Input
  {
    if code == "ABS_Y" then Stick("left_stick_y_up", "left_stick_y_down")
    else if code == "ABS_X" then Stick("left_stick_x_right", "left_stick_x_left")
    else if code == "ABS_RY" then Stick("right_stick_y_up", "right_stick_y_down")
    else if code == "ABS_RX" then Stick("right_stick_x_right", "right_stick_x_left")
    else if code == "ABS_Z" then Trigger("left_trigger")
    else if code == "ABS_RZ" then Trigger("right_trigger")
    else if code == "BTN_TL" then Button("left_bumper")
    else if code == "BTN_TR" then Button("right_bumper")
    else if code == "BTN_SOUTH" then Button("a")
    else if code == "BTN_EAST" then Button("b")
    else if code == "BTN_WEST" then Button("x")
    else if code == "BTN_NORTH" then Button("y")
    else if code == "BTN_THUMBL" then Button("left_thumb")
    else if code == "BTN_THUMBR" then Button("right_thumb")
    else if code == "BTN_SELECT" then Button("start")
    else if code == "BTN_START" then Button("select")
    else if code == "ABS_HAT0Y" then Hat("d_pad_down", "d_pad_up")
    else if code == "ABS_HAT0X" then Hat("d_pad_right", "d_pad_left")
    else Ignored
  }

  /** The entries an input writes. */
  function Written(i: Input): set<string>
  {
    match i
      case Stick(p, n) => {p, n}
      case Hat(p, n) => {p, n}
      case Trigger(k) => {k}
      case Button(k) => {k}
      case Ignored => {}
  }

  /** The twenty-four entries of the state. */
  const Keys: set<string> := {
    "left_stick_y_up", "left_stick_y_down", "left_stick_x_right", "left_stick_x_left",
    "right_stick_y_up", "right_stick_y_down", "right_stick_x_right", "right_stick_x_left",
    "left_trigger", "right_trigger", "left_bumper", "right_bumper",
    "a", "b", "x", "y", "left_thumb", "right_thumb", "select", "start",
    "d_pad_left", "d_pad_right", "d_pad_up", "d_pad_down"}

  /** The codes that are not ignored. */
  const Codes: set<string> := {
    "ABS_Y", "ABS_X", "ABS_RY", "ABS_RX", "ABS_Z", "ABS_RZ",
    "BTN_TL", "BTN_TR", "BTN_SOUTH", "BTN_EAST", "BTN_WEST", "BTN_NORTH",
    "BTN_THUMBL", "BTN_THUMBR", "BTN_SELECT", "BTN_START", "ABS_HAT0Y", "ABS_HAT0X"}

  /**
   * One event. A stick reading, as a fraction of full scale, above 0.05 sets
   * the positive direction, below -0.05 the negative one, anything else
   * neither; a trigger is pressed above 0.03 of full scale; a hat reports
   * +1, -1 or 0; a button stores the event's value.
   */
  function Step(g: State, code: string, value: int): (r: State)
    ensures r.Keys == g.Keys + Written(Classify(code))
    ensures forall k :: k in g && k !in Written(Classify(code)) ==> r[k] == g[k]
  {
    match Classify(code)
      case Stick(p, n) =>
        var v := value as real / MaxJoystick as real;
        if v > 0.05 then g[p := 1][n := 0]
        else if v < -0.05 then g[p := 0][n := 1]
        else g[p := 0][n := 0]
      case Hat(p, n) =>
        if value == 1 then g[n := 0][p := 1]
        else if value == -1 then g[n := 1][p := 0]
        else g[n := 0][p := 0]
      case Trigger(k) =>
        g[k := if value as real / MaxTrigger as real > 0.03 then 1 else 0]
      case Button(k) => g[k := value]
      case Ignored => g
  }

  /** Every code drives entries of the state, and an ignored code is exactly one outside the known set. */
  lemma ClassifyCovers(code: string)
    ensures Written(Classify(code)) <= Keys
    ensures Classify(code) == Ignored <==> code !in Codes
  {
  }

  /** A full state stays a full state. */
  lemma StepKeepsKeys(g: State, code: string, value: int)
    requires g.Keys == Keys
    ensures Step(g, code, value).Keys == Keys
  {
    ClassifyCovers(code);
  }

  /** An unknown code leaves the state as it was. */
  lemma UnknownCodeUnchanged(g: State, code: string, value: int)
    requires code !in Codes
    ensures Step(g, code, value) == g
  {
    ClassifyCovers(code);
  }

  /**
   * A stick axis in whole units: the positive direction is on from 1639 up,
   * the negative from -1639 down; the two are never on together.
   */
  lemma StickThreshold(g: State, code: string, value: int)
    requires Classify(code).Stick?
    ensures var r := Step(g, code, value);
            var i := Classify(code);
            r[i.positive] == (if value >= 1639 then 1 else 0) &&
            r[i.negative] == (if value <= -1639 then 1 else 0)
  {
  }

  /** A hat: +1 gives the positive direction alone, -1 the negative alone, anything else neither. */
  lemma HatDirections(g: State, code: string, value: int)
    requires Classify(code).Hat?
    ensures var r := Step(g, code, value);
            var i := Classify(code);
            r[i.positive] == (if value == 1 then 1 else 0) &&
            r[i.negative] == (if value == -1 then 1 else 0)
  {
  }

  /** The vertical hat drives down on +1 and up on -1; the horizontal one right on +1 and left on -1. */
  lemma HatOrientation()
    ensures Classify("ABS_HAT0Y") == Hat("d_pad_down", "d_pad_up")
    ensures Classify("ABS_HAT0X") == Hat("d_pad_right", "d_pad_left")
  {
  }

  /** Opposite directions of a stick or hat are never both on. */
  lemma OppositesExclusive(g: State, code: string, value: int)
    requires Classify(code).Stick? || Classify(code).Hat?
    ensures var r := Step(g, code, value);
            var i := Classify(code);
            !(r[i.positive] == 1 && r[i.negative] == 1)
  {
    if Classify(code).Stick? {
      StickThreshold(g, code, value);
    } else {
      HatDirections(g, code, value);
    }
  }

  /** A trigger is on from 8 up. */
  lemma TriggerThreshold(g: State, code: string, value: int)
    requires Classify(code).Trigger?
    ensures Step(g, code, value)[Classify(code).key] == (if value >= 8 then 1 else 0)
  {
  }

  /** The select button's event drives the "start" entry and the start button's drives "select". */
  lemma SelectStartSwapped(g: State, value: int)
    ensures Step(g, "BTN_SELECT", value) == g["start" := value]
    ensures Step(g, "BTN_START", value) == g["select" := value]
  {
  }
}

=== FILE: interrupts.dfy ===
/**
 * Interrupt requests on the system bus: the five sources and their IF/IE
 * bits, the choice of the interrupt to dispatch, acknowledgement, and the
 * edge-triggered LCD STAT request.
 *
 * IF and IE are bytes; only bits 0-4 name sources, bit 0 (VBlank) having the
 * highest priority.
 */
module Interrupts {
  import opened Bits
  import opened Wrappers
  import CpuCore

  datatype Source = VBlank | LcdStat | Timer | Serial | Joypad

  function SourceIndex(s: Source): (i: nat)
    ensures i < 5
  {
    match s
    case VBlank => 0
    case LcdStat => 1
    case Timer => 2
    case Serial => 3
    case Joypad => 4
  }

  function SourceOf(i: nat): (s: Source)
    requires i < 5
    ensures SourceIndex(s) == i
  {
    match i
    case 0 => VBlank
    case 1 => LcdStat
    case 2 => Timer
    case 3 => Serial
    case _ => Joypad
  }

  /** The IF/IE mask of a source. */
  function SourceMask(s: Source): (m: Byte)
    ensures m == Mask(SourceIndex(s))
  {
    match s
    case VBlank => 0x01
    case LcdStat => 0x02
    case Timer => 0x04
    case Serial => 0x08
    case Joypad => 0x10
  }

  /** The handler address of a source. */
  function Vector(s: Source): (v: Word)
    ensures v == 0x40 + 8 * (SourceIndex(s) as Word)
  {
    match s
    case VBlank => 0x0040
    case LcdStat => 0x0048
    case Timer => 0x0050
    case Serial => 0x0058
    case Joypad => 0x0060
  }

  /** The five source masks are single bits, pairwise distinct. */
  lemma MasksDistinct(s: Source, t: Source)
    ensures SourceMask(s) & SourceMask(t) == 0 <==> s != t
    ensures SourceMask(s) & 0x1F == SourceMask(s)
  {
  }

  /** The requested and enabled sources: IF & IE & 0x1F. */
  function Pending(iflag: Byte, ie: Byte): (p: Byte)
    ensures p & 0xE0 == 0
    ensures forall i :: 0 <= i < 5 ==> (BitSet(p, i) <==> BitSet(iflag, i) && BitSet(ie, i))
  {
    iflag & ie & 0x1F
  }

  /** A source chosen for dispatch, with the information the CPU is given. */
  datatype Chosen = Chosen(info: CpuCore.InterruptInfo, source: Source)

  /**
   * The scan of the pending bits from JOYPAD (bit 4) down to bit `j`: each set
   * bit overrides the choice and counts. So the choice is the lowest set bit
   * in `j..4`, and the count plus the set bits below `j` is the count of all
   * five.
   */
  function ScanFrom(p: Byte, j: nat): (r: (Option<Source>, nat))
    requires j <= 5
    ensures r.0.None? <==> forall i :: j <= i < 5 ==> !BitSet(p, i)
    ensures r.0.Some? ==> j <= SourceIndex(r.0.value) && BitSet(p, SourceIndex(r.0.value))
    ensures r.0.Some? ==> forall i :: j <= i < SourceIndex(r.0.value) ==> !BitSet(p, i)
    ensures r.1 + PopCount(p, j) == PopCount(p, 5)
    decreases 5 - j
  {
    if j == 5 then (None, 0)
    else
      var (last, n) := ScanFrom(p, j + 1);
      if BitSet(p, j) then (Some(SourceOf(j)), n + 1) else (last, n)
  }

  /**
   * The interrupt reported to the CPU: none when nothing is pending, else the
   * highest-priority (lowest-numbered) pending source, its vector, and the
   * number of pending sources.
   */
  function CheckPending(iflag: Byte, ie: Byte): (r: Option<Chosen>)
    ensures r.None? <==> Pending(iflag, ie) == 0
    ensures r.Some? ==> BitSet(Pending(iflag, ie), SourceIndex(r.value.source))
    ensures r.Some? ==> forall i :: 0 <= i < SourceIndex(r.value.source) ==> !BitSet(Pending(iflag, ie), i)
    ensures r.Some? ==> r.value.info.vector == Vector(r.value.source)
    ensures r.Some? ==> r.value.info.count == PopCount(Pending(iflag, ie), 5) && r.value.info.count >= 1
  {
    var p := Pending(iflag, ie);
    if p == 0 then None
    else
      var (last, n) := ScanFrom(p, 0);
      if last.None? then
        assert false;
        None
      else
        Some(Chosen(CpuCore.InterruptInfo(Vector(last.value), n), last.value))
  }

  /** Acknowledging clears the IF bit of the dispatched source and nothing else. */
  function Acknowledge(iflag: Byte, s: Source): (r: Byte)
    ensures !BitSet(r, SourceIndex(s))
    ensures forall i :: 0 <= i < 8 && i != SourceIndex(s) ==> (BitSet(r, i) <==> BitSet(iflag, i))
  {
    NotBits(SourceMask(s));
    AndBits(iflag, !SourceMask(s));
    iflag & !SourceMask(s)
  }

  /** After acknowledging the chosen source, one fewer interrupt is pending. */
  lemma {:induction false} AcknowledgeCountsDown(iflag: Byte, ie: Byte)
    requires CheckPending(iflag, ie).Some?
    ensures var ch := CheckPending(iflag, ie).value;
            var after := Pending(Acknowledge(iflag, ch.source), ie);
            PopCount(after, 5) + 1 == ch.info.count
  {
    var ch := CheckPending(iflag, ie).value;
    var p := Pending(iflag, ie);
    var q := Pending(Acknowledge(iflag, ch.source), ie);
    PendingHighClear(p);
    PendingHighClear(q);
    assert forall i :: 0 <= i < 8 && i != SourceIndex(ch.source) ==> (BitSet(q, i) <==> BitSet(p, i));
    PopCountDropsOne(p, q, SourceIndex(ch.source), 5);
  }

  /** Bits 5-7 of a pending set are clear. */
  lemma PendingHighClear(p: Byte)
    requires p & 0xE0 == 0
    ensures forall i :: 5 <= i < 8 ==> !BitSet(p, i)
  {
    forall i | 5 <= i < 8
      ensures !BitSet(p, i)
    {
      if i == 5 {
      } else if i == 6 {
      } else {
        assert i == 7;
      }
    }
  }

  /** Clearing one set bit among the low `n` lowers the count by one. */
  lemma {:induction false} PopCountDropsOne(p: Byte, q: Byte, k: nat, n: nat)
    requires k < n <= 8
    requires BitSet(p, k) && !BitSet(q, k)
    requires forall i :: 0 <= i < 8 && i != k ==> (BitSet(q, i) <==> BitSet(p, i))
    ensures PopCount(q, n) + 1 == PopCount(p, n)
  {
    if n == k + 1 {
      PopCountSame(p, q, k);
    } else {
      PopCountDropsOne(p, q, k, n - 1);
    }
  }

  /** Bytes that agree on their low `n` bits have the same count there. */
  lemma {:induction false} PopCountSame(p: Byte, q: Byte, n: nat)
    requires n <= 8
    requires forall i :: 0 <= i < n ==> (BitSet(q, i) <==> BitSet(p, i))
    ensures PopCount(q, n) == PopCount(p, n)
  {
    if n > 0 {
      PopCountSame(p, q, n - 1);
    }
  }

  /** The VBlank request: raised whenever the PPU reports a new VBlank. */
  function CheckVBlank(vblank: bool, iflag: Byte): (r: Byte)
    ensures BitSet(r, 0) <==> vblank || BitSet(iflag, 0)
    ensures forall i :: 1 <= i < 8 ==> (BitSet(r, i) <==> BitSet(iflag, i))
  {
    if vblank then iflag | SourceMask(VBlank) else iflag
  }

  /**
   * The STAT interrupt line: LYC=LY with its enable (bits 2 and 6), or the
   * enable bit of the current mode (3 for mode 0, 4 for mode 1, 5 for mode 2).
   */
  predicate StatLine(stat: Byte)
  {
    if stat & 0x44 == 0x44 then true
    else
      match stat & 0x03
      case 0 => stat & 0x08 != 0
      case 1 => stat & 0x10 != 0
      case 2 => stat & 0x20 != 0
      case _ => false
  }

  lemma StatLineSources(stat: Byte)
    ensures StatLine(stat) <==>
              (BitSet(stat, 2) && BitSet(stat, 6)) ||
              (stat & 3 == 0 && BitSet(stat, 3)) ||
              (stat & 3 == 1 && BitSet(stat, 4)) ||
              (stat & 3 == 2 && BitSet(stat, 5))
  {
  }

  /**
   * The STAT request: with the LCD on, IF bit 1 is raised on a rising edge of
   * the line and the line is remembered; with the LCD off nothing changes.
   */
  function CheckStat(lcdOn: bool, stat: Byte, prev: bool, iflag: Byte): (r: (Byte, bool))
    ensures !lcdOn ==> r == (iflag, prev)
    ensures lcdOn ==> r.1 == StatLine(stat)
    ensures BitSet(r.0, 1) <==> BitSet(iflag, 1) || (lcdOn && !prev && StatLine(stat))
    ensures forall i :: 0 <= i < 8 && i != 1 ==> (BitSet(r.0, i) <==> BitSet(iflag, i))
  {
    if !lcdOn then (iflag, prev)
    else
      var cur := StatLine(stat);
      (if !prev && cur then iflag | SourceMask(LcdStat) else iflag, cur)
  }

  /** A line that stays high requests STAT once: the next check adds nothing. */
  lemma StatRaisedOnce(stat: Byte, prev: bool, iflag: Byte)
    ensures var (f1, p1) := CheckStat(true, stat, prev, iflag);
            var f1' := Acknowledge(f1, LcdStat);
            CheckStat(true, stat, p1, f1').0 == f1' || !StatLine(stat)
  {
  }

  /**
   * The bus side of a cycle: record VBlank and STAT requests, then report
   * the pending interrupt. Returns the choice, the new IF and the STAT line.
   */
  function CheckPendingInterrupts(vblank: bool, lcdOn: bool, stat: Byte, prevStat: bool, iflag: Byte, ie: Byte)
    : (r: (Option<Chosen>, Byte, bool))
    ensures var f1 := CheckVBlank(vblank, iflag);
            (r.1, r.2) == CheckStat(lcdOn, stat, prevStat, f1) && r.0 == CheckPending(r.1, ie)
    ensures vblank && BitSet(ie, 0) ==> r.0.Some? && r.0.value.source == VBlank && r.0.value.info.vector == 0x40
  {
    var f1 := CheckVBlank(vblank, iflag);
    var (f2, line) := CheckStat(lcdOn, stat, prevStat, f1);
    (CheckPending(f2, ie), f2, line)
  }
}

=== FILE: io_registers.dfy ===
/**
 * The I/O register page 0xFF00-0xFF7F as the bus decodes it, in the current
 * and the earlier revision: which registers the bus stores itself (with the
 * bits a write forces), which reads and writes are handed to the PPU, the
 * APU or the DMA, serial, timer and joypad logic, and the boot-ROM unmap
 * register.
 *
 * The bus keeps its registers in a 0x78-byte array indexed by the low byte
 * of the address; register addresses are ints here.
 */
module IoRegisters {
  import opened Bits
  import SpeedSwitch
  import opened Wrappers
  import Ppu

  type IoAddr = a: int | 0 <= a < 0x100

  const JOYP := 0x00
  const SB := 0x01
  const SC := 0x02
  const DIV := 0x04
  const TIMA := 0x05
  const TMA := 0x06
  const TAC := 0x07
  const IF := 0x0F
  const DMA := 0x46
  const STAT := 0x41
  const LY := 0x44
  const KEY1 := 0x4D
  const VBK := 0x4F
  const UNMAP_BOOT_ROM := 0x50
  const HDMA1 := 0x51
  const HDMA4 := 0x54
  const HDMA5 := 0x55
  const RP := 0x56
  const BCPS := 0x68
  const BCPD := 0x69
  const OCPS := 0x6A
  const OCPD := 0x6B
  const OPRI := 0x6C
  const SVBK := 0x70
  const FF72 := 0x72
  const FF75 := 0x75

  /** The register array, the boot-ROM flag and the CGB mode it controls. */
  datatype Io = Io(regs: seq<Byte>, bootRunning: bool, cgbMode: bool, cgbCartridge: bool)

  predicate Valid(s: Io)
  {
    |s.regs| == 0x78
  }

  /** The PPU's registers in the current revision: LCDC..LYC, BGP..WX, VBK and BCPS..OPRI. */
  predicate PpuRegister(a: IoAddr)
  {
    (0x40 <= a <= 0x45) || (0x47 <= a <= 0x4B) || a == VBK || (BCPS <= a <= OPRI)
  }

  /** NR10 through the end of wave RAM. */
  predicate ApuRegister(a: IoAddr)
  {
    0x10 <= a <= 0x3F
  }

  /** The registers whose reads the bus answers from its array in the current revision. */
  predicate StoredRegister(a: IoAddr)
  {
    a in {JOYP, SB, SC, TIMA, TMA, TAC, IF, DMA, KEY1, SVBK} || (FF72 <= a <= FF75)
  }

  /** Where a read of the I/O page comes from. */
  datatype IoRead = Value(b: Byte) | FromDiv | FromPpu | FromApu

  /**
   * A read in the current revision. HDMA5 reads the remaining block count
   * minus one while an HDMA runs (an 8-bit subtraction), and the stored
   * byte otherwise. HDMA1-4, RP, the boot-ROM register and every unnamed
   * address read 0xFF.
   */
  function Read(s: Io, a: IoAddr, hdmaInProgress: bool, blocksRemaining: Byte): (r: IoRead)
    requires Valid(s)
    ensures StoredRegister(a) ==> r == Value(s.regs[a])
    ensures a == DIV <==> r == FromDiv
    ensures PpuRegister(a) <==> r == FromPpu
    ensures ApuRegister(a) <==> r == FromApu
    ensures a == HDMA5 ==> r == Value(if hdmaInProgress then blocksRemaining - 1 else s.regs[HDMA5])
    ensures !StoredRegister(a) && a !in {DIV, HDMA5} && !PpuRegister(a) && !ApuRegister(a) ==> r == Value(0xFF)
  {
    if StoredRegister(a) then Value(s.regs[a])
    else if a == DIV then FromDiv
    else if PpuRegister(a) then FromPpu
    else if ApuRegister(a) then FromApu
    else if a == HDMA5 then Value(if hdmaInProgress then blocksRemaining - 1 else s.regs[HDMA5])
    else Value(0xFF)
  }

  /** What a write hands to another component, besides what the bus stores. */
  datatype Effect =
    | NoEffect
    | ToJoypad        // the joypad register is recomputed from the data
    | ToSerial        // the SC write logic
    | ResetDivider    // the APU's DIV reset and the timer counter
    | CancelReload    // a pending TIMA reload is dropped
    | ToTimerControl  // the TAC write logic
    | ToPpu
    | ToApu
    | StartOamDma
    | ToVramDma       // the HDMA5 start/cancel logic
    | ResetPpu        // the PPU restarts its line (earlier revision, LCDC)
    | ToPaletteData   // the BCPD/OCPD write logic (earlier revision)

  /** The effect of a write in the current revision, by address. */
  function WriteEffect(a: IoAddr): (e: Effect)
    ensures e == ToPpu <==> PpuRegister(a)
    ensures e == ToApu <==> ApuRegister(a)
    ensures e == NoEffect ==> !(a in {JOYP, SC, DIV, TIMA, TAC, DMA, HDMA5})
  {
    if a == JOYP then ToJoypad
    else if a == SC then ToSerial
    else if a == DIV then ResetDivider
    else if a == TIMA then CancelReload
    else if a == TAC then ToTimerControl
    else if PpuRegister(a) then ToPpu
    else if ApuRegister(a) then ToApu
    else if a == DMA then StartOamDma
    else if a == HDMA5 then ToVramDma
    else NoEffect
  }

  /** Unmapping the boot ROM works once: CGB mode then follows the cartridge. */
  function Unmap(s: Io): (r: Io)
    ensures s.bootRunning ==> !r.bootRunning && r.cgbMode == s.cgbCartridge
    ensures !s.bootRunning ==> r == s
    ensures r.regs == s.regs && r.cgbCartridge == s.cgbCartridge
  {
    if s.bootRunning then s.(bootRunning := false, cgbMode := s.cgbCartridge) else s
  }

  /** The byte the current revision stores for a write, if it stores one. */
  function Stored(s: Io, a: IoAddr, data: Byte): (r: Io)
    requires Valid(s)
  {
    if a in {SB, TIMA, TMA, SVBK} || (HDMA1 <= a <= HDMA4) || (FF72 <= a < FF75) then s.(regs := s.regs[a := data])
    else if a == IF then s.(regs := s.regs[a := data | 0xE0])
    else if a == KEY1 then s.(regs := s.regs[a := SpeedSwitch.WriteKey1(s.regs[KEY1], data)])
    else if a == FF75 then s.(regs := s.regs[a := data | 0x8F])
    else if a == UNMAP_BOOT_ROM then Unmap(s)
    else s
  }

  /** A write in the current revision: the bus's own store, and what is handed on. */
  function Write(s: Io, a: IoAddr, data: Byte): (r: (Io, Effect))
    requires Valid(s)
    ensures Valid(r.0) && r.1 == WriteEffect(a)
    // only the written register can change
    ensures forall b :: 0 <= b < 0x78 && b != a ==> r.0.regs[b] == s.regs[b]
    // only the unmap register touches the boot-ROM flag and CGB mode
    ensures a != UNMAP_BOOT_ROM ==> r.0.bootRunning == s.bootRunning && r.0.cgbMode == s.cgbMode
    ensures a == UNMAP_BOOT_ROM ==> r.0 == Unmap(s)
    ensures r.0.cgbCartridge == s.cgbCartridge
    // registers the other components own are left alone here
    ensures a in {JOYP, SC, DIV, TAC, DMA, HDMA5} || PpuRegister(a) || ApuRegister(a) ==> r.0 == s
  {
    (Stored(s, a, data), WriteEffect(a))
  }

  /** What each stored register reads back after a write, with the bits the write forces. */
  lemma WriteThenRead(s: Io, a: IoAddr, data: Byte, hdma: bool, blocks: Byte)
    requires Valid(s)
    ensures var r := Read(Write(s, a, data).0, a, hdma, blocks);
            (a in {SB, TIMA, TMA, SVBK} || FF72 <= a < FF75 ==> r == Value(data)) &&
            (a == IF ==> r == Value(data | 0xE0)) &&
            (a == FF75 ==> r == Value(data | 0x8F)) &&
            (a == KEY1 ==> r == Value((s.regs[KEY1] & 0x80) | (data & 0x01) | 0x7E)) &&
            (HDMA1 <= a <= HDMA4 || a == RP || a == UNMAP_BOOT_ROM ==> r == Value(0xFF))
  {
  }

  /** Once the boot ROM is unmapped, no write maps it back. */
  lemma UnmapIsPermanent(s: Io, a: IoAddr, data: Byte)
    requires Valid(s) && !s.bootRunning
    ensures !Write(s, a, data).0.bootRunning && Write(s, a, data).0.cgbMode == s.cgbMode
  {
  }

  // ---------------------------------------------------------------------
  // The earlier revision, where the bus also stores the PPU's registers.
  // ---------------------------------------------------------------------

  const LCDC := 0x40
  const SCY := 0x42
  const SCX := 0x43
  const LYC := 0x45
  const BGP := 0x47
  const WX := 0x4B
  const WAVE_START := 0x30
  const WAVE_END := 0x3F

  /**
   * The registers the earlier revision stores exactly as written: SB, TIMA,
   * wave RAM, SCY/SCX, LYC, BGP..WX, HDMA1-4, SVBK and FF72-74. TMA has no
   * case of its own there, so its writes fall through to the default and
   * are dropped.
   */
  predicate PlainOld(a: IoAddr)
  {
    a in {SB, TIMA, LYC, SVBK} || (WAVE_START <= a <= WAVE_END) || (SCY <= a <= SCX) ||
    (BGP <= a <= WX) || (HDMA1 <= a <= HDMA4) || (FF72 <= a < FF75)
  }

  /**
   * The first block of values the earlier revision's unmap write loads into
   * the array, by register; None for a register the block does not set.
   */
  function EarlyDefault(i: int): Option<Byte>
  {
    match i
      case 0x00 => Some(0xCF)  // JOYP
      case 0x01 => Some(0x00)  // SB
      case 0x02 => Some(0x7F)  // SC
      case 0x07 => Some(0xF8)  // TAC
      case 0x0F => Some(0xE1)  // IF
      case 0x10 => Some(0x80)
      case 0x11 => Some(0xBF)
      case 0x12 => Some(0xF3)
      case 0x13 => Some(0xFF)
      case 0x14 => Some(0xBF)
      case 0x16 => Some(0x3F)
      case 0x18 => Some(0xFF)
      case 0x19 => Some(0xBF)
      case 0x1A => Some(0x7F)
      case 0x1B => Some(0xFF)
      case 0x1C => Some(0x9F)
      case 0x1D => Some(0xFF)
      case 0x1E => Some(0xBF)
      case 0x20 => Some(0xFF)
      case 0x23 => Some(0xBF)
      case 0x24 => Some(0x77)
      case 0x25 => Some(0xF3)
      case 0x26 => Some(0xF1)
      case 0x40 => Some(0x91)  // LCDC
      case 0x47 => Some(0xFC)  // BGP
      case 0x4D => Some(0xFF)  // KEY1
      case 0x4F => Some(0xFF)  // VBK
      case 0x51 => Some(0xFF)  // HDMA1
      case 0x52 => Some(0xFF)
      case 0x53 => Some(0xFF)
      case 0x54 => Some(0xFF)  // HDMA4
      case 0x55 => Some(0xFF)  // HDMA5
      case 0x70 => Some(0xFF)  // SVBK
      case _ => None
  }

  /**
   * The second block, loaded after the first and the wave loop: it sets
   * every register of the first block again, some to new values (KEY1
   * 0x7E), and adds TIMA, TMA, NR22, NR42, NR43, SCY, SCX, LYC, DMA, WY,
   * WX, RP and FF72-75.
   */
  function LateDefault(i: int): Option<Byte>
  {
    match i
      case 0x00 => Some(0xCF)  // JOYP
      case 0x01 => Some(0x00)  // SB
      case 0x02 => Some(0x7F)  // SC
      case 0x05 => Some(0x00)  // TIMA
      case 0x06 => Some(0x00)  // TMA
      case 0x07 => Some(0xF8)  // TAC
      case 0x0F => Some(0xE1)  // IF
      case 0x10 => Some(0x80)
      case 0x11 => Some(0xBF)
      case 0x12 => Some(0xF3)
      case 0x13 => Some(0xFF)
      case 0x14 => Some(0xBF)
      case 0x16 => Some(0x3F)
      case 0x17 => Some(0x00)
      case 0x18 => Some(0xFF)
      case 0x19 => Some(0xBF)
      case 0x1A => Some(0x7F)
      case 0x1B => Some(0xFF)
      case 0x1C => Some(0x9F)
      case 0x1D => Some(0xFF)
      case 0x1E => Some(0xBF)
      case 0x20 => Some(0xFF)
      case 0x21 => Some(0x00)
      case 0x22 => Some(0x00)
      case 0x23 => Some(0xBF)
      case 0x24 => Some(0x77)
      case 0x25 => Some(0xF3)
      case 0x26 => Some(0xF1)
      case 0x40 => Some(0x91)  // LCDC
      case 0x42 => Some(0x00)  // SCY
      case 0x43 => Some(0x00)  // SCX
      case 0x45 => Some(0x00)  // LYC
      case 0x46 => Some(0x00)  // DMA
      case 0x47 => Some(0xFC)  // BGP
      case 0x4A => Some(0x00)
      case 0x4B => Some(0x00)  // WX
      case 0x4D => Some(0x7E)  // KEY1
      case 0x4F => Some(0xFF)  // VBK
      case 0x51 => Some(0xFF)  // HDMA1
      case 0x52 => Some(0xFF)
      case 0x53 => Some(0xFF)
      case 0x54 => Some(0xFF)  // HDMA4
      case 0x55 => Some(0xFF)  // HDMA5
      case 0x56 => Some(0xFF)  // RP
      case 0x70 => Some(0xFF)  // SVBK
      case 0x72 => Some(0x00)  // FF72
      case 0x73 => Some(0x00)
      case 0x74 => Some(0xFF)
      case 0x75 => Some(0x8F)  // FF75
      case _ => None
  }

  /** The loop between the blocks: wave RAM below its last byte alternates 0x00 (even) and 0xFF (odd). */
  function WaveDefault(i: int): (b: Byte)
    requires WAVE_START <= i < WAVE_END
    ensures b == 0x00 <==> i % 2 == 0
    ensures b == 0xFF <==> i % 2 == 1
  {
    if i % 2 == 0 then 0x00 else 0xFF
  }

  /** One block applied to the array: registers in the block take its value, the others keep theirs. */
  function LoadBlock(regs: seq<Byte>, block: int -> Option<Byte>): (r: seq<Byte>)
    requires |regs| == 0x78
    ensures |r| == 0x78
    ensures forall b :: 0 <= b < 0x78 ==> r[b] == if block(b).Some? then block(b).value else regs[b]
  {
    seq(0x78, i requires 0 <= i < 0x78 => if block(i).Some? then block(i).value else regs[i])
  }

  /** The wave loop applied to the array: bytes 0x30-0x3E take their default, the others keep theirs. */
  function LoadWave(regs: seq<Byte>): (r: seq<Byte>)
    requires |regs| == 0x78
    ensures |r| == 0x78
    ensures forall b :: WAVE_START <= b < WAVE_END ==> r[b] == WaveDefault(b)
    ensures forall b :: 0 <= b < 0x78 && !(WAVE_START <= b < WAVE_END) ==> r[b] == regs[b]
  {
    seq(0x78, i requires 0 <= i < 0x78 => if WAVE_START <= i < WAVE_END then WaveDefault(i) else regs[i])
  }

  /** Every register the first block sets is set again by the second, so only the second's values last. */
  lemma FirstBlockOverwritten(b: int)
    ensures EarlyDefault(b).Some? ==> LateDefault(b).Some?
  {
  }

  /**
   * The register array after the unmap write's defaults: the first block,
   * the wave loop, then the second block. Register `b` ends with the second
   * block's value where it has one, the alternating pattern in wave RAM
   * below 0x3F, and the old byte everywhere else (DIV, STAT, LY, OBP0/1,
   * BCPS-OPRI, the last wave byte and the unnamed addresses): nothing of
   * the first block survives.
   */
  function LoadOldDefaults(regs: seq<Byte>): (r: seq<Byte>)
    requires |regs| == 0x78
    ensures |r| == 0x78
    ensures forall b :: 0 <= b < 0x78 ==>
              r[b] == (if LateDefault(b).Some? then LateDefault(b).value
                       else if WAVE_START <= b < WAVE_END then WaveDefault(b)
                       else regs[b])
  {
    var r := LoadBlock(LoadWave(LoadBlock(regs, EarlyDefault)), LateDefault);
    assert forall b :: 0 <= b < 0x78 ==>
             r[b] == (if LateDefault(b).Some? then LateDefault(b).value
                      else if WAVE_START <= b < WAVE_END then WaveDefault(b)
                      else regs[b]) by {
      forall b | 0 <= b < 0x78
        ensures r[b] == (if LateDefault(b).Some? then LateDefault(b).value
                         else if WAVE_START <= b < WAVE_END then WaveDefault(b)
                         else regs[b])
      {
        FirstBlockOverwritten(b);
        if WAVE_START <= b < WAVE_END {
          WaveOutsideLate(b);
        }
      }
    }
    r
  }

  /** No wave byte is in the second block. */
  lemma WaveOutsideLate(b: int)
    requires WAVE_START <= b < WAVE_END
    ensures LateDefault(b).None?
  {
  }

  /**
   * A write in the earlier revision, as far as the bus's register array,
   * the boot-ROM flag and CGB mode go: plain registers store the data;
   * JOYP keeps data bits 4-5 under 0xC0; STAT keeps its mode and
   * coincidence bits, takes bits 3-6 and sets bit 7; VBK sets bits 1-7;
   * BCPS/OCPS clear bit 6; OPRI is writable only while the boot ROM runs;
   * DIV becomes 0; IF and KEY1 and FF75 force their fixed bits; the first
   * unmap write loads the defaults above. The PPU's registers are the
   * array's own bytes here, so an LCDC write that turns the LCD on or off
   * resets the PPU inside the array: LY becomes 0 and STAT takes mode 2;
   * one that leaves it off then also clears STAT bits 0, 1 and 7 and the
   * STAT request in IF. What else a write sets off is `WriteEffectOld`.
   */
  function WriteOld(s: Io, a: IoAddr, data: Byte): (r: Io)
    requires Valid(s)
    ensures Valid(r) && r.cgbCartridge == s.cgbCartridge
    ensures a != UNMAP_BOOT_ROM || !s.bootRunning ==> r.bootRunning == s.bootRunning && r.cgbMode == s.cgbMode
  {
    if PlainOld(a) || (a == LCDC && BitSet(data, 7) && BitSet(s.regs[LCDC], 7)) then s.(regs := s.regs[a := data])
    else if a == LCDC && BitSet(data, 7) then
      s.(regs := s.regs[LCDC := data][LY := 0][STAT := Ppu.SetMode(s.regs[STAT], 2)])
    else if a == LCDC then
      s.(regs := s.regs[LCDC := data][LY := 0][STAT := Ppu.SetMode(s.regs[STAT], 2) & 0x7C][IF := s.regs[IF] & 0xFD])
    else if a == JOYP then s.(regs := s.regs[a := 0xC0 | (data & 0x30)])
    else if a == STAT then s.(regs := s.regs[a := (s.regs[STAT] & 0x07) | (data & 0x78) | 0x80])
    else if a == VBK then s.(regs := s.regs[a := data | 0xFE])
    else if a == BCPS || a == OCPS then s.(regs := s.regs[a := data & 0xBF])
    else if a == OPRI then (if s.bootRunning then s.(regs := s.regs[a := data | 0xFE]) else s)
    else if a == DIV then s.(regs := s.regs[a := 0])
    else if a == IF then s.(regs := s.regs[a := data | 0xE0])
    else if a == KEY1 then s.(regs := s.regs[a := SpeedSwitch.WriteKey1(s.regs[KEY1], data)])
    else if a == FF75 then s.(regs := s.regs[a := data | 0x8F])
    else if a == UNMAP_BOOT_ROM then
      (if s.bootRunning then s.(regs := LoadOldDefaults(s.regs), bootRunning := false, cgbMode := s.cgbCartridge)
       else s)
    else s
  }

  /** The byte each register holds after an earlier-revision write to it. */
  lemma OldStores(s: Io, a: IoAddr, data: Byte)
    requires Valid(s)
    ensures var r := WriteOld(s, a, data);
            (PlainOld(a) || a == LCDC ==> r.regs[a] == data) &&
            (a == DIV ==> r.regs[DIV] == 0) &&
            (a == IF ==> r.regs[IF] == data | 0xE0) &&
            (a == KEY1 ==> r.regs[KEY1] == SpeedSwitch.WriteKey1(s.regs[KEY1], data)) &&
            (a == FF75 ==> r.regs[FF75] == data | 0x8F)
  {
  }

  /** The registers whose earlier-revision writes force or keep bits. */
  lemma OldMaskedStores(s: Io, a: IoAddr, data: Byte)
    requires Valid(s)
    ensures var r := WriteOld(s, a, data);
            (a == JOYP ==> r.regs[JOYP] == 0xC0 | (data & 0x30)) &&
            (a == STAT ==> r.regs[STAT] & 0x07 == s.regs[STAT] & 0x07 && r.regs[STAT] & 0x78 == data & 0x78 &&
                           BitSet(r.regs[STAT], 7)) &&
            (a == VBK ==> r.regs[VBK] == data | 0xFE) &&
            (a in {BCPS, OCPS} ==> r.regs[a] == data & 0xBF && !BitSet(r.regs[a], 6)) &&
            (a == OPRI ==> r.regs[OPRI] == (if s.bootRunning then data | 0xFE else s.regs[OPRI]))
  {
    if a == STAT {
      var v := (s.regs[STAT] & 0x07) | (data & 0x78) | 0x80;
      assert WriteOld(s, a, data).regs[STAT] == v;
      assert v & 0x07 == s.regs[STAT] & 0x07 && v & 0x78 == data & 0x78 && BitSet(v, 7);
    }
  }

  /**
   * An LCDC write that leaves the LCD off zeroes LY, clears STAT bits 0, 1
   * and 7 (the reset's mode 2 included) and IF bit 1, and changes nothing
   * else but LCDC.
   */
  lemma OldLcdOff(s: Io, data: Byte)
    requires Valid(s) && !BitSet(data, 7)
    ensures var r := WriteOld(s, LCDC, data);
            r.regs[LCDC] == data && r.regs[LY] == 0 && r.regs[STAT] == s.regs[STAT] & 0x7C &&
            r.regs[IF] == s.regs[IF] & 0xFD &&
            forall b :: 0 <= b < 0x78 && b !in {LCDC, LY, STAT, IF} ==> r.regs[b] == s.regs[b]
  {
    var v := Ppu.SetMode(s.regs[STAT], 2) & 0x7C;
    assert WriteOld(s, LCDC, data).regs[STAT] == v;
    assert v == s.regs[STAT] & 0x7C;
  }

  /**
   * An LCDC write that turns the LCD on zeroes LY and puts STAT in mode 2,
   * keeping its other bits, and changes nothing else but LCDC.
   */
  lemma OldLcdOn(s: Io, data: Byte)
    requires Valid(s) && BitSet(data, 7) && !BitSet(s.regs[LCDC], 7)
    ensures var r := WriteOld(s, LCDC, data);
            r.regs[LCDC] == data && r.regs[LY] == 0 && r.regs[STAT] & 0x03 == 2 &&
            r.regs[STAT] & 0xFC == s.regs[STAT] & 0xFC &&
            forall b :: 0 <= b < 0x78 && b !in {LCDC, LY, STAT} ==> r.regs[b] == s.regs[b]
  {
  }

  /**
   * The LY and STAT bytes an earlier-revision LCDC write leaves are those of
   * the PPU reset the write runs (src/PPU.cpp): its LY, and its STAT with
   * bits 0, 1 and 7 cleared when the LCD stays off.
   */
  lemma OldLcdcResetsPpu(s: Io, data: Byte, p: Ppu.Ppu)
    requires Valid(s) && WriteEffectOld(s, LCDC, data) == ResetPpu
    requires p.stat == s.regs[STAT] && p.ly == s.regs[LY] as int
    ensures var r := WriteOld(s, LCDC, data).regs;
            var q := Ppu.ResetOld(p).0;
            r[LY] as int == q.ly && r[STAT] == if BitSet(data, 7) then q.stat else q.stat & 0x7C
  {
  }

  /**
   * The first unmap write loads the defaults and hands CGB mode to the
   * cartridge: KEY1 ends at 0x7E (the second block's value, not the
   * first's 0xFF), TIMA and TMA at 0, RP at 0xFF, FF75 at 0x8F, the first
   * wave byte at 0x00, while DIV, STAT and LY keep their bytes.
   */
  lemma OldUnmap(s: Io, data: Byte)
    requires Valid(s) && s.bootRunning
    ensures var r := WriteOld(s, UNMAP_BOOT_ROM, data);
            r.regs == LoadOldDefaults(s.regs) && !r.bootRunning && r.cgbMode == s.cgbCartridge
    ensures var r := WriteOld(s, UNMAP_BOOT_ROM, data).regs;
            r[KEY1] == 0x7E && r[TIMA] == 0 && r[TMA] == 0 && r[RP] == 0xFF && r[FF75] == 0x8F &&
            r[WAVE_START] == 0x00 && r[WAVE_START + 1] == 0xFF &&
            r[DIV] == s.regs[DIV] && r[STAT] == s.regs[STAT] && r[LY] == s.regs[LY]
  {
    assert WriteOld(s, UNMAP_BOOT_ROM, data).regs == LoadOldDefaults(s.regs);
    DefaultValues(s.regs);
    DefaultsKeep(s.regs);
  }

  lemma DefaultValues(regs: seq<Byte>)
    requires |regs| == 0x78
    ensures var r := LoadOldDefaults(regs);
            r[KEY1] == 0x7E && r[TIMA] == 0 && r[TMA] == 0 && r[RP] == 0xFF && r[FF75] == 0x8F
  {
  }

  lemma DefaultsKeep(regs: seq<Byte>)
    requires |regs| == 0x78
    ensures var r := LoadOldDefaults(regs);
            r[WAVE_START] == 0x00 && r[WAVE_START + 1] == 0xFF &&
            r[DIV] == regs[DIV] && r[STAT] == regs[STAT] && r[LY] == regs[LY]
  {
  }

  /**
   * LY, TMA and the registers other components own are not stored by an
   * earlier-revision write; apart from an LCDC write that turns the LCD on
   * or off (which resets LY and STAT) and the first unmap write, only the
   * written register changes.
   */
  lemma OldWriteFrame(s: Io, a: IoAddr, data: Byte)
    requires Valid(s)
    ensures var r := WriteOld(s, a, data);
            (a in {LY, TMA, SC, TAC, DMA, HDMA5, RP} || (ApuRegister(a) && !(WAVE_START <= a <= WAVE_END)) ==> r == s) &&
            (!(a == LCDC && !(BitSet(s.regs[LCDC], 7) && BitSet(data, 7))) && !(a == UNMAP_BOOT_ROM && s.bootRunning) ==>
               forall b :: 0 <= b < 0x78 && b != a ==> r.regs[b] == s.regs[b])
  {
  }

  /**
   * What an earlier-revision write hands to another component: the PPU is
   * reset by an LCDC write unless the LCD was on and stays on; BCPD/OCPD go
   * to the palette logic; the rest as in the current revision, except that
   * the PPU's and the APU's registers are the bus's own here.
   */
  function WriteEffectOld(s: Io, a: IoAddr, data: Byte): (e: Effect)
    requires Valid(s)
    ensures e == ResetPpu <==> a == LCDC && !(BitSet(s.regs[LCDC], 7) && BitSet(data, 7))
    ensures e == ToPaletteData <==> a in {BCPD, OCPD}
    ensures e == NoEffect <==> !(a in {JOYP, SC, DIV, TIMA, TAC, DMA, HDMA5, BCPD, OCPD}) &&
                               !(a == LCDC && !(BitSet(s.regs[LCDC], 7) && BitSet(data, 7)))
  {
    if a == LCDC then (if BitSet(s.regs[LCDC], 7) && BitSet(data, 7) then NoEffect else ResetPpu)
    else if a == BCPD || a == OCPD then ToPaletteData
    else if a == JOYP then ToJoypad
    else if a == SC then ToSerial
    else if a == DIV then ResetDivider
    else if a == TIMA then CancelReload
    else if a == TAC then ToTimerControl
    else if a == DMA then StartOamDma
    else if a == HDMA5 then ToVramDma
    else NoEffect
  }

  /** In the earlier revision a TMA write is lost: TMA keeps the value it had. */
  lemma OldTmaWriteIgnored(s: Io, data: Byte)
    requires Valid(s) && s.regs[TMA] != data
    ensures WriteOld(s, TMA, data).regs[TMA] != data
  {
  }

  /** Turning the LCD off drops a pending STAT request and resets the PPU; the other interrupt requests stay. */
  lemma OldLcdOffDropsStatRequest(s: Io, data: Byte)
    requires Valid(s) && !BitSet(data, 7)
    ensures var r := WriteOld(s, LCDC, data);
            !BitSet(r.regs[IF], 1) && r.regs[STAT] & 0x03 == 0 &&
            r.regs[IF] & 0xFD == s.regs[IF] & 0xFD && WriteEffectOld(s, LCDC, data) == ResetPpu
  {
    var r := WriteOld(s, LCDC, data);
    assert r.regs[IF] == s.regs[IF] & 0xFD;
    assert r.regs[STAT] == s.regs[STAT] & 0x7C;
  }

  /** Once the boot ROM is unmapped, no earlier-revision write maps it back or changes CGB mode. */
  lemma OldUnmapIsPermanent(s: Io, a: IoAddr, data: Byte)
    requires Valid(s) && !s.bootRunning
    ensures !WriteOld(s, a, data).bootRunning && WriteOld(s, a, data).cgbMode == s.cgbMode
  {
  }

  /** A STAT write in the earlier revision never disturbs the mode the PPU set. */
  lemma OldStatWriteKeepsMode(s: Io, data: Byte)
    requires Valid(s)
    ensures WriteOld(s, STAT, data).regs[STAT] & 0x03 == s.regs[STAT] & 0x03
  {
    var r := WriteOld(s, STAT, data).regs[STAT];
    assert r & 0x07 == s.regs[STAT] & 0x07;
    assert r & 0x03 == (r & 0x07) & 0x03;
  }
}

=== FILE: joypad.dfy ===
/**
 * The joypad register JOYP (0xFF00). Bits 5 and 4 select the action and the
 * direction group (0 = selected); bits 3..0 read 0 for a pressed button of a
 * selected group: bit 3 start/down, 2 select/up, 1 b/left, 0 a/right.
 * A 1 -> 0 change of a low bit requests the joypad interrupt (IF bit 4), and
 * any low bit at 0 ends STOP mode.
 *
 * Both revisions clear a button's bit with masks that also clear bits 4..7
 * (`&= 0x07`, `0x0B`, `0x0D`, `0x0E`). The functions below take the mask
 * family as a parameter: `AsWritten` is the code as it stands, `Corrected`
 * clears only the button's own bit.
 */
module Joypad {
  import opened Bits
  import opened Variants

  /** The eight inputs, in the order SetButtons receives them. */
  datatype Buttons = Buttons(
    down: bool, up: bool, left: bool, right: bool,
    start: bool, select: bool, b: bool, a: bool)

  /** SetButtons: the inputs are stored verbatim, each in its own field. */
  function SetButtons(down: bool, up: bool, left: bool, right: bool,
                      start: bool, select: bool, b: bool, a: bool): (r: Buttons)
    ensures r.down == down && r.up == up && r.left == left && r.right == right
    ensures r.start == start && r.select == select && r.b == b && r.a == a
  {
    Buttons(down, up, left, right, start, select, b, a)
  }

  /** Which button of the action group drives low bit `k`. */
  function ActionButton(btns: Buttons, k: nat): bool
    requires k < 4
  {
    match k
    case 3 => btns.start
    case 2 => btns.select
    case 1 => btns.b
    case _ => btns.a
  }

  /** Which button of the direction group drives low bit `k`. */
  function DirectionButton(btns: Buttons, k: nat): bool
    requires k < 4
  {
    match k
    case 3 => btns.down
    case 2 => btns.up
    case 1 => btns.left
    case _ => btns.right
  }

  /** Low bit `k` reads as pressed: a pressed button of a selected group drives it. */
  predicate PressedAt(btns: Buttons, action: bool, direction: bool, k: nat)
    requires k < 4
  {
    (action && ActionButton(btns, k)) || (direction && DirectionButton(btns, k))
  }

  /** The AND mask applied when the button of bit `k` is pressed. */
  function ClearMask(fam: Variant, k: nat): (m: Byte)
    requires k < 4
    ensures !BitSet(m, k)
    ensures forall i :: 0 <= i < 4 && i != k ==> BitSet(m, i)
    ensures fam == Corrected ==> forall i :: 4 <= i < 8 ==> BitSet(m, i)
    ensures fam == AsWritten ==> m & 0xF0 == 0
  {
    match fam
    case AsWritten => (match k case 3 => 0x07 case 2 => 0x0B case 1 => 0x0D case _ => 0x0E)
    case Corrected => (match k case 3 => 0xF7 case 2 => 0xFB case 1 => 0xFD case _ => 0xFE)
  }

  /** JOYP and IF after the presses are applied. */
  datatype Scan = Scan(joyp: Byte, iflag: Byte)

  /** One button's effect on JOYP: if pressed, its bit is cleared with the family's mask. */
  function PressJoyp(joyp: Byte, pressed: bool, k: nat, fam: Variant): Byte
    requires k < 4
  {
    if pressed then joyp & ClearMask(fam, k) else joyp
  }

  /**
   * One button on JOYP: unpressed, JOYP is unchanged; pressed, its own bit
   * clears and the other low bits stay, while the corrected mask keeps the
   * upper nibble and the mask as written clears it.
   */
  lemma PressJoypBits(joyp: Byte, pressed: bool, k: nat, fam: Variant)
    requires k < 4
    ensures var r := PressJoyp(joyp, pressed, k, fam);
            (!pressed ==> r == joyp) && (pressed ==> !BitSet(r, k)) &&
            (k != 0 ==> (BitSet(r, 0) <==> BitSet(joyp, 0))) && (k != 1 ==> (BitSet(r, 1) <==> BitSet(joyp, 1))) &&
            (k != 2 ==> (BitSet(r, 2) <==> BitSet(joyp, 2))) && (k != 3 ==> (BitSet(r, 3) <==> BitSet(joyp, 3))) &&
            (fam == Corrected ==> r & 0xF0 == joyp & 0xF0) && (fam == AsWritten && pressed ==> r & 0xF0 == 0)
  {
  }

  /** One button's effect on IF: if pressed while its bit was 1, the joypad interrupt is requested. */
  function PressIf(iflag: Byte, pressed: bool, wasHigh: bool): (r: Byte)
    ensures r & 0xEF == iflag & 0xEF
    ensures BitSet(r, 4) <==> BitSet(iflag, 4) || (pressed && wasHigh)
  {
    if pressed && wasHigh then iflag | 0x10 else iflag
  }

  /** The four buttons of one group on JOYP, start/down first. */
  function GroupJoyp(joyp: Byte, selected: bool, b3: bool, b2: bool, b1: bool, b0: bool, fam: Variant): (r: Byte)
    ensures BitSet(r, 3) <==> BitSet(joyp, 3) && !(selected && b3)
    ensures BitSet(r, 2) <==> BitSet(joyp, 2) && !(selected && b2)
    ensures BitSet(r, 1) <==> BitSet(joyp, 1) && !(selected && b1)
    ensures BitSet(r, 0) <==> BitSet(joyp, 0) && !(selected && b0)
    ensures fam == Corrected ==> r & 0xF0 == joyp & 0xF0
    ensures fam == AsWritten ==> r & 0xF0 == 0 || r == joyp
  {
    if !selected then joyp
    else PressJoyp(PressJoyp(PressJoyp(PressJoyp(joyp, b3, 3, fam), b2, 2, fam), b1, 1, fam), b0, 0, fam)
  }

  /** The four buttons of one group on IF. */
  function GroupIf(iflag: Byte, prev: Byte, selected: bool, b3: bool, b2: bool, b1: bool, b0: bool): (r: Byte)
    ensures BitSet(r, 4) <==>
              BitSet(iflag, 4) ||
              (selected && ((b3 && BitSet(prev, 3)) || (b2 && BitSet(prev, 2)) ||
                            (b1 && BitSet(prev, 1)) || (b0 && BitSet(prev, 0))))
    ensures r & 0xEF == iflag & 0xEF
  {
    if !selected then iflag
    else
      var f3 := PressIf(iflag, b3, BitSet(prev, 3));
      var f2 := PressIf(f3, b2, BitSet(prev, 2));
      var f1 := PressIf(f2, b1, BitSet(prev, 1));
      PressIf(f1, b0, BitSet(prev, 0))
  }

  /** The joypad interrupt is due: a pressed, selected button whose bit was 1. */
  predicate FallingEdge(btns: Buttons, action: bool, direction: bool, prev: Byte)
  {
    exists k :: 0 <= k < 4 && PressedAt(btns, action, direction, k) && BitSet(prev, k)
  }

  /**
   * Applies the presses to `base`, whose low nibble is 0xF and whose bits 5
   * and 4 select the groups, action group first. The low nibble ends with a
   * 0 exactly for the pressed bits; IF bit 4 is raised exactly on a falling
   * edge against `prev` and no other IF bit changes; the upper nibble
   * survives only with the corrected masks or when nothing is pressed.
   */
  function ApplyButtons(base: Byte, prev: Byte, iflag: Byte, btns: Buttons, fam: Variant): (r: Scan)
    requires base & 0x0F == 0x0F
    ensures var action := !BitSet(base, 5);
            var direction := !BitSet(base, 4);
            forall k :: 0 <= k < 4 ==> (BitSet(r.joyp, k) <==> !PressedAt(btns, action, direction, k))
    ensures var action := !BitSet(base, 5);
            var direction := !BitSet(base, 4);
            BitSet(r.iflag, 4) <==> BitSet(iflag, 4) || FallingEdge(btns, action, direction, prev)
    ensures forall i :: 0 <= i < 8 && i != 4 ==> (BitSet(r.iflag, i) <==> BitSet(iflag, i))
    ensures fam == Corrected ==> r.joyp & 0xF0 == base & 0xF0
    ensures fam == AsWritten && r.joyp & 0x0F != 0x0F ==> r.joyp & 0xF0 == 0
  {
    JoypFacts(base, btns, fam);
    IfFacts(base, prev, iflag, btns);
    Scan(JoypAfter(base, btns, fam), IfAfter(base, prev, iflag, btns))
  }

  /** JOYP after both groups, action group first. */
  function JoypAfter(base: Byte, btns: Buttons, fam: Variant): Byte
  {
    var j1 := GroupJoyp(base, base & 0x20 == 0, btns.start, btns.select, btns.b, btns.a, fam);
    GroupJoyp(j1, base & 0x10 == 0, btns.down, btns.up, btns.left, btns.right, fam)
  }

  /** IF after both groups, action group first. */
  function IfAfter(base: Byte, prev: Byte, iflag: Byte, btns: Buttons): Byte
  {
    var f1 := GroupIf(iflag, prev, base & 0x20 == 0, btns.start, btns.select, btns.b, btns.a);
    GroupIf(f1, prev, base & 0x10 == 0, btns.down, btns.up, btns.left, btns.right)
  }

  lemma JoypFacts(base: Byte, btns: Buttons, fam: Variant)
    requires base & 0x0F == 0x0F
    ensures var j := JoypAfter(base, btns, fam);
            forall k :: 0 <= k < 4 ==> (BitSet(j, k) <==> !PressedAt(btns, !BitSet(base, 5), !BitSet(base, 4), k))
    ensures fam == Corrected ==> JoypAfter(base, btns, fam) & 0xF0 == base & 0xF0
    ensures fam == AsWritten && JoypAfter(base, btns, fam) & 0x0F != 0x0F ==> JoypAfter(base, btns, fam) & 0xF0 == 0
  {
    var action := base & 0x20 == 0;
    var direction := base & 0x10 == 0;
    var j1 := GroupJoyp(base, action, btns.start, btns.select, btns.b, btns.a, fam);
    var j2 := GroupJoyp(j1, direction, btns.down, btns.up, btns.left, btns.right, fam);
    assert j2 == JoypAfter(base, btns, fam);
    assert action == !BitSet(base, 5) && direction == !BitSet(base, 4);
    assert BitSet(base, 0) && BitSet(base, 1) && BitSet(base, 2) && BitSet(base, 3);
    LowNibblePressed(base, j2, btns, action, direction);
  }

  lemma IfFacts(base: Byte, prev: Byte, iflag: Byte, btns: Buttons)
    ensures BitSet(IfAfter(base, prev, iflag, btns), 4) <==>
              BitSet(iflag, 4) || FallingEdge(btns, !BitSet(base, 5), !BitSet(base, 4), prev)
    ensures forall i :: 0 <= i < 8 && i != 4 ==> (BitSet(IfAfter(base, prev, iflag, btns), i) <==> BitSet(iflag, i))
  {
    var f := IfAfter(base, prev, iflag, btns);
    IfBit4(base, prev, iflag, btns);
    assert f & 0xEF == iflag & 0xEF;
    SameOutsideBit4(f, iflag);
  }

  lemma IfBit4(base: Byte, prev: Byte, iflag: Byte, btns: Buttons)
    ensures BitSet(IfAfter(base, prev, iflag, btns), 4) <==>
              BitSet(iflag, 4) || FallingEdge(btns, !BitSet(base, 5), !BitSet(base, 4), prev)
  {
    var action := !BitSet(base, 5);
    var direction := !BitSet(base, 4);
    assert (base & 0x20 == 0) == action && (base & 0x10 == 0) == direction;
    var f1 := GroupIf(iflag, prev, action, btns.start, btns.select, btns.b, btns.a);
    var f2 := GroupIf(f1, prev, direction, btns.down, btns.up, btns.left, btns.right);
    assert f2 == IfAfter(base, prev, iflag, btns);
    EdgeRequested(iflag, f2, prev, btns, action, direction);
  }

  lemma LowNibblePressed(base: Byte, j: Byte, btns: Buttons, action: bool, direction: bool)
    requires action == !BitSet(base, 5) && direction == !BitSet(base, 4)
    requires BitSet(j, 3) <==> !((action && btns.start) || (direction && btns.down))
    requires BitSet(j, 2) <==> !((action && btns.select) || (direction && btns.up))
    requires BitSet(j, 1) <==> !((action && btns.b) || (direction && btns.left))
    requires BitSet(j, 0) <==> !((action && btns.a) || (direction && btns.right))
    ensures forall k :: 0 <= k < 4 ==> (BitSet(j, k) <==> !PressedAt(btns, !BitSet(base, 5), !BitSet(base, 4), k))
  {
    forall k | 0 <= k < 4
      ensures BitSet(j, k) <==> !PressedAt(btns, action, direction, k)
    {
    }
  }

  lemma EdgeRequested(iflag: Byte, f: Byte, prev: Byte, btns: Buttons, action: bool, direction: bool)
    requires BitSet(f, 4) <==> (BitSet(iflag, 4) ||
               (action && ((btns.start && BitSet(prev, 3)) || (btns.select && BitSet(prev, 2)) ||
                           (btns.b && BitSet(prev, 1)) || (btns.a && BitSet(prev, 0)))) ||
               (direction && ((btns.down && BitSet(prev, 3)) || (btns.up && BitSet(prev, 2)) ||
                              (btns.left && BitSet(prev, 1)) || (btns.right && BitSet(prev, 0)))))
    ensures BitSet(f, 4) <==> BitSet(iflag, 4) || FallingEdge(btns, action, direction, prev)
  {
    if FallingEdge(btns, action, direction, prev) {
      var k :| 0 <= k < 4 && PressedAt(btns, action, direction, k) && BitSet(prev, k);
    }
    if BitSet(prev, 3) && ((action && btns.start) || (direction && btns.down)) {
      assert PressedAt(btns, action, direction, 3);
    }
    if BitSet(prev, 2) && ((action && btns.select) || (direction && btns.up)) {
      assert PressedAt(btns, action, direction, 2);
    }
    if BitSet(prev, 1) && ((action && btns.b) || (direction && btns.left)) {
      assert PressedAt(btns, action, direction, 1);
    }
    if BitSet(prev, 0) && ((action && btns.a) || (direction && btns.right)) {
      assert PressedAt(btns, action, direction, 0);
    }
  }

  lemma SameOutsideBit4(x: Byte, y: Byte)
    requires x & 0xEF == y & 0xEF
    ensures forall i :: 0 <= i < 8 && i != 4 ==> (BitSet(x, i) <==> BitSet(y, i))
  {
    forall i | 0 <= i < 8 && i != 4
      ensures BitSet(x, i) <==> BitSet(y, i)
    {
      assert (x >> i) & 1 == ((x & 0xEF) >> i) & 1;
      assert (y >> i) & 1 == ((y & 0xEF) >> i) & 1;
    }
  }

  /** The result of a JOYP update: the register, IF, and whether STOP mode continues. */
  datatype Update = Update(joyp: Byte, iflag: Byte, stopped: bool)

  /**
   * A JOYP write in the current revision: the written select bits with the
   * other bits forced to 1 (`data | 0xCF`), then the presses. STOP ends as
   * soon as any low bit reads 0.
   */
  function UpdateJoyp(joyp: Byte, iflag: Byte, data: Byte, btns: Buttons, stopped: bool, fam: Variant): (r: Update)
    ensures r.stopped <==> stopped && r.joyp & 0x0F == 0x0F
    ensures r.joyp & 0x0F == 0x0F <==> !AnyPressed(btns, !BitSet(data, 5), !BitSet(data, 4))
    ensures fam == Corrected ==> r.joyp & 0xF0 == (data | 0xCF) & 0xF0
    ensures BitSet(r.iflag, 4) <==> BitSet(iflag, 4) || FallingEdge(btns, !BitSet(data, 5), !BitSet(data, 4), joyp & 0x0F)
  {
    var base := data | 0xCF;
    var s := ApplyButtons(base, joyp & 0x0F, iflag, btns, fam);
    LowNibbleAllSet(s.joyp);
    Update(s.joyp, s.iflag, stopped && s.joyp & 0x0F == 0x0F)
  }

  /** Some button of a selected group is pressed. */
  predicate AnyPressed(btns: Buttons, action: bool, direction: bool)
  {
    PressedAt(btns, action, direction, 3) || PressedAt(btns, action, direction, 2) ||
    PressedAt(btns, action, direction, 1) || PressedAt(btns, action, direction, 0)
  }

  /** The low nibble is 0xF exactly when its four bits are set. */
  lemma LowNibbleAllSet(v: Byte)
    ensures v & 0x0F == 0x0F <==> BitSet(v, 0) && BitSet(v, 1) && BitSet(v, 2) && BitSet(v, 3)
  {
  }

  /**
   * SetInputs in the earlier revision: the stored register's select bits are
   * used, the low nibble is forced to 0xF, then the presses apply.
   */
  function SetInputs(joyp: Byte, iflag: Byte, btns: Buttons, stopped: bool, fam: Variant): (r: Update)
    ensures r.stopped <==> stopped && r.joyp & 0x0F == 0x0F
    ensures fam == Corrected ==> r.joyp & 0xF0 == joyp & 0xF0
    ensures BitSet(r.iflag, 4) <==> BitSet(iflag, 4) || FallingEdge(btns, !BitSet(joyp, 5), !BitSet(joyp, 4), joyp & 0x0F)
  {
    var s := ApplyButtons(joyp | 0x0F, joyp & 0x0F, iflag, btns, fam);
    Update(s.joyp, s.iflag, stopped && s.joyp & 0x0F == 0x0F)
  }

  /**
   * With the masks as written, pressing Start with only the action group
   * selected reads back 0x07: bits 4 and 5 read 0, as if both groups were
   * selected, and bits 6-7 read 0. The corrected masks give 0xD7.
   */
  lemma AsWrittenClearsSelectBits()
    ensures UpdateJoyp(0xCF, 0xE0, 0x10, SetButtons(false, false, false, false, true, false, false, false), false, AsWritten).joyp == 0x07
    ensures UpdateJoyp(0xCF, 0xE0, 0x10, SetButtons(false, false, false, false, true, false, false, false), false, Corrected).joyp == 0xD7
  {
  }

  /**
   * In the earlier revision, where SetInputs runs again every frame on the
   * stored register, the cleared select bits leak into the next call: a
   * program that selected only the action group, with Start then Right held,
   * sees Right as A (bit 0 low).
   */
  lemma AsWrittenLeaksDirections()
    ensures var first := SetInputs(0xDF, 0xE0, StartOnly(), false, AsWritten);
            var second := SetInputs(first.joyp, first.iflag, RightOnly(), false, AsWritten);
            first.joyp == 0x07 && second.joyp & 0x01 == 0
  {
    var first := SetInputs(0xDF, 0xE0, StartOnly(), false, AsWritten);
    assert first.joyp == 0x07 by {
      assert !BitSet(first.joyp, 3) && BitSet(first.joyp, 2) && BitSet(first.joyp, 1) && BitSet(first.joyp, 0);
      assert first.joyp & 0x0F == 0x07;
    }
    var second := SetInputs(first.joyp, first.iflag, RightOnly(), false, AsWritten);
    assert !BitSet(second.joyp, 0);
  }

  /** With the corrected masks the same two frames leave the action group unaffected by Right. */
  lemma CorrectedKeepsGroups()
    ensures var first := SetInputs(0xDF, 0xE0, StartOnly(), false, Corrected);
            var second := SetInputs(first.joyp, first.iflag, RightOnly(), false, Corrected);
            second.joyp & 0x0F == 0x0F
  {
    var first := SetInputs(0xDF, 0xE0, StartOnly(), false, Corrected);
    assert first.joyp & 0xF0 == 0xD0;
    var second := SetInputs(first.joyp, first.iflag, RightOnly(), false, Corrected);
    assert BitSet(second.joyp, 3) && BitSet(second.joyp, 2) && BitSet(second.joyp, 1) && BitSet(second.joyp, 0);
  }

  function StartOnly(): Buttons
  {
    SetButtons(false, false, false, false, true, false, false, false)
  }

  function RightOnly(): Buttons
  {
    SetButtons(false, false, false, true, false, false, false, false)
  }

  /** With the corrected masks, repeated scans keep the program's group selection. */
  lemma CorrectedKeepsSelection(joyp: Byte, iflag: Byte, b1: Buttons, b2: Buttons, stopped: bool)
    ensures var first := SetInputs(joyp, iflag, b1, stopped, Corrected);
            var second := SetInputs(first.joyp, first.iflag, b2, first.stopped, Corrected);
            second.joyp & 0x30 == joyp & 0x30
  {
  }
}

=== FILE: length_timer.dfy ===
/**
 * The length timer of the current revision's channels 1, 3 and 4: a
 * counter that counts up from its loaded value and expires on reaching a
 * limit (64 for channels 1 and 4, 256 for channel 3), inert once expired.
 * The counter has the width of the source's field (8 or 16 bits); its
 * wrap-around is written out.
 */
module LengthTimer {
  datatype Length = Length(counter: nat, expired: bool)

  /** The counter has not passed the limit, and expired when it reached it. */
  predicate Inv(t: Length, limit: nat)
  {
    t.counter <= limit && (t.counter == limit ==> t.expired)
  }

  /** The counter fits the source's field, which wraps at `modulus`. */
  predicate Fits(t: Length, modulus: nat)
  {
    t.counter < modulus
  }

  /** One tick of a timer whose counter wraps at `modulus`. */
  function Clock(t: Length, limit: nat, modulus: nat): (r: Length)
    requires 0 < limit < modulus && Fits(t, modulus)
    ensures Fits(r, modulus)
    ensures t.expired ==> r == t
    ensures !t.expired ==> r.counter == (t.counter + 1) % modulus && (r.expired <==> r.counter == limit)
  {
    if t.expired then t
    else
      var n := if t.counter + 1 == modulus then 0 else t.counter + 1;
      Length(n, n == limit)
  }

  lemma ClockKeepsInv(t: Length, limit: nat, modulus: nat)
    requires 0 < limit < modulus && Inv(t, limit) && Fits(t, modulus)
    ensures Inv(Clock(t, limit, modulus), limit)
  {
  }

  /** `n` ticks in a row. */
  function ClockN(t: Length, limit: nat, modulus: nat, n: nat): Length
    requires 0 < limit < modulus && Fits(t, modulus)
    decreases n
  {
    if n == 0 then t else ClockN(Clock(t, limit, modulus), limit, modulus, n - 1)
  }

  /**
   * A running timer at counter `k` is still running after fewer than
   * `limit - k` ticks, and has expired after exactly `limit - k`.
   */
  lemma {:induction false} ExpiresAtLimit(t: Length, limit: nat, modulus: nat, n: nat)
    requires 0 < limit < modulus && Inv(t, limit) && Fits(t, modulus) && !t.expired && t.counter + n <= limit
    ensures ClockN(t, limit, modulus, n).counter == t.counter + n
    ensures ClockN(t, limit, modulus, n).expired <==> t.counter + n == limit
    decreases n
  {
    if n > 0 {
      if t.counter + 1 == limit {
        assert n == 1;
      } else {
        ExpiresAtLimit(Clock(t, limit, modulus), limit, modulus, n - 1);
      }
    }
  }

  /** Once expired, a timer stays expired and its counter stands. */
  lemma {:induction false} ExpiredStays(t: Length, limit: nat, modulus: nat, n: nat)
    requires 0 < limit < modulus && Fits(t, modulus) && t.expired
    ensures ClockN(t, limit, modulus, n) == t
    decreases n
  {
    if n > 0 {
      ExpiredStays(Clock(t, limit, modulus), limit, modulus, n - 1);
    }
  }
}

=== FILE: main_window.dfy ===
/**
 * The state the front end's main window keeps between events: the keys held
 * down, the gamepad state, whether a game is loaded and under which title,
 * and the configuration it writes (recent ROMs, last ROM path). The
 * emulator library calls (insert a cartridge, power on, save and load a
 * state) and the file system are parameters or outputs of these functions.
 */
module MainWindow {
  import opened Wrappers
  import opened Variants
  import RecentRoms
  import Bindings
  import PyInt
  import Gamepad

  /** The eight inputs handed to the emulator, in the order the library's record declares them. */
  datatype JoyPad = JoyPad(down: bool, up: bool, left: bool, right: bool,
                           start: bool, select: bool, b: bool, a: bool)

  /** The button names the bindings are keyed by. */
  const Buttons: seq<string> := ["down", "up", "left", "right", "start", "select", "b", "a"]

  /** The field of a joypad record that a button name stands for. */
  function Field(j: JoyPad, button: string): bool
  {
    if button == "down" then j.down
    else if button == "up" then j.up
    else if button == "left" then j.left
    else if button == "right" then j.right
    else if button == "start" then j.start
    else if button == "select" then j.select
    else if button == "b" then j.b
    else if button == "a" then j.a
    else false
  }

  /**
   * One button's expression can be evaluated: its key is bound and either
   * that key is held, which short-circuits the `or`, or its gamepad binding
   * names an input the gamepad state has.
   */
  predicate Readable(button: string, held: set<int>, keys: map<string, int>, inputs: map<string, string>,
                     pad: Gamepad.State)
  {
    button in keys && (keys[button] in held || (button in inputs && inputs[button] in pad))
  }

  /** Every button's expression can be evaluated. */
  predicate Bound(held: set<int>, keys: map<string, int>, inputs: map<string, string>, pad: Gamepad.State)
  {
    forall i :: 0 <= i < |Buttons| ==> Readable(Buttons[i], held, keys, inputs, pad)
  }

  /** One button: its key is held, or else its gamepad input is non-zero. */
  function Pressed(button: string, held: set<int>, keys: map<string, int>, inputs: map<string, string>,
                   pad: Gamepad.State): bool
    requires Readable(button, held, keys, inputs, pad)
  {
    keys[button] in held || pad[inputs[button]] != 0
  }

  /**
   * The joypad handed to the emulator each frame. None when the stored key
   * bindings do not read back, or when some button's key is unbound, or is
   * not held and its gamepad binding or input is missing: the cases in which
   * the source raises.
   */
  function Merge(held: set<int>, controls: Bindings.Controls, pad: Gamepad.State): (r: Option<JoyPad>)
    ensures r.Some? <==> Bindings.KeyboardBindings(controls).Some? &&
                         Bound(held, Bindings.KeyboardBindings(controls).value, controls.gamepad, pad)
  {
    match Bindings.KeyboardBindings(controls)
      case None => None
      case Some(keys) =>
        var inputs := Bindings.GamepadBindings(controls);
        if !Bound(held, keys, inputs, pad) then None
        else Some(MergeBound(held, keys, inputs, pad))
  }

  function MergeBound(held: set<int>, keys: map<string, int>, inputs: map<string, string>, pad: Gamepad.State): JoyPad
    requires Bound(held, keys, inputs, pad)
  {
    assert Buttons[0] == "down" && Buttons[1] == "up" && Buttons[2] == "left" && Buttons[3] == "right";
    assert Buttons[4] == "start" && Buttons[5] == "select" && Buttons[6] == "b" && Buttons[7] == "a";
    JoyPad(
      Pressed("down", held, keys, inputs, pad),
      Pressed("up", held, keys, inputs, pad),
      Pressed("left", held, keys, inputs, pad),
      Pressed("right", held, keys, inputs, pad),
      Pressed("start", held, keys, inputs, pad),
      Pressed("select", held, keys, inputs, pad),
      Pressed("b", held, keys, inputs, pad),
      Pressed("a", held, keys, inputs, pad))
  }

  /** Each of the eight buttons is pressed exactly when its key is held or its gamepad input is non-zero. */
  lemma MergeButtons(held: set<int>, controls: Bindings.Controls, pad: Gamepad.State)
    requires Merge(held, controls, pad).Some?
    ensures var keys := Bindings.KeyboardBindings(controls).value;
            forall i :: 0 <= i < |Buttons| ==>
              Buttons[i] in keys &&
              Field(Merge(held, controls, pad).value, Buttons[i]) ==
                (keys[Buttons[i]] in held ||
                 (Buttons[i] in controls.gamepad && controls.gamepad[Buttons[i]] in pad &&
                  pad[controls.gamepad[Buttons[i]]] != 0))
  {
    var keys := Bindings.KeyboardBindings(controls).value;
    var j := Merge(held, controls, pad).value;
    assert j == MergeBound(held, keys, controls.gamepad, pad);
    forall i | 0 <= i < |Buttons|
      ensures Buttons[i] in keys && Field(j, Buttons[i]) == Pressed(Buttons[i], held, keys, controls.gamepad, pad)
    {
      ButtonField(held, keys, controls.gamepad, pad, i);
    }
  }

  lemma ButtonField(held: set<int>, keys: map<string, int>, inputs: map<string, string>, pad: Gamepad.State, i: nat)
    requires Bound(held, keys, inputs, pad) && i < |Buttons|
    ensures Readable(Buttons[i], held, keys, inputs, pad)
    ensures Field(MergeBound(held, keys, inputs, pad), Buttons[i]) == Pressed(Buttons[i], held, keys, inputs, pad)
  {
    var j := MergeBound(held, keys, inputs, pad);
    if i == 0 { assert Field(j, "down") == j.down; }
    else if i == 1 { assert Field(j, "up") == j.up; }
    else if i == 2 { assert Field(j, "left") == j.left; }
    else if i == 3 { assert Field(j, "right") == j.right; }
    else if i == 4 { assert Field(j, "start") == j.start; }
    else if i == 5 { assert Field(j, "select") == j.select; }
    else if i == 6 { assert Field(j, "b") == j.b; }
    else { assert Field(j, "a") == j.a; }
  }

  /**
   * When every button's key is held, the joypad has every button pressed,
   * whatever the gamepad bindings and state: the `or` never looks at them.
   */
  lemma AllKeysHeld(held: set<int>, controls: Bindings.Controls, pad: Gamepad.State)
    requires Bindings.KeyboardBindings(controls).Some?
    requires var keys := Bindings.KeyboardBindings(controls).value;
             forall i :: 0 <= i < |Buttons| ==> Buttons[i] in keys && keys[Buttons[i]] in held
    ensures Merge(held, controls, pad).Some?
    ensures forall i :: 0 <= i < |Buttons| ==> Field(Merge(held, controls, pad).value, Buttons[i])
  {
    MergeButtons(held, controls, pad);
  }

  /** The gamepad state before any event: every input at 0. */
  const IdlePad: Gamepad.State := map k | k in Gamepad.Keys :: 0

  /**
   * With the default bindings and an idle gamepad, a button is pressed
   * exactly when its default key is held.
   */
  lemma DefaultsFollowKeyboard(held: set<int>, c: Bindings.Controls)
    ensures var r := Merge(held, Bindings.RestoreDefaults(c), IdlePad);
            r.Some? && forall i :: 0 <= i < |Buttons| ==>
              Field(r.value, Buttons[i]) == (Bindings.DefaultKeyboard[Buttons[i]] in held)
  {
    var d := Bindings.RestoreDefaults(c);
    Bindings.RestoreDefaultsThenGet(c);
    IdlePadIsIdle();
    assert Bound(held, Bindings.DefaultKeyboard, d.gamepad, IdlePad) by {
      forall i | 0 <= i < |Buttons|
        ensures Buttons[i] in Bindings.DefaultKeyboard && Buttons[i] in d.gamepad && d.gamepad[Buttons[i]] in IdlePad
      {
        assert Buttons[i] in Bindings.DefaultKeyboard.Keys;
        assert d.gamepad[Buttons[i]] in Gamepad.Keys;
      }
    }
    MergeButtons(held, d, IdlePad);
  }

  lemma IdlePadIsIdle()
    ensures IdlePad.Keys == Gamepad.Keys && forall k :: k in IdlePad ==> IdlePad[k] == 0
  {
  }

  /** A key press adds its code to the held set; an event without a key changes nothing. */
  function KeyPress(held: set<int>, key: Option<int>): (r: set<int>)
    ensures key.None? ==> r == held
    ensures key.Some? ==> key.value in r && r - {key.value} == held - {key.value}
  {
    match key
      case None => held
      case Some(k) => held + {k}
  }

  /** A key release removes its code from the held set; releasing a key not held changes nothing. */
  function KeyRelease(held: set<int>, key: Option<int>): (r: set<int>)
    ensures key.None? ==> r == held
    ensures key.Some? ==> key.value !in r && r + {key.value} == held + {key.value}
    ensures key.Some? && key.value !in held ==> r == held
  {
    match key
      case None => held
      case Some(k) => held - {k}
  }

  /** A press and the matching release leave the held set as if the key had never been pressed. */
  lemma PressThenRelease(held: set<int>, k: int)
    ensures KeyRelease(KeyPress(held, Some(k)), Some(k)) == held - {k}
    ensures k !in held ==> KeyRelease(KeyPress(held, Some(k)), Some(k)) == held
  {
  }

  /** The window's title and load flag, and the configuration entries it writes. */
  datatype Window = Window(title: string, loaded: bool, recent: seq<string>, lastRom: string)

  /** The title shown with no game loaded. */
  const NoGameTitle := "Game Boy"

  /** What a load leaves: the window, whether the emulator was powered on, whether the handler raised. */
  datatype Outcome = Outcome(window: Window, poweredOn: bool, raised: bool)

  /**
   * After the library reports the title it read from the cartridge header
   * (empty when the insert failed): a non-empty title loads the game and
   * powers the emulator on; an empty one reverts to "Game Boy", not loaded.
   */
  function Inserted(w: Window, title: string): (o: Outcome)
    ensures !o.raised && o.window.recent == w.recent && o.window.lastRom == w.lastRom
    ensures o.window.loaded <==> title != ""
    ensures o.poweredOn <==> o.window.loaded
    ensures o.window.title == (if title != "" then title else NoGameTitle)
  {
    if title != "" then Outcome(w.(title := title, loaded := true), true, false)
    else Outcome(w.(title := NoGameTitle, loaded := false), false, false)
  }

  /**
   * Loading from the recent-ROMs menu: the path moves to the front of the
   * list, then the cartridge goes in. As written, a path the configuration's
   * interpolation check refuses raises once the other slots have moved, and
   * the cartridge is not inserted.
   */
  function LoadRecent(w: Window, path: string, title: string, v: Variant): (o: Outcome)
    requires |w.recent| == RecentRoms.Count
    ensures o.raised <==> !RecentRoms.Accepted(path, v)
    ensures o.window.recent == RecentRoms.Add(w.recent, path, v).slots
    ensures !o.raised ==> o == Inserted(w.(recent := o.window.recent), title) && o.window.recent[0] == path
    ensures o.raised ==> !o.poweredOn && o.window == w.(recent := o.window.recent)
  {
    var stored := RecentRoms.Add(w.recent, path, v);
    if stored.raised then Outcome(w.(recent := stored.slots), false, true)
    else Inserted(w.(recent := stored.slots), title)
  }

  /**
   * Loading through the file dialog. A cancelled dialog (empty path) does
   * nothing. Otherwise the handler as written first calls a configuration
   * function that does not exist and raises before anything else happens;
   * corrected, it records the path as the last ROM, adds it to the recent
   * list of a configuration stored without interpolation and inserts the
   * cartridge.
   */
  function LoadFromDialog(w: Window, path: string, title: string, v: Variant): (o: Outcome)
    requires |w.recent| == RecentRoms.Count
    ensures path == "" ==> o == Outcome(w, false, false)
    ensures path != "" && v == AsWritten ==> o == Outcome(w, false, true)
    ensures path != "" && v == Corrected ==>
              o == Inserted(w.(lastRom := path, recent := RecentRoms.Add(w.recent, path, Corrected).slots), title)
  {
    if path == "" then Outcome(w, false, false)
    else match v
      case AsWritten => Outcome(w, false, true)
      case Corrected => Inserted(w.(lastRom := path, recent := RecentRoms.Add(w.recent, path, Corrected).slots), title)
  }

  /** As written, no ROM chosen in the dialog is ever inserted and the recent list never changes. */
  lemma AsWrittenDialogNeverLoads(w: Window, path: string, title: string)
    requires |w.recent| == RecentRoms.Count && path != "" && title != ""
    ensures var o := LoadFromDialog(w, path, title, AsWritten);
            o.raised && !o.poweredOn && o.window == w
  {
  }

  /** Corrected, a dialog load with a valid cartridge loads the game and puts its path first in the recent list. */
  lemma CorrectedDialogLoads(w: Window, path: string, title: string)
    requires |w.recent| == RecentRoms.Count && path != "" && title != ""
    ensures var o := LoadFromDialog(w, path, title, Corrected);
            !o.raised && o.poweredOn && o.window.loaded && o.window.title == title &&
            o.window.recent[0] == path && o.window.lastRom == path
  {
  }

  /** A failed insert, by either route, leaves no game loaded under the default title and does not power on. */
  lemma FailedInsertReverts(w: Window, path: string)
    requires |w.recent| == RecentRoms.Count && path != ""
    ensures var o := LoadRecent(w, path, "", Corrected);
            !o.window.loaded && o.window.title == NoGameTitle && !o.poweredOn
    ensures var o := LoadFromDialog(w, path, "", Corrected);
            !o.window.loaded && o.window.title == NoGameTitle && !o.poweredOn
  {
  }

  /**
   * As written, picking from the menu a file name with a percent sign in it
   * raises before the cartridge goes in: the previous game stays as it was,
   * and the list now shows its old front entry twice.
   */
  lemma AsWrittenPercentRecentNotLoaded(w: Window, title: string)
    requires |w.recent| == RecentRoms.Count && w.recent[0] != ""
    requires "/roms/100%.gb" !in RecentRoms.Visible(w.recent)
    ensures var o := LoadRecent(w, "/roms/100%.gb", title, AsWritten);
            o.raised && !o.poweredOn && o.window.title == w.title && o.window.loaded == w.loaded &&
            !RecentRoms.Distinct(RecentRoms.Visible(o.window.recent))
  {
    RecentRoms.AsWrittenPercentPathDuplicates(w.recent);
  }

  /** The state file of a slot: `<title>.s<n>`. */
  function SlotFile(title: string, slot: nat): string
  {
    title + ".s" + PyInt.Decimal(slot)
  }

  /** The menu texts of slot `slot` (1 to 5), with the file's time stamp or "Empty". */
  function SaveLabel(slot: nat, stamp: string): string
  {
    "Save to slot " + PyInt.Decimal(slot) + " - " + stamp
  }

  function LoadLabel(slot: nat, stamp: string): string
  {
    "Load from slot " + PyInt.Decimal(slot) + " - " + stamp
  }

  /**
   * The five pairs of slot labels. `stamps[i]` is the time stamp of slot
   * i + 1's file, None when there is no such file: the file system's answer.
   */
  function SlotLabels(w: Window, stamps: seq<Option<string>>): (r: seq<(string, string)>)
    requires |stamps| == 5
    ensures |r| == 5
    ensures !w.loaded ==> forall i :: 0 <= i < 5 ==> r[i] == (SaveLabel(i + 1, "Empty"), LoadLabel(i + 1, "Empty"))
    ensures w.loaded ==> forall i :: 0 <= i < 5 ==>
              var s := if stamps[i].Some? then stamps[i].value else "Empty";
              r[i] == (SaveLabel(i + 1, s), LoadLabel(i + 1, s))
  {
    seq(5, i requires 0 <= i < 5 =>
      var s := if w.loaded && stamps[i].Some? then stamps[i].value else "Empty";
      (SaveLabel(i + 1, s), LoadLabel(i + 1, s)))
  }

  /** The file a save-slot action writes: nothing with no game loaded; otherwise named by the 14th character of its text. */
  function SaveStateFile(w: Window, text: string): (r: Option<string>)
    requires |text| > 13
    ensures r.Some? <==> w.loaded
  {
    if !w.loaded then None else Some(w.title + ".s" + [text[13]])
  }

  /** The file a load-slot action reads: named by the 16th character of its text. */
  function LoadStateFile(w: Window, text: string): (r: Option<string>)
    requires |text| > 15
    ensures r.Some? <==> w.loaded
  {
    if !w.loaded then None else Some(w.title + ".s" + [text[15]])
  }

  lemma SmallDecimal(slot: nat)
    requires 1 <= slot <= 5
    ensures PyInt.Decimal(slot) == [PyInt.DecimalDigit(slot)]
  {
  }

  /**
   * The character each action picks out of its own label is the slot's
   * digit, whatever the time stamp: the save and load actions of slot n use
   * the file the labels of slot n are computed from.
   */
  lemma SlotActionsUseSlotFile(w: Window, slot: nat, stamp: string)
    requires 1 <= slot <= 5
    ensures SaveStateFile(w, SaveLabel(slot, stamp)) == if w.loaded then Some(SlotFile(w.title, slot)) else None
    ensures LoadStateFile(w, LoadLabel(slot, stamp)) == if w.loaded then Some(SlotFile(w.title, slot)) else None
  {
    SmallDecimal(slot);
    assert SaveLabel(slot, stamp)[13] == PyInt.DecimalDigit(slot);
    assert LoadLabel(slot, stamp)[15] == PyInt.DecimalDigit(slot);
  }
}

=== FILE: mbc0.dfy ===
/**
 * The ROM-only cartridge (earlier revision): two fixed ROM banks, no bank
 * registers, and an optional 8 KiB RAM that is always accessible.
 */
module Mbc0 {
  import opened Bits
  import opened Cartridge

  datatype Mbc0 = Mbc0(rom: seq<Byte>, ram: seq<Byte>, containsRam: bool)

  predicate Valid(c: Mbc0)
  {
    |c.rom| == 2 * RomBankSize && |c.ram| == RamBankSize
  }

  /** Reset does nothing: there is no register to put back. */
  function Reset(c: Mbc0): (r: Mbc0)
    ensures r == c
  {
    c
  }

  /** 0x0000-0x3FFF reads bank 0 and 0x4000-0x7FFF reads bank 1. */
  function ReadRom(c: Mbc0, addr: RomAddr): (r: Byte)
    requires Valid(c)
    ensures addr < 0x4000 ==> r == c.rom[RomIndex(0, addr)]
    ensures addr >= 0x4000 ==> r == c.rom[RomIndex(1, addr - 0x4000)]
  {
    c.rom[addr]
  }

  /** ROM writes go nowhere. */
  function WriteRom(c: Mbc0, addr: RomAddr, data: Byte): (r: Mbc0)
    ensures r == c
  {
    c
  }

  /** External RAM reads 0xFF when the cartridge has none; there is no enable gate. */
  function ReadRam(c: Mbc0, addr: RamAddr): (r: Byte)
    requires Valid(c)
    ensures !c.containsRam ==> r == 0xFF
  {
    if c.containsRam then c.ram[addr - 0xA000] else 0xFF
  }

  function WriteRam(c: Mbc0, addr: RamAddr, data: Byte): (r: Mbc0)
    requires Valid(c)
    ensures Valid(r) && r.rom == c.rom && r.containsRam == c.containsRam
    ensures !c.containsRam ==> r == c
    ensures c.containsRam ==> forall a: RamAddr :: a != addr ==> ReadRam(r, a) == ReadRam(c, a)
  {
    if c.containsRam then c.(ram := c.ram[addr - 0xA000 := data]) else c
  }

  /** With RAM present, a byte written is the byte read back; without, reads stay 0xFF. */
  lemma WriteThenRead(c: Mbc0, addr: RamAddr, data: Byte)
    requires Valid(c)
    ensures ReadRam(WriteRam(c, addr, data), addr) == (if c.containsRam then data else 0xFF)
  {
  }

  /** ROM contents never change, whatever the CPU writes to the ROM area. */
  lemma RomIsReadOnly(c: Mbc0, w: RomAddr, data: Byte, addr: RomAddr)
    requires Valid(c)
    ensures ReadRom(WriteRom(c, w, data), addr) == ReadRom(c, addr)
  {
  }
}

=== FILE: mbc1.dfy ===
/**
 * The MBC1 controller (current revision): a 5-bit ROM bank register, a 2-bit
 * register that selects the RAM bank (or, on a large cartridge, the upper ROM
 * bank bits), a banking-mode flag and a RAM-enable flag.
 *
 * Two defects of the source are modelled with a `Variant`: the large-cartridge
 * test compares the RAM bank count with 32, which no header produces, and a
 * RAM write picks its bank differently from a RAM read.
 */
module Mbc1 {
  import opened Bits
  import opened Variants
  import opened Cartridge
  import CartridgeHeader

  datatype Mbc1 = Mbc1(
    rom: seq<Byte>, ram: seq<Byte>, romBanks: nat, ramBanks: nat,
    ramEnabled: bool, romBank: nat, ramBank: nat, advancedMode: bool)

  /** Sizes agree with the bank counts, the counts come from a header, and both bank registers are in range. */
  predicate Valid(c: Mbc1)
  {
    ValidRomBanks(c.romBanks) && ValidRamBanks(c.ramBanks) &&
    |c.rom| == c.romBanks * RomBankSize && |c.ram| == c.ramBanks * RamBankSize &&
    c.romBank < 32 && c.romBank < c.romBanks && c.ramBank < 4
  }

  predicate ContainsRam(c: Mbc1)
  {
    c.ramBanks > 0
  }

  /** Bank-number mask chosen at construction: banks − 1 up to 16 banks, 0x1F above. */
  function RomBankMask(romBanks: nat): (m: Byte)
    requires ValidRomBanks(romBanks)
    ensures (m as int) < 32 && (m as int) < romBanks
  {
    if romBanks <= 16 then (romBanks - 1) as Byte else 0x1F
  }

  /**
   * Whether the 2-bit register extends the ROM bank number. As written, the
   * test is on the RAM bank count; the intended test is a ROM of more than
   * 32 banks.
   */
  predicate LargeCart(v: Variant, c: Mbc1)
  {
    match v
    case AsWritten => c.ramBanks > 32
    case Corrected => c.romBanks > 32
  }

  /** A controller fresh from the constructor: RAM disabled, ROM bank 1, RAM bank 0, simple banking. */
  function Reset(c: Mbc1): (r: Mbc1)
    requires Valid(c)
    ensures Valid(r) && r.rom == c.rom && r.ram == c.ram
    ensures !r.ramEnabled && r.romBank == 1 && r.ramBank == 0 && !r.advancedMode
  {
    c.(ramEnabled := false, romBank := 1, ramBank := 0, advancedMode := false)
  }

  /** The bank 0x4000-0x7FFF shows on a large cartridge. */
  function LargeUpperBank(v: Variant, c: Mbc1): (b: nat)
    requires Valid(c)
    ensures b < c.romBanks
  {
    match v
    // (ramBank << 19 | romBank << 9 | offset) / 0x4000: the bank number's low part lies below bit 14 and is lost.
    case AsWritten => (c.ramBank * 0x20) % c.romBanks
    case Corrected => (c.ramBank * 0x20 + c.romBank) % c.romBanks
  }

  /** A ROM read; bank 0 below 0x4000 unless a large cartridge is in advanced mode. */
  function ReadRom(v: Variant, c: Mbc1, addr: RomAddr): (r: Byte)
    requires Valid(c)
    ensures addr < 0x4000 && !(c.advancedMode && LargeCart(v, c)) ==> r == c.rom[addr]
    ensures addr >= 0x4000 && !LargeCart(v, c) ==> r == c.rom[RomIndex(c.romBank, addr - 0x4000)]
  {
    if addr < 0x4000 then
      if c.advancedMode && LargeCart(v, c) then c.rom[RomIndex((c.ramBank * 0x20) % c.romBanks, addr)]
      else c.rom[addr]
    else if LargeCart(v, c) then c.rom[RomIndex(LargeUpperBank(v, c), addr - 0x4000)]
    else c.rom[RomIndex(c.romBank, addr - 0x4000)]
  }

  /** A register write: which register depends on the address range. */
  function WriteRom(c: Mbc1, addr: RomAddr, data: Byte): (r: Mbc1)
    requires Valid(c)
    ensures Valid(r) && r.rom == c.rom && r.ram == c.ram && r.romBanks == c.romBanks && r.ramBanks == c.ramBanks
    ensures addr < 0x2000 ==> r == c.(ramEnabled := EnablesRam(data))
    ensures 0x2000 <= addr < 0x4000 ==>
              r.ramEnabled == c.ramEnabled && r.ramBank == c.ramBank && r.advancedMode == c.advancedMode &&
              (data & 0x1F == 0 ==> r.romBank == 1) &&
              (data & 0x1F != 0 ==> r.romBank == (data & RomBankMask(c.romBanks)) as nat)
    ensures 0x4000 <= addr < 0x6000 ==> r == c.(ramBank := (data & 0x03) as nat)
    ensures 0x6000 <= addr ==> r == c.(advancedMode := data & 0x01 == 1)
  {
    if addr < 0x2000 then c.(ramEnabled := EnablesRam(data))
    else if addr < 0x4000 then
      var masked := data & RomBankMask(c.romBanks);
      c.(romBank := if data & 0x1F == 0 then 1 else masked as nat)
    else if addr < 0x6000 then c.(ramBank := (data & 0x03) as nat)
    else c.(advancedMode := data & 0x01 == 1)
  }

  /** The RAM bank a read uses: bank 0 unless advanced mode on a small cartridge with more than one bank. */
  function ReadBank(v: Variant, c: Mbc1): nat
  {
    if !c.advancedMode || LargeCart(v, c) || c.ramBanks == 1 then 0 else c.ramBank
  }

  /** The RAM bank a write uses: as written, the bank register whatever the mode; corrected, the read's bank. */
  function WriteBank(v: Variant, c: Mbc1): nat
  {
    match v
    case AsWritten => if c.ramBanks == 1 then 0 else c.ramBank
    case Corrected => ReadBank(v, c)
  }

  /** External RAM reads 0xFF unless the cartridge has RAM and it is enabled. */
  function ReadRam(v: Variant, c: Mbc1, addr: RamAddr): (r: Byte)
    requires Valid(c)
    ensures !(ContainsRam(c) && c.ramEnabled) ==> r == 0xFF
    ensures ContainsRam(c) && c.ramEnabled && !c.advancedMode ==> r == c.ram[RamIndex(0, addr)]
  {
    if ContainsRam(c) && c.ramEnabled then c.ram[RamIndex(ReadBank(v, c), addr)] else 0xFF
  }

  /** External RAM writes are dropped unless the cartridge has RAM and it is enabled. */
  function WriteRam(v: Variant, c: Mbc1, addr: RamAddr, data: Byte): (r: Mbc1)
    requires Valid(c)
    ensures Valid(r) && r == c.(ram := r.ram)
    ensures !(ContainsRam(c) && c.ramEnabled) ==> r == c
    ensures ContainsRam(c) && c.ramEnabled ==>
              r.ram[RamIndex(WriteBank(v, c), addr)] == data &&
              forall i :: 0 <= i < |c.ram| && i != RamIndex(WriteBank(v, c), addr) ==> r.ram[i] == c.ram[i]
  {
    if ContainsRam(c) && c.ramEnabled then c.(ram := c.ram[RamIndex(WriteBank(v, c), addr) := data]) else c
  }

  /** With the corrected write bank, a byte written to enabled RAM is the byte read back; otherwise reads stay 0xFF. */
  lemma CorrectedWriteThenRead(c: Mbc1, addr: RamAddr, data: Byte)
    requires Valid(c)
    ensures ReadRam(Corrected, WriteRam(Corrected, c, addr, data), addr) ==
            (if ContainsRam(c) && c.ramEnabled then data else 0xFF)
  {
  }

  /**
   * As written, on a cartridge with several RAM banks in simple banking mode
   * with a nonzero RAM bank register, a write lands in that bank while reads
   * come from bank 0: the read returns bank 0's byte whatever was written.
   */
  lemma AsWrittenWriteMissesRead(c: Mbc1, addr: RamAddr, data: Byte)
    requires Valid(c) && c.ramBanks > 1 && c.ramEnabled && !c.advancedMode && c.ramBank != 0
    ensures ReadRam(AsWritten, WriteRam(AsWritten, c, addr, data), addr) == c.ram[RamIndex(0, addr)]
  {
    assert RamIndex(WriteBank(AsWritten, c), addr) != RamIndex(0, addr);
  }

  /** On a ROM of at most 32 banks, writing a nonzero bank number below the count to 0x2000 shows that bank at 0x4000-0x7FFF. */
  lemma SelectRomBank(v: Variant, c: Mbc1, bank: Byte, addr: RomAddr)
    requires Valid(c) && c.romBanks <= 32 && bank != 0 && (bank as nat) < c.romBanks && addr >= 0x4000
    ensures ReadRom(v, WriteRom(c, 0x2000, bank), addr) == c.rom[RomIndex(bank as nat, addr - 0x4000)]
  {
    LowBitsKept(bank, RomBankMask(c.romBanks));
    LowBitsKept(bank, 0x1F);
  }

  /**
   * As written, the large-cartridge path is never taken for a RAM bank count
   * that a header can give.
   */
  lemma AsWrittenNeverLarge(c: Mbc1)
    requires Valid(c)
    ensures !LargeCart(AsWritten, c)
  {
  }

  /**
   * So on a 64-bank ROM, writing 1 to 0x4000 and 1 to 0x2000 shows bank 1 at
   * 0x4000 as written, where the corrected controller shows bank 33.
   */
  lemma AsWrittenMissesBank33(c: Mbc1, addr: RomAddr)
    requires Valid(c) && c.romBanks == 64 && addr >= 0x4000
    ensures var c1 := WriteRom(WriteRom(c, 0x4000, 1), 0x2000, 1);
            ReadRom(AsWritten, c1, addr) == c.rom[RomIndex(1, addr - 0x4000)] &&
            ReadRom(Corrected, c1, addr) == c.rom[RomIndex(33, addr - 0x4000)]
  {
    var c1 := WriteRom(WriteRom(c, 0x4000, 1), 0x2000, 1);
    assert c1.romBank == 1 && c1.ramBank == 1;
  }

  /**
   * Corrected, a ROM of 64 or 128 banks reaches every bank that is not a
   * multiple of 32: the upper bits written to 0x4000 and the lower five bits
   * to 0x2000.
   */
  lemma CorrectedReachesEveryBank(c: Mbc1, hi: Byte, lo: Byte, addr: RomAddr)
    requires Valid(c) && c.romBanks in {64, 128}
    requires 0 < lo < 32 && (hi as nat) * 32 < c.romBanks && addr >= 0x4000
    ensures var c1 := WriteRom(WriteRom(c, 0x4000, hi), 0x2000, lo);
            ReadRom(Corrected, c1, addr) == c.rom[RomIndex((hi as nat) * 32 + lo as nat, addr - 0x4000)]
  {
    var c0 := WriteRom(c, 0x4000, hi);
    LowBitsKept(hi, 0x03);
    var c1 := WriteRom(c0, 0x2000, lo);
    LowBitsKept(lo, 0x1F);
    assert c1.romBank == lo as nat && c1.ramBank == hi as nat;
    var b := (hi as nat) * 32 + lo as nat;
    SmallMod(b, c.romBanks);
    assert LargeUpperBank(Corrected, c1) == b;
  }

  lemma SmallMod(x: nat, n: nat)
    requires x < n
    ensures x % n == x
  {
  }

  /** Masking a byte with an all-ones mask it fits under keeps it. */
  lemma LowBitsKept(b: Byte, m: Byte)
    requires m in {0x01, 0x03, 0x07, 0x0F, 0x1F} && b <= m
    ensures b & m == b
  {
  }

  /** The state a save state records: the RAM, then the enable flag and the three bank registers, one byte each. */
  function Serialize(c: Mbc1): (s: seq<Byte>)
    requires Valid(c)
    ensures |s| == |c.ram| + 4 && s[..|c.ram|] == c.ram
  {
    c.ram + [if c.ramEnabled then 1 else 0, c.romBank as Byte, c.ramBank as Byte, if c.advancedMode then 1 else 0]
  }

  /** Reading a save state back in the same field order; the ROM and the bank counts stay the cartridge's own. */
  function Deserialize(c: Mbc1, s: seq<Byte>): (r: Mbc1)
    requires |s| == |c.ram| + 4
    ensures r.rom == c.rom && r.romBanks == c.romBanks && r.ramBanks == c.ramBanks
    ensures r.ram == s[..|c.ram|]
  {
    var n := |c.ram|;
    c.(ram := s[..n], ramEnabled := s[n] != 0, romBank := s[n + 1] as nat,
       ramBank := s[n + 2] as nat, advancedMode := s[n + 3] != 0)
  }

  /** A save state loaded into the same cartridge restores the RAM and every register. */
  lemma SerializeRoundTrip(c: Mbc1, into: Mbc1)
    requires Valid(c) && into.rom == c.rom && into.romBanks == c.romBanks && into.ramBanks == c.ramBanks
    requires |into.ram| == |c.ram|
    ensures Deserialize(into, Serialize(c)) == c
  {
    var s := Serialize(c);
    assert s[|c.ram| + 1] as nat == c.romBank;
    assert s[|c.ram| + 2] as nat == c.ramBank;
  }
}

=== FILE: mbc1_flat.dfy ===
/**
 * The MBC1 controller of the earlier revision, which keeps ROM and RAM as
 * flat arrays and forms each address from the bank registers: the low bank
 * register (5 bits) and the high bank register (2 bits) are shifted into
 * place and the result is masked with the array size minus one. ROM and RAM
 * sizes are powers of two, so the mask is a remainder modulo the size, and
 * the fields ORed together occupy separate bits, so the OR is a sum; the
 * model writes both that way.
 *
 * The 0x4000-0x7FFF window ORs the unreduced CPU address, whose bit 14 is
 * always set, with the low register shifted to bit 14, so an even bank
 * number reads the odd bank after it; and Reset loads the two registers with
 * each other's reset value. Both are modelled with a `Variant`.
 */
module Mbc1Flat {
  import opened Bits
  import opened Variants
  import opened Cartridge

  datatype Mbc1Flat = Mbc1Flat(
    rom: seq<Byte>, ram: seq<Byte>, romBanks: nat, ramBanks: nat,
    lowBank: Byte, highBank: Byte, ramEnabled: bool, mode1: bool)

  predicate Valid(c: Mbc1Flat)
  {
    ValidRomBanks(c.romBanks) && ValidRamBanks(c.ramBanks) &&
    |c.rom| == c.romBanks * RomBankSize && |c.ram| == c.ramBanks * RamBankSize &&
    c.lowBank <= 0x1F && c.highBank <= 0x03
  }

  predicate ContainsRam(c: Mbc1Flat)
  {
    c.ramBanks > 0
  }

  /** Reset: RAM disabled, mode 0; as written the low register is 0 and the high register 1, corrected the other way round. */
  function Reset(v: Variant, c: Mbc1Flat): (r: Mbc1Flat)
    requires Valid(c)
    ensures Valid(r) && r.rom == c.rom && r.ram == c.ram && !r.ramEnabled && !r.mode1
    ensures v == AsWritten ==> r.lowBank == 0 && r.highBank == 1
    ensures v == Corrected ==> r.lowBank == 1 && r.highBank == 0
  {
    match v
    case AsWritten => c.(lowBank := 0, highBank := 1, ramEnabled := false, mode1 := false)
    case Corrected => c.(lowBank := 1, highBank := 0, ramEnabled := false, mode1 := false)
  }

  /** Bit 0 of the low register merged with bit 14 of the CPU address, which is set throughout 0x4000-0x7FFF. */
  function LowWithBit14(low: Byte): (n: nat)
    requires low <= 0x1F
    ensures n == (if low as nat % 2 == 0 then low as nat + 1 else low as nat)
  {
    (low | 1) as nat
  }

  /** The flat ROM offset a read uses. */
  function RomOffset(v: Variant, c: Mbc1Flat, addr: RomAddr): (i: nat)
    requires Valid(c)
    ensures i < |c.rom|
  {
    if addr < 0x4000 then
      if c.mode1 then (c.highBank as nat * 0x80000 + addr) % |c.rom| else addr
    else
      var low := match v case AsWritten => LowWithBit14(c.lowBank) case Corrected => c.lowBank as nat;
      (c.highBank as nat * 0x80000 + low * 0x4000 + (addr - 0x4000)) % |c.rom|
  }

  function ReadRom(v: Variant, c: Mbc1Flat, addr: RomAddr): (r: Byte)
    requires Valid(c)
    ensures addr < 0x4000 && !c.mode1 ==> r == c.rom[addr]
  {
    c.rom[RomOffset(v, c, addr)]
  }

  function WriteRom(c: Mbc1Flat, addr: RomAddr, data: Byte): (r: Mbc1Flat)
    requires Valid(c)
    ensures Valid(r) && r.rom == c.rom && r.ram == c.ram && r.romBanks == c.romBanks && r.ramBanks == c.ramBanks
    ensures addr < 0x2000 ==> r == c.(ramEnabled := EnablesRam(data))
    ensures 0x2000 <= addr < 0x4000 ==>
              r == c.(lowBank := r.lowBank) && r.lowBank != 0 && (data & 0x1F != 0 ==> r.lowBank == data & 0x1F)
    ensures 0x4000 <= addr < 0x6000 ==> r == c.(highBank := data & 0x03)
    ensures 0x6000 <= addr ==> r == c.(mode1 := data == 1)
  {
    if addr < 0x2000 then c.(ramEnabled := EnablesRam(data))
    else if addr < 0x4000 then
      var low := data & 0x1F;
      c.(lowBank := if low == 0 then 1 else low)
    else if addr < 0x6000 then c.(highBank := data & 0x03)
    else c.(mode1 := data == 1)
  }

  /** The flat RAM offset: in mode 1 the high register supplies the bank, wrapped to the RAM size. */
  function RamOffset(c: Mbc1Flat, addr: RamAddr): (i: nat)
    requires Valid(c) && ContainsRam(c)
    ensures i < |c.ram|
    ensures !c.mode1 ==> i == RamIndex(0, addr)
  {
    if c.mode1 then RamIndex(c.highBank as nat, addr) % |c.ram| else RamIndex(0, addr)
  }

  function ReadRam(c: Mbc1Flat, addr: RamAddr): (r: Byte)
    requires Valid(c)
    ensures !(ContainsRam(c) && c.ramEnabled) ==> r == 0xFF
  {
    if ContainsRam(c) && c.ramEnabled then c.ram[RamOffset(c, addr)] else 0xFF
  }

  function WriteRam(c: Mbc1Flat, addr: RamAddr, data: Byte): (r: Mbc1Flat)
    requires Valid(c)
    ensures Valid(r) && r == c.(ram := r.ram)
    ensures !(ContainsRam(c) && c.ramEnabled) ==> r == c
    ensures ContainsRam(c) && c.ramEnabled ==>
              forall i :: 0 <= i < |c.ram| && i != RamOffset(c, addr) ==> r.ram[i] == c.ram[i]
  {
    if ContainsRam(c) && c.ramEnabled then c.(ram := c.ram[RamOffset(c, addr) := data]) else c
  }

  /** With the registers unchanged, a byte written to enabled RAM is the byte read back. */
  lemma WriteThenRead(c: Mbc1Flat, addr: RamAddr, data: Byte)
    requires Valid(c)
    ensures ReadRam(WriteRam(c, addr, data), addr) == (if ContainsRam(c) && c.ramEnabled then data else 0xFF)
  {
  }

  /** Division with remainder is unique: a quotient and a remainder in range are the ones `/` and `%` give. */
  lemma ModUnique(a: int, b: int, q: int, r: int)
    requires b > 0 && 0 <= r < b && a == q * b + r
    ensures a % b == r
  {
    var q0 := a / b;
    var r0 := a % b;
    assert q0 * b + r0 == q * b + r;
    MulSign(q0 - q, b);
    assert (q0 - q) * b == r - r0;
  }

  /** A non-zero multiple of a positive `b` is at least `b` away from 0. */
  lemma MulSign(d: int, b: int)
    requires b > 0
    ensures d >= 1 ==> d * b >= b
    ensures d <= -1 ==> d * b <= -b
  {
    if d >= 1 {
      MulStep(d - 1, 0, b);
    } else if d <= -1 {
      MulStep(-d - 1, 0, b);
      assert d * b == -((-d) * b);
    }
  }

  /** Adding k + 1 to a factor adds at least one multiple of a positive `b`. */
  lemma {:induction false} MulStep(k: nat, q: int, b: int)
    requires b > 0
    ensures (q + k + 1) * b >= q * b + b
  {
    if k > 0 {
      MulStep(k - 1, q, b);
      assert (q + k + 1) * b == (q + k) * b + b;
    } else {
      assert (q + 1) * b == q * b + b;
    }
  }

  /** A bank-sized stride reduced modulo a whole number of banks keeps the offset within the bank. */
  lemma BankMod(x: nat, offset: nat, n: nat)
    requires offset < RomBankSize && n > 0
    ensures (x * RomBankSize + offset) % (n * RomBankSize) == (x % n) * RomBankSize + offset
  {
    var q := x / n;
    var r := x % n;
    assert x * RomBankSize + offset == q * (n * RomBankSize) + (r * RomBankSize + offset);
    ModUnique(x * RomBankSize + offset, n * RomBankSize, q, r * RomBankSize + offset);
  }

  /**
   * Corrected, the 0x4000-0x7FFF window shows bank high·32 + low, wrapped to
   * the ROM's bank count, at the offset within the window.
   */
  lemma CorrectedUpperBank(c: Mbc1Flat, addr: RomAddr)
    requires Valid(c) && addr >= 0x4000
    ensures ReadRom(Corrected, c, addr) ==
            c.rom[RomIndex((c.highBank as nat * 32 + c.lowBank as nat) % c.romBanks, addr - 0x4000)]
  {
    var x := c.highBank as nat * 32 + c.lowBank as nat;
    assert c.highBank as nat * 0x80000 + c.lowBank as nat * 0x4000 + (addr - 0x4000) == x * RomBankSize + (addr - 0x4000);
    BankMod(x, addr - 0x4000, c.romBanks);
  }

  /**
   * As written, writing 2 to 0x2000 on an 8-bank ROM shows bank 3 at
   * 0x4000-0x7FFF; the corrected window shows bank 2.
   */
  lemma AsWrittenEvenBankReadsOdd(c: Mbc1Flat, addr: RomAddr)
    requires Valid(c) && c.romBanks == 8 && addr >= 0x4000
    ensures var c1 := WriteRom(c, 0x2000, 2);
            ReadRom(AsWritten, c1, addr) == c.rom[RomIndex(3, addr - 0x4000)] &&
            ReadRom(Corrected, c1, addr) == c.rom[RomIndex(2, addr - 0x4000)]
  {
    var c1 := WriteRom(c, 0x2000, 2);
    assert c1.lowBank == 2;
    var off := addr - 0x4000;
    var h := c1.highBank as nat;
    assert h < 4;
    BankMod(h * 32 + 3, off, 8);
    BankMod(h * 32 + 2, off, 8);
    assert (h * 32 + 3) % 8 == 3 && (h * 32 + 2) % 8 == 2;
    assert RomOffset(AsWritten, c1, addr) == ((h * 32 + 3) * RomBankSize + off) % (8 * RomBankSize);
    assert RomOffset(Corrected, c1, addr) == ((h * 32 + 2) * RomBankSize + off) % (8 * RomBankSize);
  }

  /**
   * As written, right after reset a 64-bank ROM shows bank 33 at
   * 0x4000-0x7FFF: the high register's 1 selects banks 32-63 and bit 14 of
   * the address adds 1.
   */
  lemma AsWrittenResetShowsBank33(c: Mbc1Flat, addr: RomAddr)
    requires Valid(c) && c.romBanks == 64 && addr >= 0x4000
    ensures ReadRom(AsWritten, Reset(AsWritten, c), addr) == c.rom[RomIndex(33, addr - 0x4000)]
  {
    var off := addr - 0x4000;
    BankMod(33, off, 64);
    assert RomOffset(AsWritten, Reset(AsWritten, c), addr) == (33 * RomBankSize + off) % (64 * RomBankSize);
  }

  /** Corrected, the window shows bank 1 right after reset, as on the hardware. */
  lemma CorrectedResetShowsBank1(c: Mbc1Flat, addr: RomAddr)
    requires Valid(c) && addr >= 0x4000
    ensures ReadRom(Corrected, Reset(Corrected, c), addr) == c.rom[RomIndex(1, addr - 0x4000)]
  {
    CorrectedUpperBank(Reset(Corrected, c), addr);
  }
}

=== FILE: mbc3.dfy ===
/**
 * The MBC3 controller (current revision): a ROM bank register, a register
 * that selects either a RAM bank (0-3) or a real-time-clock register
 * (0x08-0x0C), a RAM/RTC enable flag, and the real-time clock with its
 * internal counters, the latched copy the CPU reads, a halt flag and a
 * reference point in time.
 *
 * The system clock is outside the model: operations that consult it take the
 * current time `now` in system-clock ticks, and the clock is assumed not to
 * run backwards. A catch-up counts the whole seconds since the reference
 * point, truncating the rest. As written it then moves the reference point
 * to `now`, so the truncated part of a second is lost; the corrected variant
 * moves it only by the seconds counted.
 */
module Mbc3 {
  import opened Bits
  import opened Cartridge
  import opened Variants

  type U8 = x: int | 0 <= x < 0x100

  /** Seconds, minutes, hours, the low 8 bits of the day count, and DH (day bit 8, halt bit 6, carry bit 7). */
  datatype Rtc = Rtc(s: U8, m: U8, h: U8, dl: U8, dh: U8)

  datatype Mbc3 = Mbc3(
    rom: seq<Byte>, ram: seq<Byte>, romBanks: nat, ramBanks: nat, containsRtc: bool,
    romBank: nat, ramBank: U8, ramEnabled: bool,
    halted: bool, latchInitiated: bool, reference: int,
    latched: Rtc, internal: Rtc)

  const SecondsPerDay := 86400
  /** System-clock ticks per second (nanoseconds, as with the usual C++ standard library). */
  const TicksPerSecond := 1_000_000_000
  /** The day counter has nine bits, so the clock wraps after 512 days. */
  const ClockPeriod := 512 * SecondsPerDay

  /** Sizes agree with the counts, the ROM bank is never 0, and a RAM bank below 4 exists on a cartridge with RAM. */
  predicate Valid(c: Mbc3)
  {
    ValidRomBanks(c.romBanks) && ValidRamBanks(c.ramBanks) &&
    |c.rom| == c.romBanks * RomBankSize && |c.ram| == c.ramBanks * RamBankSize &&
    1 <= c.romBank < c.romBanks &&
    (c.ramBank < 4 && c.ramBanks > 0 ==> c.ramBank < c.ramBanks)
  }

  predicate ContainsRam(c: Mbc3)
  {
    c.ramBanks > 0
  }

  /** Reset: ROM bank 1, RAM bank 0, RAM disabled, the latched clock registers cleared and no latch begun. */
  function Reset(c: Mbc3): (r: Mbc3)
    requires Valid(c)
    ensures Valid(r) && r.rom == c.rom && r.ram == c.ram && r.internal == c.internal
    ensures r.romBank == 1 && r.ramBank == 0 && !r.ramEnabled && !r.latchInitiated
    ensures r.latched == Rtc(0, 0, 0, 0, 0)
  {
    c.(romBank := 1, ramBank := 0, ramEnabled := false, latched := Rtc(0, 0, 0, 0, 0), latchInitiated := false)
  }

  function ReadRom(c: Mbc3, addr: RomAddr): (r: Byte)
    requires Valid(c)
    ensures addr < 0x4000 ==> r == c.rom[RomIndex(0, addr)]
    ensures addr >= 0x4000 ==> r == c.rom[RomIndex(c.romBank, addr - 0x4000)]
  {
    if addr < 0x4000 then c.rom[addr] else c.rom[RomIndex(c.romBank, addr - 0x4000)]
  }

  /** The day count: DL plus bit 0 of DH as bit 8. */
  function Days(t: Rtc): (d: nat)
    ensures d < 512
  {
    (t.dh % 2) * 256 + t.dl
  }

  /** The time the counters stand for, in seconds. */
  function Seconds(t: Rtc): nat
  {
    t.s + t.m * 60 + t.h * 3600 + Days(t) * SecondsPerDay
  }

  /** DH with bit 7 set. */
  function SetCarry(dh: U8): (r: U8)
    ensures r >= 0x80 && r % 0x80 == dh % 0x80
  {
    if dh >= 0x80 then dh else dh + 0x80
  }

  /** DH with bit 0 replaced by `bit`. */
  function WithDayBit8(dh: U8, bit: nat): (r: U8)
    requires bit < 2
    ensures r % 2 == bit && r / 2 == dh / 2
  {
    dh - dh % 2 + bit
  }

  /**
   * Advances the internal counters by `elapsed` seconds and renormalises:
   * seconds and minutes below 60, hours below 24, the day count in DL and
   * DH bit 0, and DH bit 7 set when the day count passes 511.
   */
  function Advance(t: Rtc, elapsed: nat): (r: Rtc)
    ensures r.s < 60 && r.m < 60 && r.h < 24
  {
    var total := Seconds(t) + elapsed;
    var days := total / SecondsPerDay;
    var rest := total % SecondsPerDay;
    var dh := if days > 0x1FF then SetCarry(t.dh) else t.dh;
    Rtc(rest % 60, rest % 3600 / 60, rest / 3600, days % 256, WithDayBit8(dh, days / 256 % 2))
  }

  /** Advancing keeps the time the counters stand for, modulo the 512-day period of the day counter. */
  lemma AdvanceKeepsTime(t: Rtc, elapsed: nat)
    ensures Seconds(Advance(t, elapsed)) == (Seconds(t) + elapsed) % ClockPeriod
  {
    var total := Seconds(t) + elapsed;
    var days := total / SecondsPerDay;
    var rest := total % SecondsPerDay;
    var r := Advance(t, elapsed);
    ClockDigits(rest);
    assert r.s + r.m * 60 + r.h * 3600 == rest;
    DayDigits(days);
    assert Days(r) == days % 512;
    DayDivMod(total);
    DayCountWraps(days, rest);
  }

  /** Seconds, minutes and hours reassemble the seconds of a day. */
  lemma ClockDigits(rest: nat)
    requires rest < SecondsPerDay
    ensures rest % 60 + (rest % 3600 / 60) * 60 + (rest / 3600) * 3600 == rest
  {
  }

  /** DL and DH bit 0 reassemble the day count modulo 512. */
  lemma DayDigits(days: nat)
    ensures days % 256 + (days / 256 % 2) * 256 == days % 512
  {
  }

  lemma DayDivMod(total: nat)
    ensures total == (total / SecondsPerDay) * SecondsPerDay + total % SecondsPerDay
  {
  }

  /**
   * The carry bit (DH bit 7) is set afterwards exactly when it was set
   * before or the day count passed 511; it is never cleared. The halt bit
   * and the unused bits of DH are kept.
   */
  lemma AdvanceCarry(t: Rtc, elapsed: nat)
    ensures var r := Advance(t, elapsed);
            (r.dh >= 0x80 <==> t.dh >= 0x80 || (Seconds(t) + elapsed) / SecondsPerDay > 0x1FF) &&
            r.dh / 2 % 0x40 == t.dh / 2 % 0x40
  {
    var days := (Seconds(t) + elapsed) / SecondsPerDay;
    var dh := if days > 0x1FF then SetCarry(t.dh) else t.dh;
    var r := Advance(t, elapsed);
    assert r.dh == WithDayBit8(dh, days / 256 % 2);
    HalvesAgree(dh, r.dh);
    if days > 0x1FF {
      CarryKeepsMiddle(t.dh, dh);
    }
  }

  /** Two DH values that differ at most in bit 0 agree on bit 7 and on bits 1-6. */
  lemma HalvesAgree(a: U8, b: U8)
    requires a / 2 == b / 2
    ensures (a >= 0x80 <==> b >= 0x80) && a / 2 % 0x40 == b / 2 % 0x40
  {
  }

  /** Setting bit 7 keeps bits 1-6. */
  lemma CarryKeepsMiddle(a: U8, b: U8)
    requires b >= 0x80 && b % 0x80 == a % 0x80
    ensures b / 2 % 0x40 == a / 2 % 0x40
  {
  }

  /** The whole days and the rest of a total, reassembled with the day count taken modulo 512, are the total modulo 512 days. */
  lemma DayCountWraps(days: nat, rest: nat)
    requires rest < SecondsPerDay
    ensures (days % 512) * SecondsPerDay + rest == (days * SecondsPerDay + rest) % ClockPeriod
  {
    var q := days / 512;
    assert days * SecondsPerDay + rest == q * ClockPeriod + ((days % 512) * SecondsPerDay + rest);
    PeriodMod(days * SecondsPerDay + rest, q, (days % 512) * SecondsPerDay + rest);
  }

  /** A total given as whole periods and a rest below one period has that rest modulo the period. */
  lemma PeriodMod(a: nat, q: nat, r: nat)
    requires r < 44236800 && a == q * 44236800 + r
    ensures a % ClockPeriod == r
  {
  }

  /** The whole seconds in a non-negative tick count: the duration cast to seconds truncates. */
  function WholeSeconds(ticks: nat): (r: nat)
    ensures r * TicksPerSecond <= ticks < (r + 1) * TicksPerSecond
  {
    ticks / TicksPerSecond
  }

  /**
   * The reference point after a running clock catches up: as written `now`,
   * which drops the part of a second the catch-up did not count; corrected,
   * the start of that part, so that the next catch-up counts it.
   */
  function CaughtUpTo(v: Variant, reference: int, now: int): (r: int)
    requires reference <= now
    ensures now - TicksPerSecond < r <= now
    ensures v == AsWritten ==> r == now
    ensures v == Corrected ==> now - r == (now - reference) % TicksPerSecond
  {
    if v == AsWritten then now else reference + WholeSeconds(now - reference) * TicksPerSecond
  }

  /**
   * The internal counters brought up to `now` (unless halted) by the whole
   * seconds since the reference point, with the reference point moved up.
   */
  function Catch(v: Variant, c: Mbc3, now: int): (r: Mbc3)
    requires c.reference <= now
    ensures r.reference == (if c.halted then c.reference else CaughtUpTo(v, c.reference, now))
    ensures r == c.(internal := r.internal, reference := r.reference)
    ensures c.halted ==> r.internal == c.internal
    ensures !c.halted ==> r.internal == Advance(c.internal, WholeSeconds(now - c.reference))
  {
    if c.halted then c
    else c.(internal := Advance(c.internal, WholeSeconds(now - c.reference)), reference := CaughtUpTo(v, c.reference, now))
  }

  /** A running clock moves by the whole seconds since its reference point, modulo the 512-day period. */
  lemma CatchCountsWholeSeconds(v: Variant, c: Mbc3, now: int)
    requires !c.halted && c.reference <= now
    ensures Seconds(Catch(v, c, now).internal) == (Seconds(c.internal) + WholeSeconds(now - c.reference)) % ClockPeriod
  {
    AdvanceKeepsTime(c.internal, WholeSeconds(now - c.reference));
  }

  /**
   * A register write. 0x0000-0x1FFF enables RAM and the clock; 0x2000-0x3FFF
   * selects the ROM bank modulo the bank count, 0 meaning 1; 0x4000-0x5FFF
   * selects a RAM bank (below 4, only on a cartridge with RAM) or stores a
   * clock selector as it is; 0x6000-0x7FFF writes 0 then 1 to latch the
   * clock, on a cartridge that has one.
   */
  function WriteRom(v: Variant, c: Mbc3, addr: RomAddr, data: Byte, now: int): (r: Mbc3)
    requires Valid(c) && c.reference <= now
    ensures Valid(r) && r.rom == c.rom && r.ram == c.ram && r.romBanks == c.romBanks && r.ramBanks == c.ramBanks
    ensures r.reference <= now
    ensures addr < 0x2000 ==> r == c.(ramEnabled := EnablesRam(data))
    ensures 0x2000 <= addr < 0x4000 ==>
              r == c.(romBank := r.romBank) && 1 <= r.romBank < c.romBanks &&
              (ToNat(data) % c.romBanks != 0 ==> r.romBank == ToNat(data) % c.romBanks)
    ensures 0x4000 <= addr < 0x6000 && data >= 4 ==> r == c.(ramBank := ToNat(data))
    ensures 0x4000 <= addr < 0x6000 && data < 4 ==>
              r == (if ContainsRam(c) then c.(ramBank := ToNat(data) % c.ramBanks) else c)
    ensures 0x6000 <= addr && !c.containsRtc ==> r == c
  {
    if addr < 0x2000 then c.(ramEnabled := EnablesRam(data))
    else if addr < 0x4000 then
      var bank := ToNat(data) % c.romBanks;
      c.(romBank := if bank == 0 then 1 else bank)
    else if addr < 0x6000 then
      if data < 0x04 then
        if ContainsRam(c) then c.(ramBank := ToNat(data) % c.ramBanks) else c
      else c.(ramBank := ToNat(data))
    else LatchWrite(v, c, data, now)
  }

  /** A write to 0x6000-0x7FFF: 0 begins a latch, a following 1 copies the caught-up clock; ignored without a clock. */
  function LatchWrite(v: Variant, c: Mbc3, data: Byte, now: int): (r: Mbc3)
    requires c.reference <= now
    ensures r == c.(latchInitiated := r.latchInitiated, latched := r.latched, internal := r.internal, reference := r.reference)
    ensures r.reference <= now
    ensures !c.containsRtc ==> r == c
  {
    if !c.containsRtc then c
    else if data == 0 && !c.latchInitiated then c.(latchInitiated := true)
    else if data == 1 && c.latchInitiated then
      var c1 := Catch(v, c, now);
      c1.(latchInitiated := false, latched := c1.internal)
    else c
  }

  /**
   * Writing 0 and then 1 to 0x6000-0x7FFF copies the clock, brought up to
   * the time of the second write, into the registers the CPU reads; a
   * halted clock is copied as it stands.
   */
  lemma LatchCopiesClock(v: Variant, c: Mbc3, t0: int, t1: int)
    requires Valid(c) && c.containsRtc && !c.latchInitiated && c.reference <= t0 <= t1
    ensures var r := WriteRom(v, WriteRom(v, c, 0x6000, 0, t0), 0x6000, 1, t1);
            !r.latchInitiated &&
            r.latched == r.internal &&
            r.internal == (if c.halted then c.internal else Advance(c.internal, WholeSeconds(t1 - c.reference)))
  {
  }

  /** Latch writes on a cartridge without a clock change nothing. */
  lemma NoClockIgnoresLatch(v: Variant, c: Mbc3, data: Byte, now: int)
    requires Valid(c) && !c.containsRtc && c.reference <= now
    ensures WriteRom(v, c, 0x7FFF, data, now) == c
  {
  }

  /** What the CPU reads at a clock selector: the latched registers, DH with its unused bits reading 1. */
  function ReadClock(t: Rtc, selector: U8): (r: Byte)
    ensures !(0x08 <= selector <= 0x0C) ==> r == 0xFF
    ensures selector == 0x0C ==> r & 0x3E == 0x3E
  {
    match selector
    case 0x08 => FromNat(t.s)
    case 0x09 => FromNat(t.m)
    case 0x0A => FromNat(t.h)
    case 0x0B => FromNat(t.dl)
    case 0x0C => FromNat(t.dh) | 0x3E
    case _ => 0xFF
  }

  /** A clock register set with a value reads back as that value; DH reads back with its unused bits 1-5 set. */
  lemma ClockRegisterRoundTrip(t: Rtc, selector: U8, data: Byte)
    requires 0x08 <= selector <= 0x0C
    ensures selector < 0x0C ==> ReadClock(SetClockRegister(t, selector, ToNat(data)), selector) == data
    ensures selector == 0x0C ==> ReadClock(SetClockRegister(t, selector, ToNat(data)), selector) == data | 0x3E
  {
    FromNatToNat(data);
  }

  /** External RAM or clock reads: 0xFF while disabled, a RAM byte for banks 0-3, a latched register for a clock selector. */
  function ReadRam(c: Mbc3, addr: RamAddr): (r: Byte)
    requires Valid(c)
    ensures !c.ramEnabled ==> r == 0xFF
    ensures c.ramEnabled && ContainsRam(c) && c.ramBank < 4 ==> r == c.ram[RamIndex(c.ramBank, addr)]
    ensures c.ramEnabled && !(ContainsRam(c) && c.ramBank < 4) ==>
              r == (if c.containsRtc then ReadClock(c.latched, c.ramBank) else 0xFF)
  {
    if !c.ramEnabled then 0xFF
    else if ContainsRam(c) && c.ramBank < 4 then c.ram[RamIndex(c.ramBank, addr)]
    else if c.containsRtc then ReadClock(c.latched, c.ramBank)
    else 0xFF
  }

  /** The counters with the register a selector names replaced; other selectors change nothing. */
  function SetClockRegister(t: Rtc, selector: U8, value: U8): (r: Rtc)
    ensures selector == 0x0C ==> r.dh == value
    ensures !(0x08 <= selector <= 0x0C) ==> r == t
  {
    match selector
    case 0x08 => t.(s := value)
    case 0x09 => t.(m := value)
    case 0x0A => t.(h := value)
    case 0x0B => t.(dl := value)
    case 0x0C => t.(dh := value)
    case _ => t
  }

  /**
   * Writing a clock register: the internal counters are brought up to `now`
   * first (unless halted), then the selected one is set. Writing DH halts
   * the clock when bit 6 is set and resumes it, from `now`, when bit 6 is
   * clear.
   */
  function WriteClock(v: Variant, c: Mbc3, data: Byte, now: int): (r: Mbc3)
    requires c.reference <= now
    ensures r == c.(internal := r.internal, halted := r.halted, reference := r.reference)
    ensures r.reference <= now
    ensures c.ramBank == 0x0C ==> r.halted == (data & 0x40 == 0x40) && r.internal.dh == ToNat(data)
    ensures c.ramBank == 0x0C && c.halted && data & 0x40 == 0 ==> r.reference == now
    ensures c.ramBank != 0x0C ==> r.halted == c.halted
  {
    var c1 := Catch(v, c, now);
    var c2 := c1.(internal := SetClockRegister(c1.internal, c.ramBank, ToNat(data)));
    if c.ramBank == 0x0C then HaltControl(c2, data & 0x40 == 0x40, now) else c2
  }

  /** The halt bit written to DH: setting it halts the clock, clearing it on a halted clock resumes it from `now`. */
  function HaltControl(c: Mbc3, halt: bool, now: int): (r: Mbc3)
    requires c.reference <= now
    ensures r == c.(halted := halt, reference := r.reference)
    ensures r.reference == (if c.halted && !halt then now else c.reference)
  {
    if !c.halted && halt then c.(halted := true)
    else if c.halted && !halt then c.(halted := false, reference := now)
    else c
  }

  function WriteRam(v: Variant, c: Mbc3, addr: RamAddr, data: Byte, now: int): (r: Mbc3)
    requires Valid(c) && c.reference <= now
    ensures Valid(r) && r.reference <= now
    ensures !c.ramEnabled ==> r == c
    ensures c.ramEnabled && ContainsRam(c) && c.ramBank < 4 ==>
              r == c.(ram := c.ram[RamIndex(c.ramBank, addr) := data])
    ensures c.ramEnabled && !(ContainsRam(c) && c.ramBank < 4) && !c.containsRtc ==> r == c
  {
    if !c.ramEnabled then c
    else if ContainsRam(c) && c.ramBank < 4 then c.(ram := c.ram[RamIndex(c.ramBank, addr) := data])
    else if c.containsRtc then WriteClock(v, c, data, now)
    else c
  }

  /** A RAM byte written with RAM enabled and a RAM bank selected is read back. */
  lemma WriteThenRead(v: Variant, c: Mbc3, addr: RamAddr, data: Byte, now: int)
    requires Valid(c) && c.reference <= now && c.ramEnabled && ContainsRam(c) && c.ramBank < 4
    ensures ReadRam(WriteRam(v, c, addr, data, now), addr) == data
  {
  }

  /** While halted, the clock does not move: latching at any later time copies the same counters. */
  lemma HaltedClockStands(v: Variant, c: Mbc3, now: int)
    requires Valid(c) && c.containsRtc && c.halted && c.latchInitiated && c.reference <= now
    ensures WriteRom(v, c, 0x6000, 1, now).latched == c.internal
  {
  }

  /** Advancing by `a` seconds and then by `b` seconds is advancing by `a + b` seconds. */
  lemma {:induction false} AdvanceTwice(t: Rtc, a: nat, b: nat)
    ensures Seconds(Advance(Advance(t, a), b)) == Seconds(Advance(t, a + b))
  {
    var u := Advance(t, a);
    AdvanceKeepsTime(t, a);
    AdvanceKeepsTime(u, b);
    AdvanceKeepsTime(t, a + b);
    ChainMod(Seconds(t), a, b, Seconds(u), Seconds(Advance(u, b)), Seconds(Advance(t, a + b)));
  }

  /**
   * As written, catching up at `t0` and then at `t1` counts the whole seconds
   * of each interval separately, and so counts one second fewer than a
   * single catch-up at `t1` exactly when the two uncounted parts of a second
   * add up to a second or more.
   */
  lemma AsWrittenCountsTwice(ref: int, t0: int, t1: int)
    requires ref <= t0 <= t1
    ensures var lost := if (t0 - ref) % TicksPerSecond + (t1 - t0) % TicksPerSecond >= TicksPerSecond then 1 else 0;
            WholeSeconds(t0 - ref) + WholeSeconds(t1 - CaughtUpTo(AsWritten, ref, t0)) + lost == WholeSeconds(t1 - ref)
  {
    SplitSeconds(t0 - ref, t1 - t0);
    assert t0 - ref + (t1 - t0) == t1 - ref;
  }

  /** The whole seconds of a sum are those of its parts, plus one when the parts' fractions carry. */
  lemma SplitSeconds(a: nat, b: nat)
    ensures WholeSeconds(a) + WholeSeconds(b) + (if a % TicksPerSecond + b % TicksPerSecond >= TicksPerSecond then 1 else 0)
            == WholeSeconds(a + b)
  {
    var T := TicksPerSecond;
    var q := a / T + b / T;
    var r := a % T + b % T;
    assert a + b == q * T + r;
    if r >= T {
      DivUnique(a + b, q + 1, r - T);
    } else {
      DivUnique(a + b, q, r);
    }
  }

  lemma DivUnique(x: nat, q: nat, r: nat)
    requires x == q * TicksPerSecond + r && r < TicksPerSecond
    ensures x / TicksPerSecond == q
  {
  }

  /**
   * The loss in numbers: a clock caught up 0.6 s and again 1.2 s after its
   * reference point has counted no second, where a single catch-up at 1.2 s
   * counts one. A game that latches the clock more often than once a second
   * therefore stops it.
   */
  lemma AsWrittenCatchLosesFraction(ref: int, t0: int, t1: int)
    requires t0 == ref + 600_000_000 && t1 == ref + 1_200_000_000
    ensures WholeSeconds(t0 - ref) + WholeSeconds(t1 - CaughtUpTo(AsWritten, ref, t0)) == 0
    ensures WholeSeconds(t1 - ref) == 1
  {
    DivUnique(t0 - ref, 0, 600_000_000);
    DivUnique(t1 - t0, 0, 600_000_000);
    DivUnique(t1 - ref, 1, 200_000_000);
  }

  /**
   * With the uncounted part of a second kept, two catch-ups in a row count
   * exactly the whole seconds of one catch-up over the whole interval.
   */
  lemma CorrectedCountsTwice(ref: int, t0: int, t1: int)
    requires ref <= t0 <= t1
    ensures WholeSeconds(t0 - ref) + WholeSeconds(t1 - CaughtUpTo(Corrected, ref, t0)) == WholeSeconds(t1 - ref)
  {
    var w0 := WholeSeconds(t0 - ref);
    assert t1 - CaughtUpTo(Corrected, ref, t0) == (t0 - ref) - w0 * TicksPerSecond + (t1 - t0);
    KeptFraction(t0 - ref, t1 - t0);
  }

  /** Counting the whole seconds of `a`, then those of its remainder plus `b`, counts the whole seconds of `a + b`. */
  lemma KeptFraction(a: nat, b: nat)
    ensures WholeSeconds(a) + WholeSeconds(a - WholeSeconds(a) * TicksPerSecond + b) == WholeSeconds(a + b)
  {
    var T := TicksPerSecond;
    var qa := WholeSeconds(a);
    var rb := a - qa * T + b;
    var qb := WholeSeconds(rb);
    assert a + b == (qa + qb) * T + (rb - qb * T);
    DivUnique(a + b, qa + qb, rb - qb * T);
  }

  lemma ChainMod(s0: nat, a: nat, b: nat, x: nat, y: nat, z: nat)
    requires x == (s0 + a) % ClockPeriod && y == (x + b) % ClockPeriod && z == (s0 + a + b) % ClockPeriod
    ensures y == z
  {
    ModAddLeft(s0 + a, b);
  }

  /** Reducing the left summand first does not change a sum modulo the clock period. */
  lemma ModAddLeft(x: nat, b: nat)
    ensures (x % ClockPeriod + b) % ClockPeriod == (x + b) % ClockPeriod
  {
    var y := x % ClockPeriod + b;
    PeriodMod(x + b, x / ClockPeriod + y / ClockPeriod, y % ClockPeriod);
  }
}

=== FILE: mbc5.dfy ===
/**
 * The MBC5 controller: a 9-bit ROM bank number split over two registers
 * (low byte at 0x2000-0x2FFF, bit 8 at 0x3000-0x3FFF), a RAM bank register
 * and a RAM-enable flag. The earlier revision differs only in resetting to
 * ROM bank 0 instead of 1.
 */
module Mbc5 {
  import opened Bits
  import opened Cartridge

  datatype Mbc5 = Mbc5(
    rom: seq<Byte>, ram: seq<Byte>, romBanks: nat, ramBanks: nat,
    romBankIndex: nat, ramEnabled: bool, romBankLsb: Byte, romBankMsb: Byte, ramBank: nat)

  predicate Valid(c: Mbc5)
  {
    ValidRomBanks(c.romBanks) && ValidRamBanks(c.ramBanks) &&
    |c.rom| == c.romBanks * RomBankSize && |c.ram| == c.ramBanks * RamBankSize &&
    c.romBankIndex < c.romBanks && (c.ramBanks > 0 ==> c.ramBank < c.ramBanks) && (c.ramBanks == 0 ==> c.ramBank == 0)
  }

  predicate ContainsRam(c: Mbc5)
  {
    c.ramBanks > 0
  }

  /** Reset (current revision): ROM bank 1, RAM bank 0, RAM disabled. */
  function Reset(c: Mbc5): (r: Mbc5)
    requires Valid(c)
    ensures Valid(r) && r.rom == c.rom && r.ram == c.ram
    ensures r.romBankIndex == 1 && r.ramBank == 0 && !r.ramEnabled
    ensures NineBitBank(r) == 1
  {
    c.(romBankIndex := 1, ramEnabled := false, romBankLsb := 0x01, romBankMsb := 0x00, ramBank := 0)
  }

  /** Reset (earlier revision): ROM bank 0, RAM bank 0, RAM disabled. */
  function ResetOld(c: Mbc5): (r: Mbc5)
    requires Valid(c)
    ensures Valid(r) && r.rom == c.rom && r.ram == c.ram
    ensures r.romBankIndex == 0 && r.ramBank == 0 && !r.ramEnabled
    ensures NineBitBank(r) == 0
  {
    c.(romBankIndex := 0, ramEnabled := false, romBankLsb := 0x00, romBankMsb := 0x00, ramBank := 0)
  }

  /** The 9-bit bank number the two registers spell: bit 0 of the high register above the low byte. */
  function NineBitBank(c: Mbc5): (n: nat)
    ensures n < 0x200
  {
    ToNat(c.romBankMsb & 0x01) * 0x100 + ToNat(c.romBankLsb)
  }

  function ReadRom(c: Mbc5, addr: RomAddr): (r: Byte)
    requires Valid(c)
    ensures addr < 0x4000 ==> r == c.rom[RomIndex(0, addr)]
    ensures addr >= 0x4000 ==> r == c.rom[RomIndex(c.romBankIndex, addr - 0x4000)]
  {
    if addr < 0x4000 then c.rom[addr] else c.rom[RomIndex(c.romBankIndex, addr - 0x4000)]
  }

  /**
   * A register write: 0x0000-0x1FFF enables RAM; 0x2000-0x2FFF and
   * 0x3000-0x3FFF set the two halves of the bank number, which selects bank
   * number modulo the bank count, bank 0 included; 0x4000-0x5FFF selects the
   * RAM bank modulo the RAM bank count, on a cartridge with RAM; the rest of
   * the range is ignored.
   */
  function WriteRom(c: Mbc5, addr: RomAddr, data: Byte): (r: Mbc5)
    requires Valid(c)
    ensures Valid(r) && r.rom == c.rom && r.ram == c.ram && r.romBanks == c.romBanks && r.ramBanks == c.ramBanks
    ensures addr < 0x2000 ==> r == c.(ramEnabled := EnablesRam(data))
    ensures 0x2000 <= addr < 0x3000 ==> r.romBankLsb == data && r.romBankMsb == c.romBankMsb
    ensures 0x3000 <= addr < 0x4000 ==> r.romBankMsb == data && r.romBankLsb == c.romBankLsb
    ensures 0x2000 <= addr < 0x4000 ==>
              r == c.(romBankLsb := r.romBankLsb, romBankMsb := r.romBankMsb, romBankIndex := r.romBankIndex) &&
              r.romBankIndex == NineBitBank(r) % c.romBanks
    ensures 0x4000 <= addr < 0x6000 ==> r == (if ContainsRam(c) then c.(ramBank := ToNat(data) % c.ramBanks) else c)
    ensures 0x6000 <= addr ==> r == c
  {
    if addr < 0x2000 then c.(ramEnabled := EnablesRam(data))
    else if addr < 0x4000 then
      var c1 := if addr < 0x3000 then c.(romBankLsb := data) else c.(romBankMsb := data);
      c1.(romBankIndex := NineBitBank(c1) % c.romBanks)
    else if ContainsRam(c) && addr < 0x6000 then c.(ramBank := ToNat(data) % c.ramBanks)
    else c
  }

  function ReadRam(c: Mbc5, addr: RamAddr): (r: Byte)
    requires Valid(c)
    ensures !(ContainsRam(c) && c.ramEnabled) ==> r == 0xFF
  {
    if ContainsRam(c) && c.ramEnabled then c.ram[RamIndex(c.ramBank, addr)] else 0xFF
  }

  function WriteRam(c: Mbc5, addr: RamAddr, data: Byte): (r: Mbc5)
    requires Valid(c)
    ensures Valid(r) && r == c.(ram := r.ram)
    ensures !(ContainsRam(c) && c.ramEnabled) ==> r == c
    ensures ContainsRam(c) && c.ramEnabled ==>
              forall i :: 0 <= i < |c.ram| && i != RamIndex(c.ramBank, addr) ==> r.ram[i] == c.ram[i]
  {
    if ContainsRam(c) && c.ramEnabled then c.(ram := c.ram[RamIndex(c.ramBank, addr) := data]) else c
  }

  /** A byte written to enabled RAM is the byte read back; without RAM or with RAM disabled, reads stay 0xFF. */
  lemma WriteThenRead(c: Mbc5, addr: RamAddr, data: Byte)
    requires Valid(c)
    ensures ReadRam(WriteRam(c, addr, data), addr) == (if ContainsRam(c) && c.ramEnabled then data else 0xFF)
  {
  }

  /**
   * Writing a low byte to 0x2000 and a high register value to 0x3000 shows
   * the bank their 9-bit number names, modulo the bank count.
   */
  lemma SelectBank(c: Mbc5, lo: Byte, hi: Byte, addr: RomAddr)
    requires Valid(c) && addr >= 0x4000
    ensures var c1 := WriteRom(WriteRom(c, 0x2000, lo), 0x3000, hi);
            ReadRom(c1, addr) == c.rom[RomIndex((ToNat(hi & 0x01) * 0x100 + ToNat(lo)) % c.romBanks, addr - 0x4000)]
  {
  }

  /** Unlike MBC1 and MBC3, writing 0 selects bank 0 itself at 0x4000-0x7FFF. */
  lemma BankZeroSelectable(c: Mbc5, addr: RomAddr)
    requires Valid(c) && addr >= 0x4000
    ensures ReadRom(WriteRom(WriteRom(c, 0x2000, 0), 0x3000, 0), addr) == c.rom[RomIndex(0, addr - 0x4000)]
  {
    SelectBank(c, 0, 0, addr);
  }
}

=== FILE: memory_bus.dfy ===
/**
 * The system bus address decoder: which device answers a read or takes a
 * write for each 16-bit address, and the memory the bus itself owns (WRAM,
 * HRAM and the IE register).
 *
 * Reads and writes that belong to the cartridge, the PPU or the I/O
 * registers are returned as a delegation to that device, so the decoder can
 * be stated without modelling the device behind it.
 */
module MemoryBus {
  import opened Bits
  import opened Wrappers
  import opened Variants

  type Addr = a: int | 0 <= a < 0x10000

  /** The devices a bus access can be handed to. */
  datatype Device = CartRom | CartRam | Ppu | IoRegs

  /** A read is answered by the bus (boot ROM, WRAM, HRAM, IE, open regions) or by a device. */
  datatype ReadRoute = Value(b: Byte) | Delegate(dev: Device)

  /**
   * The memory owned by the bus: eight 4 KiB WRAM banks, 127 bytes of HRAM
   * and the interrupt enable register.
   */
  datatype Bus = Bus(wram: seq<seq<Byte>>, hram: seq<Byte>, ie: Byte)

  predicate Valid(m: Bus)
  {
    |m.wram| == 8 && (forall b :: 0 <= b < 8 ==> |m.wram[b]| == 0x1000) && |m.hram| == 0x7F
  }

  /** The mapping state the decoder consults; all of it lives outside the bus memory. */
  datatype Mapping = Mapping(bootRunning: bool, cgbMode: bool, svbk: Byte, cartPresent: bool)

  /**
   * How SVBK picks the bank behind 0xD000-0xDFFF. As written, only SVBK == 0
   * falls back to bank 1, so a value such as 0x08 selects bank 0; corrected,
   * any value whose low three bits are 0 selects bank 1.
   */
  function WramBank(cgbMode: bool, svbk: Byte, rule: Variant): (b: nat)
    ensures b < 8
    ensures !cgbMode ==> b == 1
    ensures cgbMode && svbk & 0x07 != 0 ==> b == (svbk & 0x07) as nat
    ensures rule == Corrected ==> 1 <= b
    ensures rule == AsWritten && cgbMode ==> (b == 0 <==> svbk != 0 && svbk & 0x07 == 0)
  {
    match rule
    case AsWritten => if !cgbMode || svbk == 0 then 1 else (svbk & 0x07) as nat
    case Corrected => if !cgbMode || svbk & 0x07 == 0 then 1 else (svbk & 0x07) as nat
  }

  /** The boot ROM overlays 0x0000-0x00FF and 0x0200-0x08FF while it runs. */
  predicate InBootRom(a: Addr)
  {
    a < 0x100 || (0x200 <= a < 0x900)
  }

  /** The prohibited echo and unusable regions. */
  predicate OpenBus(a: Addr)
  {
    (0xE000 <= a < 0xFE00) || (0xFEA0 <= a < 0xFF00)
  }

  /** The addresses whose storage the bus owns. */
  predicate BusOwned(a: Addr)
  {
    0xC000 <= a < 0xE000 || 0xFF80 <= a
  }

  function Read(m: Bus, mp: Mapping, bootRom: seq<Byte>, a: Addr, rule: Variant): (r: ReadRoute)
    requires Valid(m) && |bootRom| == 0x900
    ensures a < 0x8000 && mp.bootRunning && InBootRom(a) ==> r == Value(bootRom[a])
    ensures a < 0x8000 && mp.bootRunning && !InBootRom(a) && !mp.cartPresent ==> r == Value(0xFF)
    ensures a < 0x8000 && !(mp.bootRunning && InBootRom(a)) && (mp.cartPresent || !mp.bootRunning) ==>
              r == Delegate(CartRom)
    ensures OpenBus(a) ==> r == Value(0xFF)
    ensures r.Delegate? <==> !BusOwned(a) && !OpenBus(a) && !(a < 0x8000 && mp.bootRunning && !mp.cartPresent) &&
                             !(a < 0x8000 && mp.bootRunning && InBootRom(a))
    ensures 0xC000 <= a < 0xD000 ==> r == Value(m.wram[0][a - 0xC000])
    ensures 0xD000 <= a < 0xE000 ==> r == Value(m.wram[WramBank(mp.cgbMode, mp.svbk, rule)][a - 0xD000])
    ensures 0xFF80 <= a < 0xFFFF ==> r == Value(m.hram[a - 0xFF80])
    ensures a == 0xFFFF ==> r == Value(m.ie)
  {
    if a < 0x8000 then
      if mp.bootRunning then
        if InBootRom(a) then Value(bootRom[a])
        else if mp.cartPresent then Delegate(CartRom)
        else Value(0xFF)
      else Delegate(CartRom)
    else if a < 0xA000 then Delegate(Ppu)
    else if a < 0xC000 then Delegate(CartRam)
    else if a < 0xD000 then Value(m.wram[0][a - 0xC000])
    else if a < 0xE000 then Value(m.wram[WramBank(mp.cgbMode, mp.svbk, rule)][a - 0xD000])
    else if a < 0xFE00 then Value(0xFF)
    else if a < 0xFEA0 then Delegate(Ppu)
    else if a < 0xFF00 then Value(0xFF)
    else if a < 0xFF80 then Delegate(IoRegs)
    else if a < 0xFFFF then Value(m.hram[a - 0xFF80])
    else Value(m.ie)
  }

  /** The device a write below 0xFF80 is handed to, if any; the boot ROM never takes writes. */
  function WriteTarget(a: Addr): (d: Option<Device>)
    ensures d.None? <==> BusOwned(a) || OpenBus(a)
    ensures d == Some(CartRom) <==> a < 0x8000
    ensures d == Some(IoRegs) <==> 0xFF00 <= a < 0xFF80
  {
    if a < 0x8000 then Some(CartRom)
    else if a < 0xA000 then Some(Ppu)
    else if a < 0xC000 then Some(CartRam)
    else if a < 0xE000 then None
    else if a < 0xFE00 then None
    else if a < 0xFEA0 then Some(Ppu)
    else if a < 0xFF00 then None
    else if a < 0xFF80 then Some(IoRegs)
    else None
  }

  /** A write stores into bus-owned memory or is handed to a device; open regions drop it. */
  function Write(m: Bus, mp: Mapping, a: Addr, data: Byte, rule: Variant): (r: (Bus, Option<Device>))
    requires Valid(m)
    ensures Valid(r.0)
    ensures r.1 == WriteTarget(a)
    ensures !BusOwned(a) ==> r.0 == m
  {
    if 0xC000 <= a < 0xD000 then
      (m.(wram := m.wram[0 := m.wram[0][a - 0xC000 := data]]), None)
    else if 0xD000 <= a < 0xE000 then
      var b := WramBank(mp.cgbMode, mp.svbk, rule);
      (m.(wram := m.wram[b := m.wram[b][a - 0xD000 := data]]), None)
    else if 0xFF80 <= a < 0xFFFF then
      (m.(hram := m.hram[a - 0xFF80 := data]), None)
    else if a == 0xFFFF then
      (m.(ie := data), None)
    else
      (m, WriteTarget(a))
  }

  /** Writing then reading the same bus-owned address, with the mapping unchanged, returns the byte. */
  lemma WriteThenRead(m: Bus, mp: Mapping, bootRom: seq<Byte>, a: Addr, data: Byte, rule: Variant)
    requires Valid(m) && |bootRom| == 0x900 && BusOwned(a)
    ensures Read(Write(m, mp, a, data, rule).0, mp, bootRom, a, rule) == Value(data)
  {
  }

  /** The echo and unusable regions read 0xFF and ignore writes. */
  lemma OpenBusInert(m: Bus, mp: Mapping, bootRom: seq<Byte>, a: Addr, data: Byte, rule: Variant)
    requires Valid(m) && |bootRom| == 0x900 && OpenBus(a)
    ensures Read(m, mp, bootRom, a, rule) == Value(0xFF)
    ensures Write(m, mp, a, data, rule) == (m, None)
  {
  }

  /**
   * With the corrected bank rule, a write to one bus-owned address leaves
   * every other address reading as before.
   */
  lemma {:induction false} CorrectedWriteIsLocal(m: Bus, mp: Mapping, bootRom: seq<Byte>, a: Addr, b: Addr, data: Byte)
    requires Valid(m) && |bootRom| == 0x900 && a != b
    ensures Read(Write(m, mp, a, data, Corrected).0, mp, bootRom, b, Corrected) == Read(m, mp, bootRom, b, Corrected)
  {
    var bank := WramBank(mp.cgbMode, mp.svbk, Corrected);
    assert 1 <= bank;
  }

  /**
   * As written, SVBK = 0x08 in CGB mode maps 0xD000 onto WRAM bank 0, so a
   * write to 0xC000 also changes what 0xD000 reads.
   */
  lemma AsWrittenSvbkAliasesBankZero(m: Bus, bootRom: seq<Byte>)
    requires Valid(m) && |bootRom| == 0x900
    requires m.wram[0][0] != 0x5A
    ensures var mp := Mapping(false, true, 0x08, true);
            Read(m, mp, bootRom, 0xD000, AsWritten) == Value(m.wram[0][0]) &&
            Read(Write(m, mp, 0xC000, 0x5A, AsWritten).0, mp, bootRom, 0xD000, AsWritten) == Value(0x5A)
  {
  }
}

=== FILE: oam_dma.dfy ===
/**
 * OAM DMA: a write to the DMA register picks a source page below 0xE000 and
 * starts a 160-byte copy into OAM, one byte per call to the DMA clock.
 *
 * The copy itself is modelled by the list of (source address, OAM index)
 * pairs it performs; what the bus reads at a source address is outside
 * this module.
 */
module OamDma {
  type U8 = x: int | 0 <= x < 0x100
  type U16 = x: int | 0 <= x < 0x10000

  /** The region the source page lies in. */
  datatype Source = CartRom | Vram | CartRam | Wram

  datatype OamDma = OamDma(source: Source, page: U8, src: U16, destIndex: U8, remaining: U8, inProgress: bool)

  /** One byte copied: from a bus address to an OAM index. */
  datatype Transfer = Transfer(from: int, to: int)

  const OamBytes := 160

  function SourceOf(page: U8): (s: Source)
    requires page < 0xE0
    ensures s == CartRom <==> page < 0x80
    ensures s == Vram <==> 0x80 <= page < 0xA0
    ensures s == CartRam <==> 0xA0 <= page < 0xC0
    ensures s == Wram <==> 0xC0 <= page
  {
    if page < 0x80 then CartRom
    else if page < 0xA0 then Vram
    else if page < 0xC0 then CartRam
    else Wram
  }

  /**
   * A DMA write: the page is the data reduced modulo 0xE0, so the copy
   * never reads the echo, OAM or I/O regions; 160 bytes are due, starting
   * at OAM index 0.
   */
  function Start(data: U8): (d: OamDma)
    ensures d.inProgress && d.remaining == OamBytes && d.destIndex == 0
    ensures d.page < 0xE0 && d.page == data % 0xE0 && (data < 0xE0 ==> d.page == data)
    ensures d.src == d.page * 0x100 && d.src + OamBytes <= 0xE000
    ensures d.source == SourceOf(d.page)
  {
    var page := data % 0xE0;
    OamDma(SourceOf(page), page, page * 0x100, 0, OamBytes, true)
  }

  /** The bookkeeping between calls: the bytes done and the bytes due add up to 160. */
  predicate Inv(d: OamDma)
  {
    d.inProgress ==> 0 < d.remaining && d.destIndex + d.remaining == OamBytes && d.src + d.remaining < 0x10000
  }

  /** One DMA clock: copy one byte, advance both addresses, and stop after the last byte. */
  function Tick(d: OamDma): (r: (OamDma, seq<Transfer>))
    ensures !d.inProgress ==> r == (d, [])
    ensures d.inProgress ==> r.1 == [Transfer(d.src, d.destIndex)]
    ensures Inv(d) && d.inProgress ==>
              r.0 == d.(src := d.src + 1, destIndex := d.destIndex + 1, remaining := d.remaining - 1,
                        inProgress := d.remaining > 1)
    ensures Inv(d) ==> Inv(r.0)
  {
    if !d.inProgress then (d, [])
    else
      var remaining := (d.remaining - 1) % 0x100;
      (d.(src := (d.src + 1) % 0x10000, destIndex := (d.destIndex + 1) % 0x100, remaining := remaining,
          inProgress := remaining != 0),
       [Transfer(d.src, d.destIndex)])
  }

  /** `n` clocks, with every transfer they perform in order. */
  function Run(d: OamDma, n: nat): (OamDma, seq<Transfer>)
    decreases n
  {
    if n == 0 then (d, [])
    else
      var prev := Run(d, n - 1);
      var step := Tick(prev.0);
      (step.0, prev.1 + step.1)
  }

  /** The k-th transfer of a copy: byte k of the source page into OAM slot k. */
  function Copies(src: int, destIndex: int, n: nat): (ts: seq<Transfer>)
    ensures |ts| == n && forall i :: 0 <= i < n ==> ts[i] == Transfer(src + i, destIndex + i)
  {
    seq(n, i => Transfer(src + i, destIndex + i))
  }

  /** Within a running copy, `k` clocks perform the next `k` transfers and advance by `k`. */
  lemma {:induction false} RunCopies(d: OamDma, k: nat)
    requires Inv(d) && d.inProgress && k <= d.remaining
    ensures Run(d, k).1 == Copies(d.src, d.destIndex, k)
    ensures Run(d, k).0 == d.(src := d.src + k, destIndex := d.destIndex + k, remaining := d.remaining - k,
                              inProgress := k < d.remaining)
    decreases k
  {
    if k > 0 {
      RunCopies(d, k - 1);
      var prev := Run(d, k - 1);
      assert prev.1 + Tick(prev.0).1 == Copies(d.src, d.destIndex, k);
    }
  }

  /**
   * A DMA write copies the whole source page's first 160 bytes into OAM
   * slots 0..159, in order, in exactly 160 clocks; it is still running
   * after any smaller number.
   */
  lemma CopiesWholePage(data: U8, n: nat)
    requires n <= OamBytes
    ensures var d := Start(data);
            Run(d, n).1 == Copies(d.src, 0, n) && (Run(d, n).0.inProgress <==> n < OamBytes)
  {
    RunCopies(Start(data), n);
  }

  /** A finished copy stays finished: further clocks transfer nothing. */
  lemma {:induction false} IdleStaysIdle(d: OamDma, n: nat)
    requires !d.inProgress
    ensures Run(d, n) == (d, [])
    decreases n
  {
    if n > 0 {
      IdleStaysIdle(d, n - 1);
      var none: seq<Transfer> := [];
      assert Tick(d) == (d, none) && none + none == none;
    }
  }
}

=== FILE: oam_scan.dfy ===
/**
 * The OAM scan at the start of each visible line: OAM holds 40 four-byte
 * sprite entries, and the scan keeps, in OAM order, the first ten whose
 * rows cover the current line. While an OAM DMA is copying, the scan keeps
 * none. Both revisions scan the same way.
 */
module OamScan {
  import opened Bits

  /** The attribute byte's fields: CGB palette (bits 0-2), CGB tile bank (3), DMG palette (4), X/Y flip (5, 6), priority (7). */
  datatype Flags = Flags(cgbPalette: int, cgbTileBank: int, dmgPalette: int, xFlip: bool, yFlip: bool, priority: bool)

  datatype OamEntry = OamEntry(yPos: int, xPos: int, tileIndex: int, flags: Flags)

  type U8 = x: int | 0 <= x < 0x100

  const Entries := 40
  const MaxSprites := 10

  function DecodeFlags(b: Byte): (f: Flags)
    ensures 0 <= f.cgbPalette < 8 && 0 <= f.cgbTileBank < 2 && 0 <= f.dmgPalette < 2
    ensures f.cgbTileBank == 1 <==> BitSet(b, 3)
    ensures f.dmgPalette == 1 <==> BitSet(b, 4)
    ensures f.xFlip == BitSet(b, 5) && f.yFlip == BitSet(b, 6) && f.priority == BitSet(b, 7)
  {
    Flags((b & 0x07) as int, ((b >> 3) & 1) as int, ((b >> 4) & 1) as int,
          (b >> 5) & 1 == 1, (b >> 6) & 1 == 1, (b >> 7) & 1 == 1)
  }

  /** The flag fields put back into their bits. */
  function EncodeFlags(f: Flags): Byte
    requires 0 <= f.cgbPalette < 8 && 0 <= f.cgbTileBank < 2 && 0 <= f.dmgPalette < 2
  {
    (f.cgbPalette as Byte) | ((f.cgbTileBank as Byte) << 3) | ((f.dmgPalette as Byte) << 4) |
    (if f.xFlip then 0x20 else 0) | (if f.yFlip then 0x40 else 0) | (if f.priority then 0x80 else 0)
  }

  /** The six bit fields cover the whole attribute byte. */
  lemma FlagsRoundTrip(b: Byte)
    ensures EncodeFlags(DecodeFlags(b)) == b
  {
  }

  /** Entry `i` of OAM: Y, X, tile and attributes in four consecutive bytes. */
  function Entry(oam: seq<Byte>, i: int): (e: OamEntry)
    requires |oam| == 4 * Entries && 0 <= i < Entries
    ensures e.yPos == oam[4 * i] as int && e.xPos == oam[4 * i + 1] as int && e.tileIndex == oam[4 * i + 2] as int
    ensures e.flags == DecodeFlags(oam[4 * i + 3])
  {
    OamEntry(oam[4 * i] as int, oam[4 * i + 1] as int, oam[4 * i + 2] as int, DecodeFlags(oam[4 * i + 3]))
  }

  function EntriesOf(oam: seq<Byte>): (es: seq<OamEntry>)
    requires |oam| == 4 * Entries
    ensures |es| == Entries && forall i :: 0 <= i < Entries ==> es[i] == Entry(oam, i)
  {
    seq(Entries, i requires 0 <= i < Entries => Entry(oam, i))
  }

  /** A sprite covers line `ly` when it lies between its top row and its bottom row (8 or 16 rows down), offset by 16. */
  predicate OnLine(e: OamEntry, ly: int, tall: bool)
  {
    e.yPos <= ly + 16 <= e.yPos + (if tall then 15 else 7)
  }

  /** The entries of `es` on the line, in order. */
  function Filter(es: seq<OamEntry>, ly: int, tall: bool): (r: seq<OamEntry>)
    ensures |r| <= |es|
    ensures forall e :: e in r <==> e in es && OnLine(e, ly, tall)
    decreases |es|
  {
    if es == [] then []
    else if OnLine(es[|es| - 1], ly, tall) then Filter(es[..|es| - 1], ly, tall) + [es[|es| - 1]]
    else Filter(es[..|es| - 1], ly, tall)
  }

  /** Filtering keeps order: the entries on the line from two runs of OAM are those of each, one after the other. */
  lemma {:induction false} FilterAppend(a: seq<OamEntry>, b: seq<OamEntry>, ly: int, tall: bool)
    ensures Filter(a + b, ly, tall) == Filter(a, ly, tall) + Filter(b, ly, tall)
    decreases |b|
  {
    if b != [] {
      var b0 := b[..|b| - 1];
      assert (a + b)[..|a + b| - 1] == a + b0;
      assert (a + b)[|a + b| - 1] == b[|b| - 1];
      FilterAppend(a, b0, ly, tall);
    } else {
      assert a + b == a;
    }
  }

  /** One more entry of OAM adds it to the filtered run exactly when it is on the line. */
  lemma FilterStep(es: seq<OamEntry>, i: int, ly: int, tall: bool)
    requires 0 <= i < |es|
    ensures Filter(es[..i + 1], ly, tall) ==
            Filter(es[..i], ly, tall) + (if OnLine(es[i], ly, tall) then [es[i]] else [])
  {
    assert es[..i + 1][..i] == es[..i];
  }

  /** The first ten of a sequence, or all of it. */
  function TakeUpTo(s: seq<OamEntry>, n: nat): (r: seq<OamEntry>)
    ensures |r| <= n && r <= s
    ensures |s| <= n ==> r == s
  {
    if |s| <= n then s else s[..n]
  }

  /** The sprites a scan keeps: none during DMA, otherwise the first ten on the line. */
  function Selected(oam: seq<Byte>, ly: int, tall: bool, dmaInProgress: bool): seq<OamEntry>
    requires |oam| == 4 * Entries
  {
    if dmaInProgress then [] else TakeUpTo(Filter(EntriesOf(oam), ly, tall), MaxSprites)
  }

  /**
   * The scan as the PPU runs it: a pass over the 40 entries that stops as
   * soon as ten are kept.
   */
  method Scan(oam: seq<Byte>, ly: U8, tall: bool, dmaInProgress: bool) returns (sprites: seq<OamEntry>)
    requires |oam| == 4 * Entries
    ensures sprites == Selected(oam, ly, tall, dmaInProgress)
  {
    sprites := [];
    if dmaInProgress {
      return;
    }
    var es := EntriesOf(oam);
    var i := 0;
    while i < Entries
      invariant 0 <= i <= Entries
      invariant sprites == Filter(es[..i], ly, tall)
      invariant |sprites| <= MaxSprites
      decreases Entries - i
    {
      if |sprites| == MaxSprites {
        break;
      }
      var e := es[i];
      FilterStep(es, i, ly, tall);
      if OnLine(e, ly, tall) {
        sprites := sprites + [e];
      }
      i := i + 1;
    }
    StoppedScan(es, i, sprites, ly, tall);
  }

  /** Stopping after ten kept entries, or at the end of OAM, leaves the first ten on the line. */
  lemma StoppedScan(es: seq<OamEntry>, i: int, sprites: seq<OamEntry>, ly: int, tall: bool)
    requires 0 <= i <= |es| && sprites == Filter(es[..i], ly, tall) && |sprites| <= MaxSprites
    requires i == |es| || |sprites| == MaxSprites
    ensures sprites == TakeUpTo(Filter(es, ly, tall), MaxSprites)
  {
    assert es == es[..i] + es[i..];
    FilterAppend(es[..i], es[i..], ly, tall);
  }

  /**
   * What the scan keeps: at most ten entries, each on the line, each taken
   * from OAM; when fewer than ten are kept, every entry on the line is
   * among them; and during DMA nothing is kept.
   */
  lemma SelectedProperties(oam: seq<Byte>, ly: int, tall: bool, dmaInProgress: bool)
    requires |oam| == 4 * Entries
    ensures var r := Selected(oam, ly, tall, dmaInProgress);
            |r| <= MaxSprites &&
            (dmaInProgress ==> r == []) &&
            (forall e :: e in r ==> OnLine(e, ly, tall) && e in EntriesOf(oam)) &&
            (!dmaInProgress && |r| < MaxSprites ==>
               forall i :: 0 <= i < Entries && OnLine(Entry(oam, i), ly, tall) ==> Entry(oam, i) in r)
  {
    var es := EntriesOf(oam);
    var f := Filter(es, ly, tall);
    var r := Selected(oam, ly, tall, dmaInProgress);
    forall e | e in r
      ensures OnLine(e, ly, tall) && e in es
    {
      if !dmaInProgress {
        assert e in f;
      }
    }
    if !dmaInProgress && |r| < MaxSprites {
      assert r == f;
      forall i | 0 <= i < Entries && OnLine(Entry(oam, i), ly, tall)
        ensures Entry(oam, i) in r
      {
        assert es[i] in es;
      }
    }
  }
}

=== FILE: pixel_fifo.dfy ===
/**
 * The PPU's pixel FIFO: the per-column sprite queues a line starts with,
 * the background and sprite FIFOs the fetchers fill eight pixels at a
 * time, the mixing of a background pixel with a sprite pixel, and the VRAM
 * addresses the fetchers read tile numbers and tile rows from.
 *
 * The fetchers' dot-by-dot state machine is not part of this model; its
 * pieces that compute something are.
 */
module PixelFifo {
  import opened Bits
  import opened Variants
  import OamScan

  datatype Source = Blank | Background | Sprite

  /** A pixel: 2-bit colour, palette, the OAM order of its sprite, the priority flag, and where it came from. */
  datatype Pixel = Pixel(color: Byte, palette: int, spritePriority: int, priority: bool, src: Source)

  /** The zero pixel: transparent and blank. */
  const Empty := Pixel(0, 0, 0, false, Blank)

  // ---------------------------------------------------------------------
  // Sprite queues.
  // ---------------------------------------------------------------------

  /** A sprite waiting at its column, numbered in the order it was loaded. */
  datatype Queued = Queued(entry: OamScan.OamEntry, index: int, leftEdge: int)

  /** Sprites at X 0 or at 168 and beyond lie wholly off screen. */
  predicate Visible(e: OamScan.OamEntry)
  {
    e.xPos != 0 && e.xPos < 168
  }

  /** The first screen column a sprite covers; sprites partly off the left edge start at column 0. */
  function LeftEdge(xPos: int): int
  {
    if xPos < 8 then 0 else xPos - 8
  }

  /**
   * LoadSprites: the scanned sprites that are on screen, queued at their
   * left edge and numbered from `next` on in the order given.
   */
  function Load(sprites: seq<OamScan.OamEntry>, next: int): (q: seq<Queued>)
    ensures |q| <= |sprites|
    ensures forall i :: 0 <= i < |q| ==> q[i].index == next + i && Visible(q[i].entry) &&
                                         q[i].leftEdge == LeftEdge(q[i].entry.xPos)
    ensures forall i :: 0 <= i < |q| ==> q[i].entry in sprites
    decreases |sprites|
  {
    if sprites == [] then []
    else if !Visible(sprites[0]) then Load(sprites[1..], next)
    else [Queued(sprites[0], next, LeftEdge(sprites[0].xPos))] + Load(sprites[1..], next + 1)
  }

  /** The on-screen sprites of a list, in order. */
  function OnScreen(sprites: seq<OamScan.OamEntry>): seq<OamScan.OamEntry>
    decreases |sprites|
  {
    if sprites == [] then []
    else if Visible(sprites[0]) then [sprites[0]] + OnScreen(sprites[1..])
    else OnScreen(sprites[1..])
  }

  /** The sprites a queue holds, in queue order. */
  function EntriesOf(q: seq<Queued>): (es: seq<OamScan.OamEntry>)
    ensures |es| == |q|
    decreases |q|
  {
    if q == [] then [] else [q[0].entry] + EntriesOf(q[1..])
  }

  /** The queued sprites are exactly the on-screen ones, in the order given. */
  lemma {:induction false} LoadQueuesOnScreen(sprites: seq<OamScan.OamEntry>, next: int)
    ensures EntriesOf(Load(sprites, next)) == OnScreen(sprites)
    decreases |sprites|
  {
    if sprites != [] {
      if Visible(sprites[0]) {
        var rest := Load(sprites[1..], next + 1);
        var q := [Queued(sprites[0], next, LeftEdge(sprites[0].xPos))] + rest;
        assert q[1..] == rest;
        LoadQueuesOnScreen(sprites[1..], next + 1);
      } else {
        LoadQueuesOnScreen(sprites[1..], next);
      }
    }
  }

  /** Every queued sprite's left edge is a screen column. */
  lemma LoadEdgesOnScreen(sprites: seq<OamScan.OamEntry>, next: int)
    ensures forall i :: 0 <= i < |Load(sprites, next)| ==> 0 <= Load(sprites, next)[i].leftEdge < 160
  {
  }

  /** The queue of one column: its sprites in load order. */
  function Bucket(q: seq<Queued>, column: int): (b: seq<Queued>)
    ensures forall x :: x in b <==> x in q && x.leftEdge == column
    decreases |q|
  {
    if q == [] then []
    else if q[0].leftEdge == column then [q[0]] + Bucket(q[1..], column)
    else Bucket(q[1..], column)
  }

  /** Load numbers strictly increase along a queue. */
  predicate Ascending(q: seq<Queued>)
  {
    forall i, j :: 0 <= i < j < |q| ==> q[i].index < q[j].index
  }

  /** Loading numbers the sprites in order, and a column's queue keeps that order. */
  lemma LoadInLoadOrder(sprites: seq<OamScan.OamEntry>, next: int, column: int)
    ensures Ascending(Load(sprites, next)) && Ascending(Bucket(Load(sprites, next), column))
  {
    BucketAscending(Load(sprites, next), column);
  }

  lemma {:induction false} BucketAscending(q: seq<Queued>, column: int)
    requires Ascending(q)
    ensures Ascending(Bucket(q, column))
    decreases |q|
  {
    if q != [] {
      BucketAscending(q[1..], column);
      if q[0].leftEdge == column {
        var rest := Bucket(q[1..], column);
        forall x | x in rest
          ensures q[0].index < x.index
        {
          var k :| 0 <= k < |q[1..]| && q[1..][k] == x;
          assert q[k + 1] == x;
        }
        assert Bucket(q, column) == [q[0]] + rest;
      }
    }
  }

  // ---------------------------------------------------------------------
  // Tile rows into pixels.
  // ---------------------------------------------------------------------

  /** The 2-bit colour at bit `bit` of a tile row: the high plane gives bit 1, the low plane bit 0. */
  function ColorAt(low: Byte, high: Byte, bit: nat): (c: Byte)
    requires bit < 8
    ensures c < 4
    ensures c == 0 <==> !BitSet(low, bit) && !BitSet(high, bit)
    ensures BitSet(c, 1) == BitSet(high, bit) && BitSet(c, 0) == BitSet(low, bit)
  {
    (((high >> bit) & 1) << 1) | ((low >> bit) & 1)
  }

  /** The bit a row's pixel `i` comes from: the leftmost pixel is bit 7, or bit 0 when flipped. */
  function RowBit(i: nat, flip: bool): (b: nat)
    requires i < 8
    ensures b < 8
  {
    if flip then i else 7 - i
  }

  /** Pixel `i` of a background row. */
  function BackgroundPixel(low: Byte, high: Byte, flip: bool, palette: int, priority: bool, i: nat): Pixel
    requires i < 8
  {
    Pixel(ColorAt(low, high, RowBit(i, flip)), palette, 0, priority, Background)
  }

  /** A flipped row is the unflipped row read backwards. */
  lemma FlipReverses(low: Byte, high: Byte, palette: int, priority: bool, i: nat)
    requires i < 8
    ensures BackgroundPixel(low, high, true, palette, priority, i) == BackgroundPixel(low, high, false, palette, priority, 7 - i)
  {
  }

  /** The colour the fetcher's shifting loop reads: the top bits, or the bottom bits when flipped. */
  function ShiftedColor(lo: Byte, hi: Byte, flip: bool): Byte
  {
    if flip then ((hi & 0x01) << 1) | (lo & 0x01)
    else ((hi & 0x80) >> 6) | ((lo & 0x80) >> 7)
  }

  /** One of the loop's shifts. */
  function ShiftOnce(b: Byte, flip: bool): Byte
  {
    if flip then b >> 1 else b << 1
  }

  /** A bit plane after `n` of the loop's one-bit shifts: right when flipped, left otherwise. */
  function Shifted(b: Byte, flip: bool, n: nat): Byte
    decreases n
  {
    if n == 0 then b else ShiftOnce(Shifted(b, flip, n - 1), flip)
  }

  /** After `i` shifts the bits under the loop's read position are bit `RowBit(i, flip)` of the original planes. */
  lemma ShiftedColorAt(low: Byte, high: Byte, flip: bool, i: nat)
    requires i < 8
    ensures ShiftedColor(Shifted(low, flip, i), Shifted(high, flip, i), flip) == ColorAt(low, high, RowBit(i, flip))
  {
    if flip {
      ShiftedRight(low, high, i);
    } else {
      ShiftedLeft(low, high, i);
    }
  }

  lemma ShiftedRight(low: Byte, high: Byte, i: nat)
    requires i < 8
    ensures ShiftedColor(Shifted(low, true, i), Shifted(high, true, i), true) == ColorAt(low, high, i)
  {
    if i < 4 {
      ShiftedRightLow(low, high, i);
    } else {
      ShiftedRightHigh(low, high, i);
    }
  }

  lemma ShiftedLeft(low: Byte, high: Byte, i: nat)
    requires i < 8
    ensures ShiftedColor(Shifted(low, false, i), Shifted(high, false, i), false) == ColorAt(low, high, 7 - i)
  {
    if i < 4 {
      ShiftedLeftLow(low, high, i);
    } else {
      ShiftedLeftHigh(low, high, i);
    }
  }

  lemma ShiftedRightLow(low: Byte, high: Byte, i: nat)
    requires 0 <= i < 4
    ensures ShiftedColor(Shifted(low, true, i), Shifted(high, true, i), true) == ColorAt(low, high, i)
  {
    if i == 0 {
    } else if i == 1 {
    } else if i == 2 {
    } else {
      assert i == 3;
    }
  }

  lemma ShiftedRightHigh(low: Byte, high: Byte, i: nat)
    requires 4 <= i < 8
    ensures ShiftedColor(Shifted(low, true, i), Shifted(high, true, i), true) == ColorAt(low, high, i)
  {
    if i == 4 {
    } else if i == 5 {
    } else if i == 6 {
    } else {
      assert i == 7;
    }
  }

  lemma ShiftedLeftLow(low: Byte, high: Byte, i: nat)
    requires 0 <= i < 4
    ensures ShiftedColor(Shifted(low, false, i), Shifted(high, false, i), false) == ColorAt(low, high, 7 - i)
  {
    if i == 0 {
      assert ColorAt(low, high, 7 - i) == ColorAt(low, high, 7);
    } else if i == 1 {
      assert ColorAt(low, high, 7 - i) == ColorAt(low, high, 6);
    } else if i == 2 {
      assert ColorAt(low, high, 7 - i) == ColorAt(low, high, 5);
    } else {
      assert i == 3;
      assert ColorAt(low, high, 7 - i) == ColorAt(low, high, 4);
    }
  }

  lemma ShiftedLeftHigh(low: Byte, high: Byte, i: nat)
    requires 4 <= i < 8
    ensures ShiftedColor(Shifted(low, false, i), Shifted(high, false, i), false) == ColorAt(low, high, 7 - i)
  {
    if i == 4 {
      assert ColorAt(low, high, 7 - i) == ColorAt(low, high, 3);
    } else if i == 5 {
      assert ColorAt(low, high, 7 - i) == ColorAt(low, high, 2);
    } else if i == 6 {
      assert ColorAt(low, high, 7 - i) == ColorAt(low, high, 1);
    } else {
      assert i == 7;
      assert ColorAt(low, high, 7 - i) == ColorAt(low, high, 0);
    }
  }



  /**
   * PushBackgroundPixels: eight pixels of the fetched row appended to the
   * FIFO, read out of the two bit planes by shifting them.
   */
  method PushBackgroundPixels(fifo: seq<Pixel>, low: Byte, high: Byte, flip: bool, palette: int, priority: bool)
    returns (r: seq<Pixel>)
    ensures |r| == |fifo| + 8 && r[..|fifo|] == fifo
    ensures forall i :: 0 <= i < 8 ==> r[|fifo| + i] == BackgroundPixel(low, high, flip, palette, priority, i)
  {
    r := fifo;
    var lo, hi := low, high;
    var i := 0;
    while i < 8
      invariant 0 <= i <= 8 && |r| == |fifo| + i && r[..|fifo|] == fifo
      invariant lo == Shifted(low, flip, i) && hi == Shifted(high, flip, i)
      invariant forall k :: 0 <= k < i ==> r[|fifo| + k] == BackgroundPixel(low, high, flip, palette, priority, k)
      decreases 8 - i
    {
      ShiftedColorAt(low, high, flip, i);
      var color := ShiftedColor(lo, hi, flip);
      lo, hi := ShiftOnce(lo, flip), ShiftOnce(hi, flip);
      r := r + [Pixel(color, palette, 0, priority, Background)];
      i := i + 1;
    }
  }

  // ---------------------------------------------------------------------
  // Sprite pixels into the sprite FIFO.
  // ---------------------------------------------------------------------

  /** A sprite row being pushed: its planes, flip, palette, OAM order and priority flag. */
  datatype SpriteRow = SpriteRow(low: Byte, high: Byte, flip: bool, palette: int, index: int, priority: bool)

  function SpritePixel(s: SpriteRow, i: nat): Pixel
    requires i < 8
  {
    Pixel(ColorAt(s.low, s.high, RowBit(i, s.flip)), s.palette, s.index, s.priority, Sprite)
  }

  /**
   * The pixel a slot keeps when a sprite pixel lands on it: the new one
   * only if it is opaque and the slot is transparent or, in CGB mode, holds
   * a sprite later in OAM order.
   */
  function Overlay(under: Pixel, over: Pixel, cgbMode: bool): (r: Pixel)
    ensures r == over || r == under
    ensures over.color == 0 ==> r == under
    ensures over.color != 0 && (under.color == 0 || (cgbMode && over.spritePriority < under.spritePriority)) ==> r == over
    ensures over.color != 0 && under.color != 0 && !(cgbMode && over.spritePriority < under.spritePriority) ==> r == under
  {
    if over.color != 0 && (under.color == 0 || (cgbMode && over.spritePriority < under.spritePriority)) then over else under
  }

  /** A pixel placed at `slot`: overlaid on an occupied slot, appended when the FIFO is shorter. */
  function Place(fifo: seq<Pixel>, slot: nat, p: Pixel, cgbMode: bool): seq<Pixel>
  {
    if |fifo| >= slot + 1 then fifo[slot := Overlay(fifo[slot], p, cgbMode)] else fifo + [p]
  }

  /**
   * The slot pixel `i` of the row goes to. As written, it is `i` itself,
   * though the first `scroll` pixels are dropped; corrected, it is `i -
   * scroll`, the screen column relative to the FIFO's front.
   */
  function Slot(v: Variant, i: nat, scroll: nat): nat
    requires scroll <= i
  {
    if v == AsWritten then i else i - scroll
  }

  /** The first `n` steps of PushSpritePixels. */
  function PushSteps(fifo: seq<Pixel>, s: SpriteRow, scroll: nat, cgbMode: bool, v: Variant, n: nat): seq<Pixel>
    requires n <= 8
    decreases n
  {
    if n == 0 then fifo
    else
      var prev := PushSteps(fifo, s, scroll, cgbMode, v, n - 1);
      if n - 1 < scroll then prev else Place(prev, Slot(v, n - 1, scroll), SpritePixel(s, n - 1), cgbMode)
  }

  /**
   * PushSpritePixels: the row's eight pixels, the first `scroll` of them
   * (those left of the screen) dropped, the rest placed in the sprite FIFO.
   * The scroll count is used up along the way.
   */
  method PushSpritePixels(fifo: seq<Pixel>, s: SpriteRow, scroll: nat, cgbMode: bool, v: Variant)
    returns (r: seq<Pixel>, scrollLeft: nat)
    ensures r == PushSteps(fifo, s, scroll, cgbMode, v, 8)
    ensures scrollLeft == if scroll > 8 then scroll - 8 else 0
  {
    r := fifo;
    scrollLeft := scroll;
    var lo, hi := s.low, s.high;
    var i := 0;
    while i < 8
      invariant 0 <= i <= 8 && r == PushSteps(fifo, s, scroll, cgbMode, v, i)
      invariant scrollLeft == if scroll > i then scroll - i else 0
      invariant lo == Shifted(s.low, s.flip, i) && hi == Shifted(s.high, s.flip, i)
      decreases 8 - i
    {
      ShiftedColorAt(s.low, s.high, s.flip, i);
      var color := ShiftedColor(lo, hi, s.flip);
      lo, hi := ShiftOnce(lo, s.flip), ShiftOnce(hi, s.flip);
      if scrollLeft > 0 {
        scrollLeft := scrollLeft - 1;
      } else {
        var pixel := Pixel(color, s.palette, s.index, s.priority, Sprite);
        r := Place(r, Slot(v, i, scroll), pixel, cgbMode);
      }
      i := i + 1;
    }
  }

  /** What slot `j` holds once the corrected push has placed `m` pixels. */
  function Merged(fifo: seq<Pixel>, s: SpriteRow, scroll: nat, cgbMode: bool, j: nat): Pixel
    requires j + scroll < 8
  {
    if j < |fifo| then Overlay(fifo[j], SpritePixel(s, j + scroll), cgbMode) else SpritePixel(s, j + scroll)
  }

  /**
   * Corrected, after `n` steps the first `n - scroll` slots hold the row's
   * visible pixels in screen order, overlaid on what was there, and every
   * later slot is unchanged.
   */
  lemma {:induction false} CorrectedPushAligns(fifo: seq<Pixel>, s: SpriteRow, scroll: nat, cgbMode: bool, n: nat)
    requires n <= 8
    ensures var r := PushSteps(fifo, s, scroll, cgbMode, Corrected, n);
            var m := if n > scroll then n - scroll else 0;
            |r| == (if |fifo| > m then |fifo| else m) &&
            (forall j :: 0 <= j < m ==> r[j] == Merged(fifo, s, scroll, cgbMode, j)) &&
            (forall j :: m <= j < |fifo| ==> r[j] == fifo[j])
    decreases n
  {
    if n > 0 {
      CorrectedPushAligns(fifo, s, scroll, cgbMode, n - 1);
    }
  }

  /**
   * As written, into a FIFO already holding eight pixels, row pixel `i`
   * lands on slot `i` whatever the scroll: the slots left of `scroll` keep
   * their pixels and the row is not shifted to the screen.
   */
  lemma {:induction false} AsWrittenPushIgnoresScroll(fifo: seq<Pixel>, s: SpriteRow, scroll: nat, cgbMode: bool, n: nat)
    requires n <= 8 && |fifo| >= 8
    ensures var r := PushSteps(fifo, s, scroll, cgbMode, AsWritten, n);
            |r| == |fifo| &&
            (forall j :: 0 <= j < |fifo| && (j < scroll || j >= n) ==> r[j] == fifo[j]) &&
            (forall j :: scroll <= j < n ==> r[j] == Overlay(fifo[j], SpritePixel(s, j), cgbMode))
    decreases n
  {
    if n > 0 {
      AsWrittenPushIgnoresScroll(fifo, s, scroll, cgbMode, n - 1);
    }
  }

  /**
   * Two sprites on one line, both partly off the left edge: the first
   * (at X 8) left eight transparent pixels, the second (at X 4, fully
   * opaque) must show its right half in screen columns 0-3. As written its
   * pixels land in columns 4-7 and column 0 stays transparent; corrected,
   * column 0 shows the second sprite and column 4 stays transparent.
   */
  lemma AsWrittenSpriteMisplaced(fifo: seq<Pixel>, cgbMode: bool)
    requires |fifo| == 8 && forall j :: 0 <= j < 8 ==> fifo[j] == Pixel(0, 0, 0, false, Sprite)
    ensures var s := SpriteRow(0xFF, 0xFF, false, 0, 1, false);
            var w := PushSteps(fifo, s, 4, cgbMode, AsWritten, 8);
            var c := PushSteps(fifo, s, 4, cgbMode, Corrected, 8);
            w[0].color == 0 && w[4].color == 3 && c[0].color == 3 && c[4].color == 0
  {
    var s := SpriteRow(0xFF, 0xFF, false, 0, 1, false);
    AsWrittenPushIgnoresScroll(fifo, s, 4, cgbMode, 8);
    CorrectedPushAligns(fifo, s, 4, cgbMode, 8);
    assert Merged(fifo, s, 4, cgbMode, 0).color == 3;
    assert SpritePixel(s, 4).color == 3;
  }

  /** GetSpritePixel: the front of the sprite FIFO, or the empty pixel (colour 0) when there is none. */
  function PopSprite(fifo: seq<Pixel>): (r: (Pixel, seq<Pixel>))
    ensures fifo == [] ==> r.0 == Empty && r.0.color == 0 && r.1 == []
    ensures fifo != [] ==> [r.0] + r.1 == fifo
  {
    if fifo == [] then (Empty, []) else (fifo[0], fifo[1..])
  }

  // ---------------------------------------------------------------------
  // Background and sprite mixing.
  // ---------------------------------------------------------------------

  /**
   * GetPixel's choice between the background pixel and the sprite pixel.
   * LCDC bit 0 enables the background (always, in CGB mode, where it is
   * instead the sprites' master priority) and bit 1 the sprites.
   */
  function Mix(bg: Pixel, sp: Pixel, cgbMode: bool, lcdc: Byte): (r: Pixel)
    // one layer on: it decides, except that a transparent sprite shows nothing
    ensures (cgbMode || BitSet(lcdc, 0)) && !BitSet(lcdc, 1) ==> r == bg
    ensures !(cgbMode || BitSet(lcdc, 0)) && BitSet(lcdc, 1) ==> r == (if sp.color == 0 then Empty else sp)
    ensures !(cgbMode || BitSet(lcdc, 0)) && !BitSet(lcdc, 1) ==> r == Empty
    // both on: a transparent pixel loses
    ensures (cgbMode || BitSet(lcdc, 0)) && BitSet(lcdc, 1) ==>
              (bg.color == 0 && sp.color != 0 ==> r == sp) && (sp.color == 0 ==> r == bg)
    // both opaque: DMG honours the sprite's priority flag; CGB also the master priority and the background's flag
    ensures !cgbMode && BitSet(lcdc, 0) && BitSet(lcdc, 1) && bg.color != 0 && sp.color != 0 ==>
              r == (if sp.priority then bg else sp)
    ensures cgbMode && BitSet(lcdc, 1) && bg.color != 0 && sp.color != 0 ==>
              r == (if !BitSet(lcdc, 0) || (!bg.priority && !sp.priority) then sp else bg)
  {
    var bgEnabled := if cgbMode then true else lcdc & 0x01 != 0;
    var spritesEnabled := lcdc & 0x02 != 0;
    if bgEnabled && !spritesEnabled then bg
    else if !bgEnabled && spritesEnabled then (if sp.color == 0 then Empty else sp)
    else if !bgEnabled && !spritesEnabled then Empty
    else if bg.color == 0 && sp.color != 0 then sp
    else if sp.color == 0 then bg
    else if cgbMode then (if lcdc & 0x01 == 0 || (!bg.priority && !sp.priority) then sp else bg)
    else if sp.priority then bg
    else sp
  }

  /** The mixed pixel is one of the two, or blank; a transparent sprite pixel never wins over the background. */
  lemma MixChoosesAnInput(bg: Pixel, sp: Pixel, cgbMode: bool, lcdc: Byte)
    ensures var r := Mix(bg, sp, cgbMode, lcdc); r == bg || r == sp || r == Empty
    ensures var r := Mix(bg, sp, cgbMode, lcdc); r == sp && r != bg && r != Empty ==> sp.color != 0
  {
  }

  // ---------------------------------------------------------------------
  // Fetcher addressing.
  // ---------------------------------------------------------------------

  /** The tile-map base the LCDC selects: 0x9800 or 0x9C00. */
  predicate MapBase(base: Word)
  {
    base == 0x9800 || base == 0x9C00
  }

  /** The tile-map entry of a tile row and column, formed with ORs that never overlap. */
  function MapAddress(base: Word, tileRow: Word, column: Word): (a: Word)
    requires MapBase(base) && tileRow < 32 && column < 32
    ensures a == base + tileRow * 32 + column
    ensures base <= a < base + 0x400
  {
    base | (tileRow << 5) | column
  }

  /** The background's tile row: LY plus SCY in eight bits, in tiles. */
  function BackgroundTileRow(ly: int, scy: int): (r: int)
    requires 0 <= ly < 0x100 && 0 <= scy < 0x100
    ensures 0 <= r < 32
  {
    ((ly + scy) % 0x100) / 8
  }

  /** The column of the fetcher's next tile: 0 (window) or SCX/8 (background) for the first slice, then one on, modulo 32. */
  function NextColumn(column: int, firstSlice: bool, window: bool, scx: int): (c: int)
    requires 0 <= scx < 0x100
    ensures 0 <= c < 32
  {
    if firstSlice then (if window then 0 else scx / 8) else (column + 1) % 32
  }

  /** `n` tiles into a background line, the fetcher reads column SCX/8 + n, wrapping round the 32-tile map. */
  function Columns(scx: int, n: nat): int
    requires 0 <= scx < 0x100
    decreases n
  {
    if n == 0 then NextColumn(0, true, false, scx) else NextColumn(Columns(scx, n - 1), false, false, scx)
  }

  lemma {:induction false} ColumnsWrap(scx: int, n: nat)
    requires 0 <= scx < 0x100
    ensures Columns(scx, n) == (scx / 8 + n) % 32
    decreases n
  {
    if n > 0 {
      ColumnsWrap(scx, n - 1);
      ModSucc(scx / 8 + n - 1);
    }
  }

  lemma ModSucc(a: int)
    requires 0 <= a
    ensures (a % 32 + 1) % 32 == (a + 1) % 32
  {
  }

  /** A row flipped vertically: the complement in three bits. */
  function FlipRow(row: int): (r: int)
    requires 0 <= row < 8
    ensures r == 7 - row
  {
    ((!(row as bv8)) & 0x07) as int
  }

  /**
   * The address of row `row` of tile `id`. LCDC bit 4 picks the unsigned
   * area from 0x8000; otherwise ids 0x80-0xFF sit at 0x8800 and 0x00-0x7F
   * at 0x9000.
   */
  function TileDataAddress(id: Byte, row: Word, unsignedMode: bool): (a: Word)
    requires row < 8
    ensures unsignedMode ==> a == 0x8000 + (id as Word) * 16 + row * 2
    ensures !unsignedMode && id >= 0x80 ==> a == 0x8800 + ((id - 0x80) as Word) * 16 + row * 2
    ensures !unsignedMode && id < 0x80 ==> a == 0x9000 + (id as Word) * 16 + row * 2
  {
    if unsignedMode then 0x8000 | ((id as Word) << 4) | (row << 1)
    else if id & 0x80 != 0 then 0x8800 | (((id & 0x7F) as Word) << 4) | (row << 1)
    else 0x9000 | ((id as Word) << 4) | (row << 1)
  }

  /**
   * In the signed area the id is a two's-complement offset from 0x9000
   * (0x9000 plus the id sign-extended to 16 bits, times 16); the unsigned
   * area is 0x8000-0x8FFF and the signed one 0x8800-0x97FF.
   */
  lemma SignedTileArea(id: Byte, row: Word)
    requires row < 8
    ensures var signed: Word := if id < 0x80 then id as Word else (id as Word) | 0xFF00;
            TileDataAddress(id, row, false) == 0x9000 + signed * 16 + row * 2
    ensures 0x8000 <= TileDataAddress(id, row, true) < 0x9000
    ensures 0x8800 <= TileDataAddress(id, row, false) < 0x9800
  {
  }

  /**
   * The address of the row a sprite shows on line `ly`: tall sprites use
   * the even tile of a pair (bit 0 cleared) and move to the odd one below
   * row 7; flipped sprites count rows from the bottom. The row within the
   * sprite is computed in eight bits, and the tile and row fields of the
   * address do not overlap, so the ORs that join them add.
   */
  function SpriteRowAddress(e: OamScan.OamEntry, ly: int, tall: bool): int
  {
    var y := (ly + 16 - e.yPos) % 0x100;
    var id := if tall then e.tileIndex - e.tileIndex % 2 else e.tileIndex;
    var y' := if tall && e.flags.yFlip then 15 - y else if !tall && e.flags.yFlip then 7 - y else y;
    var id' := if tall && y' > 7 then id + 1 else id;
    0x8000 + id' * 16 + (y' % 8) * 2
  }

  /**
   * For a sprite the OAM scan found on the line, the row address is tile
   * base plus twice the row within the sprite (counted from the bottom when
   * flipped), with a tall sprite's two tiles read as one 16-row tile.
   */
  lemma SpriteRowAddressOnLine(e: OamScan.OamEntry, ly: int, tall: bool)
    requires 0 <= e.tileIndex < 0x100 && 0 <= ly < 0x100 && 0 <= e.yPos < 0x100 && OamScan.OnLine(e, ly, tall)
    ensures var h := if tall then 16 else 8;
            var row := if e.flags.yFlip then h - 1 - (ly + 16 - e.yPos) else ly + 16 - e.yPos;
            var base := if tall then e.tileIndex - e.tileIndex % 2 else e.tileIndex;
            SpriteRowAddress(e, ly, tall) == 0x8000 + base * 16 + row * 2
  {
    var y := ly + 16 - e.yPos;
    assert (ly + 16 - e.yPos) % 0x100 == y;
  }
}

=== FILE: ppu.dfy ===
/**
 * The PPU's registers and its dot clock in the current and the earlier
 * revision: the dot and line counters, STAT mode and coincidence bits, the
 * frame-ready and V-blank events, the LCD-off clock, and the register
 * reads and writes.
 *
 * What the pixel FIFO does in a dot is outside this module: whether the
 * window was visible on the line just ended and whether the FIFO produced
 * a pixel are parameters of the clock.
 *
 * The current revision wraps the dot counter from 457 to 0, which makes a
 * line 457 dots long; the earlier revision wraps it from 457 to 1, a line
 * of 456 dots, which is also the line its LCD-off frame period of 65664
 * dots (144 lines) assumes. The current clock carries this as a `Variant`:
 * corrected, the dot counter wraps from 456 to 0.
 */
module Ppu {
  import opened Bits
  import opened Variants

  type U8 = x: int | 0 <= x < 0x100
  type U16 = x: int | 0 <= x < 0x10000

  // ---------------------------------------------------------------------
  // LCDC and STAT.
  // ---------------------------------------------------------------------

  /** The eight LCDC switches. */
  datatype Control = Control(
    lcdOn: bool, windowMapHigh: bool, windowOn: bool, unsignedTiles: bool, bgMapHigh: bool,
    tallSprites: bool, spritesOn: bool, bgWindowOn: bool)

  /** Decoding LCDC: bit 7 is the LCD switch down to bit 0 for background and window. */
  function DecodeLcdc(lcdc: Byte): (c: Control)
    ensures c.lcdOn == BitSet(lcdc, 7) && c.windowMapHigh == BitSet(lcdc, 6) && c.windowOn == BitSet(lcdc, 5)
    ensures c.unsignedTiles == BitSet(lcdc, 4) && c.bgMapHigh == BitSet(lcdc, 3) && c.tallSprites == BitSet(lcdc, 2)
    ensures c.spritesOn == BitSet(lcdc, 1) && c.bgWindowOn == BitSet(lcdc, 0)
  {
    Control(lcdc & 0x80 != 0, lcdc & 0x40 != 0, lcdc & 0x20 != 0, lcdc & 0x10 != 0, lcdc & 0x08 != 0,
            lcdc & 0x04 != 0, lcdc & 0x02 != 0, lcdc & 0x01 != 0)
  }

  function Bit(on: bool, m: Byte): Byte
  {
    if on then m else 0
  }

  /** The LCDC value with the given switches. */
  function EncodeLcdc(c: Control): (lcdc: Byte)
    ensures BitSet(lcdc, 7) == c.lcdOn && BitSet(lcdc, 0) == c.bgWindowOn
  {
    Bit(c.lcdOn, 0x80) | Bit(c.windowMapHigh, 0x40) | Bit(c.windowOn, 0x20) | Bit(c.unsignedTiles, 0x10) |
    Bit(c.bgMapHigh, 0x08) | Bit(c.tallSprites, 0x04) | Bit(c.spritesOn, 0x02) | Bit(c.bgWindowOn, 0x01)
  }

  /** LCDC is determined by its switches. */
  lemma LcdcRoundTrip(lcdc: Byte)
    ensures EncodeLcdc(DecodeLcdc(lcdc)) == lcdc
  {
  }

  /** Every combination of switches has its own LCDC value. */
  lemma ControlRoundTrip(c: Control)
    ensures DecodeLcdc(EncodeLcdc(c)) == c
  {
  }

  /** The window tile map: 0x9C00 iff LCDC bit 6. */
  function WindowTileMap(lcdc: Byte): (base: U16)
    ensures base == 0x9C00 <==> DecodeLcdc(lcdc).windowMapHigh
    ensures base == 0x9800 <==> !DecodeLcdc(lcdc).windowMapHigh
  {
    if lcdc & 0x40 != 0 then 0x9C00 else 0x9800
  }

  /** The background tile map: 0x9C00 iff LCDC bit 3. */
  function BackgroundTileMap(lcdc: Byte): (base: U16)
    ensures base == 0x9C00 <==> DecodeLcdc(lcdc).bgMapHigh
    ensures base == 0x9800 <==> !DecodeLcdc(lcdc).bgMapHigh
  {
    if lcdc & 0x08 != 0 then 0x9C00 else 0x9800
  }

  /** In CGB mode LCDC bit 0 clear gives sprites priority over everything. */
  predicate SpriteMasterPriority(lcdc: Byte)
  {
    lcdc & 0x01 == 0
  }

  /** The mode in STAT bits 0-1. */
  function GetMode(stat: Byte): (m: Byte)
    ensures m < 4
  {
    stat & 0x03
  }

  /** Setting the mode replaces STAT bits 0-1 and nothing else. */
  function SetMode(stat: Byte, mode: Byte): (r: Byte)
    ensures GetMode(r) == mode & 0x03
    ensures r & 0xFC == stat & 0xFC
  {
    (stat & 0xFC) | (mode & 0x03)
  }

  /** The coincidence flag: STAT bit 2 set iff LY equals LYC, every other bit kept. */
  function SetLyc(stat: Byte, ly: U8, lyc: U8): (r: Byte)
    ensures BitSet(r, 2) <==> ly == lyc
    ensures r & 0xFB == stat & 0xFB && GetMode(r) == GetMode(stat)
  {
    if ly == lyc then stat | 0x04 else stat & 0xFB
  }

  /** The mode and the coincidence flag are independent: each setter keeps what the other wrote. */
  lemma ModeAndLycIndependent(stat: Byte, mode: Byte, ly: U8, lyc: U8)
    ensures GetMode(SetLyc(SetMode(stat, mode), ly, lyc)) == mode & 0x03
    ensures SetLyc(SetMode(stat, mode), ly, lyc) == SetMode(SetLyc(stat, ly, lyc), mode)
  {
  }

  // ---------------------------------------------------------------------
  // Dot and line counters.
  // ---------------------------------------------------------------------

  /** Where the dot counter wraps, and the value it wraps to. */
  datatype LineTiming = LineTiming(wrapAt: nat, wrapTo: nat)

  /** The current revision's timing as written (457 to 0) and corrected (456 to 0). */
  function CurrentTiming(v: Variant): (t: LineTiming)
    ensures t.wrapTo == 0 && t.wrapAt == (if v == AsWritten then 457 else 456)
  {
    if v == AsWritten then LineTiming(457, 0) else LineTiming(456, 0)
  }

  /** The earlier revision wraps from 457 to 1. */
  const EarlierTiming := LineTiming(457, 1)

  /** The dots in one line: the number of distinct counter values. */
  function LineDots(t: LineTiming): int
  {
    t.wrapAt - t.wrapTo
  }

  /**
   * One dot of the counters: the dot counter steps, and at the wrap point
   * it restarts and LY steps; LY wraps from 154 to 0 (as an 8-bit count).
   */
  function NextCounters(dot: U16, ly: U8, t: LineTiming): (r: (U16, U8, bool))
    requires t.wrapTo < t.wrapAt < 0x10000
    ensures r.2 <==> dot + 1 == t.wrapAt
    ensures r.2 ==> r.0 == t.wrapTo && r.1 == (if ly + 1 == 154 then 0 else (ly + 1) % 0x100)
    ensures !r.2 ==> r.0 == (dot + 1) % 0x10000 && r.1 == ly
  {
    var d := (dot + 1) % 0x10000;
    if d == t.wrapAt then
      var l := (ly + 1) % 0x100;
      (t.wrapTo, if l == 154 then 0 else l, true)
    else (d, ly, false)
  }

  /** Counters inside a frame. */
  predicate InFrame(dot: U16, ly: U8, t: LineTiming)
  {
    t.wrapTo < t.wrapAt < 0x10000 && dot < t.wrapAt && ly < 154
  }

  /** `n` dots of the counters. */
  function Counters(dot: U16, ly: U8, t: LineTiming, n: nat): (U16, U8)
    requires t.wrapTo < t.wrapAt < 0x10000
    decreases n
  {
    if n == 0 then (dot, ly)
    else
      var r := NextCounters(dot, ly, t);
      Counters(r.0, r.1, t, n - 1)
  }

  lemma {:induction false} CountersBelow(dot: U16, ly: U8, t: LineTiming, n: nat)
    requires t.wrapTo < t.wrapAt < 0x10000 && dot + n < t.wrapAt
    ensures Counters(dot, ly, t, n) == (dot + n, ly)
    decreases n
  {
    if n > 0 {
      CountersBelow(dot + 1, ly, t, n - 1);
    }
  }

  lemma {:induction false} CountersSplit(dot: U16, ly: U8, t: LineTiming, a: nat, b: nat)
    requires t.wrapTo < t.wrapAt < 0x10000
    ensures var m := Counters(dot, ly, t, a); Counters(dot, ly, t, a + b) == Counters(m.0, m.1, t, b)
    decreases a
  {
    if a > 0 {
      var r := NextCounters(dot, ly, t);
      CountersSplit(r.0, r.1, t, a - 1, b);
    }
  }

  /** From the start of a line, one line's worth of dots reaches the start of the next line. */
  lemma OneLine(ly: U8, t: LineTiming)
    requires t.wrapTo < t.wrapAt < 0x10000 && ly < 154
    ensures Counters(t.wrapTo, ly, t, LineDots(t)) == (t.wrapTo, (ly + 1) % 154)
  {
    var k := LineDots(t) - 1;
    CountersBelow(t.wrapTo, ly, t, k);
    CountersSplit(t.wrapTo, ly, t, k, 1);
  }

  /** Within a line only the dot counter moves. */
  lemma WithinLine(ly: U8, t: LineTiming, n: nat)
    requires t.wrapTo < t.wrapAt < 0x10000 && ly < 154 && n < LineDots(t)
    ensures Counters(t.wrapTo, ly, t, n) == (t.wrapTo + n, ly)
  {
    CountersBelow(t.wrapTo, ly, t, n);
  }

  /** `k` whole lines from the start of line `ly` reach the start of line `ly + k`, modulo 154. */
  lemma {:induction false} Lines(ly: U8, t: LineTiming, k: nat)
    requires t.wrapTo < t.wrapAt < 0x10000 && ly < 154
    ensures Counters(t.wrapTo, ly, t, k * LineDots(t)) == (t.wrapTo, (ly + k) % 154)
    decreases k
  {
    if k > 0 {
      var n := LineDots(t);
      Lines(ly, t, k - 1);
      CountersSplit(t.wrapTo, ly, t, (k - 1) * n, n);
      OneLine((ly + k - 1) % 154, t);
      StepLine(ly, k);
      assert (k - 1) * n + n == k * n;
    }
  }

  lemma StepLine(ly: nat, k: nat)
    requires k > 0
    ensures ((ly + k - 1) % 154 + 1) % 154 == (ly + k) % 154
  {
  }

  /** As written, 456 dots from the start of a line leave LY unchanged: the line has 457 dots. */
  lemma AsWrittenLineIs457Dots(ly: U8)
    requires ly < 154
    ensures Counters(0, ly, CurrentTiming(AsWritten), 456) == (456, ly)
    ensures Counters(0, ly, CurrentTiming(AsWritten), 457) == (0, (ly + 1) % 154)
  {
    WithinLine(ly, CurrentTiming(AsWritten), 456);
    OneLine(ly, CurrentTiming(AsWritten));
  }

  /** Corrected, a line takes 456 dots. */
  lemma CorrectedLineIs456Dots(ly: U8)
    requires ly < 154
    ensures Counters(0, ly, CurrentTiming(Corrected), 456) == (0, (ly + 1) % 154)
  {
    OneLine(ly, CurrentTiming(Corrected));
  }

  /** In the earlier revision a line, after the first, also takes 456 dots. */
  lemma EarlierLineIs456Dots(ly: U8)
    requires ly < 154
    ensures Counters(1, ly, EarlierTiming, 456) == (1, (ly + 1) % 154)
  {
    OneLine(ly, EarlierTiming);
  }

  // ---------------------------------------------------------------------
  // The current revision's state and clock.
  // ---------------------------------------------------------------------

  /** The registers the dot clock neither reads nor writes: scroll, palettes, banks and priority mode. */
  datatype Other = Other(
    scy: Byte, scx: Byte, bgp: Byte, obp0: Byte, obp1: Byte, wx: Byte, vbk: Byte, bcps: Byte, ocps: Byte,
    opri: Byte, oamDmaInProgress: bool)

  datatype Ppu = Ppu(
    lcdc: Byte, stat: Byte, ly: U8, lyc: U8, wy: U8,
    dot: U16, lx: U8, windowY: U8, frameReady: bool, vBlank: bool, wyCondition: bool,
    disabledY: U8, firstEnabledFrame: bool, framePointer: nat, other: Other)

  predicate LcdEnabled(p: Ppu)
  {
    p.lcdc & 0x80 != 0
  }

  /** Power-on: the registers the boot ROM would have left when it is skipped, else all zero. */
  function PowerOn(skipBootRom: bool): (p: Ppu)
    ensures p.dot == 0 && p.ly == 0 && p.disabledY == 0 && !p.frameReady && !p.vBlank && !p.other.oamDmaInProgress
    ensures p.lcdc == (if skipBootRom then 0x91 else 0) && p.stat == 0
    ensures LcdEnabled(p) <==> skipBootRom
  {
    var o := Other(0, 0, if skipBootRom then 0xFC else 0, 0, 0, 0, if skipBootRom then 0xFF else 0, 0, 0, 0, false);
    Ppu(if skipBootRom then 0x91 else 0, 0, 0, 0, 0, 0, 0, 0, false, false, false, 0, false, 0, o)
  }

  /** The end of a line: LY steps, the window line follows, and the next line's mode is set. */
  function EndOfLine(p: Ppu, ly: U8, windowVisible: bool): (r: Ppu)
    requires ly < 0x100
    ensures r.ly == ly && r.dot == p.dot
    ensures ly == 0 ==> r.windowY == 0 && !r.vBlank
    ensures ly < 144 ==> GetMode(r.stat) == 2 && r.frameReady == p.frameReady
    ensures ly == 144 ==> GetMode(r.stat) == 1 && r.frameReady && r.vBlank && r.framePointer == 0
    ensures ly > 144 ==> r.stat == p.stat && r.frameReady == p.frameReady
    ensures r.lcdc == p.lcdc && r.lyc == p.lyc
  {
    var windowY := if ly == 0 then 0 else if windowVisible then (p.windowY + 1) % 0x100 else p.windowY;
    var vBlank := if ly == 0 then false else p.vBlank;
    if ly < 144 then p.(ly := ly, windowY := windowY, vBlank := vBlank, stat := SetMode(p.stat, 2))
    else if ly == 144 then
      p.(ly := ly, windowY := windowY, stat := SetMode(p.stat, 1), frameReady := true, framePointer := 0,
         vBlank := true, wyCondition := false, firstEnabledFrame := false)
    else p.(ly := ly, windowY := windowY, vBlank := vBlank)
  }

  /**
   * The visible part of a line: the window condition latches when LY
   * reaches WY, dot 80 scans OAM, dot 81 enters mode 3, and 160 pixels
   * drawn end mode 3.
   */
  function DuringLine(p: Ppu): (r: Ppu)
    requires p.ly < 144
    ensures p.dot == 81 ==> GetMode(r.stat) == 3
    ensures p.dot != 80 && p.dot != 81 && p.lx == 160 ==> GetMode(r.stat) == 0 && r.lx == 0
    ensures r.ly == p.ly && r.dot == p.dot && r.frameReady == p.frameReady
    ensures r.lcdc == p.lcdc && r.lyc == p.lyc
  {
    var wyCondition := p.wyCondition || p.ly == p.wy;
    if p.dot == 80 then p.(wyCondition := wyCondition)
    else if p.dot == 81 then p.(wyCondition := wyCondition, stat := SetMode(p.stat, 3))
    else if p.lx == 160 then p.(wyCondition := wyCondition, lx := 0, stat := SetMode(p.stat, 0))
    else p.(wyCondition := wyCondition)
  }

  /** A pixel from the FIFO in mode 3, after dot 84, is drawn: three bytes of frame buffer and one column. */
  function Draw(p: Ppu, pixel: bool): (r: Ppu)
    ensures GetMode(p.stat) == 3 && p.dot > 84 && pixel ==> r == p.(framePointer := p.framePointer + 3, lx := (p.lx + 1) % 0x100)
    ensures !(GetMode(p.stat) == 3 && p.dot > 84 && pixel) ==> r == p
  {
    if GetMode(p.stat) == 3 && p.dot > 84 && pixel then p.(framePointer := p.framePointer + 3, lx := (p.lx + 1) % 0x100)
    else p
  }

  /** One dot with the LCD on: the counters, the line's mode changes, the coincidence flag, then drawing. */
  function EnabledClock(p: Ppu, v: Variant, windowVisible: bool, pixel: bool): Ppu
  {
    var c := NextCounters(p.dot, p.ly, CurrentTiming(v));
    var p1 := p.(dot := c.0);
    var p2 := if c.2 then EndOfLine(p1, c.1, windowVisible) else if p1.ly < 144 then DuringLine(p1) else p1;
    var p3 := p2.(stat := SetLyc(p2.stat, p2.ly, p2.lyc));
    Draw(p3, pixel)
  }

  /** With the LCD on, dot and LY follow the counters, and LCDC and LYC are untouched. */
  lemma EnabledClockCounters(p: Ppu, v: Variant, windowVisible: bool, pixel: bool)
    ensures var r := EnabledClock(p, v, windowVisible, pixel);
            var c := NextCounters(p.dot, p.ly, CurrentTiming(v));
            r.dot == c.0 && r.ly == c.1 && r.lcdc == p.lcdc && r.lyc == p.lyc
  {
  }

  /**
   * The start of each line sets its mode: 2 for the visible lines, 1 with
   * frame-ready and V-blank raised on line 144; wrapping to line 0 resets
   * the window line and V-blank.
   */
  lemma EnabledClockLineStart(p: Ppu, v: Variant, windowVisible: bool, pixel: bool)
    requires NextCounters(p.dot, p.ly, CurrentTiming(v)).2
    ensures var r := EnabledClock(p, v, windowVisible, pixel);
            (r.ly < 144 ==> GetMode(r.stat) == 2) &&
            (r.ly == 144 ==> GetMode(r.stat) == 1 && r.frameReady && r.vBlank) &&
            (r.ly == 0 ==> r.windowY == 0 && !r.vBlank)
  {
  }

  /** Dot 81 of a visible line enters mode 3. */
  lemma EnabledClockMode3(p: Ppu, v: Variant, windowVisible: bool, pixel: bool)
    requires p.ly < 144 && p.dot == 80 && CurrentTiming(v).wrapAt > 81
    ensures GetMode(EnabledClock(p, v, windowVisible, pixel).stat) == 3
  {
  }

  /** Frame-ready is raised only by entering line 144. */
  lemma EnabledClockFrameReady(p: Ppu, v: Variant, windowVisible: bool, pixel: bool)
    ensures var r := EnabledClock(p, v, windowVisible, pixel);
            r.frameReady ==> p.frameReady || (NextCounters(p.dot, p.ly, CurrentTiming(v)).2 && r.ly == 144)
  {
  }

  /** After every dot the coincidence flag tells whether LY equals LYC. */
  lemma EnabledClockCoincidence(p: Ppu, v: Variant, windowVisible: bool, pixel: bool)
    ensures var r := EnabledClock(p, v, windowVisible, pixel);
            BitSet(r.stat, 2) <==> r.ly == p.lyc
  {
  }

  /**
   * One dot with the LCD off: the same counters run on a private line
   * count; line 144 raises frame-ready, and the first 160 dots of each of
   * the first 144 lines blank a pixel of the frame buffer.
   */
  function DisabledClock(p: Ppu, v: Variant): (r: Ppu)
    ensures var c := NextCounters(p.dot, p.disabledY, CurrentTiming(v));
            r.dot == c.0 && r.disabledY == c.1 && (c.2 && c.1 == 144 ==> r.frameReady && r.framePointer == 0)
    ensures r.frameReady ==> p.frameReady || r.disabledY == 144
    ensures r.stat == p.stat && r.ly == p.ly && r.lcdc == p.lcdc && r.vBlank == p.vBlank
  {
    var c := NextCounters(p.dot, p.disabledY, CurrentTiming(v));
    if c.2 then
      if c.1 == 144 then p.(dot := c.0, disabledY := c.1, frameReady := true, framePointer := 0)
      else p.(dot := c.0, disabledY := c.1)
    else if p.disabledY < 144 && c.0 < 161 then p.(dot := c.0, framePointer := p.framePointer + 3)
    else p.(dot := c.0)
  }

  /** One PPU dot. */
  function Clock(p: Ppu, v: Variant, windowVisible: bool, pixel: bool): (r: Ppu)
    ensures LcdEnabled(p) ==> r == EnabledClock(p, v, windowVisible, pixel)
    ensures !LcdEnabled(p) ==> r == DisabledClock(p, v)
  {
    if LcdEnabled(p) then EnabledClock(p, v, windowVisible, pixel) else DisabledClock(p, v)
  }

  /** Dots with the LCD on, one pair of FIFO observations per dot. */
  function Run(p: Ppu, v: Variant, fifo: seq<(bool, bool)>): (r: Ppu)
    decreases |fifo|
  {
    if |fifo| == 0 then p
    else Run(Clock(p, v, fifo[0].0, fifo[0].1), v, fifo[1..])
  }

  /** With the LCD on, the clock's dot and LY follow the counters, whatever the FIFO does. */
  lemma {:induction false} RunFollowsCounters(p: Ppu, v: Variant, fifo: seq<(bool, bool)>)
    requires LcdEnabled(p)
    ensures LcdEnabled(Run(p, v, fifo))
    ensures (Run(p, v, fifo).dot, Run(p, v, fifo).ly) == Counters(p.dot, p.ly, CurrentTiming(v), |fifo|)
    decreases |fifo|
  {
    if |fifo| > 0 {
      EnabledClockCounters(p, v, fifo[0].0, fifo[0].1);
      RunFollowsCounters(Clock(p, v, fifo[0].0, fifo[0].1), v, fifo[1..]);
    }
  }

  /**
   * With the LCD on, a frame ends every 154 lines: from the start of LY 0,
   * LY 144 is reached exactly 144 lines later, when frame-ready is raised.
   */
  lemma FrameReadyAfter144Lines(p: Ppu, v: Variant, fifo: seq<(bool, bool)>)
    requires LcdEnabled(p) && p.dot == 0 && p.ly == 0 && |fifo| == 144 * LineDots(CurrentTiming(v))
    ensures Run(p, v, fifo).ly == 144 && Run(p, v, fifo).dot == 0
  {
    RunFollowsCounters(p, v, fifo);
    Lines(0, CurrentTiming(v), 144);
  }

  // ---------------------------------------------------------------------
  // The earlier revision's clock.
  // ---------------------------------------------------------------------

  /** The frame period the earlier revision counts while the LCD is off: 144 lines of 456 dots. */
  const DisabledFrameDots := 65664

  /** The visible part of a line in the earlier revision: the OAM scan at dot 80 also restarts the column. */
  function DuringLineOld(p: Ppu): (r: Ppu)
    requires p.ly < 144
    ensures p.dot == 80 ==> r.lx == 0
    ensures p.dot == 81 ==> GetMode(r.stat) == 3
    ensures p.dot != 80 && p.dot != 81 && p.lx == 160 ==> GetMode(r.stat) == 0
    ensures r.ly == p.ly && r.dot == p.dot && r.frameReady == p.frameReady
    ensures r.lcdc == p.lcdc && r.lyc == p.lyc
  {
    var wyCondition := p.wyCondition || p.ly == p.wy;
    if p.dot == 80 then p.(wyCondition := wyCondition, lx := 0)
    else if p.dot == 81 then p.(wyCondition := wyCondition, stat := SetMode(p.stat, 3))
    else if p.lx == 160 then p.(wyCondition := wyCondition, stat := SetMode(p.stat, 0))
    else p.(wyCondition := wyCondition)
  }

  /** While the LCD is off and no frame is pending, the disabled-dot count runs up to one frame. */
  function CountDisabled(p: Ppu, disabledDots: nat): (r: (Ppu, nat))
    ensures !LcdEnabled(p) && !p.frameReady && disabledDots + 1 == DisabledFrameDots ==>
              r == (p.(frameReady := true), 0)
    ensures !LcdEnabled(p) && !p.frameReady && disabledDots + 1 != DisabledFrameDots ==>
              r == (p, disabledDots + 1)
    ensures LcdEnabled(p) || p.frameReady ==> r == (p, disabledDots)
  {
    if !LcdEnabled(p) && !p.frameReady then
      if disabledDots + 1 == DisabledFrameDots then (p.(frameReady := true), 0) else (p, disabledDots + 1)
    else (p, disabledDots)
  }

  /**
   * One dot of the earlier revision. The disabled-dot count runs while the
   * LCD is off, and the dot and line counters run whether or not it is on;
   * a pixel is drawn whenever the FIFO yields one in mode 3.
   */
  function ClockOld(p: Ppu, disabledDots: nat, windowVisible: bool, pixel: bool): (r: (Ppu, nat))
    ensures var c := NextCounters(p.dot, p.ly, EarlierTiming);
            r.0.dot == c.0 && r.0.ly == c.1 && r.0.lcdc == p.lcdc
    ensures LcdEnabled(p) || p.frameReady ==> r.1 == disabledDots && (p.frameReady ==> r.0.frameReady)
    ensures !LcdEnabled(p) && !p.frameReady ==>
              r.1 == (if disabledDots + 1 == DisabledFrameDots then 0 else disabledDots + 1) &&
              (disabledDots + 1 == DisabledFrameDots ==> r.0.frameReady)
  {
    var (p0, dd) := CountDisabled(p, disabledDots);
    (CountedClockOld(p0, windowVisible, pixel), dd)
  }

  /**
   * The earlier revision's PPU reset, run by an LCDC write that turns the
   * LCD off or on: LY, the dot and column counters, the window line, the
   * frame pointer, the events and the disabled-dot count go back to 0, and
   * the mode to 2; LCDC, LYC, WY and the other registers stay.
   */
  function ResetOld(p: Ppu): (r: (Ppu, nat))
    ensures r.0.ly == 0 && r.0.dot == 0 && r.0.lx == 0 && r.0.windowY == 0 && r.0.framePointer == 0 && r.1 == 0
    ensures !r.0.frameReady && !r.0.vBlank && !r.0.wyCondition
    ensures GetMode(r.0.stat) == 2 && r.0.stat & 0xFC == p.stat & 0xFC
    ensures r.0.lcdc == p.lcdc && r.0.lyc == p.lyc && r.0.wy == p.wy && r.0.other == p.other
  {
    (p.(ly := 0, framePointer := 0, dot := 0, lx := 0, windowY := 0, frameReady := false, vBlank := false,
        wyCondition := false, stat := SetMode(p.stat, 2)), 0)
  }

  /** A second reset changes nothing more. */
  lemma ResetOldIdempotent(p: Ppu)
    ensures ResetOld(ResetOld(p).0) == ResetOld(p)
  {
  }

  /** With the LCD on, a reset PPU starts line 0: its first dot is the second dot of line 0, still in mode 2. */
  lemma ResetOldStartsLine(p: Ppu, windowVisible: bool, pixel: bool)
    requires LcdEnabled(p)
    ensures var q := CountedClockOld(ResetOld(p).0, windowVisible, pixel);
            q.ly == 0 && q.dot == 1 && GetMode(q.stat) == 2 && !q.frameReady
  {
  }

  /** The part of an earlier-revision dot after the disabled-dot count. */
  function CountedClockOld(p: Ppu, windowVisible: bool, pixel: bool): (r: Ppu)
    ensures var c := NextCounters(p.dot, p.ly, EarlierTiming);
            r.dot == c.0 && r.ly == c.1 && r.lcdc == p.lcdc
    ensures p.frameReady ==> r.frameReady
  {
    var c := NextCounters(p.dot, p.ly, EarlierTiming);
    var p1 := p.(dot := c.0);
    var p2 := if c.2 then EndOfLine(p1, c.1, windowVisible) else if p1.ly < 144 then DuringLineOld(p1) else p1;
    var p3 := p2.(stat := SetLyc(p2.stat, p2.ly, p2.lyc));
    DrawOld(p3, pixel)
  }

  /** The earlier revision draws whenever the FIFO yields a pixel in mode 3, from the first dot of the mode. */
  function DrawOld(p: Ppu, pixel: bool): (r: Ppu)
    ensures GetMode(p.stat) == 3 && pixel ==> r == p.(framePointer := p.framePointer + 3, lx := (p.lx + 1) % 0x100)
    ensures !(GetMode(p.stat) == 3 && pixel) ==> r == p
  {
    if GetMode(p.stat) == 3 && pixel then p.(framePointer := p.framePointer + 3, lx := (p.lx + 1) % 0x100) else p
  }

  /** No dot of the earlier revision clears a pending frame-ready. */
  lemma CountedClockOldKeepsFrameReady(p: Ppu, windowVisible: bool, pixel: bool)
    requires p.frameReady
    ensures CountedClockOld(p, windowVisible, pixel).frameReady
  {
  }

  /** In the earlier revision dot and LY follow the 457-to-1 counters, with the LCD on or off. */
  lemma ClockOldCounters(p: Ppu, disabledDots: nat, windowVisible: bool, pixel: bool)
    ensures var r := ClockOld(p, disabledDots, windowVisible, pixel).0;
            var c := NextCounters(p.dot, p.ly, EarlierTiming);
            r.dot == c.0 && r.ly == c.1 && r.lcdc == p.lcdc
  {
    var (p0, _) := CountDisabled(p, disabledDots);
    assert p0.dot == p.dot && p0.ly == p.ly && p0.lcdc == p.lcdc;
    CountedClockOldCounters(p0, windowVisible, pixel);
  }

  lemma CountedClockOldCounters(p: Ppu, windowVisible: bool, pixel: bool)
    ensures var r := CountedClockOld(p, windowVisible, pixel);
            var c := NextCounters(p.dot, p.ly, EarlierTiming);
            r.dot == c.0 && r.ly == c.1 && r.lcdc == p.lcdc
  {
  }

  /**
   * With the LCD off in the earlier revision, frame-ready is raised by the
   * 65664th counted dot, and the count restarts.
   */
  lemma ClockOldDisabledFrame(p: Ppu, disabledDots: nat, windowVisible: bool, pixel: bool)
    requires !LcdEnabled(p) && !p.frameReady
    ensures var r := ClockOld(p, disabledDots, windowVisible, pixel);
            (disabledDots + 1 == DisabledFrameDots ==> r.0.frameReady && r.1 == 0) &&
            (disabledDots + 1 != DisabledFrameDots ==> r.1 == disabledDots + 1)
  {
    var (p0, dd) := CountDisabled(p, disabledDots);
    if disabledDots + 1 == DisabledFrameDots {
      CountedClockOldKeepsFrameReady(p0, windowVisible, pixel);
    }
  }

  /** The disabled frame period is exactly 144 lines of the earlier revision's 456-dot line. */
  lemma DisabledFrameIs144Lines()
    ensures DisabledFrameDots == 144 * LineDots(CurrentTiming(Corrected))
    ensures DisabledFrameDots == 144 * (LineDots(EarlierTiming) - 1) + 144
  {
  }

  /** In the earlier revision, too, each line starts in its mode, and line 144 raises frame-ready and V-blank. */
  lemma ClockOldLineStart(p: Ppu, disabledDots: nat, windowVisible: bool, pixel: bool)
    requires NextCounters(p.dot, p.ly, EarlierTiming).2
    ensures var r := ClockOld(p, disabledDots, windowVisible, pixel).0;
            (r.ly < 144 ==> GetMode(r.stat) == 2) &&
            (r.ly == 144 ==> GetMode(r.stat) == 1 && r.frameReady && r.vBlank) &&
            (r.ly == 0 ==> r.windowY == 0 && !r.vBlank)
  {
  }

  /** The frame-ready event is read and cleared. */
  function FrameReady(p: Ppu): (r: (bool, Ppu))
    ensures r.0 == p.frameReady && r.1 == p.(frameReady := false)
  {
    if p.frameReady then (true, p.(frameReady := false)) else (false, p)
  }

  /** The V-blank event is read and cleared. */
  function VBlank(p: Ppu): (r: (bool, Ppu))
    ensures r.0 == p.vBlank && r.1 == p.(vBlank := false)
  {
    if p.vBlank then (true, p.(vBlank := false)) else (false, p)
  }

  /** A second read with no clock in between reports no event. */
  lemma EventsReadOnce(p: Ppu)
    ensures !FrameReady(FrameReady(p).1).0 && !VBlank(VBlank(p).1).0
    ensures FrameReady(FrameReady(p).1).1 == FrameReady(p).1
  {
  }

  // ---------------------------------------------------------------------
  // Register reads and writes of the current revision.
  // ---------------------------------------------------------------------

  /** The register reads the PPU answers itself; BCPD/OCPD read palette memory elsewhere. */
  function ReadIoReg(p: Ppu, ioAddr: U8): (b: Byte)
    ensures ioAddr == 0x41 ==> b == p.stat | 0x80 && BitSet(b, 7)
    ensures ioAddr == 0x44 ==> b == (if p.ly == 153 && p.dot > 3 then 0 else FromNat(p.ly))
    ensures ioAddr == 0x4F ==> b == p.other.vbk | 0xFE
    ensures ioAddr == 0x68 ==> b == p.other.bcps | 0x40
    ensures ioAddr == 0x6A ==> b == p.other.ocps | 0x40
    ensures ioAddr == 0x40 ==> b == p.lcdc
    ensures !(0x40 <= ioAddr <= 0x4B) && ioAddr !in {0x4F, 0x68, 0x6A, 0x6C} ==> b == 0xFF
  {
    match ioAddr
    case 0x40 => p.lcdc
    case 0x41 => p.stat | 0x80
    case 0x42 => p.other.scy
    case 0x43 => p.other.scx
    case 0x44 => if p.ly == 153 && p.dot > 3 then 0 else FromNat(p.ly)
    case 0x45 => FromNat(p.lyc)
    case 0x47 => p.other.bgp
    case 0x48 => p.other.obp0
    case 0x49 => p.other.obp1
    case 0x4A => FromNat(p.wy)
    case 0x4B => p.other.wx
    case 0x4F => p.other.vbk | 0xFE
    case 0x68 => p.other.bcps | 0x40
    case 0x6A => p.other.ocps | 0x40
    case 0x6C => p.other.opri
    case _ => 0xFF
  }

  /** A STAT write takes bits 3-6 from the data and keeps the mode and coincidence bits. */
  function WriteStat(stat: Byte, data: Byte): (r: Byte)
    ensures r & 0x78 == data & 0x78 && r & 0x07 == stat & 0x07 && !BitSet(r, 7)
  {
    (stat & 0x07) | (data & 0x78)
  }

  /**
   * An LCDC write. Turning the LCD off resets the counters, the frame
   * state and the mode; turning it on restarts the dot counter in mode 2
   * and marks the first frame, which is drawn blank.
   */
  function WriteLcdc(p: Ppu, data: Byte): (r: Ppu)
    ensures r.lcdc == data
    ensures LcdEnabled(p) && !LcdEnabled(r) ==>
              r.ly == 0 && r.lx == 0 && r.windowY == 0 && r.disabledY == 0 && r.dot == 0 && r.framePointer == 0 &&
              !r.frameReady && !r.vBlank && GetMode(r.stat) == 0 && r.stat & 0xFC == p.stat & 0xFC
    ensures !LcdEnabled(p) && LcdEnabled(r) ==>
              r.dot == 0 && r.framePointer == 0 && !r.frameReady && r.firstEnabledFrame && GetMode(r.stat) == 2 &&
              r.ly == p.ly && r.stat & 0xFC == p.stat & 0xFC
    ensures LcdEnabled(p) == LcdEnabled(r) ==> r == p.(lcdc := data)
  {
    var r := p.(lcdc := data);
    if LcdEnabled(p) && !LcdEnabled(r) then
      r.(ly := 0, lx := 0, windowY := 0, disabledY := 0, dot := 0, framePointer := 0, frameReady := false,
         vBlank := false, wyCondition := false, stat := p.stat & 0xFC)
    else if !LcdEnabled(p) && LcdEnabled(r) then
      r.(dot := 0, framePointer := 0, frameReady := false, firstEnabledFrame := true, stat := SetMode(p.stat, 2))
    else r
  }

  /** The register writes the PPU handles itself (palette data is written elsewhere); LY ignores writes. */
  function WriteIoReg(p: Ppu, ioAddr: U8, data: Byte): (r: Ppu)
    ensures ioAddr == 0x40 ==> r == WriteLcdc(p, data)
    ensures ioAddr == 0x41 ==> r == p.(stat := WriteStat(p.stat, data))
    ensures ioAddr != 0x40 ==> r.lcdc == p.lcdc && r.ly == p.ly && r.dot == p.dot
    ensures !(0x40 <= ioAddr <= 0x4B) && ioAddr !in {0x4F, 0x68, 0x6A, 0x6C} ==> r == p
  {
    match ioAddr
    case 0x40 => WriteLcdc(p, data)
    case 0x41 => p.(stat := WriteStat(p.stat, data))
    case 0x42 => p.(other := p.other.(scy := data))
    case 0x43 => p.(other := p.other.(scx := data))
    case 0x45 => p.(lyc := ToNat(data))
    case 0x47 => p.(other := p.other.(bgp := data))
    case 0x48 => p.(other := p.other.(obp0 := data))
    case 0x49 => p.(other := p.other.(obp1 := data))
    case 0x4A => p.(wy := ToNat(data))
    case 0x4B => p.(other := p.other.(wx := data))
    case 0x4F => p.(other := p.other.(vbk := data))
    case 0x68 => p.(other := p.other.(bcps := data))
    case 0x6A => p.(other := p.other.(ocps := data))
    case 0x6C => p.(other := p.other.(opri := data))
    case _ => p
  }

  /**
   * What a register reads back after a write: plain registers the data,
   * STAT the written bits 3-6 over the kept mode and coincidence bits with
   * bit 7 set, VBK bits 1-7 set, BCPS/OCPS bit 6 set, and LY its old value.
   */
  lemma WriteThenRead(p: Ppu, ioAddr: U8, data: Byte)
    ensures var b := ReadIoReg(WriteIoReg(p, ioAddr, data), ioAddr);
            (ioAddr in {0x40, 0x42, 0x43, 0x45, 0x47, 0x48, 0x49, 0x4A, 0x4B, 0x6C} ==> b == data) &&
            (ioAddr == 0x44 ==> b == ReadIoReg(p, 0x44))
  {
    if ioAddr == 0x40 {
      assert WriteIoReg(p, ioAddr, data).lcdc == data;
    } else if ioAddr == 0x44 {
      assert WriteIoReg(p, ioAddr, data) == p;
    } else if ioAddr == 0x45 || ioAddr == 0x4A {
      FromNatToNat(data);
    } else if ioAddr in {0x42, 0x43, 0x47, 0x48, 0x49, 0x4B, 0x6C} {
      OtherWriteThenRead(p, ioAddr, data);
    }
  }

  lemma OtherWriteThenRead(p: Ppu, ioAddr: U8, data: Byte)
    requires ioAddr in {0x42, 0x43, 0x47, 0x48, 0x49, 0x4B, 0x6C}
    ensures ReadIoReg(WriteIoReg(p, ioAddr, data), ioAddr) == data
  {
  }

  /**
   * Registers with bits a write cannot change: STAT keeps its mode and
   * coincidence bits and reads bit 7 set, VBK reads bits 1-7 set, and
   * BCPS/OCPS read bit 6 set.
   */
  lemma MaskedWriteThenRead(p: Ppu, ioAddr: U8, data: Byte)
    ensures var b := ReadIoReg(WriteIoReg(p, ioAddr, data), ioAddr);
            (ioAddr == 0x41 ==> b == (data & 0x78) | (p.stat & 0x07) | 0x80) &&
            (ioAddr == 0x4F ==> b == data | 0xFE) &&
            (ioAddr in {0x68, 0x6A} ==> b == data | 0x40)
  {
    var r := WriteIoReg(p, ioAddr, data);
    if ioAddr == 0x41 {
      assert r.stat == (p.stat & 0x07) | (data & 0x78);
    }
  }
}

=== FILE: ppu_memory.dfy ===
/**
 * The PPU's memories as the CPU sees them: two 8 KiB VRAM banks, the
 * 160-byte OAM, and the two 64-byte colour RAMs behind BCPS/BCPD and
 * OCPS/OCPD, with the mode gates on each, in the current revision (where
 * the PPU owns them) and the earlier one (where the bus did, and the gates
 * also required the LCD to be on). Also the conversion of a CGB colour-RAM
 * entry into the 24-bit pixel the frame buffer receives.
 */
module PpuMemory {
  import opened Bits

  type Mode = m: int | 0 <= m < 4
  /** An address in the VRAM window 0x8000-0x9FFF. */
  type VramAddr = a: int | 0x8000 <= a < 0xA000 witness 0x8000
  /** An address in OAM, 0xFE00-0xFE9F. */
  type OamAddr = a: int | 0xFE00 <= a < 0xFEA0 witness 0xFE00

  const VramBankSize := 0x2000
  const OamSize := 0xA0
  const CramSize := 0x40

  /** VRAM holds both banks back to back: bank 1 starts at 0x2000. */
  datatype Memory = Memory(vram: seq<Byte>, oam: seq<Byte>, oamDmaInProgress: bool)

  predicate Valid(m: Memory)
  {
    |m.vram| == 2 * VramBankSize && |m.oam| == OamSize
  }

  // ---------------------------------------------------------------------
  // VRAM and OAM gates.
  // ---------------------------------------------------------------------

  /** The selected VRAM bank: VBK bit 0 in CGB mode, bank 0 otherwise. */
  function VramBank(cgbMode: bool, vbk: Byte): (b: int)
    ensures b == 0 || b == 1
    ensures cgbMode ==> (b == 1 <==> BitSet(vbk, 0))
    ensures !cgbMode ==> b == 0
  {
    if cgbMode then (vbk & 0x01) as int else 0
  }

  /** The current revision blocks VRAM in mode 3. */
  predicate VramBlocked(mode: Mode)
  {
    mode == 3
  }

  /** The earlier revision blocks VRAM in mode 3 only while the LCD is on. */
  predicate VramBlockedOld(lcdOn: bool, mode: Mode)
  {
    lcdOn && mode == 3
  }

  /** OAM is blocked in modes 2 and 3 (the earlier revision: only while the LCD is on). */
  predicate OamBlocked(mode: Mode)
  {
    mode == 2 || mode == 3
  }

  predicate OamBlockedOld(lcdOn: bool, mode: Mode)
  {
    lcdOn && (mode == 2 || mode == 3)
  }

  /** The cell a VRAM address selects in the chosen bank. */
  function VramIndex(bank: int, addr: VramAddr): (i: int)
    requires bank == 0 || bank == 1
    ensures 0 <= i < 2 * VramBankSize
    ensures i / VramBankSize == bank && i % VramBankSize == addr - 0x8000
  {
    bank * VramBankSize + (addr - 0x8000)
  }

  /** A VRAM read through a gate: 0xFF while blocked, the cell otherwise. */
  function ReadVram(m: Memory, blocked: bool, bank: int, addr: VramAddr): (r: Byte)
    requires Valid(m) && (bank == 0 || bank == 1)
    ensures blocked ==> r == 0xFF
    ensures !blocked ==> r == m.vram[VramIndex(bank, addr)]
  {
    if blocked then 0xFF else m.vram[VramIndex(bank, addr)]
  }

  /** A VRAM write through a gate: dropped while blocked; only the addressed cell changes. */
  function WriteVram(m: Memory, blocked: bool, bank: int, addr: VramAddr, data: Byte): (r: Memory)
    requires Valid(m) && (bank == 0 || bank == 1)
    ensures Valid(r) && r.oam == m.oam && r.oamDmaInProgress == m.oamDmaInProgress
    ensures blocked ==> r == m
    ensures !blocked ==> r.vram[VramIndex(bank, addr)] == data
    ensures forall i :: 0 <= i < |m.vram| && i != VramIndex(bank, addr) ==> r.vram[i] == m.vram[i]
  {
    if blocked then m else m.(vram := m.vram[VramIndex(bank, addr) := data])
  }

  /** The current revision's CPU access to VRAM: blocked in mode 3. */
  function CpuReadVram(m: Memory, mode: Mode, cgbMode: bool, vbk: Byte, addr: VramAddr): (r: Byte)
    requires Valid(m)
    ensures mode == 3 ==> r == 0xFF
    ensures mode != 3 ==> r == m.vram[VramIndex(VramBank(cgbMode, vbk), addr)]
  {
    ReadVram(m, VramBlocked(mode), VramBank(cgbMode, vbk), addr)
  }

  function CpuWriteVram(m: Memory, mode: Mode, cgbMode: bool, vbk: Byte, addr: VramAddr, data: Byte): (r: Memory)
    requires Valid(m)
    ensures Valid(r) && r.oam == m.oam
    ensures mode == 3 ==> r == m
    ensures mode != 3 ==> r.vram[VramIndex(VramBank(cgbMode, vbk), addr)] == data
    ensures forall i :: 0 <= i < |m.vram| && i != VramIndex(VramBank(cgbMode, vbk), addr) ==> r.vram[i] == m.vram[i]
  {
    WriteVram(m, VramBlocked(mode), VramBank(cgbMode, vbk), addr, data)
  }

  /** The earlier revision's CPU access to VRAM: blocked in mode 3 only while the LCD is on. */
  function CpuReadVramOld(m: Memory, lcdOn: bool, mode: Mode, cgbMode: bool, vbk: Byte, addr: VramAddr): (r: Byte)
    requires Valid(m)
    ensures lcdOn && mode == 3 ==> r == 0xFF
    ensures !(lcdOn && mode == 3) ==> r == m.vram[VramIndex(VramBank(cgbMode, vbk), addr)]
  {
    ReadVram(m, VramBlockedOld(lcdOn, mode), VramBank(cgbMode, vbk), addr)
  }

  function CpuWriteVramOld(m: Memory, lcdOn: bool, mode: Mode, cgbMode: bool, vbk: Byte, addr: VramAddr, data: Byte): (r: Memory)
    requires Valid(m)
    ensures Valid(r) && r.oam == m.oam
    ensures lcdOn && mode == 3 ==> r == m
    ensures !(lcdOn && mode == 3) ==> r.vram[VramIndex(VramBank(cgbMode, vbk), addr)] == data
    ensures forall i :: 0 <= i < |m.vram| && i != VramIndex(VramBank(cgbMode, vbk), addr) ==> r.vram[i] == m.vram[i]
  {
    WriteVram(m, VramBlockedOld(lcdOn, mode), VramBank(cgbMode, vbk), addr, data)
  }

  /**
   * Outside mode 3 a VRAM write reads back, and a write to another address
   * or bank leaves a read unchanged; in mode 3 reads give 0xFF and writes
   * change nothing.
   */
  lemma VramAccess(m: Memory, mode: Mode, cgbMode: bool, vbk: Byte, addr: VramAddr, other: VramAddr, data: Byte)
    requires Valid(m)
    ensures var w := CpuWriteVram(m, mode, cgbMode, vbk, addr, data);
            (mode != 3 ==> CpuReadVram(w, mode, cgbMode, vbk, addr) == data) &&
            (other != addr ==> CpuReadVram(w, mode, cgbMode, vbk, other) == CpuReadVram(m, mode, cgbMode, vbk, other)) &&
            (mode == 3 ==> w == m && CpuReadVram(m, mode, cgbMode, vbk, addr) == 0xFF)
  {
    var b := VramBank(cgbMode, vbk);
    assert other != addr ==> VramIndex(b, other) != VramIndex(b, addr);
  }

  /** The two banks are separate memories: a write through one bank is invisible through the other. */
  lemma BanksAreSeparate(m: Memory, mode: Mode, vbk: Byte, addr: VramAddr, data: Byte)
    requires Valid(m)
    ensures var w := CpuWriteVram(m, mode, true, vbk, addr, data);
            CpuReadVram(w, mode, true, vbk ^ 0x01, addr) == CpuReadVram(m, mode, true, vbk ^ 0x01, addr)
  {
    assert VramBank(true, vbk) != VramBank(true, vbk ^ 0x01);
  }

  /** With the LCD off the earlier revision never blocks VRAM; with it on the revisions agree. */
  lemma VramRevisionsCompared(m: Memory, lcdOn: bool, mode: Mode, cgbMode: bool, vbk: Byte, addr: VramAddr, data: Byte)
    requires Valid(m)
    ensures lcdOn ==> CpuReadVramOld(m, lcdOn, mode, cgbMode, vbk, addr) == CpuReadVram(m, mode, cgbMode, vbk, addr)
    ensures lcdOn ==> CpuWriteVramOld(m, lcdOn, mode, cgbMode, vbk, addr, data) == CpuWriteVram(m, mode, cgbMode, vbk, addr, data)
    ensures !lcdOn ==> CpuReadVramOld(CpuWriteVramOld(m, lcdOn, mode, cgbMode, vbk, addr, data), lcdOn, mode, cgbMode, vbk, addr) == data
  {
  }

  /** An OAM read through a gate. */
  function ReadOam(m: Memory, blocked: bool, addr: OamAddr): (r: Byte)
    requires Valid(m)
    ensures blocked ==> r == 0xFF
    ensures !blocked ==> r == m.oam[addr - 0xFE00]
  {
    if blocked then 0xFF else m.oam[addr - 0xFE00]
  }

  /** A CPU write to OAM: dropped while blocked; it never touches the DMA flag. */
  function WriteOam(m: Memory, blocked: bool, addr: OamAddr, data: Byte): (r: Memory)
    requires Valid(m)
    ensures Valid(r) && r.vram == m.vram && r.oamDmaInProgress == m.oamDmaInProgress
    ensures blocked ==> r == m
    ensures !blocked ==> r.oam == m.oam[addr - 0xFE00 := data]
  {
    if blocked then m else m.(oam := m.oam[addr - 0xFE00 := data])
  }

  /**
   * A write from the OAM DMA passes the mode gate, and marks the DMA as
   * running for every address but the last OAM byte.
   */
  function DmaWriteOam(m: Memory, addr: OamAddr, data: Byte): (r: Memory)
    requires Valid(m)
    ensures Valid(r) && r.vram == m.vram
    ensures r.oam == m.oam[addr - 0xFE00 := data]
    ensures r.oamDmaInProgress <==> addr != 0xFE9F
  {
    m.(oamDmaInProgress := addr != 0xFE9F, oam := m.oam[addr - 0xFE00 := data])
  }

  /** DMA bytes written in OAM order, from `start` on. */
  function DmaWrites(m: Memory, start: int, data: seq<Byte>): (r: Memory)
    requires Valid(m) && 0xFE00 <= start && start + |data| <= 0xFEA0
    ensures Valid(r)
    decreases |data|
  {
    if data == [] then m
    else DmaWrites(DmaWriteOam(m, start, data[0]), start + 1, data[1..])
  }

  /**
   * A whole DMA in OAM order, in any mode, fills OAM with its 160 bytes,
   * and the running flag is clear exactly when the last byte has landed.
   */
  lemma {:induction false} DmaFillsOam(m: Memory, start: int, data: seq<Byte>)
    requires Valid(m) && 0xFE00 <= start && start + |data| <= 0xFEA0 && |data| > 0
    ensures var r := DmaWrites(m, start, data);
            r.oam == m.oam[..start - 0xFE00] + data + m.oam[start - 0xFE00 + |data|..] &&
            (r.oamDmaInProgress <==> start + |data| != 0xFEA0)
    decreases |data|
  {
    var m1 := DmaWriteOam(m, start, data[0]);
    if |data| > 1 {
      DmaFillsOam(m1, start + 1, data[1..]);
      assert m1.oam[..start + 1 - 0xFE00] == m.oam[..start - 0xFE00] + [data[0]];
      assert m1.oam[start + 1 - 0xFE00 + |data| - 1..] == m.oam[start - 0xFE00 + |data|..];
      assert [data[0]] + data[1..] == data;
    } else {
      assert DmaWrites(m1, start + 1, data[1..]) == m1;
    }
  }

  /** A DMA write lands in OAM in mode 2 and 3, where the same write from the CPU is dropped. */
  lemma DmaBypassesGate(m: Memory, mode: Mode, addr: OamAddr, data: Byte)
    requires Valid(m) && OamBlocked(mode)
    ensures ReadOam(DmaWriteOam(m, addr, data), false, addr) == data
    ensures WriteOam(m, OamBlocked(mode), addr, data) == m
  {
  }

  /** Outside modes 2-3, an OAM write reads back; in them, reads give 0xFF. */
  lemma OamAccess(m: Memory, mode: Mode, addr: OamAddr, data: Byte)
    requires Valid(m)
    ensures !OamBlocked(mode) ==> ReadOam(WriteOam(m, OamBlocked(mode), addr, data), OamBlocked(mode), addr) == data
    ensures OamBlocked(mode) ==> ReadOam(m, OamBlocked(mode), addr) == 0xFF
  {
  }

  // ---------------------------------------------------------------------
  // Colour RAM behind the palette specification and data registers.
  // ---------------------------------------------------------------------

  /** The 6-bit colour-RAM index a specification register selects. */
  function Index(spec: Byte): (i: int)
    ensures 0 <= i < CramSize
  {
    (spec & 0x3F) as int
  }

  /** The specification register after a data write, with the bits above the index that it keeps. */
  function Advance(spec: Byte, keep: Byte): (r: Byte)
    requires keep == 0x80 || keep == 0xC0
    ensures !BitSet(spec, 7) ==> r == spec
    ensures BitSet(spec, 7) ==> Index(r) == (Index(spec) + 1) % CramSize && r & 0xC0 == spec & keep
  {
    if spec & 0x80 != 0 then (spec & keep) | ((spec + 1) & 0x3F) else spec
  }

  /**
   * A BCPD/OCPD write: the byte is stored at the selected index unless the
   * gate blocks it, and with auto-increment on (spec bit 7) the index
   * advances modulo 64 either way. The current revision keeps only bit 7 of
   * the specification; the earlier one keeps bits 6 and 7.
   */
  function WritePaletteData(cram: seq<Byte>, spec: Byte, data: Byte, blocked: bool, keep: Byte): (r: (seq<Byte>, Byte))
    requires |cram| == CramSize && (keep == 0x80 || keep == 0xC0)
    ensures |r.0| == CramSize && r.1 == Advance(spec, keep)
    ensures blocked ==> r.0 == cram
    ensures !blocked ==> r.0 == cram[Index(spec) := data]
  {
    (if blocked then cram else cram[Index(spec) := data], Advance(spec, keep))
  }

  /** A BCPD/OCPD read: 0xFF while the gate blocks, the selected byte otherwise. */
  function ReadPaletteData(cram: seq<Byte>, spec: Byte, blocked: bool): (r: Byte)
    requires |cram| == CramSize
    ensures blocked ==> r == 0xFF
    ensures !blocked ==> r == cram[Index(spec)]
  {
    if blocked then 0xFF else cram[Index(spec)]
  }

  /**
   * The current revision gates colour RAM in mode 3 and, on an
   * auto-increment, keeps only bit 7 of the specification.
   */
  function WritePaletteDataCurrent(cram: seq<Byte>, spec: Byte, data: Byte, mode: Mode): (r: (seq<Byte>, Byte))
    requires |cram| == CramSize
    ensures |r.0| == CramSize
    ensures mode == 3 ==> r.0 == cram
    ensures mode != 3 ==> r.0 == cram[Index(spec) := data]
    ensures !BitSet(spec, 7) ==> r.1 == spec
    ensures BitSet(spec, 7) ==> Index(r.1) == (Index(spec) + 1) % CramSize && r.1 & 0xC0 == 0x80
  {
    WritePaletteData(cram, spec, data, mode == 3, 0x80)
  }

  /**
   * The earlier revision gates colour RAM in mode 3 only while the LCD is
   * on and, on an auto-increment, keeps bits 6 and 7.
   */
  function WritePaletteDataOld(cram: seq<Byte>, spec: Byte, data: Byte, lcdOn: bool, mode: Mode): (r: (seq<Byte>, Byte))
    requires |cram| == CramSize
    ensures |r.0| == CramSize
    ensures lcdOn && mode == 3 ==> r.0 == cram
    ensures !(lcdOn && mode == 3) ==> r.0 == cram[Index(spec) := data]
    ensures !BitSet(spec, 7) ==> r.1 == spec
    ensures BitSet(spec, 7) ==> Index(r.1) == (Index(spec) + 1) % CramSize && r.1 & 0xC0 == spec & 0xC0
  {
    WritePaletteData(cram, spec, data, lcdOn && mode == 3, 0xC0)
  }

  /**
   * The auto-increment in both revisions: with spec bit 7 set, the index
   * advances modulo 64 whether or not mode 3 blocks the store; bit 7 stays
   * set; the current revision clears bit 6 and the earlier one keeps it.
   */
  lemma AutoIncrement(cram: seq<Byte>, spec: Byte, data: Byte, lcdOn: bool, mode: Mode)
    requires |cram| == CramSize && BitSet(spec, 7)
    ensures var s := WritePaletteDataCurrent(cram, spec, data, mode).1;
            Index(s) == (Index(spec) + 1) % CramSize && BitSet(s, 7) && !BitSet(s, 6)
    ensures var s := WritePaletteDataOld(cram, spec, data, lcdOn, mode).1;
            Index(s) == (Index(spec) + 1) % CramSize && BitSet(s, 7) && (BitSet(s, 6) <==> BitSet(spec, 6))
    ensures WritePaletteDataCurrent(cram, spec, data, 3).0 == cram
  {
    var s := WritePaletteDataCurrent(cram, spec, data, mode).1;
    assert s & 0xC0 == spec & 0x80;
    var o := WritePaletteDataOld(cram, spec, data, lcdOn, mode).1;
    assert o & 0xC0 == spec & 0xC0;
  }

  /** A run of data writes through the same register, outside mode 3. */
  function WriteRun(cram: seq<Byte>, spec: Byte, data: seq<Byte>, keep: Byte): (r: (seq<Byte>, Byte))
    requires |cram| == CramSize && (keep == 0x80 || keep == 0xC0)
    ensures |r.0| == CramSize
    decreases |data|
  {
    if data == [] then (cram, spec)
    else
      var w := WritePaletteData(cram, spec, data[0], false, keep);
      WriteRun(w.0, w.1, data[1..], keep)
  }

  /** With auto-increment on, `n` data writes leave it on and move the index `n` entries on, modulo 64. */
  lemma {:induction false} WriteRunIndex(cram: seq<Byte>, spec: Byte, data: seq<Byte>, keep: Byte)
    requires |cram| == CramSize && (keep == 0x80 || keep == 0xC0) && BitSet(spec, 7)
    ensures var r := WriteRun(cram, spec, data, keep);
            BitSet(r.1, 7) && Index(r.1) == (Index(spec) + |data|) % CramSize
    decreases |data|
  {
    if data != [] {
      var w := WritePaletteData(cram, spec, data[0], false, keep);
      AdvanceKeepsAutoIncrement(spec, keep);
      WriteRunIndex(w.0, w.1, data[1..], keep);
      IndexShift(Index(spec), Index(w.1), |data|);
    }
  }

  /**
   * With auto-increment on, `n` data writes (at most 64) store the data in
   * order in `n` consecutive entries, wrapping modulo 64.
   */
  lemma {:induction false} WriteRunFills(cram: seq<Byte>, spec: Byte, data: seq<Byte>, keep: Byte)
    requires |cram| == CramSize && (keep == 0x80 || keep == 0xC0) && BitSet(spec, 7) && |data| <= CramSize
    ensures var r := WriteRun(cram, spec, data, keep);
            forall k :: 0 <= k < |data| ==> r.0[(Index(spec) + k) % CramSize] == data[k]
    decreases |data|
  {
    if data != [] {
      var w := WritePaletteData(cram, spec, data[0], false, keep);
      AdvanceKeepsAutoIncrement(spec, keep);
      var s0, s1 := Index(spec), Index(w.1);
      var r := WriteRun(cram, spec, data, keep);
      WriteRunFirst(cram, spec, data, keep);
      assert forall k :: 0 <= k < |data[1..]| ==> r.0[(s1 + k) % CramSize] == data[1..][k] by {
        assert r == WriteRun(w.0, w.1, data[1..], keep);
        WriteRunFills(w.0, w.1, data[1..], keep);
      }
      FillsShifted(r.0, s0, s1, data);
    }
  }

  /** The first of at most 64 writes is not overwritten by the rest. */
  lemma WriteRunFirst(cram: seq<Byte>, spec: Byte, data: seq<Byte>, keep: Byte)
    requires |cram| == CramSize && (keep == 0x80 || keep == 0xC0) && BitSet(spec, 7) && 1 <= |data| <= CramSize
    ensures WriteRun(cram, spec, data, keep).0[Index(spec)] == data[0]
  {
    var w := WritePaletteData(cram, spec, data[0], false, keep);
    AdvanceKeepsAutoIncrement(spec, keep);
    var s0, s1 := Index(spec), Index(w.1);
    assert WriteRun(cram, spec, data, keep) == WriteRun(w.0, w.1, data[1..], keep);
    WriteRunKeeps(w.0, w.1, data[1..], keep);
    IndexShiftBack(s0, s1, s0);
    assert (s0 - s0) % CramSize == 0;
    assert (s0 - s1) % CramSize >= |data[1..]|;
    assert w.0[s0] == data[0];
  }

  /** The rest of a run stored from the next index, and its first byte at the old one: the whole run from the old one. */
  lemma FillsShifted(entries: seq<Byte>, s0: int, s1: int, data: seq<Byte>)
    requires |entries| == CramSize && 0 <= s0 < CramSize && s1 == (s0 + 1) % CramSize && |data| >= 1
    requires entries[s0] == data[0]
    requires forall k :: 0 <= k < |data[1..]| ==> entries[(s1 + k) % CramSize] == data[1..][k]
    ensures forall k :: 0 <= k < |data| ==> entries[(s0 + k) % CramSize] == data[k]
  {
    forall k | 0 < k < |data|
      ensures entries[(s0 + k) % CramSize] == data[k]
    {
      IndexShift(s0, s1, k);
      assert data[1..][k - 1] == data[k];
    }
    assert (s0 + 0) % CramSize == s0;
  }

  /** The same writes leave every entry outside those `n` untouched. */
  lemma {:induction false} WriteRunKeeps(cram: seq<Byte>, spec: Byte, data: seq<Byte>, keep: Byte)
    requires |cram| == CramSize && (keep == 0x80 || keep == 0xC0) && BitSet(spec, 7)
    ensures var r := WriteRun(cram, spec, data, keep);
            forall i :: 0 <= i < CramSize && (i - Index(spec)) % CramSize >= |data| ==> r.0[i] == cram[i]
    decreases |data|
  {
    if data != [] {
      var w := WritePaletteData(cram, spec, data[0], false, keep);
      AdvanceKeepsAutoIncrement(spec, keep);
      var s0, s1 := Index(spec), Index(w.1);
      WriteRunKeeps(w.0, w.1, data[1..], keep);
      var r := WriteRun(cram, spec, data, keep);
      assert r == WriteRun(w.0, w.1, data[1..], keep);
      forall i | 0 <= i < CramSize && (i - s0) % CramSize >= |data|
        ensures r.0[i] == cram[i]
      {
        KeepStep(s0, s1, i, |data|);
        assert w.0[i] == cram[i];
      }
    }
  }

  /** Auto-increment stays on across a data write. */
  lemma AdvanceKeepsAutoIncrement(spec: Byte, keep: Byte)
    requires (keep == 0x80 || keep == 0xC0) && BitSet(spec, 7)
    ensures BitSet(Advance(spec, keep), 7)
  {
    assert Advance(spec, keep) & 0xC0 == spec & keep;
  }

  /** An entry at least `n` past the old index is not the old index, and at least `n - 1` past the new one. */
  lemma KeepStep(s0: int, s1: int, i: int, n: int)
    requires 0 <= s0 < CramSize && s1 == (s0 + 1) % CramSize && 0 <= i < CramSize
    requires n >= 1 && (i - s0) % CramSize >= n
    ensures i != s0 && (i - s1) % CramSize >= n - 1
  {
    IndexShiftBack(s0, s1, i);
  }

  /** Moving the index on by one: `k` entries from the old index are `k - 1` from the new one. */
  lemma IndexShift(s0: int, s1: int, k: int)
    requires 0 <= s0 < CramSize && s1 == (s0 + 1) % CramSize
    ensures (s1 + (k - 1)) % CramSize == (s0 + k) % CramSize
  {
  }

  /** An entry's distance from the new index is its distance from the old one less one, modulo 64. */
  lemma IndexShiftBack(s0: int, s1: int, i: int)
    requires 0 <= s0 < CramSize && s1 == (s0 + 1) % CramSize && 0 <= i < CramSize
    ensures (i - s0) % CramSize >= 1 ==> (i - s1) % CramSize == (i - s0) % CramSize - 1
    ensures (i - s0) % CramSize == 0 ==> (i - s1) % CramSize == CramSize - 1
  {
  }

  /** With auto-increment off, a data write reads back outside mode 3. */
  lemma PaletteWriteThenRead(cram: seq<Byte>, spec: Byte, data: Byte, mode: Mode)
    requires |cram| == CramSize && !BitSet(spec, 7) && mode != 3
    ensures var w := WritePaletteDataCurrent(cram, spec, data, mode);
            w.1 == spec && ReadPaletteData(w.0, w.1, false) == data
  {
  }

  // ---------------------------------------------------------------------
  // CGB colour: RGB555 entries expanded to 24-bit pixels.
  // ---------------------------------------------------------------------

  /** A 5-bit channel value. */
  type Channel = c: Byte | c < 32

  /** A 5-bit channel widened to 8 bits by repeating its top bits below it. */
  function Expand(c: Channel): (r: Byte)
    ensures r as int == c as int * 8 + c as int / 4
  {
    (c << 3) | (c >> 2)
  }

  /** The expansion is strictly monotone and spans the full byte: 0 to 0, 31 to 255. */
  lemma ExpandMonotone(c: Channel, d: Channel)
    requires c < d
    ensures Expand(c) < Expand(d)
  {
  }

  lemma ExpandRange()
    ensures Expand(0) == 0 && Expand(31) == 255
  {
  }

  /** The top five bits of an expanded channel are the channel itself, so no two channels collide. */
  lemma ExpandInverse(c: Channel)
    ensures Expand(c) >> 3 == c
  {
  }

  /** The byte offset of colour `color` of palette `palette` in a colour RAM. */
  function ColorIndex(palette: int, color: int): (i: int)
    requires 0 <= palette < 8 && 0 <= color < 4
    ensures 0 <= i && i + 1 < CramSize && i % 2 == 0
    ensures i / 8 == palette && (i % 8) / 2 == color
  {
    palette * 8 + color * 2
  }

  /** An RGB triple. */
  datatype Rgb = Rgb(r: Byte, g: Byte, b: Byte)

  predicate Is555(c: Rgb)
  {
    c.r < 32 && c.g < 32 && c.b < 32
  }

  /**
   * The channels of a little-endian RGB555 word: red in bits 0-4, green in
   * bits 5-9, blue in bits 10-14; bit 15 is ignored.
   */
  function Decode555(lsb: Byte, msb: Byte): (c: Rgb)
    ensures Is555(c)
  {
    var w := ((msb as bv16) << 8) | (lsb as bv16);
    Rgb((w & 0x001F) as Byte, ((w & 0x03E0) >> 5) as Byte, ((w & 0x7C00) >> 10) as Byte)
  }

  /** The two bytes a program stores for a colour. */
  function Encode555(c: Rgb): (r: (Byte, Byte))
    requires Is555(c)
  {
    var w := (c.r as bv16) | ((c.g as bv16) << 5) | ((c.b as bv16) << 10);
    ((w & 0xFF) as Byte, (w >> 8) as Byte)
  }

  /** Encoding then decoding a colour gives it back. */
  lemma Encode555RoundTrip(c: Rgb)
    requires Is555(c)
    ensures var e := Encode555(c); Decode555(e.0, e.1) == c
  {
  }

  /** The 24-bit pixel of a CGB colour: each channel expanded. */
  function PixelOf(cram: seq<Byte>, palette: int, color: int): Rgb
    requires |cram| == CramSize && 0 <= palette < 8 && 0 <= color < 4
  {
    var i := ColorIndex(palette, color);
    var c := Decode555(cram[i], cram[i + 1]);
    Rgb(Expand(c.r), Expand(c.g), Expand(c.b))
  }

  /**
   * A colour written into palette `palette`, entry `color`, comes out of
   * the frame buffer as its expanded channels, and the channels are
   * recoverable from the pixel.
   */
  lemma PixelOfStoredColour(cram: seq<Byte>, palette: int, color: int, c: Rgb)
    requires |cram| == CramSize && 0 <= palette < 8 && 0 <= color < 4 && Is555(c)
    requires var i := ColorIndex(palette, color); (cram[i], cram[i + 1]) == Encode555(c)
    ensures PixelOf(cram, palette, color) == Rgb(Expand(c.r), Expand(c.g), Expand(c.b))
    ensures var p := PixelOf(cram, palette, color); Rgb(p.r >> 3, p.g >> 3, p.b >> 3) == c
  {
    Encode555RoundTrip(c);
    ExpandInverse(c.r);
    ExpandInverse(c.g);
    ExpandInverse(c.b);
  }
}

=== FILE: py_int.dfy ===
/**
 * Python's `int(text, base)` on a string, for the bases the front end uses
 * (10 and 16): surrounding whitespace is ignored, one optional sign, in base
 * 16 an optional `0x`/`0X` prefix that one underscore may follow, then digits
 * in which single underscores may separate two digits. Any other text makes
 * `int` raise, which is None here.
 */
module PyInt {
  import opened Wrappers

  /** The characters `str.isspace` accepts and `int` strips from both ends. */
  predicate IsSpace(c: char)
  {
    var n := c as int;
    9 <= n <= 13 || 28 <= n <= 32 || n == 0x85 || n == 0xA0 || n == 0x1680 || 0x2000 <= n <= 0x200A ||
    n == 0x2028 || n == 0x2029 || n == 0x202F || n == 0x205F || n == 0x3000
  }

  /** The value of an ASCII digit or letter, letters of either case counting from 10. */
  function DigitValue(c: char): (r: Option<nat>)
    ensures r.Some? ==> r.value < 36
    ensures r.Some? ==> !IsSpace(c) && c != '_' && c != '-' && c != '+'
  {
    if '0' <= c <= '9' then Some(c as int - '0' as int)
    else if 'a' <= c <= 'z' then Some(c as int - 'a' as int + 10)
    else if 'A' <= c <= 'Z' then Some(c as int - 'A' as int + 10)
    else None
  }

  /** A digit of the base: a character whose value is below it. */
  function Digit(c: char, base: nat): (r: Option<nat>)
    ensures r.Some? ==> r.value < base && DigitValue(c) == r
    ensures r.None? ==> DigitValue(c).None? || DigitValue(c).value >= base
  {
    match DigitValue(c)
      case Some(d) => if d < base then Some(d) else None
      case None => None
  }

  /** Leading whitespace removed. */
  function StripLeft(s: string): (r: string)
    ensures |r| <= |s| && r == s[|s| - |r|..]
    ensures |r| > 0 ==> !IsSpace(r[0])
  {
    if |s| > 0 && IsSpace(s[0]) then StripLeft(s[1..]) else s
  }

  /** Trailing whitespace removed. */
  function StripRight(s: string): (r: string)
    ensures |r| <= |s| && r == s[..|r|]
    ensures |r| > 0 ==> !IsSpace(r[|r| - 1])
  {
    if |s| > 0 && IsSpace(s[|s| - 1]) then StripRight(s[..|s| - 1]) else s
  }

  function Strip(s: string): string
  {
    StripRight(StripLeft(s))
  }

  /**
   * A run of digits of the base, read most significant first, in which an
   * underscore may stand between two digits: None when the run is empty,
   * when an underscore leads, trails or follows another, or when any other
   * character is not a digit of the base.
   */
  function Run(s: string, base: nat): (r: Option<nat>)
    ensures r.Some? ==> |s| > 0 && Digit(s[0], base).Some? && Digit(s[|s| - 1], base).Some?
  {
    if |s| == 0 then None
    else match Digit(s[|s| - 1], base)
      case None => None
      case Some(d) =>
        if |s| == 1 then Some(d)
        else
          var init := if s[|s| - 2] == '_' then s[..|s| - 2] else s[..|s| - 1];
          match Run(init, base)
            case Some(hi) => Some(Place(hi, base, d))
            case None => None
  }

  /** The value of digits worth `hi` followed by one more digit `d`. */
  function Place(hi: nat, base: nat, d: nat): nat
  {
    hi * base + d
  }

  /** The text after an optional `0x` or `0X` in base 16, with one underscore after the prefix skipped too. */
  function SkipPrefix(u: string, base: nat): (w: string)
    ensures |w| <= |u| && w == u[|u| - |w|..]
  {
    if base == 16 && |u| >= 2 && u[0] == '0' && (u[1] == 'x' || u[1] == 'X') then
      if |u| >= 3 && u[2] == '_' then u[3..] else u[2..]
    else u
  }

  /** The text after one leading sign. */
  function Unsigned(t: string): (u: string)
    ensures |u| <= |t| && u == t[|t| - |u|..]
  {
    if |t| > 0 && (t[0] == '-' || t[0] == '+') then t[1..] else t
  }

  /** Stripped text: a sign, a prefix and a run of digits. */
  function ParseStripped(t: string, base: nat): (r: Option<int>)
    requires base == 10 || base == 16
    ensures r.Some? ==> |t| > 0
  {
    match Run(SkipPrefix(Unsigned(t), base), base)
      case Some(v) => Some(if t[0] == '-' then -(v as int) else v as int)
      case None => None
  }

  /** `int(s, base)`: None where Python raises ValueError. */
  function Parse(s: string, base: nat): (r: Option<int>)
    requires base == 10 || base == 16
  {
    ParseStripped(Strip(s), base)
  }

  /**
   * `int` refuses text that is empty or only whitespace, and only text
   * whose stripped form starts with '-' reads as a negative number.
   */
  lemma ParseSign(s: string, base: nat)
    requires base == 10 || base == 16
    ensures Strip(s) == "" ==> Parse(s, base) == None
    ensures Parse(s, base).Some? && Parse(s, base).value < 0 ==> |Strip(s)| > 0 && Strip(s)[0] == '-'
  {
  }

  /** The decimal digit character for a value below 10. */
  function DecimalDigit(d: int): (c: char)
    requires 0 <= d < 10
    ensures Digit(c, 10) == Some(d)
  {
    ('0' as int + d) as char
  }

  /** The decimal digits of a natural number, most significant first, without leading zeros. */
  function Digits(n: nat): (s: string)
    ensures |s| >= 1 && (|s| > 1 ==> s[0] != '0')
    ensures forall i :: 0 <= i < |s| ==> '0' <= s[i] <= '9'
  {
    if n < 10 then [DecimalDigit(n)] else Digits(n / 10) + [DecimalDigit(n % 10)]
  }

  /** An integer as `str` writes it: a minus sign for negatives, then the digits. */
  function Decimal(n: int): (s: string)
    ensures |s| >= 1 && (s[0] == '-' <==> n < 0)
    ensures !IsSpace(s[0]) && !IsSpace(s[|s| - 1]) && s[|s| - 1] != '_'
  {
    if n < 0 then "-" + Digits(-n) else Digits(n)
  }

  lemma {:induction false} DigitsRun(n: nat)
    ensures Run(Digits(n), 10) == Some(n)
    decreases n
  {
    if n >= 10 {
      var hi := Digits(n / 10);
      var s := hi + [DecimalDigit(n % 10)];
      assert s == Digits(n);
      assert s[|s| - 1] == DecimalDigit(n % 10);
      assert s[|s| - 2] == hi[|hi| - 1] != '_';
      assert s[..|s| - 1] == hi;
      DigitsRun(n / 10);
      assert Run(s, 10) == Some((n / 10) * 10 + n % 10);
    }
  }

  /** Text without whitespace at either end is its own stripped form. */
  lemma StripNothing(s: string)
    requires |s| > 0 && !IsSpace(s[0]) && !IsSpace(s[|s| - 1])
    ensures Strip(s) == s
  {
  }

  /** An integer's decimal text reads back as the same integer. */
  lemma DecimalRoundTrip(n: int)
    ensures Parse(Decimal(n), 10) == Some(n)
  {
    var s := Decimal(n);
    StripNothing(s);
    assert Parse(s, 10) == ParseStripped(s, 10);
    var d := if n < 0 then -n else n;
    if n < 0 {
      assert s == "-" + Digits(d);
    } else {
      assert s == Digits(d) && '0' <= s[0] <= '9';
    }
    assert Unsigned(s) == Digits(d);
    assert SkipPrefix(Digits(d), 10) == Digits(d);
    DigitsRun(d);
  }

  /** Whitespace in front of the text changes nothing. */
  lemma LeadingSpace(c: char, s: string, base: nat)
    requires IsSpace(c) && (base == 10 || base == 16)
    ensures Parse([c] + s, base) == Parse(s, base)
  {
    assert ([c] + s)[1..] == s;
    assert Strip([c] + s) == Strip(s);
  }

  /** Whitespace after the text changes nothing. */
  lemma TrailingSpace(s: string, c: char, base: nat)
    requires IsSpace(c) && (base == 10 || base == 16)
    ensures Parse(s + [c], base) == Parse(s, base)
  {
    StripLeftAppend(s, c);
    var l := StripLeft(s);
    if |l| > 0 {
      assert (l + [c])[..|l|] == l;
    }
    assert Strip(s + [c]) == Strip(s);
  }

  lemma {:induction false} StripLeftAppend(s: string, c: char)
    requires IsSpace(c)
    ensures StripLeft(s + [c]) == (if |StripLeft(s)| > 0 then StripLeft(s) + [c] else [])
    decreases |s|
  {
    if |s| > 0 {
      assert (s + [c])[1..] == s[1..] + [c];
      if IsSpace(s[0]) {
        StripLeftAppend(s[1..], c);
      }
    }
  }

  /** The lower-case hexadecimal digit for a value below 16. */
  function HexDigit(n: int): (c: char)
    requires 0 <= n < 16
    ensures Digit(c, 16) == Some(n)
    ensures '0' <= c <= '9' || 'a' <= c <= 'f'
  {
    if n < 10 then ('0' as int + n) as char else ('a' as int + n - 10) as char
  }

  /** A plus sign in front of the digits is accepted. */
  lemma PlusSign(n: nat)
    ensures Parse("+" + Digits(n), 10) == Some(n)
  {
    DigitsRun(n);
    PlusRun(Digits(n), n);
  }

  /** A plus sign in front of a valid decimal run. */
  lemma PlusRun(ds: string, v: nat)
    requires Run(ds, 10) == Some(v)
    ensures Parse("+" + ds, 10) == Some(v)
  {
    var s := "+" + ds;
    assert s[0] == '+' && s[|s| - 1] == ds[|ds| - 1];
    StripNothing(s);
    assert Unsigned(s) == ds;
    assert SkipPrefix(ds, 10) == ds;
  }

  /** An underscore between two digits is accepted and ignored. */
  lemma Underscore(n: nat, d: nat)
    requires d < 10
    ensures Parse(Digits(n) + ['_', DecimalDigit(d)], 10) == Some(n * 10 + d)
  {
    DigitsRun(n);
    UnderscoreRun(Digits(n), n, DecimalDigit(d), d);
  }

  /** An underscore between a valid decimal run and one more digit. */
  lemma UnderscoreRun(ds: string, v: nat, c: char, d: nat)
    requires Run(ds, 10) == Some(v) && Digit(c, 10) == Some(d)
    ensures Parse(ds + ['_', c], 10) == Some(v * 10 + d)
  {
    var s := ds + ['_', c];
    assert Run(s, 10) == Some(Place(v, 10, d)) by {
      assert s[|s| - 1] == c && s[|s| - 2] == '_';
      assert s[..|s| - 2] == ds;
    }
    ParseRun(s, 10, Place(v, 10, d));
  }

  /** A bare run of digits, not read as a `0x` prefix, parses to its value. */
  lemma ParseRun(s: string, base: nat, v: nat)
    requires (base == 10 || base == 16) && Run(s, base) == Some(v)
    requires base == 16 ==> |s| < 2 || (s[1] != 'x' && s[1] != 'X')
    ensures Parse(s, base) == Some(v)
  {
    assert Strip(s) == s by {
      StripNothing(s);
    }
    assert SkipPrefix(Unsigned(s), base) == s by {
      assert Unsigned(s) == s;
    }
    assert ParseStripped(s, base) == Some(v);
  }

  /** A minus sign in front of a hexadecimal digit is accepted. */
  lemma NegativeHex(d: nat)
    requires d < 16
    ensures Parse("-" + [HexDigit(d)], 16) == Some(-(d as int))
  {
    var s := "-" + [HexDigit(d)];
    StripNothing(s);
    assert SkipPrefix(Unsigned(s), 16) == [HexDigit(d)];
  }

  /** In base 16 a `0x` or `0X` prefix is accepted, and so is one underscore after it. */
  lemma PrefixedHex(x: char, d: nat)
    requires (x == 'x' || x == 'X') && d < 16
    ensures Parse(['0', x, '_', HexDigit(d)], 16) == Some(d)
    ensures Parse(['0', x, HexDigit(d)], 16) == Some(d)
  {
    var s := ['0', x, '_', HexDigit(d)];
    StripNothing(s);
    assert Unsigned(s) == s;
    assert SkipPrefix(s, 16) == s[3..] == [HexDigit(d)];
    var s2 := ['0', x, HexDigit(d)];
    StripNothing(s2);
    assert Unsigned(s2) == s2;
    assert SkipPrefix(s2, 16) == s2[2..] == [HexDigit(d)];
  }

  /** Two hexadecimal digits, zero padded, read back as the value they write. */
  lemma HexPair(n: nat)
    requires n < 0x100
    ensures Parse([HexDigit(n / 16), HexDigit(n % 16)], 16) == Some(n)
  {
    var s := [HexDigit(n / 16), HexDigit(n % 16)];
    assert Run(s, 16) == Some(Place(n / 16, 16, n % 16)) by {
      assert s[..1] == [s[0]];
    }
    ParseRun(s, 16, n);
  }

  /** Two underscores in a row anywhere make the run invalid. */
  lemma {:induction false} DoubleUnderscore(a: string, b: string, base: nat)
    ensures Run(a + "__" + b, base) == None
    decreases |b|
  {
    var s := a + "__" + b;
    if |b| == 0 {
      assert s[|s| - 1] == '_';
    } else if Digit(b[|b| - 1], base).Some? {
      assert s[|s| - 1] == b[|b| - 1];
      if |b| == 1 {
        assert s[|s| - 2] == '_' && s[..|s| - 2] == a + "_";
        assert (a + "_")[|a + "_"| - 1] == '_';
      } else if b[|b| - 2] == '_' {
        assert s[|s| - 2] == '_' && s[..|s| - 2] == a + "__" + b[..|b| - 2];
        DoubleUnderscore(a, b[..|b| - 2], base);
      } else {
        assert s[|s| - 2] == b[|b| - 2] && s[..|s| - 1] == a + "__" + b[..|b| - 1];
        DoubleUnderscore(a, b[..|b| - 1], base);
      }
    } else {
      assert s[|s| - 1] == b[|b| - 1];
    }
  }

  /** A run that ends in an underscore is invalid. */
  lemma TrailingUnderscore(a: string, base: nat)
    ensures Run(a + "_", base) == None
  {
    assert (a + "_")[|a + "_"| - 1] == '_';
  }

  /** A prefix with no digits after it makes `int` raise. */
  lemma BarePrefix(x: char)
    requires x == 'x' || x == 'X'
    ensures Parse(['0', x], 16) == None
  {
    var s := ['0', x];
    StripNothing(s);
    assert Unsigned(s) == s;
    assert SkipPrefix(s, 16) == s[2..] == [];
  }
}

=== FILE: recent_roms.dfy ===
/**
 * The front end's recently opened ROM list: ten configuration slots
 * recent_0..recent_9 holding paths, the empty string marking an unused slot.
 * The visible list is the run of non-empty slots from the front.
 */
module RecentRoms {
  import opened Variants
  import ConfigInterpolation

  /** The number of slots. */
  const Count := 10

  /** The visible list: the longest prefix of non-empty slots. */
  function Visible(slots: seq<string>): (r: seq<string>)
    ensures |r| <= |slots| && r == slots[..|r|]
    ensures forall i :: 0 <= i < |r| ==> r[i] != ""
    ensures |r| < |slots| ==> slots[|r|] == ""
  {
    if |slots| == 0 || slots[0] == "" then []
    else [slots[0]] + Visible(slots[1..])
  }

  /** A prefix of `n` non-empty slots followed by an empty one (or the end) is what is visible. */
  lemma {:induction false} VisibleIs(slots: seq<string>, n: nat)
    requires n <= |slots| && (forall i :: 0 <= i < n ==> slots[i] != "") && (n < |slots| ==> slots[n] == "")
    ensures Visible(slots) == slots[..n]
    decreases n
  {
    if n > 0 {
      VisibleIs(slots[1..], n - 1);
      assert slots[..n] == [slots[0]] + slots[1..][..n - 1];
    }
  }

  /** The first position of `p` in `s`. */
  function IndexOf(s: seq<string>, p: string): (k: nat)
    requires p in s
    ensures k < |s| && s[k] == p && p !in s[..k]
  {
    if s[0] == p then 0 else 1 + IndexOf(s[1..], p)
  }

  /** The copy loop: slots `start`, `start - 1`, ..., 0 each copied one place down, highest first. */
  function ShiftDown(slots: seq<string>, start: int): (r: seq<string>)
    requires -1 <= start && start + 1 < |slots|
    ensures |r| == |slots| && r[0] == slots[0]
    decreases start + 1
  {
    if start < 0 then slots else ShiftDown(slots[start + 1 := slots[start]], start - 1)
  }

  /** Copying slots k-1..0 down one place keeps slot 0, moves slots 0..k-1 to 1..k, and keeps the rest. */
  lemma {:induction false} ShiftDownMoves(slots: seq<string>, k: nat)
    requires 0 < |slots| && k < |slots|
    ensures ShiftDown(slots, k - 1) == [slots[0]] + slots[..k] + slots[k + 1..]
    decreases k
  {
    if k > 0 {
      var s1 := slots[k := slots[k - 1]];
      ShiftDownMoves(s1, k - 1);
      assert s1[..k - 1] == slots[..k - 1];
      assert s1[k..] == [slots[k - 1]] + slots[k + 1..];
      assert slots[..k] == slots[..k - 1] + [slots[k - 1]];
    } else {
      assert [slots[0]] + slots[..0] + slots[1..] == slots;
    }
  }

  /**
   * The slots after the copy loop of an add: if the path is already visible
   * at position k, slots 0..k-1 are copied down over it; otherwise slots
   * 0..8 move down and slot 9 is dropped. Slot 0 still holds its old path.
   */
  function Shifted(slots: seq<string>, p: string): (r: seq<string>)
    requires |slots| == Count
    ensures |r| == Count && r[0] == slots[0]
  {
    var recent := Visible(slots);
    var start := if p in recent then IndexOf(recent, p) - 1 else 8;
    ShiftDown(slots, start)
  }

  /** The slots after an add, and whether its last assignment raised. */
  datatype Stored = Stored(slots: seq<string>, raised: bool)

  /**
   * Whether the last assignment of an add takes the path: as written the
   * parser's interpolation check must accept it; corrected, the paths are
   * stored without interpolation and every path is taken.
   */
  predicate Accepted(p: string, v: Variant)
  {
    v == Corrected || ConfigInterpolation.SetOk(p)
  }

  /**
   * Add a path: the copy loop, then the path goes into slot 0. As written,
   * a path the interpolation check refuses raises at that last assignment,
   * after the loop has already moved the slots.
   */
  function Add(slots: seq<string>, p: string, v: Variant): (r: Stored)
    requires |slots| == Count
    ensures |r.slots| == Count
    ensures r.raised <==> !Accepted(p, v)
    ensures !r.raised ==> r.slots[0] == p
    ensures r.raised ==> r.slots[0] == slots[0]
  {
    var shifted := Shifted(slots, p);
    if Accepted(p, v) then Stored(shifted[0 := p], false) else Stored(shifted, true)
  }

  /** Corrected, the path always goes into slot 0 of the shifted slots. */
  lemma CorrectedStores(slots: seq<string>, p: string)
    requires |slots| == Count
    ensures Add(slots, p, Corrected) == Stored(Shifted(slots, p)[0 := p], false)
  {
  }

  /** As written, a path the check accepts is added exactly as the corrected add does. */
  lemma AcceptedAgrees(slots: seq<string>, p: string)
    requires |slots| == Count && ConfigInterpolation.SetOk(p)
    ensures Add(slots, p, AsWritten) == Add(slots, p, Corrected)
  {
  }

  /** As written, a refused path leaves the slots the corrected add leaves, except that slot 0 keeps its old path. */
  lemma RaisedAfterShift(slots: seq<string>, p: string)
    requires |slots| == Count && !ConfigInterpolation.SetOk(p)
    ensures var r := Add(slots, p, AsWritten);
            r.raised && r.slots == Add(slots, p, Corrected).slots[0 := slots[0]]
  {
  }

  /**
   * As written, adding a new file name with a percent sign in it to a list
   * whose front slot is used raises and leaves the old front path in slots
   * 0 and 1, so the recent list shows it twice.
   */
  lemma AsWrittenPercentPathDuplicates(slots: seq<string>)
    requires |slots| == Count && slots[0] != "" && "/roms/100%.gb" !in Visible(slots)
    ensures var r := Add(slots, "/roms/100%.gb", AsWritten);
            r.raised && r.slots[0] == r.slots[1] == slots[0] && !Distinct(Visible(r.slots))
  {
    ConfigInterpolation.PercentFileName();
    ShiftDownMoves(slots, 9);
    var r := Add(slots, "/roms/100%.gb", AsWritten);
    assert r.slots == [slots[0]] + slots[..9];
    var v := Visible(r.slots);
    assert |v| >= 2;
    assert v[0] == v[1];
  }

  /** Corrected, a visible path moves to the front; the slots before it move down one; the slots after it stay. */
  lemma AddExisting(slots: seq<string>, p: string)
    requires |slots| == Count && p in Visible(slots)
    ensures var k := IndexOf(Visible(slots), p);
            Add(slots, p, Corrected).slots == MoveToFront(slots, k) &&
            Visible(Add(slots, p, Corrected).slots) == MoveToFront(Visible(slots), k)
  {
    var v := Visible(slots);
    var k := IndexOf(v, p);
    var s := Shifted(slots, p);
    assert s == ShiftDown(slots, k as int - 1);
    ShiftDownMoves(slots, k);
    assert slots[k] == v[k] == p;
    assert s[0 := p] == MoveToFront(slots, k);
    CorrectedStores(slots, p);
    VisibleMoveToFront(slots, k);
  }

  /** Entry `k` taken out and put in front. */
  function MoveToFront(s: seq<string>, k: nat): (r: seq<string>)
    requires k < |s|
    ensures |r| == |s| && r[0] == s[k]
    ensures forall i :: 0 < i <= k ==> r[i] == s[i - 1]
    ensures forall i :: k < i < |s| ==> r[i] == s[i]
  {
    [s[k]] + s[..k] + s[k + 1..]
  }

  /** Moving a visible entry to the front keeps the visible list the same length and moves it there too. */
  lemma VisibleMoveToFront(slots: seq<string>, k: nat)
    requires k < |Visible(slots)|
    ensures Visible(MoveToFront(slots, k)) == MoveToFront(Visible(slots), k)
  {
    var v := Visible(slots);
    var r := MoveToFront(slots, k);
    var n := |v|;
    assert forall i :: 0 <= i < n ==> r[i] != "" by {
      forall i | 0 <= i < n
        ensures r[i] != ""
      {
        if i == 0 {
          assert r[i] == v[k];
        } else if i <= k {
          assert r[i] == v[i - 1];
        } else {
          assert r[i] == v[i];
        }
      }
    }
    var m := MoveToFront(v, k);
    assert r[..n] == m by {
      forall i | 0 <= i < n
        ensures r[i] == m[i]
      {
        if i == 0 {
        } else if i <= k {
          assert r[i] == slots[i - 1] == v[i - 1];
        } else {
          assert r[i] == slots[i] == v[i];
        }
      }
    }
    VisibleIs(r, n);
  }

  /** Corrected, a new non-empty path goes in front of the others; the tenth drops out. */
  lemma AddNew(slots: seq<string>, p: string)
    requires |slots| == Count && p !in Visible(slots) && p != ""
    ensures Add(slots, p, Corrected).slots == [p] + slots[..Count - 1]
    ensures var v := Visible(slots);
            Visible(Add(slots, p, Corrected).slots) == if |v| < Count then [p] + v else [p] + v[..Count - 1]
  {
    var v := Visible(slots);
    CorrectedStores(slots, p);
    ShiftDownMoves(slots, 9);
    var r := Add(slots, p, Corrected).slots;
    assert r == [p] + slots[..9];
    if |v| < Count {
      assert r[..|v| + 1] == [p] + v;
      VisibleIs(r, |v| + 1);
    } else {
      assert r[..Count] == [p] + v[..Count - 1];
      VisibleIs(r, Count);
    }
  }

  /** No entry appears twice. */
  predicate Distinct(s: seq<string>)
  {
    forall i, j :: 0 <= i < j < |s| ==> s[i] != s[j]
  }

  /** Corrected, adding a non-empty path never duplicates an entry of a list that had none. */
  lemma AddKeepsDistinct(slots: seq<string>, p: string)
    requires |slots| == Count && p != "" && Distinct(Visible(slots))
    ensures Distinct(Visible(Add(slots, p, Corrected).slots))
  {
    var v := Visible(slots);
    var r := Add(slots, p, Corrected).slots;
    if p in v {
      var k := IndexOf(v, p);
      AddExisting(slots, p);
      assert Visible(r) == MoveToFront(v, k);
      MoveToFrontKeepsDistinct(v, k);
    } else {
      AddNew(slots, p);
      var u := if |v| < Count then v else v[..Count - 1];
      assert Visible(r) == [p] + u;
      PrefixKeepsDistinct(v, |u|);
      assert u == v[..|u|];
      ConsKeepsDistinct(p, u);
    }
  }

  lemma PrefixKeepsDistinct(v: seq<string>, n: nat)
    requires n <= |v| && Distinct(v)
    ensures Distinct(v[..n]) && forall x :: x in v[..n] ==> x in v
  {
  }

  lemma MoveToFrontKeepsDistinct(v: seq<string>, k: nat)
    requires k < |v| && Distinct(v)
    ensures Distinct(MoveToFront(v, k))
  {
    var m := MoveToFront(v, k);
    forall i, j | 0 <= i < j < |m|
      ensures m[i] != m[j]
    {
      var i' := if i == 0 then k else if i <= k then i - 1 else i;
      var j' := if j <= k then j - 1 else j;
      assert m[i] == v[i'] && m[j] == v[j'] && i' != j';
    }
  }

  lemma ConsKeepsDistinct(p: string, u: seq<string>)
    requires p !in u && Distinct(u)
    ensures Distinct([p] + u)
  {
    var m := [p] + u;
    forall i, j | 0 <= i < j < |m|
      ensures m[i] != m[j]
    {
      assert m[j] == u[j - 1];
      if i > 0 {
        assert m[i] == u[i - 1];
      }
    }
  }

  /** Corrected, adding the path already in front changes nothing. */
  lemma AddFrontIdempotent(slots: seq<string>, p: string)
    requires |slots| == Count && p != ""
    ensures Add(Add(slots, p, Corrected).slots, p, Corrected) == Add(slots, p, Corrected)
  {
    var r := Add(slots, p, Corrected).slots;
    assert Visible(r)[0] == p;
    assert IndexOf(Visible(r), p) == 0;
  }
}

=== FILE: serial.dfy ===
/**
 * The serial port (SB/SC) with no link partner: an SC write starts an
 * internal-clock transfer, and every 128 clock calls one bit of SB is
 * shifted out while a 1 is shifted in. After eight bits the transfer ends,
 * SC bit 7 clears and the SERIAL interrupt is requested.
 *
 * The SC write also computes a clock divider from the speed bit; the shift
 * clock never reads it, and neither does this model's clock.
 */
module Serial {
  import opened Bits

  type U8 = x: int | 0 <= x < 0x100

  datatype Serial = Serial(
    sb: Byte, sc: Byte, outData: Byte, bitsSent: U8, counter: U8, divider: U8, inProgress: bool)

  /** The divider an SC write chooses: 64/128 at normal speed, 2/4 at double speed (fast/slow). */
  function Divider(data: Byte, doubleSpeed: bool): (d: U8)
    ensures doubleSpeed ==> d == (if BitSet(data, 1) then 2 else 4)
    ensures !doubleSpeed ==> d == (if BitSet(data, 1) then 64 else 128)
  {
    var fast := data & 0x02 != 0;
    if doubleSpeed then (if fast then 2 else 4) else (if fast then 64 else 128)
  }

  /**
   * An SC write is ignored while a transfer runs; otherwise SC reads back
   * with bits 2-6 set, a transfer starts iff bits 7 and 0 are both set, and
   * the bit and clock counters restart.
   */
  function WriteSc(s: Serial, data: Byte, doubleSpeed: bool): (r: Serial)
    ensures s.inProgress ==> r == s
    ensures !s.inProgress ==> r.sc == data | 0x7C && r.sc & 0x83 == data & 0x83
    ensures !s.inProgress ==> (r.inProgress <==> BitSet(data, 7) && BitSet(data, 0))
    ensures !s.inProgress ==> r.bitsSent == 0 && r.counter == 0 && r.divider == Divider(data, doubleSpeed)
    ensures r.sb == s.sb && r.outData == s.outData
  {
    if s.inProgress then s
    else s.(sc := data | 0x7C, inProgress := data & 0x81 == 0x81, bitsSent := 0, counter := 0,
            divider := Divider(data, doubleSpeed))
  }

  /** SB after one bit: shifted left with a 1 entering at the bottom. */
  function ShiftIn(sb: Byte): Byte
  {
    (sb << 1) | 0x01
  }

  /** The outgoing byte after one bit: shifted left with SB's top bit entering at the bottom. */
  function ShiftOut(out: Byte, sb: Byte): (r: Byte)
    ensures r == (out << 1) | (sb >> 7)
  {
    (out << 1) | ((sb & 0x80) >> 7)
  }

  /** One bit: SB's top bit moves into the outgoing byte and a 1 enters SB at the bottom. */
  function ShiftBit(s: Serial, iflag: Byte): (r: (Serial, Byte))
    ensures r.0.sb == ShiftIn(s.sb) && r.0.outData == ShiftOut(s.outData, s.sb)
    ensures r.0.bitsSent == (s.bitsSent + 1) % 0x100 && r.0.counter == 0
    ensures s.bitsSent < 0xFF ==> r.0.bitsSent == s.bitsSent + 1
    ensures r.0.bitsSent == 8 ==> !r.0.inProgress && r.0.sc == s.sc & 0x7F && r.1 == iflag | 0x08
    ensures r.0.bitsSent != 8 ==> r.0.inProgress == s.inProgress && r.0.sc == s.sc && r.1 == iflag
  {
    var s1 := s.(counter := 0, outData := ShiftOut(s.outData, s.sb), sb := ShiftIn(s.sb),
                 bitsSent := (s.bitsSent + 1) % 0x100);
    if s1.bitsSent == 8 then (s1.(inProgress := false, sc := s.sc & 0x7F), iflag | 0x08)
    else (s1, iflag)
  }

  /** One clock call; only a running transfer is clocked. */
  function Tick(s: Serial, iflag: Byte): (r: (Serial, Byte))
    ensures !s.inProgress ==> r == (s, iflag)
    ensures s.inProgress && s.counter + 1 == 128 ==> r == ShiftBit(s, iflag)
    ensures s.inProgress && s.counter + 1 != 128 ==> r == (s.(counter := (s.counter + 1) % 0x100), iflag)
  {
    if !s.inProgress then (s, iflag)
    else
      var c := (s.counter + 1) % 0x100;
      if c == 128 then ShiftBit(s, iflag) else (s.(counter := c), iflag)
  }

  function Ticks(s: Serial, iflag: Byte, n: nat): (Serial, Byte)
    decreases n
  {
    if n == 0 then (s, iflag)
    else
      var r := Tick(s, iflag);
      Ticks(r.0, r.1, n - 1)
  }

  lemma {:induction false} TicksSplit(s: Serial, iflag: Byte, a: nat, b: nat)
    ensures var m := Ticks(s, iflag, a); Ticks(s, iflag, a + b) == Ticks(m.0, m.1, b)
    decreases a
  {
    if a > 0 {
      var r := Tick(s, iflag);
      TicksSplit(r.0, r.1, a - 1, b);
    }
  }

  lemma {:induction false} TicksBelow(s: Serial, iflag: Byte, n: nat)
    requires s.inProgress && s.counter + n < 128
    ensures Ticks(s, iflag, n) == (s.(counter := s.counter + n), iflag)
    decreases n
  {
    if n > 0 {
      TicksBelow(s.(counter := s.counter + 1), iflag, n - 1);
    }
  }

  /** With the counter restarted, 128 clocks transfer exactly one bit. */
  lemma {:induction false} OneBitPer128(s: Serial, iflag: Byte)
    requires s.inProgress && s.counter == 0
    ensures Ticks(s, iflag, 128) == ShiftBit(s, iflag)
  {
    var n := 127;
    TicksBelow(s, iflag, n);
    TicksLast(s, iflag, n);
    var u := s.(counter := n);
    assert Ticks(s, iflag, n) == (u, iflag);
    assert Tick(u, iflag) == ShiftBit(u, iflag);
    assert u.(counter := 0) == s.(counter := 0);
  }

  lemma {:induction false} TicksLast(s: Serial, iflag: Byte, n: nat)
    ensures var m := Ticks(s, iflag, n); Ticks(s, iflag, n + 1) == Tick(m.0, m.1)
    decreases n
  {
    if n > 0 {
      var r := Tick(s, iflag);
      TicksLast(r.0, r.1, n - 1);
    }
  }

  /** `k` bits in a row. */
  function ShiftBits(s: Serial, iflag: Byte, k: nat): (Serial, Byte)
    decreases k
  {
    if k == 0 then (s, iflag)
    else
      var r := ShiftBit(s, iflag);
      ShiftBits(r.0, r.1, k - 1)
  }

  /** While fewer than eight bits are done, `128 k` clocks shift `k` bits. */
  lemma {:induction false} ClocksShiftBits(s: Serial, iflag: Byte, k: nat)
    requires s.inProgress && s.counter == 0 && s.bitsSent + k <= 8
    ensures Ticks(s, iflag, 128 * k) == ShiftBits(s, iflag, k)
    decreases k
  {
    if k > 0 {
      var rest := 128 * (k - 1);
      assert 128 * k == 128 + rest;
      OneBitPer128(s, iflag);
      TicksSplit(s, iflag, 128, rest);
      var r := ShiftBit(s, iflag);
      if k > 1 {
        ClocksShiftBits(r.0, r.1, k - 1);
      }
    }
  }

  /** SB after `k` bits: shifted left `k` times with a 1 entering each time. */
  function SbAfter(sb: Byte, k: nat): Byte
    decreases k
  {
    if k == 0 then sb else ShiftIn(SbAfter(sb, k - 1))
  }

  /** The outgoing byte after `k` bits: each step takes SB's top bit at that moment. */
  function OutAfter(out: Byte, sb: Byte, k: nat): Byte
    decreases k
  {
    if k == 0 then out else ShiftOut(OutAfter(out, sb, k - 1), SbAfter(sb, k - 1))
  }

  /** Eight shifts fill SB with ones and move all of the old SB into the outgoing byte. */
  lemma EightShifts(out: Byte, sb: Byte)
    ensures SbAfter(sb, 8) == 0xFF && OutAfter(out, sb, 8) == sb
  {
  }

  lemma {:induction false} ShiftBitsLast(s: Serial, iflag: Byte, k: nat)
    ensures var m := ShiftBits(s, iflag, k); ShiftBits(s, iflag, k + 1) == ShiftBit(m.0, m.1)
    decreases k
  {
    if k > 0 {
      var r := ShiftBit(s, iflag);
      ShiftBitsLast(r.0, r.1, k - 1);
    }
  }

  /** Before the eighth bit, bits only move data: SC, the running flag and IF are untouched. */
  lemma {:induction false} ShiftBitsBelow(s: Serial, iflag: Byte, k: nat)
    requires s.bitsSent + k < 8
    ensures var r := ShiftBits(s, iflag, k);
            r.0.bitsSent == s.bitsSent + k && r.0.sc == s.sc && r.0.inProgress == s.inProgress && r.1 == iflag &&
            r.0.sb == SbAfter(s.sb, k) && r.0.outData == OutAfter(s.outData, s.sb, k)
    decreases k
  {
    if k > 0 {
      ShiftBitsBelow(s, iflag, k - 1);
      ShiftBitsLast(s, iflag, k - 1);
    }
  }

  /**
   * A whole transfer: 1024 clocks after the start, SB reads 0xFF, the
   * outgoing byte is the SB that was written, the transfer has ended with
   * SC bit 7 clear, and SERIAL is requested.
   */
  lemma {:induction false} FullTransfer(s: Serial, iflag: Byte)
    requires s.inProgress && s.counter == 0 && s.bitsSent == 0
    ensures var r := Ticks(s, iflag, 1024);
            r.0.sb == 0xFF && r.0.outData == s.sb && !r.0.inProgress &&
            r.0.sc == s.sc & 0x7F && BitSet(r.1, 3)
  {
    var k := 7;
    ClocksShiftBits(s, iflag, k + 1);
    ShiftBitsBelow(s, iflag, k);
    ShiftBitsLast(s, iflag, k);
    var m := ShiftBits(s, iflag, k);
    assert m.0.bitsSent == 7 && m.0.sc == s.sc && m.1 == iflag;
    var r := ShiftBit(m.0, m.1);
    assert ShiftBits(s, iflag, k + 1) == r;
    assert Ticks(s, iflag, 128 * (k + 1)) == r;
    assert r.0.bitsSent == 8;
    EightShifts(s.outData, s.sb);
    RequestSetsBit(iflag);
  }

  /** Requesting SERIAL sets IF bit 3. */
  lemma RequestSetsBit(iflag: Byte)
    ensures BitSet(iflag | 0x08, 3)
  {
  }
}

=== FILE: speed_switch.dfy ===
/**
 * The CGB speed switch register KEY1 (0xFF4D) and the STOP instruction's
 * decision table. KEY1 bit 7 is the current speed (1 = double), bit 0 arms
 * a switch that the next STOP performs.
 */
module SpeedSwitch {
  import opened Bits
  import opened Wrappers

  /** Double speed needs CGB mode and KEY1 bit 7. */
  predicate DoubleSpeedMode(cgbMode: bool, key1: Byte)
  {
    cgbMode && key1 & 0x80 != 0
  }

  /** A switch is armed iff KEY1 bit 0. */
  predicate PrepareSpeedSwitch(key1: Byte)
  {
    key1 & 0x01 != 0
  }

  /** Switching toggles KEY1 bit 7 and nothing else. */
  function SwitchSpeedMode(key1: Byte): (r: Byte)
    ensures BitSet(r, 7) != BitSet(key1, 7)
    ensures r & 0x7F == key1 & 0x7F
  {
    key1 ^ 0x80
  }

  lemma SwitchTwiceIsIdentity(key1: Byte)
    ensures SwitchSpeedMode(SwitchSpeedMode(key1)) == key1
  {
  }

  lemma SwitchFlipsSpeed(key1: Byte)
    ensures DoubleSpeedMode(true, SwitchSpeedMode(key1)) != DoubleSpeedMode(true, key1)
    ensures PrepareSpeedSwitch(SwitchSpeedMode(key1)) == PrepareSpeedSwitch(key1)
  {
  }

  /** A KEY1 write keeps the current speed, takes only bit 0 from the data and reads 1 in bits 1..6. */
  function WriteKey1(key1: Byte, data: Byte): (r: Byte)
    ensures r & 0x80 == key1 & 0x80
    ensures PrepareSpeedSwitch(r) <==> BitSet(data, 0)
    ensures r & 0x7E == 0x7E
  {
    (key1 & 0x80) | (data & 0x01) | 0x7E
  }

  /**
   * What STOP does. `resetDiv` is the speed argument of the APU divider
   * reset when one happens (the speed is read before or after the switch,
   * as the code orders the calls).
   */
  datatype StopResult = StopResult(
    twoByte: bool, halt: bool, key1: Byte, stopped: bool,
    countdown: Option<nat>, resetDiv: Option<bool>)

  /** Some button reads as pressed: the JOYP low nibble is not 0xF. */
  predicate ButtonsPressed(joyp: Byte)
  {
    joyp & 0x0F != 0x0F
  }

  predicate InterruptPending(iflag: Byte, ie: Byte)
  {
    iflag & ie & 0x1F != 0
  }

  function Stop(joyp: Byte, iflag: Byte, ie: Byte, key1: Byte, cgbMode: bool, ime: bool, stopped: bool): (r: StopResult)
    // buttons held: a two-byte STOP that halts if nothing is pending, else nothing
    ensures ButtonsPressed(joyp) ==>
              r == StopResult(!InterruptPending(iflag, ie), !InterruptPending(iflag, ie), key1, stopped, None, None)
    // armed switch, nothing pending: the good path
    ensures !ButtonsPressed(joyp) && PrepareSpeedSwitch(key1) && !InterruptPending(iflag, ie) ==>
              r.twoByte && r.halt && r.countdown == Some(2050) && r.stopped == stopped &&
              r.key1 == SwitchSpeedMode(key1) & 0xFE && r.resetDiv == Some(DoubleSpeedMode(cgbMode, key1))
    // armed switch, pending, IME set: only a two-byte opcode
    ensures !ButtonsPressed(joyp) && PrepareSpeedSwitch(key1) && InterruptPending(iflag, ie) && ime ==>
              r == StopResult(true, false, key1, stopped, None, None)
    // armed switch, pending, IME clear: the switch happens without halting
    ensures !ButtonsPressed(joyp) && PrepareSpeedSwitch(key1) && InterruptPending(iflag, ie) && !ime ==>
              !r.twoByte && !r.halt && r.countdown.None? && r.stopped == stopped &&
              r.key1 == SwitchSpeedMode(key1) & 0xFE &&
              r.resetDiv == Some(DoubleSpeedMode(cgbMode, SwitchSpeedMode(key1)))
    // no buttons, nothing armed: STOP mode proper
    ensures !ButtonsPressed(joyp) && !PrepareSpeedSwitch(key1) ==>
              r == StopResult(!InterruptPending(iflag, ie), false, key1, true, None, Some(DoubleSpeedMode(cgbMode, key1)))
    ensures !r.halt || r.twoByte
  {
    var pending := InterruptPending(iflag, ie);
    if ButtonsPressed(joyp) then
      if pending then StopResult(false, false, key1, stopped, None, None)
      else StopResult(true, true, key1, stopped, None, None)
    else if PrepareSpeedSwitch(key1) then
      if pending then
        if ime then StopResult(true, false, key1, stopped, None, None)
        else
          var k := SwitchSpeedMode(key1);
          StopResult(false, false, k & 0xFE, stopped, None, Some(DoubleSpeedMode(cgbMode, k)))
      else
        var speed := DoubleSpeedMode(cgbMode, key1);
        StopResult(true, true, SwitchSpeedMode(key1) & 0xFE, stopped, Some(2050), Some(speed))
    else
      StopResult(!pending, false, key1, true, None, Some(DoubleSpeedMode(cgbMode, key1)))
  }

  /** A completed switch disarms itself: a second STOP does not switch again. */
  lemma SwitchDisarms(joyp: Byte, iflag: Byte, ie: Byte, key1: Byte, cgbMode: bool, ime: bool, stopped: bool)
    requires !ButtonsPressed(joyp) && PrepareSpeedSwitch(key1)
    requires !(InterruptPending(iflag, ie) && ime)
    ensures var r := Stop(joyp, iflag, ie, key1, cgbMode, ime, stopped);
            !PrepareSpeedSwitch(r.key1) && BitSet(r.key1, 7) != BitSet(key1, 7)
  {
  }
}

=== FILE: timer.dfy ===
/**
 * The programmable timer (TIMA/TMA/TAC) in the current and the earlier
 * revision. The timer counter counts the calls to the timer clock (one per
 * machine cycle); when it reaches the period chosen by TAC, TIMA is
 * incremented, and an overflow of TIMA arms a reload that the next enabled
 * tick performs: TIMA := TMA and the TIMER bit of IF is set.
 *
 * The earlier revision also keeps DIV here, advanced once every 64 calls.
 */
module Timer {
  import opened Bits

  /** The 16-bit timer counter and period registers. */
  type U16 = x: int | 0 <= x < 0x10000

  datatype Timer = Timer(tima: Byte, tma: Byte, tac: Byte, counter: U16, period: U16, enabled: bool, reload: bool)

  /** TAC clock select 0/1/2/3 counts 256/4/16/64 machine cycles per TIMA step. */
  function Period(select: Byte): (p: U16)
    requires select < 4
    ensures TacPeriod(p)
    ensures (select == 0 <==> p == 256) && (select == 1 <==> p == 4)
    ensures (select == 2 <==> p == 16) && (select == 3 <==> p == 64)
  {
    match select
    case 0 => 256
    case 1 => 4
    case 2 => 16
    case _ => 64
  }

  /** Power-on: counter and period 0, timer disabled, no reload armed. */
  function PowerOn(tima: Byte, tma: Byte, tac: Byte): (t: Timer)
    ensures !t.enabled && !t.reload && t.counter == 0 && t.period == 0
    ensures Inv(t)
  {
    Timer(tima, tma, tac, 0, 0, false, false)
  }

  /**
   * The timer's own bookkeeping: before the first TAC write the period is
   * 0 and the timer is off; afterwards the period is one of the four TAC
   * periods, the counter stays below it, and an armed reload finds the
   * counter at 0.
   */
  predicate Inv(t: Timer)
  {
    (t.period == 0 && t.counter == 0 && !t.enabled && !t.reload) ||
    (TacPeriod(t.period) && t.counter < t.period && (t.reload ==> t.counter == 0))
  }

  predicate TacPeriod(p: int)
  {
    p == 4 || p == 16 || p == 64 || p == 256
  }

  /** A TAC write: bits 3-7 read as 1, the counter restarts, bit 2 enables, bits 0-1 choose the period. */
  function WriteTac(t: Timer, data: Byte): (r: Timer)
    ensures r.tac == data | 0xF8 && r.tac & 0x07 == data & 0x07
    ensures r.counter == 0
    ensures r.enabled <==> BitSet(data, 2)
    ensures r.period == Period(data & 0x03)
    ensures r.tima == t.tima && r.tma == t.tma && r.reload == t.reload
  {
    t.(tac := data | 0xF8, counter := 0, enabled := data & 0x04 != 0, period := Period(data & 0x03))
  }

  /** A TIMA write stores the byte and cancels a pending reload. */
  function WriteTima(t: Timer, data: Byte): (r: Timer)
    ensures r.tima == data && !r.reload
    ensures r.(tima := t.tima, reload := t.reload) == t
  {
    t.(tima := data, reload := false)
  }

  function WriteTma(t: Timer, data: Byte): (r: Timer)
    ensures r.tma == data && r.(tma := t.tma) == t
  {
    t.(tma := data)
  }

  /** A DIV write also restarts the timer counter. */
  function ResetCounter(t: Timer): (r: Timer)
    ensures r.counter == 0 && r.(counter := t.counter) == t
  {
    t.(counter := 0)
  }

  /** Every register write keeps the bookkeeping invariant. */
  lemma WritesKeepInv(t: Timer, data: Byte)
    requires Inv(t)
    ensures Inv(WriteTac(t, data)) && Inv(WriteTima(t, data)) && Inv(WriteTma(t, data)) && Inv(ResetCounter(t))
  {
  }

  /** One timer clock (both revisions): returns the timer and the new IF. */
  function Tick(t: Timer, iflag: Byte): (r: (Timer, Byte))
    // a disabled timer changes nothing
    ensures !t.enabled ==> r == (t, iflag)
    // a pending reload is performed on the next enabled tick
    ensures t.enabled && t.reload ==>
              r.0.tima == t.tma && !r.0.reload && BitSet(r.1, 2) && r.1 | 0x04 == iflag | 0x04
    // otherwise TIMA steps exactly when the counter reaches the period
    // (the 16-bit counter wraps, which the invariant below rules out)
    ensures t.enabled && !t.reload ==> (r.0.tima != t.tima <==> (t.counter + 1) % 0x10000 == t.period)
    ensures t.enabled && !t.reload && (t.counter + 1) % 0x10000 == t.period ==>
              r.0.tima == t.tima + 1 && r.0.counter == 0 && (r.0.reload <==> t.tima == 0xFF)
    ensures t.enabled && !t.reload && (t.counter + 1) % 0x10000 != t.period ==>
              r.0.counter == (t.counter + 1) % 0x10000 && !r.0.reload
    ensures t.enabled && !t.reload ==> r.1 == iflag
    ensures r.0.tma == t.tma && r.0.tac == t.tac && r.0.period == t.period && r.0.enabled == t.enabled
  {
    if !t.enabled then (t, iflag)
    else
      var c := (t.counter + 1) % 0x10000;
      if t.reload then
        (t.(counter := c, reload := false, tima := t.tma), iflag | 0x04)
      else if c == t.period then
        var tima := t.tima + 1;
        (t.(counter := 0, tima := tima, reload := tima == 0), iflag)
      else
        (t.(counter := c), iflag)
  }

  lemma TickKeepsInv(t: Timer, iflag: Byte)
    requires Inv(t)
    ensures Inv(Tick(t, iflag).0)
  {
    if t.enabled {
      assert (t.counter + 1) % 0x10000 == t.counter + 1;
    }
  }

  /** `n` timer clocks in a row. */
  function Ticks(t: Timer, iflag: Byte, n: nat): (r: (Timer, Byte))
    decreases n
  {
    if n == 0 then (t, iflag)
    else
      var s := Tick(t, iflag);
      Ticks(s.0, s.1, n - 1)
  }

  /** Fewer than `period - counter` clocks only advance the counter. */
  lemma {:induction false} TicksBelowPeriod(t: Timer, iflag: Byte, n: nat)
    requires Inv(t) && t.enabled && !t.reload && t.counter + n < t.period
    ensures Ticks(t, iflag, n) == (t.(counter := t.counter + n), iflag)
    decreases n
  {
    if n > 0 {
      var s := Tick(t, iflag);
      assert s == (t.(counter := t.counter + 1), iflag);
      TicksBelowPeriod(s.0, s.1, n - 1);
    }
  }

  /**
   * From a restarted counter, exactly `period` clocks step TIMA once and
   * bring the counter back to 0; an overflow to 0 arms the reload.
   */
  lemma {:induction false} OnePeriodStepsTimaOnce(t: Timer, iflag: Byte)
    requires Inv(t) && t.enabled && !t.reload && t.counter == 0
    ensures var r := Ticks(t, iflag, t.period);
            r.0.tima == t.tima + 1 && r.0.counter == 0 && (r.0.reload <==> t.tima == 0xFF) && r.1 == iflag
  {
    var n := t.period - 1;
    TicksBelowPeriod(t, iflag, n);
    var u := t.(counter := n);
    TicksSplit(t, iflag, n, 1);
    assert Ticks(u, iflag, 1) == Tick(u, iflag);
    TickAtPeriod(u, iflag);
  }

  /** The clock that reaches the period steps TIMA and restarts the counter. */
  lemma TickAtPeriod(t: Timer, iflag: Byte)
    requires Inv(t) && t.enabled && !t.reload && t.counter + 1 == t.period
    ensures var r := Tick(t, iflag);
            r.0.tima == t.tima + 1 && r.0.counter == 0 && (r.0.reload <==> t.tima == 0xFF) && r.1 == iflag
  {
    assert (t.counter + 1) % 0x10000 == t.period;
  }

  /** Clocks compose: `a + b` clocks are `a` clocks then `b`. */
  lemma {:induction false} TicksSplit(t: Timer, iflag: Byte, a: nat, b: nat)
    ensures var m := Ticks(t, iflag, a); Ticks(t, iflag, a + b) == Ticks(m.0, m.1, b)
    decreases a
  {
    if a > 0 {
      var s := Tick(t, iflag);
      TicksSplit(s.0, s.1, a - 1, b);
    }
  }

  /** An overflow reloads TMA and requests TIMER on the very next clock. */
  lemma OverflowThenReload(t: Timer, iflag: Byte)
    requires Inv(t) && t.enabled && !t.reload && t.tima == 0xFF && t.counter + 1 == t.period
    ensures var s1 := Tick(t, iflag);
            s1.0.tima == 0 && s1.0.reload && s1.1 == iflag &&
            var s2 := Tick(s1.0, s1.1);
            s2.0.tima == t.tma && !s2.0.reload && BitSet(s2.1, 2)
  {
  }

  /** The earlier revision's DIV: a sub-counter of calls, DIV stepping every 64. */
  type U8 = x: int | 0 <= x < 0x100

  datatype Div = Div(div: Byte, divCounter: U8)

  function DivTick(d: Div): (r: Div)
    ensures d.divCounter == 63 ==> r == Div(d.div + 1, 0)
    ensures d.divCounter != 63 ==> r.div == d.div && r.divCounter == (d.divCounter + 1) % 0x100
  {
    var c := (d.divCounter + 1) % 0x100;
    if c == 64 then Div(d.div + 1, 0) else Div(d.div, c)
  }

  function DivTicks(d: Div, n: nat): Div
    decreases n
  {
    if n == 0 then d else DivTicks(DivTick(d), n - 1)
  }

  /** From a restarted sub-counter, 64 calls advance DIV by exactly one. */
  lemma {:induction false} DivEvery64(d: Div)
    requires d.divCounter == 0
    ensures DivTicks(d, 64) == Div(d.div + 1, 0)
  {
    DivTicksLast(d, 63);
    DivTicksBelow(d, 63);
  }

  lemma {:induction false} DivTicksBelow(d: Div, n: nat)
    requires d.divCounter + n < 64
    ensures DivTicks(d, n) == Div(d.div, d.divCounter + n)
    decreases n
  {
    if n > 0 {
      DivTickCounts(d);
      DivTicksBelow(DivTick(d), n - 1);
    }
  }

  /** Below 63 a call only counts. */
  lemma DivTickCounts(d: Div)
    requires d.divCounter < 63
    ensures DivTick(d) == Div(d.div, d.divCounter + 1)
  {
  }

  lemma {:induction false} DivTicksLast(d: Div, n: nat)
    ensures DivTicks(d, n + 1) == DivTick(DivTicks(d, n))
    decreases n
  {
    if n > 0 {
      DivTicksLast(DivTick(d), n - 1);
    }
  }

  /** The earlier revision's ClockTimer: DIV first, then the same timer step. */
  function ClockTimerOld(d: Div, t: Timer, iflag: Byte): (r: (Div, Timer, Byte))
    ensures r.0 == DivTick(d)
    ensures (r.1, r.2) == Tick(t, iflag)
  {
    var (t', f) := Tick(t, iflag);
    (DivTick(d), t', f)
  }

  /** A DIV write in the earlier revision zeroes DIV, its sub-counter and the timer counter. */
  function WriteDivOld(d: Div, t: Timer): (r: (Div, Timer))
    ensures r.0 == Div(0, 0) && r.1 == ResetCounter(t)
  {
    (Div(0, 0), ResetCounter(t))
  }
}

=== FILE: variants.dfy ===
/**
 * Where the source has a defect, the affected operations take a variant:
 * the code as written, or the evidently intended behaviour.
 */
module Variants {
  datatype Variant = AsWritten | Corrected
}

=== FILE: vram_dma.dfy ===
/**
 * CGB VRAM DMA (HDMA1-HDMA5) in the current and the earlier revision:
 * the address registers, the HDMA5 start/cancel write, the per-call clock
 * that moves two bytes, HDMA block arming and the bus arbitration between
 * the CPU and the DMA.
 *
 * General-purpose DMA (GDMA) moves all blocks at once while the CPU waits;
 * H-blank DMA (HDMA) moves one 16-byte block each time the PPU enters
 * mode 0. Every copied byte is recorded as a (source, destination) pair.
 *
 * The current revision's clock never checks the destination, so a copy
 * that starts near the top of VRAM runs on into cartridge RAM at 0xA000;
 * the earlier revision stops a copy as soon as the destination passes
 * 0x9FFF. `Clock` carries this as a `Variant`: the corrected variant stops
 * like the earlier revision.
 */
module VramDma {
  import opened Variants

  type U8 = x: int | 0 <= x < 0x100
  type U16 = x: int | 0 <= x < 0x10000

  /** The four address registers HDMA1-HDMA4 as the CPU wrote them. */
  datatype Regs = Regs(h1: U8, h2: U8, h3: U8, h4: U8)

  /** One byte copied from a bus address to a bus address. */
  datatype Transfer = Transfer(from: int, to: int)

  /** The copy addresses the registers describe: the source 16-aligned, the destination a 16-aligned VRAM address. */
  function Addresses(r: Regs): (a: (U16, U16))
    ensures a.0 % 16 == 0 && a.0 <= r.h1 * 0x100 + r.h2 < a.0 + 16
    ensures a.1 % 16 == 0 && 0x8000 <= a.1 <= 0x9FF0
    ensures a.1 - 0x8000 <= (r.h3 * 0x100 + r.h4) % 0x2000 < a.1 - 0x8000 + 16
  {
    var src := (r.h1 * 0x100 + r.h2) / 16 * 16;
    var dest := 0x8000 + (r.h3 * 0x100 + r.h4) % 0x2000 / 16 * 16;
    (src, dest)
  }

  /** Writing the copy addresses back into HDMA1-HDMA4 (the current revision does this when a copy ends). */
  function WriteBack(src: U16, dest: U16): (r: Regs)
    ensures r.h1 == src / 0x100 && r.h2 == src % 0x100 / 16 * 16
    ensures r.h3 == dest % 0x2000 / 0x100 && r.h4 == dest % 0x100 / 16 * 16
  {
    Regs(src / 0x100, src % 0x100 / 16 * 16, dest % 0x2000 / 0x100, dest % 0x100 / 16 * 16)
  }

  /** Splitting a 16-bit value at a 16-byte boundary: the high byte is kept whole. */
  lemma {:induction false} AlignSplit(hi: int, lo: int)
    requires 0 <= hi && 0 <= lo < 0x100
    ensures (hi * 0x100 + lo) / 16 * 16 == hi * 0x100 + lo / 16 * 16
  {
    assert hi * 0x100 + lo == (hi * 16 + lo / 16) * 16 + lo % 16;
  }

  /** An aligned source survives a write-back and a re-read. */
  lemma {:induction false} SourceRoundTrip(src: U16)
    requires src % 16 == 0
    ensures (src / 0x100 * 0x100 + src % 0x100 / 16 * 16) / 16 * 16 == src
  {
    assert src % 0x100 % 16 == 0;
    assert src % 0x100 / 16 * 16 == src % 0x100;
    AlignSplit(src / 0x100, src % 0x100);
  }

  /** An aligned VRAM destination survives a write-back and a re-read. */
  lemma {:induction false} DestRoundTrip(dest: U16)
    requires dest % 16 == 0 && 0x8000 <= dest < 0xA000
    ensures 0x8000 + (dest % 0x2000 / 0x100 * 0x100 + dest % 0x100 / 16 * 16) % 0x2000 / 16 * 16 == dest
  {
    var low := dest - 0x8000;
    var h, l := low / 0x100, low % 0x100;
    assert low == h * 0x100 + l;
    DivMod2000(dest, 4, low);
    DivMod100(dest, 0x80 + h, l);
    LowAligned(low, h, l);
    DivMod2000(low, 0, low);
  }

  /** The low byte of a 16-aligned value is 16-aligned, and so is the value. */
  lemma LowAligned(x: int, h: int, l: int)
    requires x % 16 == 0 && 0 <= l < 0x100 && x == h * 0x100 + l
    ensures l / 16 * 16 == l && x / 16 * 16 == x
  {
    assert x == (h * 16 + l / 16) * 16 + l % 16;
  }

  /** Aligned VRAM copy addresses survive a write-back and a re-read unchanged. */
  lemma AddressesRoundTrip(src: U16, dest: U16)
    requires src % 16 == 0 && dest % 16 == 0 && 0x8000 <= dest < 0xA000
    ensures Addresses(WriteBack(src, dest)) == (src, dest)
  {
    SourceRoundTrip(src);
    DestRoundTrip(dest);
  }

  /** The source half of a re-read and write-back: HDMA1 whole, HDMA2 with its low nibble cleared. */
  lemma {:induction false} SourceRegistersRoundTrip(h1: U8, h2: U8)
    ensures var src := (h1 * 0x100 + h2) / 16 * 16;
            src / 0x100 == h1 && src % 0x100 / 16 * 16 == h2 / 16 * 16
  {
    AlignSplit(h1, h2);
    var src := h1 * 0x100 + h2 / 16 * 16;
    assert h2 / 16 * 16 < 0x100;
    assert src / 0x100 == h1 && src % 0x100 == h2 / 16 * 16;
  }

  /** Division by 0x100 of a value given as quotient and remainder. */
  lemma DivMod100(x: int, q: int, r: int)
    requires 0 <= r < 0x100 && x == q * 0x100 + r
    ensures x / 0x100 == q && x % 0x100 == r
  {
  }

  /** Division by 0x2000 of a value given as quotient and remainder. */
  lemma DivMod2000(x: int, q: int, r: int)
    requires 0 <= r < 0x2000 && x == q * 0x2000 + r
    ensures x / 0x2000 == q && x % 0x2000 == r
  {
  }

  /** The destination half: HDMA3 keeps its low five bits, HDMA4 loses its low nibble. */
  lemma {:induction false} DestRegistersRoundTrip(h3: U8, h4: U8)
    ensures var dest := 0x8000 + (h3 * 0x100 + h4) % 0x2000 / 16 * 16;
            dest % 0x2000 / 0x100 == h3 % 0x20 && dest % 0x100 / 16 * 16 == h4 / 16 * 16
  {
    var c := h3 % 0x20;
    var a := h4 / 16 * 16;
    assert 0 <= a < 0x100 && a % 16 == 0 && a / 16 * 16 == a;
    DivMod2000(h3 * 0x100 + h4, h3 / 0x20, c * 0x100 + h4);
    AlignSplit(c, h4);
    var low := c * 0x100 + a;
    var dest := 0x8000 + low;
    DivMod2000(dest, 4, low);
    DivMod100(low, c, a);
    DivMod100(dest, 0x80 + c, a);
  }

  /** Re-reading the addresses writes back the registers with their ignored bits cleared. */
  lemma RegistersRoundTrip(r: Regs)
    ensures var a := Addresses(r);
            WriteBack(a.0, a.1) == Regs(r.h1, r.h2 / 16 * 16, r.h3 % 0x20, r.h4 / 16 * 16)
  {
    SourceRegistersRoundTrip(r.h1, r.h2);
    DestRegistersRoundTrip(r.h3, r.h4);
  }

  // ---------------------------------------------------------------------
  // The current revision.
  // ---------------------------------------------------------------------

  datatype Dma = Dma(
    regs: Regs, hdma5: U8, src: U16, dest: U16, blocks: U8, bytes: U16, hdma: bool, gdma: bool, wasMode0: bool)

  /** The CPU is clocked in a slot only when no GDMA runs and no HDMA block is due. */
  predicate CpuClocked(d: Dma)
  {
    !(d.gdma || (d.hdma && d.bytes != 0))
  }

  /** The blocks an HDMA5 write asks for: its low seven bits plus one. */
  function Blocks(data: U8): (n: U8)
    ensures 1 <= n <= 0x80 && n - 1 == data % 0x80
  {
    data % 0x80 + 1
  }

  /**
   * An HDMA5 write. While an HDMA runs, a write with bit 7 clear cancels
   * it (HDMA5 then reads 0x80 plus the blocks left minus one, and the
   * addresses are written back) and a write with bit 7 set only changes
   * the block count. Otherwise the write starts a copy: an HDMA when bit 7
   * is set, with no block due yet, and a GDMA of 16 bytes per block when it
   * is clear.
   */
  function WriteHdma5(d: Dma, data: U8): (r: Dma)
    ensures d.hdma && data < 0x80 ==>
              !r.hdma && r.hdma5 == 0x80 + (d.blocks + 0xFF) % 0x100 % 0x80 && r.regs == WriteBack(d.src, d.dest) &&
              r.(hdma := d.hdma, hdma5 := d.hdma5, regs := d.regs) == d
    ensures d.hdma && data >= 0x80 ==> r == d.(blocks := Blocks(data))
    ensures !d.hdma ==> (r.src, r.dest) == Addresses(d.regs) && r.blocks == Blocks(data)
    ensures !d.hdma && data >= 0x80 ==> r.hdma && r.gdma == d.gdma && r.bytes == 0
    ensures !d.hdma && data < 0x80 ==> r.gdma && !r.hdma && r.bytes == 16 * r.blocks
    ensures !d.hdma ==> r.regs == d.regs && r.hdma5 == d.hdma5
  {
    if d.hdma then
      if data < 0x80 then
        d.(hdma := false, regs := WriteBack(d.src, d.dest), hdma5 := 0x80 + (d.blocks + 0xFF) % 0x100 % 0x80)
      else d.(blocks := Blocks(data))
    else
      var a := Addresses(d.regs);
      var n := Blocks(data);
      if data >= 0x80 then d.(src := a.0, dest := a.1, blocks := n, hdma := true, bytes := 0)
      else d.(src := a.0, dest := a.1, blocks := n, gdma := true, bytes := 16 * n)
  }

  /** A cancelled HDMA reports the blocks that were left. */
  lemma CancelReportsBlocksLeft(d: Dma, data: U8)
    requires d.hdma && data < 0x80 && 1 <= d.blocks <= 0x80
    ensures WriteHdma5(d, data).hdma5 == 0x80 + (d.blocks - 1)
  {
  }

  /** The end of a copy: the addresses are written back and HDMA5 reads 0xFF. */
  function Finish(d: Dma): (r: Dma)
    ensures !r.gdma && !r.hdma && r.hdma5 == 0xFF && r.regs == WriteBack(d.src, d.dest)
  {
    d.(gdma := false, hdma := false, regs := WriteBack(d.src, d.dest), hdma5 := 0xFF)
  }

  /** The byte count reached 0: a GDMA ends; an HDMA ends when its last block is done. */
  function EndOfBlock(d: Dma): (r: Dma)
    requires d.bytes == 0
  {
    if d.gdma then Finish(d)
    else
      var blocks := (d.blocks + 0xFF) % 0x100;
      if blocks == 0 then Finish(d.(blocks := 0)) else d.(blocks := blocks)
  }

  /** Copy one byte and advance both 16-bit addresses. */
  function MoveByte(d: Dma): (r: (Dma, Transfer))
    ensures r.1 == Transfer(d.src, d.dest)
  {
    (d.(src := (d.src + 1) % 0x10000, dest := (d.dest + 1) % 0x10000, bytes := (d.bytes + 0xFFFF) % 0x10000),
     Transfer(d.src, d.dest))
  }

  /** The destination has left VRAM. */
  predicate PastVram(d: Dma)
  {
    d.dest > 0x9FFF
  }

  /**
   * One DMA clock, taken in a slot where the CPU is not clocked: two bytes
   * are copied and the byte count drops by two. As written the destination
   * is never checked; corrected, the copy stops as soon as the destination
   * passes 0x9FFF.
   */
  function Clock(d: Dma, v: Variant): (r: (Dma, seq<Transfer>))
    requires !CpuClocked(d)
    ensures |r.1| <= 2 && (v == AsWritten ==> |r.1| == 2) && 1 <= |r.1|
    ensures r.1[0] == Transfer(d.src, d.dest)
  {
    var (d1, t1) := MoveByte(d);
    if v == Corrected && PastVram(d1) then (Finish(d1), [t1])
    else
      var (d2, t2) := MoveByte(d1);
      if v == Corrected && PastVram(d2) then (Finish(d2), [t1, t2])
      else if d2.bytes == 0 then (EndOfBlock(d2), [t1, t2])
      else (d2, [t1, t2])
  }

  /** `n` clocks of a copy that keeps the CPU waiting, with all transfers in order. */
  function Run(d: Dma, v: Variant, n: nat): (Dma, seq<Transfer>)
    decreases n
  {
    if n == 0 then (d, [])
    else
      var prev := Run(d, v, n - 1);
      if CpuClocked(prev.0) then prev
      else
        var step := Clock(prev.0, v);
        (step.0, prev.1 + step.1)
  }

  /** The k-th byte of a copy goes from `src + k` to `dest + k`. */
  function Copies(src: int, dest: int, n: nat): (ts: seq<Transfer>)
    ensures |ts| == n && forall i :: 0 <= i < n ==> ts[i] == Transfer(src + i, dest + i)
  {
    seq(n, i => Transfer(src + i, dest + i))
  }

  /**
   * A copy that fits below the byte count: two bytes per clock, in order,
   * with no address wrapping and, when corrected, no stop at the top of VRAM.
   */
  predicate Fits(d: Dma, v: Variant, k: nat)
  {
    !CpuClocked(d) && 2 * k <= d.bytes && d.src + 2 * k < 0x10000 && d.dest + 2 * k < 0x10000 &&
    (v == Corrected ==> d.dest + 2 * k <= 0x9FFF)
  }

  /** The state after `k` clocks of a copy that fits and has not ended: both addresses on by 2 k, 2 k bytes fewer. */
  function Moved(d: Dma, k: nat): (m: Dma)
    requires 2 * k <= d.bytes && d.src + 2 * k < 0x10000 && d.dest + 2 * k < 0x10000
    ensures m.bytes + 2 * k == d.bytes && m.src >= d.src && m.dest - m.src == d.dest - d.src
    ensures m.(src := d.src, dest := d.dest, bytes := d.bytes) == d
  {
    d.(src := d.src + 2 * k, dest := d.dest + 2 * k, bytes := d.bytes - 2 * k)
  }

  /** One clock of a copy that fits: two consecutive bytes, both addresses advance by two. */
  lemma ClockFits(d: Dma, v: Variant)
    requires Fits(d, v, 1)
    ensures Clock(d, v).1 == [Transfer(d.src, d.dest), Transfer(d.src + 1, d.dest + 1)]
    ensures Clock(d, v).0 == if d.bytes == 2 then EndOfBlock(Moved(d, 1)) else Moved(d, 1)
  {
    var d1 := d.(src := d.src + 1, dest := d.dest + 1, bytes := d.bytes - 1);
    assert MoveByte(d).0 == d1;
    var d2 := d.(src := d.src + 2, dest := d.dest + 2, bytes := d.bytes - 2);
    assert MoveByte(d1).0 == d2;
  }

  lemma MovedTwice(d: Dma, k: nat)
    requires 2 * (k + 1) <= d.bytes && d.src + 2 * (k + 1) < 0x10000 && d.dest + 2 * (k + 1) < 0x10000
    ensures Moved(Moved(d, k), 1) == Moved(d, k + 1)
  {
  }

  /** Consecutive copies concatenate. */
  lemma CopiesAppend(src: int, dest: int, n: nat)
    ensures Copies(src, dest, n) + [Transfer(src + n, dest + n), Transfer(src + n + 1, dest + n + 1)] ==
            Copies(src, dest, n + 2)
  {
  }

  /** One more clock of a copy that has not ended runs the clock on the moved state. */
  lemma {:induction false} RunUnfold(d: Dma, v: Variant, k: nat)
    requires Fits(d, v, k + 1) && Run(d, v, k) == (Moved(d, k), Copies(d.src, d.dest, 2 * k))
    ensures !CpuClocked(Moved(d, k))
    ensures Run(d, v, k + 1) == (Clock(Moved(d, k), v).0, Copies(d.src, d.dest, 2 * k) + Clock(Moved(d, k), v).1)
  {
  }

  /** One more clock of a copy that has not ended moves the next two bytes. */
  lemma {:induction false} RunStep(d: Dma, v: Variant, k: nat)
    requires Fits(d, v, k + 1) && Run(d, v, k) == (Moved(d, k), Copies(d.src, d.dest, 2 * k))
    ensures Run(d, v, k + 1).1 == Copies(d.src, d.dest, 2 * (k + 1))
    ensures Run(d, v, k + 1).0 == if 2 * (k + 1) == d.bytes then EndOfBlock(Moved(d, k + 1)) else Moved(d, k + 1)
  {
    var p := Moved(d, k);
    RunUnfold(d, v, k);
    assert Fits(p, v, 1);
    ClockFits(p, v);
    MovedTwice(d, k);
    CopiesAppend(d.src, d.dest, 2 * k);
  }

  /** Before the byte count runs out, `k` clocks move the first 2 k bytes in order. */
  lemma {:induction false} RunBelow(d: Dma, v: Variant, k: nat)
    requires Fits(d, v, k) && 2 * k < d.bytes
    ensures Run(d, v, k) == (Moved(d, k), Copies(d.src, d.dest, 2 * k))
    decreases k
  {
    if k > 0 {
      RunBelow(d, v, k - 1);
      RunStep(d, v, k - 1);
    }
  }

  /**
   * A copy that fits moves two consecutive bytes per clock; when the byte
   * count runs out, the block ends.
   */
  lemma RunMovesBytes(d: Dma, v: Variant, k: nat)
    requires Fits(d, v, k)
    ensures Run(d, v, k).1 == Copies(d.src, d.dest, 2 * k)
    ensures 2 * k < d.bytes ==> Run(d, v, k).0 == Moved(d, k)
    ensures 2 * k == d.bytes && k > 0 ==> Run(d, v, k).0 == EndOfBlock(Moved(d, k))
  {
    if 2 * k < d.bytes {
      RunBelow(d, v, k);
    } else if k > 0 {
      RunToEnd(d, v, k - 1);
    }
  }

  /** The clock that moves the last two bytes ends the block. */
  lemma RunToEnd(d: Dma, v: Variant, j: nat)
    requires Fits(d, v, j + 1) && 2 * (j + 1) == d.bytes
    ensures Run(d, v, j + 1) == (EndOfBlock(Moved(d, j + 1)), Copies(d.src, d.dest, 2 * (j + 1)))
  {
    RunBelow(d, v, j);
    RunStep(d, v, j);
  }

  /**
   * A GDMA of `n` blocks that fits copies 16 n consecutive bytes in 8 n
   * clocks and then ends with HDMA5 reading 0xFF and the CPU running again.
   */
  lemma GdmaCopiesAllBlocks(d: Dma, v: Variant)
    requires d.gdma && 1 <= d.blocks && d.bytes == 16 * d.blocks && Fits(d, v, 8 * d.blocks)
    ensures var r := Run(d, v, 8 * d.blocks);
            r.1 == Copies(d.src, d.dest, 16 * d.blocks) && !r.0.gdma && !r.0.hdma && r.0.hdma5 == 0xFF && CpuClocked(r.0)
  {
    RunMovesBytes(d, v, 8 * d.blocks);
  }

  /**
   * One HDMA block: the 16 bytes armed for it take 8 clocks, and the block
   * count drops by one; the last block ends the copy with HDMA5 reading 0xFF.
   */
  lemma HdmaCopiesOneBlock(d: Dma, v: Variant)
    requires d.hdma && !d.gdma && 1 <= d.blocks && d.bytes == 16 && Fits(d, v, d.bytes / 2)
    ensures var r := Run(d, v, d.bytes / 2);
            r.1 == Copies(d.src, d.dest, 16) && r.0.bytes == 0 && r.0.blocks == d.blocks - 1 &&
            (r.0.hdma <==> d.blocks > 1) && (d.blocks == 1 ==> r.0.hdma5 == 0xFF)
  {
    var k := d.bytes / 2;
    RunMovesBytes(d, v, k);
    EndOfHdmaBlock(Moved(d, k));
  }

  /** The end of an HDMA block: one block fewer, and the copy ends with the last one. */
  lemma EndOfHdmaBlock(m: Dma)
    requires m.bytes == 0 && m.hdma && !m.gdma && 1 <= m.blocks
    ensures var r := EndOfBlock(m);
            r.bytes == 0 && r.blocks == m.blocks - 1 && (r.hdma <==> m.blocks > 1) && (m.blocks == 1 ==> r.hdma5 == 0xFF)
  {
  }

  /**
   * As written, a GDMA of two blocks to 0x9FF0 writes its second block to
   * 0xA000 onwards, which is cartridge RAM: the 17th byte lands at 0xA000.
   */
  lemma AsWrittenGdmaLeavesVram(d: Dma, k: nat)
    requires d.gdma && d.src == 0xC000 && d.dest == 0x9FF0 && d.blocks == 2 && d.bytes == 32
    requires 9 <= k <= 16
    ensures |Run(d, AsWritten, k).1| > 16 && Run(d, AsWritten, k).1[16] == Transfer(0xC010, 0xA000)
  {
    assert Fits(d, AsWritten, k);
    RunMovesBytes(d, AsWritten, k);
  }

  /** The destination stays in VRAM while a copy is running. */
  predicate InVram(d: Dma)
  {
    (d.gdma || d.hdma) ==> 0x8000 <= d.dest <= 0x9FFF
  }

  /** Corrected, every byte a clock writes lands in VRAM, and a running copy stays in VRAM. */
  lemma CorrectedClockStaysInVram(d: Dma)
    requires !CpuClocked(d) && InVram(d)
    ensures var r := Clock(d, Corrected);
            InVram(r.0) && forall i :: 0 <= i < |r.1| ==> 0x8000 <= r.1[i].to <= 0x9FFF
  {
  }

  /** Corrected, no number of clocks writes outside VRAM. */
  lemma {:induction false} CorrectedRunStaysInVram(d: Dma, n: nat)
    requires InVram(d)
    ensures var r := Run(d, Corrected, n);
            InVram(r.0) && forall i :: 0 <= i < |r.1| ==> 0x8000 <= r.1[i].to <= 0x9FFF
    decreases n
  {
    if n > 0 {
      CorrectedRunStaysInVram(d, n - 1);
      var prev := Run(d, Corrected, n - 1);
      if !CpuClocked(prev.0) {
        CorrectedClockStaysInVram(prev.0);
      }
    }
  }

  /**
   * HDMA arming at the end of each machine cycle: a block of 16 bytes is
   * due exactly when an HDMA runs and the PPU has just entered mode 0.
   */
  function Arm(d: Dma, mode: U8): (r: Dma)
    ensures d.hdma && !d.wasMode0 && mode == 0 ==> r.bytes == 16
    ensures !(d.hdma && !d.wasMode0 && mode == 0) ==> r.bytes == d.bytes
    ensures r.wasMode0 <==> mode == 0
    ensures r.(bytes := d.bytes, wasMode0 := d.wasMode0) == d
  {
    var isMode0 := mode == 0;
    var bytes := if d.hdma && !d.wasMode0 && isMode0 then 16 else d.bytes;
    d.(bytes := bytes, wasMode0 := isMode0)
  }

  /** Staying in mode 0 never arms a second block. */
  lemma ArmOncePerEntry(d: Dma)
    ensures Arm(Arm(d, 0), 0).bytes == Arm(d, 0).bytes
  {
  }

  // ---------------------------------------------------------------------
  // The earlier revision.
  // ---------------------------------------------------------------------

  datatype OldDma = OldDma(
    hdma5: U8, src: U16, dest: U16, blocks: U8, gdmaBytes: U16, hdmaBytes: U16, hdma: bool, gdma: bool, hdmaLy: U8)

  /** Which component a slot-0 clock goes to: GDMA first, then a due HDMA block, else the CPU. */
  datatype SlotOwner = GdmaSlot | HdmaSlot | CpuSlot

  function SlotOld(d: OldDma): (o: SlotOwner)
    ensures o == CpuSlot <==> !d.gdma && !(d.hdma && d.hdmaBytes > 0)
    ensures o == GdmaSlot <==> d.gdma
  {
    if d.gdma then GdmaSlot else if d.hdma && d.hdmaBytes > 0 then HdmaSlot else CpuSlot
  }

  /** The two revisions agree on when the CPU runs. */
  lemma SlotsAgree(d: Dma, o: OldDma)
    requires d.gdma == o.gdma && d.hdma == o.hdma && (d.bytes == 0 <==> o.hdmaBytes == 0)
    ensures CpuClocked(d) <==> SlotOld(o) == CpuSlot
  {
  }

  /**
   * The earlier HDMA5 write: a cancel only clears the HDMA flag and reports
   * the blocks left; a start always sets 16 bytes per block for a GDMA.
   */
  function WriteHdma5Old(d: OldDma, regs: Regs, data: U8): (r: OldDma)
    ensures d.hdma && data < 0x80 ==> r == d.(hdma := false, hdma5 := 0x80 + (d.blocks + 0xFF) % 0x100 % 0x80)
    ensures d.hdma && data >= 0x80 ==> r == d
    ensures !d.hdma ==> (r.src, r.dest) == Addresses(regs) && r.blocks == Blocks(data) && r.gdmaBytes == 16 * r.blocks
    ensures !d.hdma ==> (r.hdma <==> data >= 0x80 || d.hdma) && (r.gdma <==> data < 0x80 || d.gdma)
  {
    if d.hdma then
      if data < 0x80 then d.(hdma := false, hdma5 := 0x80 + (d.blocks + 0xFF) % 0x100 % 0x80) else d
    else
      var a := Addresses(regs);
      var n := Blocks(data);
      var r := d.(src := a.0, dest := a.1, blocks := n, gdmaBytes := 16 * n);
      if data >= 0x80 then r.(hdma := true) else r.(gdma := true)
  }

  /** The earlier HDMA5 read: 0xFF unless an HDMA runs. */
  function ReadHdma5Old(d: OldDma): (b: U8)
    ensures !d.hdma ==> b == 0xFF
    ensures d.hdma && 1 <= d.blocks ==> b == d.blocks - 1
  {
    if d.hdma then (d.blocks + 0xFF) % 0x100 else 0xFF
  }

  /** The earlier revision's stop: the copy ends and HDMA5 reads 0xFF. */
  function StopOld(d: OldDma, gdma: bool): (r: OldDma)
    ensures r.hdma5 == 0xFF && (gdma ==> !r.gdma && r.hdma == d.hdma) && (!gdma ==> !r.hdma && r.gdma == d.gdma)
  {
    if gdma then d.(gdma := false, hdma5 := 0xFF) else d.(hdma := false, hdma5 := 0xFF)
  }

  /** One byte of the earlier revision: copy, advance, and stop if the destination left VRAM. */
  function MoveByteOld(d: OldDma, gdma: bool): (r: (OldDma, Transfer, bool))
    ensures r.1 == Transfer(d.src, d.dest)
    ensures r.2 <==> d.dest + 1 > 0x9FFF
  {
    var moved := d.(src := (d.src + 1) % 0x10000, dest := (d.dest + 1) % 0x10000);
    if d.dest + 1 > 0x9FFF then (StopOld(moved, gdma), Transfer(d.src, d.dest), true)
    else if gdma then (moved.(gdmaBytes := (d.gdmaBytes + 0xFFFF) % 0x10000), Transfer(d.src, d.dest), false)
    else (moved.(hdmaBytes := (d.hdmaBytes + 0xFFFF) % 0x10000), Transfer(d.src, d.dest), false)
  }

  /** The earlier GDMA or HDMA clock: two bytes unless the destination leaves VRAM first. */
  function ClockOld(d: OldDma, gdma: bool): (r: (OldDma, seq<Transfer>))
    requires 0x8000 <= d.dest <= 0x9FFF
    ensures 1 <= |r.1| <= 2 && forall i :: 0 <= i < |r.1| ==> 0x8000 <= r.1[i].to <= 0x9FFF
    ensures (gdma && r.0.gdma) || (!gdma && r.0.hdma && r.0.hdma == d.hdma) ==> 0x8000 <= r.0.dest <= 0x9FFF
    ensures gdma && r.0.gdma ==> r.0.gdmaBytes == (d.gdmaBytes + 0xFFFE) % 0x10000 && r.0.gdmaBytes != 0
  {
    var (d1, t1, stop1) := MoveByteOld(d, gdma);
    if stop1 then (d1, [t1])
    else
      var (d2, t2, stop2) := MoveByteOld(d1, gdma);
      if stop2 then (d2, [t1, t2])
      else if gdma then
        (if d2.gdmaBytes == 0 then StopOld(d2, true) else d2, [t1, t2])
      else if d2.hdmaBytes == 0 then
        var blocks := (d2.blocks + 0xFF) % 0x100;
        (if blocks == 0 then StopOld(d2.(blocks := 0), false) else d2.(blocks := blocks), [t1, t2])
      else (d2, [t1, t2])
  }

  /**
   * The earlier arming rule, in the last dot of a machine cycle: a block is
   * due when an HDMA runs, the PPU is in mode 0, no block is pending and
   * this line has not had one.
   */
  function ArmOld(d: OldDma, mode: U8, ly: U8): (r: OldDma)
    ensures d.hdma && mode == 0 && ly != d.hdmaLy && d.hdmaBytes == 0 ==> r == d.(hdmaBytes := 16, hdmaLy := ly)
    ensures !(d.hdma && mode == 0 && ly != d.hdmaLy && d.hdmaBytes == 0) ==> r == d
  {
    if d.hdma && mode == 0 && ly != d.hdmaLy && d.hdmaBytes == 0 then d.(hdmaBytes := 16, hdmaLy := ly) else d
  }

  /** Once a line has had its block, the same line never arms another, whatever happens to the byte count. */
  lemma ArmOldOncePerLine(d: OldDma, mode: U8, ly: U8, bytes: U16)
    requires ArmOld(d, mode, ly) != d
    ensures ArmOld(ArmOld(d, mode, ly).(hdmaBytes := bytes), mode, ly) == ArmOld(d, mode, ly).(hdmaBytes := bytes)
  {
  }
}

=== FILE: wrappers.dfy ===
/** Optional values for lookups and decoders that can fail. */
module Wrappers {
  datatype Option<T> = None | Some(value: T)
  {
    predicate IsSome()
    {
      Some?
    }
  }
}
